=== FILE: README.md ===
# DHC in Dafny

DHC is a replacement `dinput8.dll` for Windows games. It presents emulated
PS4-shaped gamepads to a game through the DirectInput 8 interface. The
input itself comes from real controllers found at run time.

The repository holds three generations of this code, and the model covers
all three:

- **The dinput8 DLL** (dinput8/). An `IDirectInput8` that hands out one
  emulated device per virtual controller. Each device negotiates a data
  format with the game (`SetDataFormat`) and stores per-axis properties
  (dead zone, saturation, range). It renders the controller state into the
  game's buffer (`GetDeviceState`) and enumerates devices and objects
  through callbacks. It also prints DirectInput values for the logs.
- **The Rust library** (dhc/src/). An input thread keeps a registry of Raw
  Input HID devices and XInput pads. It parses their reports into a
  normalised controller state (`DeviceInputs`) and queues arrival and
  removal events. The binding core drains that queue and binds real
  devices to the fixed virtual devices. A configuration file chooses the
  emulation mode, the log levels and two input tweaks: a D-pad override
  and a left-stick dead zone.
- **The C++ generation** (dhc/*.cpp, dhc/frontend/, dhc/backend/). Virtual
  devices are kept in `EnumMap`s. A DirectInput provider hands virtual
  devices to physical ones through a waiting deque and a list of
  assignments. An older frontend answers with a fixed PS4 object table.

## Layout

Each source area is one module, and each module is one file:

| file | module | source |
|---|---|---|
| wrappers.dfy | `Wrappers` | result types: `Option`, `Result`, and `Outcome` for code that panics |
| strings.dfy | `Strings` | `Join` (dhc/utils.h), decimal and hexadecimal text |
| dinput_consts.dfy | `DInput` | DirectInput 8 words, codes, bits and GUIDs; C++ integer and float conversions |
| dhc_guid.dfy | `DhcGuid` | the GUIDs of the emulated devices (dinput8/utils.cpp) |
| flag_words.dfy, di_strings.dfy, guid_names.dfy | `FlagWords`, `DiStrings`, `GuidNames` | the pretty-printers of dinput8/utils.cpp |
| device_objects.dfy, ps4_catalog.dfy | `DeviceObjects`, `Ps4Catalog` | the emulated object catalog (dinput8/ps4.cpp) |
| negotiation.dfy, properties.dfy, renderer.dfy | `Negotiation`, `Properties`, `Renderer` | `SetDataFormat`, the property store and `GetDeviceState` (dinput8/dinput.cpp) |
| enumeration.dfy, dinput8_api.dfy | `Enumeration`, `Dinput8Api` | device creation and enumeration (dinput8/dinput.cpp) |
| inputs.dfy | `Inputs` | `DeviceInputs` (dhc/src/input/types.rs) |
| hid_mapping.dfy, hid_device.dfy, hid.dfy, raw_hid.dfy, xinput_read.dfy | `HidMapping`, `HidDevice`, `Hid`, `RawHid`, `XInputRead` | report parsing (dhc/src/input/hid.rs, dhc/src/rawinput/hid.rs, dhc/src/input/xinput.rs) |
| input_manager.dfy, raw_input_manager.dfy | `InputManager`, `RawInputManager` | the device registries (dhc/src/input/mod.rs, dhc/src/rawinput/mod.rs) |
| binding.dfy, mangle.dfy, config.dfy, logger.dfy | `Binding`, `Mangle`, `Configuration`, `Logger` | dhc/src/lib.rs, dhc/src/config.rs, dhc/src/logger.rs |
| enum_map.dfy, legacy_device.dfy, legacy_context.dfy, legacy_backend.dfy, legacy_refresh.dfy | `EnumMaps`, `LegacyDevice`, `LegacyContext`, `LegacyBackend`, `LegacyRefresh` | dhc/types.h, dhc/dhc.cpp, dhc/backend/dinput.cpp |
| legacy_ps4.dfy, legacy_frontend.dfy | `LegacyPs4`, `LegacyFrontend` | dhc/frontend/ and dhc/dinput.cpp |

## Modelling conventions

- **Failure.** A panic, `LOG(FATAL)`, `UNIMPLEMENTED(FATAL)`, a failed
  `CHECK` or `assert!`, and undefined behaviour the code can reach are all
  the `Abort` case of `Outcome`. An error the code returns is a value.
- **Integers.** `DWORD` and `HRESULT` are 32-bit bit-vectors (`DInput.Dword`).
  `LONG` is a signed 32-bit range. C++ division and float-to-integer casts
  truncate toward zero (`DInput.HalfTowardZero`, `DInput.Truncate`). The
  build modelled is the 32-bit one.
- **Floats.** `f32` and `double` are modelled as `real`.
- **Buffers.** A triple buffer is modelled as the last value written to it.
- **Logging.** `logger::init` (dhc/src/logger.rs:107) routes the `log`
  macros to `slog` at every level, so their arguments are always
  evaluated. A `to_str().unwrap()` inside a log call is therefore a panic
  on a path that is not UTF-8 (`HidDevice.Utf8`).
- **Platform.** The platform's answers are parameters: what an enumeration
  callback returns, what opening a HID device yields, whether an XInput slot
  holds a pad, what a pad reads, and the TOML decoder.

## Where the code departs from its evident design

The model follows the code in each of these cases:

- `SetDataFormat` (dinput8/dinput.cpp:538-610) never clears the `matched`
  flags or the bound formats. A second call therefore extends the first
  (`Negotiation.SetDataFormatsPreserve`). A required request that misses
  returns DIERR_OBJECTNOTFOUND and keeps the bindings made before it
  (`Negotiation.RequiredMissKeepsEarlier`). Nothing is rolled back.
- `DinputProvider::Release` (dhc/backend/dinput.cpp:230-248) puts the
  virtual device at the front of the waiting deque, so the deque is not
  kept sorted by id (`LegacyBackend.ReleaseIsNotSorted`).
- `Device::Reset` (dhc/dhc.cpp:70-80) centres the sticks and puts both
  triggers at 0. It leaves the buttons as they were. The Rust
  `DeviceInputs::default` instead puts every axis, the triggers included,
  at 0.5 (`Inputs.Default`).
- The older registry (dhc/src/rawinput/mod.rs:260-264) queues a removal
  even for a handle it does not hold
  (`RawInputManager.RemovalOfUnknownHandleBreaks`). The newer registry
  ignores such a handle.
- `or`-ing DIDOI_POLLED into an object's type (dhc/frontend/ps4.cpp:164-166)
  sets a bit of the instance field (`LegacyPs4.PolledLandsInInstanceField`).

`Configuration.MalformedFileIsReplaced` requires
`parse(defaultText) == Some(DefaultConfig)`. That hypothesis says that the
TOML decode of the embedded `DEFAULT_CONFIG` text (dhc/src/config.rs:10-40)
gives the default values. The decoder is a foreign library, so the model
takes this as a hypothesis rather than proving it.

## Model

| member | source | states |
|---|---|---|
| `Strings.Join` | dhc/utils.h:20-30 | the result is the items separated by the glue with no trailing glue (equal to the reference `Intercalate`), and empty for no items |
| `Strings.JoinStartsWithFirst` | dhc/utils.h:20-30 | a non-empty join begins with its first item |
| `DhcGuid.LoadStoreInverse` | dinput8/utils.cpp:39-46 | storing a 32-bit word into four bytes and loading it back gives the word |
| `DhcGuid.StoreLoadInverse` | dinput8/utils.cpp:39-46 | loading four bytes and storing the word back gives the bytes |
| `DhcGuid.SwappedLoadIsBigEndian` | dinput8/utils.cpp:39-40 | byte-swapping a little-endian load reads the index bytes as a big-endian number |
| `DhcGuid.ByteSwapInvolutive` | dinput8/utils.cpp:40-45 | swapping twice gives the word back |
| `DhcGuid.Parse` | dinput8/utils.cpp:31-41 | an index comes back exactly when the GUID equals the template outside Data4[4..8], and it is those bytes read big-endian |
| `DhcGuid.Create` | dinput8/utils.cpp:43-48 | the result matches the template and its index bytes are the index, most significant byte first |
| `DhcGuid.ParseCreate` | dinput8/utils.cpp:31-48 | parsing a created GUID gives the index back |
| `DhcGuid.CreateParse` | dinput8/utils.cpp:31-48 | creating from a parsed index gives the GUID back |
| `DhcGuid.CreateInjective` | dinput8/utils.cpp:43-48 | distinct indices give distinct GUIDs |
| `DiStrings.DierrToString` | dinput8/utils.cpp:105-122 | the name is not "<unknown>" exactly for the six codes of the switch |
| `DiStrings.DierrNamesDistinct` | dinput8/utils.cpp:105-122 | two named codes with the same name are the same code |
| `DiStrings.DidftPartsCover` | dinput8/utils.cpp:163-224 | OR-ing the bits of the components `didft_to_string` pushes gives back the whole type word, unknown bits included |
| `DiStrings.DidftZero` | dinput8/utils.cpp:163-224 | the text is "0" exactly when the type word is zero |
| `DiStrings.DidoiPartsCover` | dinput8/utils.cpp:226-265 | OR-ing the bits of the components `didoi_to_string` pushes gives back the whole flag word |
| `DiStrings.DidoiZero` | dinput8/utils.cpp:226-265 | the text is "0" exactly when the flag word is zero |
| `DiStrings.DidoiSingleAspect` | dinput8/utils.cpp:228-235 | at most one of acceleration, position and velocity is printed, and only first |
| `GuidNames.LookupName` | dinput8/utils.cpp:128-153 | a name is found exactly when one of the thirteen well-known GUIDs from that position on equals the GUID, and it is that GUID's name |
| `GuidNames.HexFormRoundTrip` | dinput8/utils.cpp:154-159 | reading the registry form back at its fixed widths gives every numeric field of the GUID |
| `GuidNames.HexFormInjective` | dinput8/utils.cpp:154-159 | distinct GUIDs have distinct registry forms |
| `GuidNames.GuidToStringOfDhc` | dinput8/utils.cpp:125-126 | an emulated device's GUID prints as "GUID_DHC_P" and its index plus one |
| `GuidNames.NamedGuidsAreNotDhc` | dinput8/utils.cpp:21-29 | no well-known GUID matches the emulated devices' template, so the first branch never hides one |
| `GuidNames.NamedGuidsDistinct` | dinput8/utils.cpp:127-153 | the thirteen well-known GUIDs and their names are pairwise distinct |
| `GuidNames.GuidToStringOfNamed` | dinput8/utils.cpp:127-153 | each well-known GUID prints as its own name |
| `GuidNames.GuidToStringOfOther` | dinput8/utils.cpp:154-160 | any GUID that is neither emulated nor well known prints in the registry form |
| `GuidNames.DhcNameInjective` | dinput8/utils.cpp:125-126 | distinct indices give distinct DHC names, the one-based number being taken modulo 2^32 |
| `GuidNames.GuidToStringInjective` | dinput8/utils.cpp:124-161 | distinct GUIDs print differently |
| `Inputs.AxisSetValue` | dhc/src/input/types.rs:12-18 | the store succeeds exactly for a value in [0, 1], and then stores it; any other value panics |
| `Inputs.Default` | dhc/src/input/types.rs:145-178 | every axis, the triggers included, reads 0.5, no button is pressed and the D-pad is neutral |
| `Inputs.IndicesAreBijective` | dhc/src/input/types.rs:250-284 | each axis type and each button type names its own field, and every field is named |
| `Inputs.GetAxisSelectsItsField` | dhc/src/input/types.rs:250-259 | writing one axis changes what `get_axis` returns for that axis only, and no button or the hat |
| `Inputs.GetButtonSelectsItsField` | dhc/src/input/types.rs:261-278 | writing one button changes what `get_button` returns for that button only, and no axis or the hat |
| `Inputs.GettersDetermineState` | dhc/src/input/types.rs:250-284 | two states on which every getter agrees are equal |
| `Inputs.ButtonSetResetGet` | dhc/src/input/types.rs:36-52 | a button read after `set` is pressed, after `reset` released |
| `Inputs.ResetButtons` | dhc/src/input/types.rs:233-248 | every button is released and the axes and the hat are untouched |
| `Inputs.ResetButtonsIdempotent` | dhc/src/input/types.rs:233-248 | resetting the buttons twice is resetting them once |
| `Inputs.PressedMembers` | dhc/src/input/types.rs:182-228 | a button is listed exactly when it is in the order and pressed |
| `Inputs.DisplayListsPressedButtons` | dhc/src/input/types.rs:180-230 | `Display` lists exactly the pressed buttons, each once, in the order of its `if` chain |
| `Inputs.DisplayOfReleased` | dhc/src/input/types.rs:180-230 | with no button pressed `Display` prints "[]", as it does for the default state |
| `DeviceObjects.FreshAll` | dinput8/dinput.cpp:217-219 | one unmatched object per catalog entry, in catalog order, each with the initial settings |
| `Ps4Catalog.Buttons` | dinput8/ps4.cpp:58-156 | fourteen button objects, the k-th being button k |
| `Ps4Catalog.CatalogLayout` | dinput8/ps4.cpp:9-168 | the catalog lists the axes (four, or six with ENABLE_TRIGGERS), then the fourteen buttons, then the hat, in that order |
| `Ps4Catalog.ButtonNumbering` | dinput8/ps4.cpp:58-156 | button k has instance k, offset 220 + k and the name "Button k" |
| `Ps4Catalog.ButtonSlot` | dinput8/ps4.cpp:58-156 | every controller button is reported by exactly one catalog button, the one whose mapping it is |
| `Ps4Catalog.ButtonMappingBijective` | dinput8/ps4.cpp:58-156 | the fourteen buttons report pairwise distinct inputs and every input is reported |
| `Ps4Catalog.AxesAreSpread` | dinput8/ps4.cpp:11-56 | the axis offsets are distinct multiples of four below 32 and avoid the hat's offset 16 |
| `Ps4Catalog.CatalogOffsets` | dinput8/ps4.cpp:9-168 | the catalog's native offsets are pairwise distinct, and every axis and the hat sits at a multiple of four |
| `Ps4Catalog.CatalogInstancesDistinct` | dinput8/ps4.cpp:9-168 | within each class (axes, buttons, the hat) the instance numbers are distinct |
| `Ps4Catalog.CatalogTypesAgree` | dinput8/ps4.cpp:9-168 | every object's DIDFT type agrees with the input it reports, and none is unmapped |
| `Enumeration.Enumerate` | dinput8/dinput.cpp:274-292 | the candidates a callback sees are a prefix of the candidate list; every one but the last was answered with "continue", and the enumeration ends early only when the last one seen asked to stop |
| `Enumeration.EnumerateAll` | dinput8/dinput.cpp:274-292 | a callback that never asks to stop sees every candidate, in order |
| `Dinput8Api.NewDirectInput` | dinput8/dinput.cpp:45-51 | with XInput emulation on there are no emulated devices; otherwise there is one per virtual device, device i at position i |
| `Dinput8Api.CreateDevice` | dinput8/dinput.cpp:77-95 | the system keyboard and mouse pass through to the real DirectInput; a DHC GUID yields the emulated device at its index; any other GUID is not registered; a DHC index beyond the device list is an unchecked vector access (abort) |
| `Dinput8Api.CreatedResult` | dinput8/dinput.cpp:86-94 | the HRESULT is DI_OK exactly when an emulated device was handed back, DIERR_DEVICENOTREG otherwise |
| `Dinput8Api.CreateDeviceRoundTrip` | dinput8/dinput.cpp:77-95 | creating a device from the GUID of emulated device i yields device i, for every i below the device count |
| `Dinput8Api.DhcGuidsAreNotSystem` | dinput8/dinput.cpp:80-84 | no DHC GUID equals the system keyboard or mouse GUID, so the pass-through test never captures an emulated device |
| `Dinput8Api.GetDeviceInfo` | dinput8/dinput.cpp:650-666 | DI_OK exactly when dwSize is the size of the character width's DIDEVICEINSTANCE, and then the instance describes the device; DIERR_INVALIDPARAM and nothing filled in otherwise |
| `Dinput8Api.StickInstanceName` | dinput8/dinput.cpp:662-664 | for an index that fits a 32-bit long the instance and product names are both "DHC P" followed by the 1-based decimal index |
| `Dinput8Api.LongDecimalSmall` | dinput8/dinput.cpp:662-664 | printing through a 32-bit long is plain decimal for values below 2^31 |
| `Dinput8Api.StickInstanceGuid` | dinput8/dinput.cpp:660-661 | the instance GUID a device reports parses back to its own index |
| `Dinput8Api.Sticks` | dinput8/dinput.cpp:151-162 | one device instance per emulated device, in device order |
| `Dinput8Api.EnumDevices` | dinput8/dinput.cpp:98-165 | DIEDFL_FORCEFEEDBACK enumerates nothing and succeeds; otherwise any flag outside the tolerated set is fatal; on success the callback saw a prefix of the class's candidates |
| `Dinput8Api.EnumDevicesOrder` | dinput8/dinput.cpp:98-165 | for DI8DEVCLASS_ALL and a callback that always continues, the keyboard, the mouse and then every emulated device are enumerated, in that order |
| `Dinput8Api.EnumDevicesOtherClass` | dinput8/dinput.cpp:121-162 | a device class other than all, keyboard, pointer and game controller enumerates nothing |
| `Dinput8Api.ObjectInstanceOf` | dinput8/dinput.cpp:279-285 | the enumerated object's dwType keeps the catalog type bits outside the instance field |
| `Dinput8Api.InstanceBitsAside` | dinput8/dinput.cpp:284 | or-ing an instance number into a type word leaves every bit outside DIDFT_ANYINSTANCE unchanged |
| `Dinput8Api.EnumObjects` | dinput8/dinput.cpp:263-295 | a non-zero enum collection enumerates nothing; otherwise the callback sees a prefix of the matching objects' instances |
| `Dinput8Api.Selected` | dinput8/dinput.cpp:274-277 | the selected objects are exactly the catalog objects whose type matches the flags |
| `Dinput8Api.SelectedSnoc` | dinput8/dinput.cpp:274-277 | selection keeps catalog order: appending an object appends it to the selection exactly when it matches |
| `Dinput8Api.EnumObjectsOrder` | dinput8/dinput.cpp:263-295 | with a zero enum collection and a callback that always continues, every matching object is enumerated once, in catalog order |
| `Dinput8Api.Instances` | dinput8/dinput.cpp:279-285 | one object instance per selected object, in order |
| `Dinput8Api.GetCapabilities` | dinput8/dinput.cpp:243-261 | the device reports itself attached, emulated and a standard gamepad, with the fixed counts of six axes, fourteen buttons and one POV |
| `Dinput8Api.CountKindAppend` | dinput8/ps4.cpp:9-168 | counting objects of one kind distributes over concatenation of catalogs |
| `Dinput8Api.CatalogCapabilities` | dinput8/dinput.cpp:243-261 | the counts of axes, buttons and POVs, read off the catalog, never exceed the number of catalog objects |
| `Dinput8Api.CountKindsDisjoint` | dinput8/ps4.cpp:9-168 | an object counts towards at most one of axes, buttons and POVs |
| `Dinput8Api.CapabilitiesMatchCatalog` | dinput8/ps4.cpp:9-168 | counting the catalog gives four or six axes depending on ENABLE_TRIGGERS, fourteen buttons and one POV |
| `Dinput8Api.CapabilitiesOverstateAxes` | dinput8/dinput.cpp:249 | without ENABLE_TRIGGERS the fixed report of six axes disagrees with the four axes the catalog enumerates; with it the two agree |
| `Negotiation.NewDevice` | dinput8/dinput.cpp:217-219 | a new device has one fresh object per catalog entry, no bindings and no defaults, and satisfies the binding invariant |
| `Negotiation.FirstEligible` | dinput8/dinput.cpp:567-590 | the result is the first catalog position at or after k that is unmatched and matches the request's type, flags and GUID, and is None only when no such position exists |
| `Negotiation.SetDataFormat` | dinput8/dinput.cpp:538-610 | a wrong dwSize, a wrong dwObjSize or an empty request list returns DIERR_INVALIDPARAM and changes nothing; every result is DI_OK, DIERR_INVALIDPARAM or DIERR_OBJECTNOTFOUND |
| `Negotiation.RequestsResultCode` | dinput8/dinput.cpp:554-609 | processing a request list yields DI_OK or DIERR_OBJECTNOTFOUND |
| `Negotiation.ExtendsTransitive` | dinput8/dinput.cpp:554-609 | the "only extends" relation between device states composes across calls |
| `Negotiation.RequestEffect` | dinput8/dinput.cpp:567-604 | a request binds the first eligible object to its offset and sets its matched flag; with no eligible object a required request fails and an optional one leaves objects and bindings alone |
| `Negotiation.RequestPreservesInvariant` | dinput8/dinput.cpp:567-604 | one request keeps every binding on an existing object, no object bound twice, and the bound objects exactly the matched ones |
| `Negotiation.RequestsPreserve` | dinput8/dinput.cpp:554-609 | a request list keeps the invariant, only extends the state, and adds at most one binding per request |
| `Negotiation.SetDataFormatPreserves` | dinput8/dinput.cpp:538-610 | a SetDataFormat call keeps the invariant and only extends the device state, whether it succeeds or fails |
| `Negotiation.SetDataFormatsPreserve` | dinput8/dinput.cpp:538-610 | any sequence of SetDataFormat calls keeps the invariant and only extends the device state |
| `Negotiation.RequiredMissKeepsEarlier` | dinput8/dinput.cpp:597-603 | a required request that matches nothing returns DIERR_OBJECTNOTFOUND and keeps the bindings made by the requests before it |
| `Negotiation.SetDataFormatLoop` | dinput8/dinput.cpp:538-610 | the nested loop (outer over requests, inner first-match scan of the catalog, mutating the state) computes the same code and state as the recursive definition |
| `Properties.FirstBindingAt` | dinput8/dinput.cpp:335-343 | the result is the first binding, from k on, whose client offset is the requested one, and None only when no binding has that offset |
| `Properties.FirstOfType` | dinput8/dinput.cpp:349-358 | the result is the first catalog position, from k on, whose object matches the type word, and None only when none does |
| `Properties.FindPropertyObject` | dinput8/dinput.cpp:328-365 | DIPH_DEVICE finds nothing; DIPH_BYOFFSET finds the object of the first binding at that offset, and something exactly when such a binding exists; DIPH_BYID finds the first object of a matching type; every other dwHow is fatal |
| `Properties.GetProperty` | dinput8/dinput.cpp:367-430 | a device-wide property fails with DIERR_INVALIDPARAM unless addressed through DIPH_DEVICE, and is fatal through DIPH_DEVICE; an unknown property never succeeds; success is only for dead zone, saturation and range |
| `Properties.WithSettings` | dinput8/dinput.cpp:478-484 | storing settings for object i changes exactly that object's settings and nothing else |
| `Properties.SetProperty` | dinput8/dinput.cpp:433-507 | a failing call leaves the device unchanged; a wrong header size fails with DIERR_INVALIDPARAM; DIPROP_AXISMODE succeeds without effect |
| `Properties.FindIgnoresSettings` | dinput8/dinput.cpp:328-365 | changing an object's settings does not change which object a property header addresses |
| `Properties.FirstOfTypeIgnoresSettings` | dinput8/dinput.cpp:352-357 | the type scan depends only on the objects' catalog entries, not their settings |
| `Properties.SetPropertyFrame` | dinput8/dinput.cpp:458-503 | a successful set other than DIPROP_AXISMODE is a dead zone, saturation or range on an addressed axis, and changes only that object's settings |
| `Properties.SetThenGetFraction` | dinput8/dinput.cpp:397-485 | after a successful dead-zone or saturation set, reading the same property back through the same header returns the value written |
| `Properties.GetFractionReads` | dinput8/dinput.cpp:397-408 | reading a dead zone or saturation returns the stored fraction times 10000, converted to a DWORD |
| `Properties.SetThenGetRange` | dinput8/dinput.cpp:409-502 | after a successful range set, reading the range back returns the lMin and lMax written |
| `Properties.SetFractionRejects` | dinput8/dinput.cpp:470-477 | a dead-zone or saturation set on a found object fails with DIERR_INVALIDPARAM, changing nothing, exactly when the size is not that of DIPROPDWORD, the object is not an axis, or the value exceeds 10000 |
| `Properties.SetRangeRejects` | dinput8/dinput.cpp:486-495 | a range set on a found object fails with DIERR_INVALIDPARAM, changing nothing, exactly when the object is not an axis or the size is not that of DIPROPRANGE |
| `Properties.NotFound` | dinput8/dinput.cpp:385-464 | an object property whose header addresses nothing returns DIERR_OBJECTNOTFOUND from both get and set, and set changes nothing |
| `Renderer.AdjustAxis` | dinput8/dinput.cpp:804-810 | a value at least the saturation away from the centre (twice its distance) snaps to the nearer end, and otherwise a value within the dead zone snaps to the centre; saturation is tested first |
| `Renderer.AdjustAxisRange` | dinput8/dinput.cpp:804-810 | the adjustment keeps a value in the unit range and leaves values strictly between dead zone and saturation unchanged |
| `Renderer.AdjustAxisIdempotent` | dinput8/dinput.cpp:804-810 | adjusting an adjusted value changes nothing, for any saturation in (0, 1] |
| `Renderer.AdjustAxisMonotonic` | dinput8/dinput.cpp:804-810 | the adjustment preserves the order of values in the unit range |
| `Renderer.ButtonByte` | dinput8/dinput.cpp:817-821 | a button byte is 0x80 exactly when the button is pressed, and 0 otherwise |
| `Renderer.HatValue` | dinput8/dinput.cpp:822-865 | the POV value is 0xFFFFFFFF exactly for the neutral hat |
| `Renderer.HatValueAngles` | dinput8/dinput.cpp:833-863 | a direction reports 4500 hundredths of a degree per step clockwise from North |
| `Renderer.HatValueInjective` | dinput8/dinput.cpp:822-865 | distinct hat positions report distinct POV values |
| `Renderer.HatDirectionInjective` | dinput8/dinput.cpp:833-863 | distinct directions sit at distinct clockwise positions |
| `Renderer.Cell` | dinput8/dinput.cpp:783-871 | an object writes one byte (buttons) or an aligned DWORD (axes, POVs); a failed type or alignment CHECK, and an unmapped object that is neither button nor axis, abort |
| `Renderer.SpliceAt` | dinput8/dinput.cpp:522-528 | one write replaces exactly the bytes it covers and leaves every other byte alone |
| `Renderer.LastCover` | dinput8/dinput.cpp:522-528 | the result is the last write covering byte k, and None only when no write covers it |
| `Renderer.SpliceAllAt` | dinput8/dinput.cpp:522-528 | after all writes, each byte holds what the last write covering it put there, or its original value |
| `Renderer.BindingWrites` | dinput8/dinput.cpp:522-524 | one write per binding, in binding order |
| `Renderer.BindingWritesCells` | dinput8/dinput.cpp:522-524 | each binding writes its object's cell at its client offset, and the bindings abort exactly when some binding's cell aborts |
| `Renderer.DefaultWrites` | dinput8/dinput.cpp:525-528 | one DWORD write per format default, in order |
| `Renderer.DeviceState` | dinput8/dinput.cpp:518-530 | a rendered state has exactly the size the client passed |
| `Renderer.StateWrites` | dinput8/dinput.cpp:518-530 | the state writes are the binding writes followed by the default writes |
| `Renderer.StateByte` | dinput8/dinput.cpp:518-530 | each byte of the state is the byte of the last write covering it, or zero when no write covers it |
| `Renderer.WriteSurvives` | dinput8/dinput.cpp:518-530 | a write that no later write overlaps is found intact in the final buffer |
| `Renderer.StateIsSplice` | dinput8/dinput.cpp:518-530 | a rendered state is the zeroed buffer with every state write applied, each fitting the buffer |
| `Renderer.DefaultWins` | dinput8/dinput.cpp:525-528 | a format default that no later default overlaps is read back intact, even over a binding's bytes |
| `Renderer.DefaultReadsBack` | dinput8/dinput.cpp:525-528 | a client reading a default's DWORD in little-endian order gets the default's value |
| `Renderer.BindingShows` | dinput8/dinput.cpp:522-524 | a binding no later write overlaps leaves its object's cell in the state |
| `Renderer.ButtonEncoding` | dinput8/dinput.cpp:817-821 | an unobstructed button binding reads back as 0x80 when pressed and 0 when released |
| `Renderer.HatEncoding` | dinput8/dinput.cpp:822-865 | an unobstructed POV binding reads back, aligned and little-endian, as the hat's POV value |
| `Renderer.AxisEncoding` | dinput8/dinput.cpp:800-816 | an unobstructed axis binding reads back, aligned and little-endian, as the adjusted and lerped axis value |
| `Renderer.UnwrittenIsZero` | dinput8/dinput.cpp:520 | a byte that no binding and no default writes reads as zero |
| `Renderer.GetDeviceState` | dinput8/dinput.cpp:518-530 | the two loops over a mutable buffer (bindings, then defaults) compute the functional state |
| `Renderer.ApplyBindings` | dinput8/dinput.cpp:522-524 | the binding loop aborts only when the whole state aborts, and otherwise yields the binding writes, each fitting, applied to the zeroed buffer |
| `Renderer.StoreDefaults` | dinput8/dinput.cpp:525-528 | the default loop completes the functional state |
| `Renderer.AbortWhenUnfit` | dinput8/dinput.cpp:791-825 | a binding whose cell does not fit the client's buffer makes the whole read abort |
| `Binding.FindRealDevice` | dhc/src/lib.rs:105-112 | the result is the first real device with the id, and is present exactly when some real device has that id |
| `Binding.New` | dhc/src/lib.rs:115-120 | device_count unbound virtual devices with default inputs, no real devices, and the binding invariant holds |
| `Binding.LastUnbound` | dhc/src/lib.rs:134-146 | the unbound real device nearest the end of the list (the newest), and None only when every real device is bound |
| `Binding.BindFrom` | dhc/src/lib.rs:122-153 | binding changes no list lengths |
| `Binding.OnlyAddsBindingsTransitive` | dhc/src/lib.rs:122-153 | the "only adds bindings" relation composes |
| `Binding.BindFromOnlyAdds` | dhc/src/lib.rs:122-153 | binding only adds bindings: every existing binding, name, id and buffer is kept |
| `Binding.BindFromComplete` | dhc/src/lib.rs:122-153 | afterwards no virtual device is unbound while a real device is unbound |
| `Binding.BindFromInIndexOrder` | dhc/src/lib.rs:129-152 | virtual devices are bound in index order: an unbound virtual device is never passed over for a later one |
| `Binding.BindFromNewestFirst` | dhc/src/lib.rs:134-146 | of two real devices unbound before the loop, an older one is bound only if the newer one is |
| `Binding.BindFromBindsLater` | dhc/src/lib.rs:128-150 | the loop from virtual device i on binds real devices only to virtual devices numbered i or more |
| `Binding.BindFromPairsNewestFirst` | dhc/src/lib.rs:128-150 | of two real devices unbound before the loop and bound after it, the newer one is bound to the lower-numbered virtual device |
| `Binding.BindPreserves` | dhc/src/lib.rs:142-143 | binding an unbound virtual device to an unbound real device keeps the binding symmetric, unique and well-formed |
| `Binding.BindFromPreserves` | dhc/src/lib.rs:122-153 | the binding loop keeps the invariant |
| `Binding.BindDevicesSpec` | dhc/src/lib.rs:122-153 | `bind_devices` keeps the invariant, only adds bindings, leaves no virtual device unbound while a real one is free, binds in index order and newest first, and pairs a newer real device with a lower-numbered virtual device |
| `Binding.BindDevicesPlayerOrder` | dhc/src/lib.rs:128-150 | of two virtual devices `bind_devices` binds, the lower-numbered one (the earlier player) holds the real device later in the list, the newer one |
| `Binding.BindTwoFresh` | dhc/src/lib.rs:134-146 | with two unbound players and two unbound real devices, player 1 takes the newer device and player 2 the older |
| `Binding.Unbind` | dhc/src/lib.rs:155-173 | an unbound real device is left alone; an index beyond the list panics; afterwards the real device is unbound |
| `Binding.UnbindSpec` | dhc/src/lib.rs:155-173 | unbinding keeps the invariant and changes only the binding of that real device and, for its virtual device, resets the inputs to default and clears the binding |
| `Binding.RemoveAt` | dhc/src/lib.rs:193 | removing an element shifts the later elements down by one and keeps the earlier ones |
| `Binding.RemoveUnboundPreserves` | dhc/src/lib.rs:193 | removing an unbound real device keeps the invariant and drops exactly its id |
| `Binding.ArrivePreserves` | dhc/src/lib.rs:177-182 | appending a real device with a new id keeps the invariant and adds exactly that id |
| `Binding.RemoveDevice` | dhc/src/lib.rs:186-195 | removing an id no real device has panics (the unwrap) |
| `Binding.OnlyAddsKeepsIds` | dhc/src/lib.rs:122-153 | binding keeps the set of real device ids |
| `Binding.AddDeviceSpec` | dhc/src/lib.rs:175-184 | `add_device` with a new id keeps the invariant, adds exactly that id, completes the binding, and only adds bindings to the appended state |
| `Binding.RemoveDeviceSpec` | dhc/src/lib.rs:186-195 | `remove_device` succeeds exactly for a present id, then keeps the invariant, drops exactly that id, completes the binding, and resets the inputs of the virtual device it was bound to |
| `Binding.OnlyAddsKeepsIdsAfterUnbind` | dhc/src/lib.rs:155-173 | unbinding keeps the set of real device ids |
| `Binding.UpdateDevices` | dhc/src/lib.rs:203-209 | the copy succeeds exactly when every bound virtual device's real device exists; bindings stay, unbound virtual devices keep their inputs, bound ones take their real device's last published inputs |
| `Binding.Update` | dhc/src/lib.rs:197-210 | `State::update` does not change the real devices |
| `Binding.UpdateSpec` | dhc/src/lib.rs:197-210 | under the invariant the update never panics, keeps the invariant, leaves unbound virtual devices alone and copies each bound one's inputs from its real device |
| `Binding.UpdatedFromItsDevice` | dhc/src/lib.rs:204-208 | a bound virtual device reads the buffer of the real device bound to it |
| `Binding.SameBindingsKeepInvariant` | dhc/src/lib.rs:197-210 | the invariant depends only on the bindings and the real devices |
| `Binding.Publish` | dhc/src/input/mod.rs:121-134 | a write by the input thread changes only the buffer of the real device carrying the id, which then holds the written inputs; an unknown id changes nothing |
| `Binding.PublishPreserves` | dhc/src/input/mod.rs:121-134 | publishing keeps the binding invariant, and the device with that id holds the written inputs |
| `Binding.PublishThenUpdate` | dhc/src/lib.rs:197-210 | what a bound real device publishes becomes its virtual device's inputs on the next update, with nothing else of that virtual device changed |
| `Binding.PublishUnboundInvisible` | dhc/src/lib.rs:197-210 | what an unbound real device publishes changes no virtual device on the next update |
| `Binding.ApplyEventsPreserve` | dhc/src/lib.rs:256-267 | a queue of arrivals of new ids and removals of present ids is applied without a panic and keeps the invariant |
| `Binding.ContextUpdatePreserves` | dhc/src/lib.rs:251-270 | `Context::update` on such a queue never panics and keeps the invariant |
| `Binding.DeviceState` | dhc/src/lib.rs:245-249 | reading a virtual device's state succeeds exactly for an index below the device count |
| `Logger.ToLogMerges` | dhc/src/logger.rs:23-32 | two levels map to the same `log` level exactly when they are equal or both are Error or Fatal |
| `Logger.ToSlogInjective` | dhc/src/logger.rs:34-43 | distinct levels map to distinct `slog` levels |
| `Logger.Serialize` | dhc/src/logger.rs:46-60 | every level has a non-empty name |
| `Logger.Deserialize` | dhc/src/logger.rs:62-78 | a string that is accepted is the serialised name of the level it yields |
| `Logger.DeserializeSerialize` | dhc/src/logger.rs:46-78 | deserialising a level's name gives the level back |
| `Logger.DeserializeAcceptsNames` | dhc/src/logger.rs:62-78 | exactly the six level names are accepted; every other string is an error |
| `Configuration.ParseMode` | dhc/src/config.rs:49-61 | "directinput" and "xinput" give their modes |
| `Configuration.ParseModeAcceptsOnlyNames` | dhc/src/config.rs:49-61 | no other string is accepted as a mode |
| `Configuration.Read` | dhc/src/config.rs:84-95 | a file that opens and parses is used as is without writing; a read error propagates; otherwise the default file is written, and a panic happens exactly when that write succeeds and the default text fails to parse |
| `Configuration.Fallback` | dhc/src/config.rs:93-94 | the fallback always writes the default file |
| `Configuration.MalformedFileIsReplaced` | dhc/src/config.rs:84-95 | a missing or malformed file is replaced by the default file and the default configuration is used, given that the TOML decode of the built-in text yields the default values |
| `Configuration.FirstRunDefaults` | dhc/src/config.rs:84-95 | with no file, given that the default text decodes to the default values, the default file is written and the configuration has a console, two devices, DirectInput mode (the file's "directinput"), log level info (the file's "info"), and the D-pad override and the deadzone off at threshold 0.5 |
| `Mangle.SnapAxis` | dhc/src/lib.rs:284-299 | a left-stick value snaps to the centre exactly when its magnitude is within the threshold, and otherwise to the end on its side |
| `Mangle.MangleInputs` | dhc/src/lib.rs:273-303 | `mangle_inputs` changes only the two left-stick axes: the hat, every button and every other axis are kept |
| `Mangle.DeadzoneSnaps` | dhc/src/lib.rs:281-302 | with the deadzone on and the override not firing, each left-stick axis ends at 0, 0.5 or 1, and at 0.5 exactly when its magnitude is within the threshold |
| `Mangle.SnapAllFields` | dhc/src/lib.rs:273-303 | with the deadzone on, each left-stick axis is the snap of the value the D-pad override left (centred when the D-pad is pressed and the override is on) |
| `Mangle.OverrideCentres` | dhc/src/lib.rs:274-279 | with the override on and the D-pad pressed, the left stick reads centred, whatever the deadzone does with a non-negative threshold |
| `Mangle.MangleWritesUnitValues` | dhc/src/lib.rs:276-299 | every value `mangle_inputs` stores is one `Axis::set_value` accepts, so it never panics on unit-range inputs |
| `Mangle.SnapIdempotent` | dhc/src/lib.rs:287-299 | snapping a snapped value changes nothing, for a threshold in [0, 1) |
| `HidMapping.ButtonForUsage` | dhc/src/input/hid.rs:306-322 | only Button-page usages 1 to 14 (PS4 layout) or 1 to 10 (XInput layout) set a button |
| `HidMapping.ButtonUsagesInjective` | dhc/src/input/hid.rs:306-322 | no two usages set the same button |
| `HidMapping.ButtonUsagesCover` | dhc/src/rawinput/hid.rs:314-327 | every button has a PS4 usage, and exactly the buttons other than L2, R2, Home and Trackpad have an XInput usage |
| `HidMapping.Consumed` | dhc/src/input/hid.rs:304-307 | the parser reads the usage list up to, not including, its first zero |
| `HidMapping.ApplyButtonsSpec` | dhc/src/input/hid.rs:304-323 | after the usage loop a button is pressed exactly when it was pressed before or some read usage names it; axes and hat are untouched |
| `HidMapping.HatForValue` | dhc/src/input/hid.rs:341-354 | hat values 0 to 7 are the eight directions clockwise from North, and every other value is neutral |
| `HidMapping.HatForValueInverse` | dhc/src/input/hid.rs:341-354 | the hat value of a direction's clockwise position gives the direction back |
| `HidMapping.Unlerp` | dhc/src/input/hid.rs:226-228 | the position is defined exactly for a non-degenerate range, and for an increasing range lies in [0, 1] exactly when the value lies in it |
| `HidMapping.EffectiveMax` | dhc/src/rawinput/hid.rs:332-336 | the XInput parser reads a logical maximum of -1 as 65535 and keeps every other maximum; the PS4 parser keeps all |
| `HidMapping.ApplyValue` | dhc/src/input/hid.rs:326-357 | an axis usage stores its normalised value and panics unless it lies in [0, 1]; the hat usage stores the direction; any other usage is skipped |
| `HidMapping.ApplyValueCapsKeeps` | dhc/src/input/hid.rs:326-357 | an axis no usage of the layout names keeps its value through the value loop, and the buttons are never touched |
| `HidMapping.Ps4RightStickYUnwritten` | dhc/src/input/hid.rs:335-340 | a parsed PS4 report never writes the right stick's Y axis, which keeps its default 0.5, because RZ is stored into the left stick's Y |
| `HidMapping.XInputTriggersUnwritten` | dhc/src/rawinput/hid.rs:343-346 | a parsed XInput report never writes the trigger axes, which keep their default 0.5 |
| `HidMapping.ParsedButtons` | dhc/src/input/hid.rs:301-361 | the buttons of a parsed report are exactly those named by the usages before the first zero |
| `Hid.FromCode` | dhc/src/input/hid.rs:84-107 | every NTSTATUS maps to an error whose status code is that NTSTATUS |
| `Hid.FromCodeOfStatus` | dhc/src/input/hid.rs:84-107 | every named error round-trips through its status code |
| `Hid.HidpResult` | dhc/src/input/hid.rs:132-138 | success exactly for HIDP_STATUS_SUCCESS, otherwise the error of that status, never StatusSuccess |
| `Hid.New` | dhc/src/input/hid.rs:237-270 | the parser is built exactly when the value capabilities are read, keeps them, and is PS4 for 14 buttons, PS3 for 13, never XInput |
| `Hid.NewXInput` | dhc/src/input/hid.rs:272-279 | the XInput parser is built exactly when the value capabilities are read |
| `Hid.Parse` | dhc/src/input/hid.rs:281-299 | PS4, PS3 and generic devices parse with the PS4 layout; an XInput parser panics (`unimplemented!`) |
| `Hid.Ps4UsagesFollowCatalog` | dhc/src/input/hid.rs:306-322 | PS4 usage k+1 sets the button the DirectInput catalog lists at button position k |
| `Hid.ParseButtonsError` | dhc/src/input/hid.rs:188-205 | a failed read of the pressed usages is returned as the parse's error |
| `Hid.OpenRawinputDevice` | dhc/src/input/hid.rs:462-556 | opening panics exactly on a path with an interior NUL, a path that is not UTF-8 (logging it calls `to_str().unwrap()`), or a device that is not HID; a call that does not panic gives an I/O error exactly when the file does not open or has no preparsed data; success keeps the capabilities, names the device, and picks the XInput parser exactly for an XInput path |
| `Hid.NonUtf8PathPanics` | dhc/src/input/hid.rs:476-480 | a path of a backslash and the byte 0xFF panics on opening, whether or not the file opens |
| `Hid.OpenedXInputCannotParse` | dhc/src/input/hid.rs:295-297 | an opened XInput device's reports always panic when parsed |
| `HidDevice.StripTrailingNuls` | dhc/src/input/hid.rs:384-394 | the stripped path is a prefix with no trailing NUL, and only NULs were dropped |
| `HidDevice.StripIdempotent` | dhc/src/input/hid.rs:387-390 | stripping twice strips nothing more |
| `HidDevice.StripAppendedNuls` | dhc/src/input/hid.rs:387-390 | appending NULs does not change the stripped path |
| `HidDevice.DevicePath` | dhc/src/input/hid.rs:384-394 | the path is built exactly when no NUL is left inside it after stripping, and is then the raw name without its trailing NULs |
| `HidDevice.LeadLength` | dhc/src/input/hid.rs:477 | a lead byte announces at most four bytes, and exactly one for an ASCII byte (the length `to_str` reads off the first byte, Table 3-7 of the Unicode Standard) |
| `HidDevice.EncodeDecode` | dhc/src/input/hid.rs:477 | every Unicode scalar value encodes to a well-formed UTF-8 sequence that decodes back to it |
| `HidDevice.DecodeEncode` | dhc/src/input/hid.rs:477 | every well-formed UTF-8 sequence decodes to a scalar value whose encoding is that sequence |
| `HidDevice.DecodeAll` | dhc/src/input/hid.rs:477 | decoding a path yields Unicode scalar values only |
| `HidDevice.EncodedIsUtf8` | dhc/src/input/hid.rs:477 | encoding any string of scalar values gives bytes `to_str` accepts, and decoding returns the string |
| `HidDevice.Utf8IsEncoded` | dhc/src/input/hid.rs:477 | the bytes `to_str` accepts are exactly encodings: re-encoding their decoding gives them back |
| `HidDevice.IsXInputPath` | dhc/src/input/hid.rs:522-524 | a path is an XInput path exactly when "&IG_" occurs in it |
| `HidDevice.MarkerAnywhere` | dhc/src/input/hid.rs:522-524 | the marker makes a path XInput whatever surrounds it |
| `HidDevice.Part` | dhc/src/input/hid.rs:492-500 | an absent part contributes nothing |
| `HidDevice.DeviceName` | dhc/src/input/hid.rs:485-508 | with no vendor, product or serial the name is "<unknown>" |
| `HidDevice.DeviceNameStartsWithVendor` | dhc/src/input/hid.rs:492-494 | a reported vendor starts the name |
| `HidDevice.DeviceNameEndsWithSerial` | dhc/src/input/hid.rs:498-507 | a reported serial number ends the name, in parentheses, with the trailing space dropped |
| `HidDevice.DeviceNameParts` | dhc/src/input/hid.rs:485-508 | vendor, product and serial join as "vendor product (serial)", and a lone product is the name |
| `RawHid.OrPanic` | dhc/src/rawinput/hid.rs:121-145 | a failed HID call panics and a successful one yields its value |
| `RawHid.New` | dhc/src/rawinput/hid.rs:159-218 | the parser is built exactly when the value capabilities and link collection nodes are read, keeps the capabilities, and is PS4 for 14 buttons, PS3 for 13, never XInput |
| `RawHid.NewXInput` | dhc/src/rawinput/hid.rs:220-227 | the XInput parser is built exactly when the value capabilities are read |
| `RawHid.Parse` | dhc/src/rawinput/hid.rs:229-368 | a report parses with the XInput layout for an XInput parser and the PS4 layout otherwise, and every HID library failure panics |
| `RawHid.AgreesWithHid` | dhc/src/rawinput/hid.rs:247-307 | for non-XInput devices the older parser yields what the newer one yields, and panics wherever the newer one returns an error |
| `RawHid.XInputParseKeepsTriggers` | dhc/src/rawinput/hid.rs:309-368 | an XInput report leaves both triggers at 0.5 |
| `RawHid.BuildParser` | dhc/src/rawinput/hid.rs:558-562 | the parser an opened device gets is the XInput one exactly for an XInput path |
| `RawHid.OpenRawinputDevice` | dhc/src/rawinput/hid.rs:475-569 | an I/O error exactly when the path is valid UTF-8 without an interior NUL and the file does not open or has no preparsed data; success names the device, keeps the capabilities and picks the XInput parser exactly for an XInput path; a path with an interior NUL, a path that is not UTF-8 (logging it calls `to_str().unwrap()`), a non-HID device or a failed parser build panics |
| `RawHid.NonUtf8PathPanics` | dhc/src/rawinput/hid.rs:489-497 | on a file that does not open, a backslash alone gives no device while a backslash followed by the byte 0xFF panics |
| `XInputRead.ArrowVector` | dhc/src/input/xinput.rs:58-74 | the arrows sum to a vector in [-1, 1]², zero on an axis exactly when both or neither of its arrows are pressed |
| `XInputRead.HatOfVector` | dhc/src/input/xinput.rs:76-87 | the match succeeds exactly for vectors in [-1, 1]², and is neutral exactly for (0, 0) |
| `XInputRead.HatVectorBijective` | dhc/src/input/xinput.rs:76-87 | hats and vectors in [-1, 1]² correspond one to one |
| `XInputRead.HatFromArrows` | dhc/src/input/xinput.rs:58-87 | the D-pad hat is neutral exactly when opposite arrows cancel on both axes, and its vector is the arrows' vector, so the panic cannot happen |
| `XInputRead.OppositeArrowsCancel` | dhc/src/input/xinput.rs:58-74 | pressing both arrows of an axis is the same as pressing neither |
| `XInputRead.SingleArrowDirections` | dhc/src/input/xinput.rs:76-87 | up alone is North, right alone East, down alone South, left alone West |
| `XInputRead.StickScaling` | dhc/src/input/xinput.rs:45-54 | a stick value maps into [0, 1] exactly when it lies in [-1, 1]; X keeps its order, Y is inverted, and 0 maps to the centre |
| `XInputRead.SetAxis` | dhc/src/input/types.rs:12-18 | storing a stick component succeeds exactly in [0, 1] and then sets only that axis |
| `XInputRead.ReadXInput` | dhc/src/input/xinput.rs:29-93 | a failed state read gives None; a successful one gives inputs unless a stick value is out of range |
| `XInputRead.ButtonsAndHatSpec` | dhc/src/input/xinput.rs:31-87 | each button is the pad's button, the hat is the arrows' hat, and the axes are still the defaults |
| `XInputRead.ReadXInputSpec` | dhc/src/input/xinput.rs:29-93 | for in-range sticks the read succeeds with the pad's buttons, the arrows' hat, the four scaled stick axes, and both triggers at 0.5 |
| `EnumMaps.New` | dhc/types.h:17-21 | a new map has one entry per key, each recording the key it sits under |
| `EnumMaps.Get` | dhc/types.h:23-29 | a lookup succeeds exactly for an index inside the array (`at()` throws otherwise) and returns that entry's value |
| `EnumMaps.Store` | dhc/types.h:23-25 | a store replaces the value at its index, keeps that entry's key, and leaves every other entry alone |
| `EnumMaps.Put` | dhc/types.h:23-25 | a store through `operator[]` succeeds exactly for an index inside the array |
| `EnumMaps.PutThenGet` | dhc/types.h:23-29 | reading back a stored index gives the stored value, other indices are unchanged, and entries keep their keys |
| `EnumMaps.IteratorEqualsIsIdentity` | dhc/types.h:35-41 | iterators are equal exactly when they share the array and the offset, and `!=` is the negation |
| `EnumMaps.WalkVisits` | dhc/types.h:43-60 | iterating from an offset visits each later entry once, in index order, paired with its index |
| `EnumMaps.ItemsInKeyOrder` | dhc/types.h:53-60 | a full iteration visits every entry in key order, and each entry's recorded key is its index |
| `LegacyDevice.KeysAreInjective` | dhc/dhc.cpp:70-80 | distinct axis or button types have distinct map indices |
| `LegacyDevice.NewDevice` | dhc/dhc.cpp:52-53 | a new device has six axes, fourteen buttons and one POV, each entry keyed by its index |
| `LegacyDevice.SetButton` | dhc/backend/dinput.cpp:210-224 | setting one button changes only that button |
| `LegacyDevice.SetDPad` | dhc/backend/dinput.cpp:226-227 | setting the D-pad changes only the D-pad |
| `LegacyDevice.Reset` | dhc/dhc.cpp:70-80 | after `Device::Reset` the four sticks are centred, the two triggers at 0, the D-pad neutral, and the buttons as they were |
| `LegacyDevice.SameReadings` | dhc/dhc.cpp:70-80 | two devices with the same id, buttons, axis values and D-pad are the same device |
| `LegacyDevice.ResetIdempotent` | dhc/dhc.cpp:70-80 | resetting twice is resetting once |
| `LegacyDevice.AxisToGUID` | dhc/dhc.cpp:30-48 | every axis type maps to one of the six DirectInput axis GUIDs |
| `LegacyDevice.AxisToGUIDInjective` | dhc/dhc.cpp:30-48 | no two axis types share a GUID, so the GUID names the axis back |
| `LegacyContext.NewContext` | dhc/dhc.cpp:51-56 | the context holds exactly two devices |
| `LegacyContext.NewContextValid` | dhc/dhc.cpp:51-56 | after construction and the two `Assign` calls each device is waiting or assigned, exactly once |
| `LegacyContext.NewContextWithoutControllers` | dhc/dhc.cpp:54-55 | with no physical device that opens, both devices wait, 0 before 1, and nothing is assigned |
| `LegacyContext.GetDevice` | dhc/dhc.cpp:63-68 | no device for an id of 2 or more, otherwise the device stored at that id |
| `LegacyContext.GetDeviceReturnsItsId` | dhc/dhc.cpp:63-68 | device id returns the device whose id is id |
| `LegacyContext.UpdateKeeps` | dhc/dhc.cpp:82-85 | an update that does not abort keeps the context's invariant |
| `LegacyContext.UpdateAbortsOnlyOnBadHat` | dhc/dhc.cpp:82-85 | under the invariant an update aborts only when Poll and GetDeviceState succeed and the hat value is no POV position |
| `LegacyBackend.Vdevs` | dhc/backend/dinput.cpp:65-73 | the virtual devices of the assignments, in assignment order |
| `LegacyBackend.ExactlyOnePlace` | dhc/backend/dinput.cpp:17-248 | under the partition a device of the provider is waiting or assigned, never both, at most once in each place, and no other device appears |
| `LegacyBackend.AssignedAreDevices` | dhc/backend/dinput.cpp:151 | every assigned virtual device exists |
| `LegacyBackend.WaitingUnlessAssigned` | dhc/backend/dinput.cpp:29-33 | a device that is not assigned is waiting, so the CHECK in Refresh holds |
| `LegacyBackend.FindByGuid` | dhc/backend/dinput.cpp:51-58 | the first assignment for the physical device's GUID, and present exactly when one exists |
| `LegacyBackend.FindByVdev` | dhc/backend/dinput.cpp:65-73 | the first assignment of the virtual device, and present exactly when one exists |
| `LegacyBackend.EnumerateDevice` | dhc/backend/dinput.cpp:106-159 | the callback always continues; nothing changes when no device waits, the GUID is assigned, or any open step fails; otherwise the front waiting device is popped and assigned at the end |
| `LegacyBackend.EnumerateFrom` | dhc/backend/dinput.cpp:93 | enumerating never changes the virtual devices' inputs |
| `LegacyBackend.ScanLocked` | dhc/backend/dinput.cpp:87-96 | with no waiting device a scan changes nothing |
| `LegacyBackend.Release` | dhc/backend/dinput.cpp:230-248 | the released device is pushed to the front of the deque, its assignment is erased with the others kept in order, and only that device is reset |
| `LegacyRefresh.PovStateFromDword` | dhc/backend/dinput.cpp:161-180 | the decode succeeds exactly for a value that is some position's code and returns that position; every other value is fatal |
| `LegacyRefresh.PovStateRoundTrip` | dhc/backend/dinput.cpp:161-180 | decoding a position's value gives the position back |
| `LegacyRefresh.ApplyState` | dhc/backend/dinput.cpp:201-227 | a refresh sets the axes from lX, lY, lZ, lRz, lRx, lRy over 65535, each button from its byte, and the D-pad from the decoded POV |
| `LegacyRefresh.ApplyAxes` | dhc/backend/dinput.cpp:202-208 | the axis half of a refresh leaves the buttons and POVs alone |
| `LegacyRefresh.SetButtons` | dhc/backend/dinput.cpp:210-224 | the button half of a refresh sets each button from its byte of rgbButtons and leaves axes and POVs alone |
| `LegacyRefresh.RefreshAssignment` | dhc/backend/dinput.cpp:182-228 | a failed Poll (other than DI_NOEFFECT) or GetDeviceState releases the assignment; otherwise the device takes the reading, or the refresh aborts on a bad hat value |
| `LegacyRefresh.Refresh` | dhc/backend/dinput.cpp:27-44 | an unassigned device must be waiting (the CHECK) and triggers a scan; an assigned one refreshes its assignment |
| `LegacyBackend.GuidsDistinctSnoc` | dhc/backend/dinput.cpp:111-157 | appending an assignment for an unassigned GUID keeps the GUIDs distinct |
| `LegacyBackend.EnumerateDeviceKeeps` | dhc/backend/dinput.cpp:106-159 | one enumeration callback keeps the provider's invariant |
| `LegacyBackend.EnumerateFromKeeps` | dhc/backend/dinput.cpp:93 | enumerating a device list keeps the invariant |
| `LegacyBackend.ScanKeeps` | dhc/backend/dinput.cpp:87-96 | a scan keeps the invariant |
| `LegacyBackend.AssignKeeps` | dhc/backend/dinput.cpp:17-23 | assigning a device not yet placed adds it to the partition |
| `LegacyBackend.GuidsDistinctErase` | dhc/backend/dinput.cpp:240-245 | erasing an assignment keeps the GUIDs distinct |
| `LegacyBackend.ReleaseKeeps` | dhc/backend/dinput.cpp:230-248 | a release keeps the invariant |
| `LegacyRefresh.RefreshKeeps` | dhc/backend/dinput.cpp:27-228 | a refresh that does not abort keeps the invariant and the device list |
| `LegacyBackend.ReplaceDeviceKeeps` | dhc/backend/dinput.cpp:201-227 | writing a virtual device's inputs keeps the invariant |
| `LegacyBackend.EnumerateFromExtends` | dhc/backend/dinput.cpp:151-157 | enumeration binds waiting devices front first, to physical devices in enumeration order |
| `LegacyBackend.ScanBindsFrontFirst` | dhc/backend/dinput.cpp:87-157 | a scan assigns a prefix of the waiting deque, front first, and keeps the rest waiting in order |
| `LegacyBackend.ScanOfUnopenable` | dhc/backend/dinput.cpp:117-145 | a scan over physical devices that all fail to open changes nothing |
| `LegacyBackend.ReleaseIsNotSorted` | dhc/backend/dinput.cpp:237-238 | releasing device 1 while device 0 waits leaves the deque as [1, 0]: `push_front` does not keep the deque sorted by id |
| `LegacyPs4.TableOrder` | dhc/frontend/dinput.cpp:260-296 | the full object list is the six axes LeftX, LeftY, RightX, RightY, L2, R2, then the hat at 6, the fourteen buttons Square .. Trackpad at 7 .. 20, the collection at 21 |
| `LegacyPs4.Position` | dhc/frontend/dinput.cpp:260-296 | every table object has a place in that list and sits there |
| `LegacyPs4.AxisObjects` | dhc/frontend/dinput.cpp:260-269 | the axis group holds the six axes in push order |
| `LegacyPs4.ButtonObjects` | dhc/frontend/dinput.cpp:273-293 | the button group holds the fourteen buttons in push order |
| `LegacyPs4.ButtonNumber` | dhc/frontend/ps4.h:73-181 | button k of the table is written with the number k, 0 .. 13 |
| `LegacyPs4.TableIdentifiesObjects` | dhc/frontend/ps4.h:17-189 | the type bits of each ps4.h constant name that object back (axes and buttons by instance, the hat, the collection), so no two objects share type bits |
| `LegacyPs4.NamedBack` | dhc/frontend/ps4.h:17-189 | decoding any constant's type bits gives the object's place in the enumeration order |
| `LegacyPs4.AxisNamedBack` | dhc/frontend/ps4.h:17-63 | an axis constant's instance decodes to its axis's place, with RightY at instance 5 and the triggers at 3 and 4 |
| `LegacyPs4.ButtonNamedBack` | dhc/frontend/ps4.h:73-181 | button k's instance decodes to place 7 + k |
| `LegacyPs4.TableAxisGuidsDistinct` | dhc/frontend/ps4.h:17-63 | each ps4.h axis reports the GUID its axis type maps to, and two axes share a GUID only when they are the same axis |
| `LegacyPs4.OlderTableConflates` | dhc/frontend/dinput.h:115-121 | in the older table R2 reports L2's GUID_RxAxis, and the Trackpad the same type bits as Cross (instance 1, lines 241-247) |
| `LegacyPs4.Generated` | dhc/frontend/ps4.cpp:12-162 | each pushed object records the input it is mapped to |
| `LegacyPs4.GeneratedOrder` | dhc/frontend/ps4.cpp:12-162 | the pushes are the six axes LStickX .. RTrigger, then the fourteen buttons Square .. Trackpad, then the hat |
| `LegacyPs4.GeneratePs4Objects` | dhc/frontend/ps4.cpp:9-168 | the list holds every pushed object in push order, with DIDOI_POLLED or-ed into its type and nothing else changed |
| `LegacyPs4.GeneratedPosition` | dhc/frontend/ps4.cpp:12-162 | every input has a place in the push order and sits there |
| `LegacyPs4.GeneratedPositionsInverse` | dhc/frontend/ps4.cpp:12-162 | each place in the push order is the place of the input found there |
| `LegacyPs4.GeneratedMapsEachInputOnce` | dhc/frontend/ps4.cpp:9-168 | every input is generated exactly once, mapped to itself, and an axis reports the GUID its type maps to |
| `LegacyPs4.PolledLandsInInstanceField` | dhc/frontend/ps4.cpp:164-166 | or-ing DIDOI_POLLED (0x8000) into the type sets it inside the instance field: every object then reads as instance 0x80, its kind unchanged |
| `LegacyPs4.GeneratedAxisAgreesWithTable` | dhc/frontend/ps4.cpp:12-53 | a generated axis has the offset, GUID, name and kind of its ps4.h constant, and an instance id one above the constant's instance |
| `LegacyPs4.GeneratedButtonAgreesWithTable` | dhc/frontend/ps4.cpp:56-153 | a generated button has the offset, GUID and kind of its ps4.h constant and an instance id one above; its name carries the constant's number plus one |
| `LegacyPs4.GeneratedHatAgreesWithTable` | dhc/frontend/ps4.cpp:156-162 | the generated hat matches the ps4.h hat, instance id one above |
| `LegacyFrontend.CreateDevice` | dhc/frontend/dinput.cpp:67-84 | the keyboard and mouse pass through to the real DirectInput, P1 and P2 get emulated devices 0 and 1, every other GUID is DIERR_DEVICENOTREG; each outcome exactly for its GUIDs |
| `LegacyFrontend.PlayerGuidsDistinct` | dhc/frontend/dinput.cpp:70-79 | the two player GUIDs differ from each other and from the system devices, so the branches do not overlap |
| `LegacyFrontend.OlderEnumDevices` | dhc/dinput.cpp:109-165 | the flag-blind enumeration returns DI_OK and hands out a prefix of the candidates for the class |
| `LegacyFrontend.EnumDevices` | dhc/frontend/dinput.cpp:87-153 | any flag other than DIEDFL_ATTACHEDONLY is fatal; otherwise DI_OK and a prefix of the candidates |
| `LegacyFrontend.EnumDevicesAgreesWithOlder` | dhc/frontend/dinput.cpp:91-96 | the newer enumeration succeeds exactly for flags 0 and DIEDFL_ATTACHEDONLY, and then gives what the older one gives |
| `LegacyFrontend.EnumDevicesOrder` | dhc/frontend/dinput.cpp:102-150 | with DI8DEVCLASS_ALL and a callback that never stops, the keyboard, the mouse, P1 and P2 are handed out in that order |
| `LegacyFrontend.EnumeratedSticksCreateThemselves` | dhc/frontend/dinput.cpp:134-174 | the two enumerated gamepads are named "DHC P1" and "DHC P2", creating either by its instance GUID gives that player's device, its status is DI_NOTATTACHED and FindDevice does not know it |
| `LegacyFrontend.SetDataFormat` | dhc/frontend/dinput.cpp:379-403 | a wrong header size, object size or a zero object count is DIERR_INVALIDPARAM with the device unchanged; otherwise DI_OK and the device keeps exactly the first dwNumObjs object formats; reading past the array is an abort |
| `LegacyFrontend.SetDataFormatIdempotent` | dhc/frontend/dinput.cpp:379-403 | setting the same format twice changes nothing further, and an accepted format leaves the same state whatever the device held before |
| `LegacyFrontend.Poll` | dhc/frontend/dinput.cpp:497-500 | Poll answers a success code that is not DI_OK |
| `LegacyFrontend.GetCapabilities` | dhc/frontend/dinput.cpp:228-245 | the device reports itself attached and emulated, a standard gamepad |
| `LegacyFrontend.CapabilitiesMatchEnumeration` | dhc/frontend/dinput.cpp:234-293 | the axis, button and hat counts in the capabilities equal the number of objects EnumObjects hands out for each group |
| `LegacyFrontend.Instance` | dhc/frontend/dinput.cpp:298-305 | the instance handed out copies the constant's type, GUID and name |
| `LegacyFrontend.Instances` | dhc/frontend/dinput.cpp:298-305 | the instances are the objects' instances in the same order |
| `LegacyFrontend.InstancesIdentify` | dhc/frontend/dinput.cpp:298-305 | an object's instance is among the handed-out instances exactly when the object is among the objects |
| `LegacyFrontend.EnumObjects` | dhc/frontend/dinput.cpp:248-313 | EnumObjects returns DI_OK; a non-zero collection in the flags hands out nothing; otherwise a prefix of the requested objects' instances |
| `LegacyFrontend.RequestedMembership` | dhc/frontend/dinput.cpp:260-296 | an object is requested exactly when the flags share a bit with its group (DIDFT_ABSAXIS, DIDFT_POV, DIDFT_PSHBUTTON, DIDFT_COLLECTION) |
| `LegacyFrontend.EnumObjectsSeesRequested` | dhc/frontend/dinput.cpp:298-312 | with collection 0 and a callback that always continues, every requested object is handed out in order |
| `LegacyFrontend.EnumObjectsSeesExactlyItsGroups` | dhc/frontend/dinput.cpp:260-312 | with collection 0 and a callback that always continues, an object is handed out exactly when its group bit is in the flags |
| `LegacyFrontend.EnumObjectsEveryGroup` | dhc/frontend/dinput.cpp:260-312 | asking for all four groups hands out the whole table in push order |
| `LegacyFrontend.EnumObjectsAllSeesNothing` | dhc/frontend/dinput.cpp:253-296 | DIDFT_ALL (0) shares no bit with any group, so EnumObjects(DIDFT_ALL) hands out nothing |
| `LegacyFrontend.IntendedEnumObjects` | dhc/frontend/dinput.cpp:248-313 | the corrected enumeration, reading an empty type field (the low byte, DIDFT_ALL) as every object, returns DI_OK and a prefix of what it requests |
| `LegacyFrontend.IntendedEnumObjectsAll` | dhc/frontend/dinput.cpp:248-313 | the corrected enumeration hands out all 22 objects for DIDFT_ALL |
| `LegacyFrontend.IntendedAgreesWithTypedRequests` | dhc/frontend/dinput.cpp:260-296 | whenever the type field is non-empty the corrected enumeration equals the source's |
| `InputManager.HidUsage` | dhc/src/input/mod.rs:88-93 | both device classes are on the generic-desktop usage page 0x01, with usage 0x04 (joystick) or 0x05 (gamepad) |
| `InputManager.HidUsageDistinct` | dhc/src/input/mod.rs:88-93 | the two classes register under different usages |
| `InputManager.NewManager` | dhc/src/input/mod.rs:186-192 | a new manager has an empty queue, no devices and no pads |
| `InputManager.NewManagerConsistent` | dhc/src/input/mod.rs:186-192 | a new manager is consistent with a consumer that knows no device |
| `InputManager.GetEvents` | dhc/src/input/mod.rs:235-240 | draining hands over exactly the queued events, leaves the queue empty and the registry unchanged |
| `InputManager.GetEventsPreserves` | dhc/src/input/mod.rs:235-240 | the drained run is one the consumer can follow, and afterwards the manager is consistent with what the consumer then knows |
| `InputManager.ApplyAppend` | dhc/src/input/mod.rs:294-375 | following a queue that grew by appending is following the old run and then the appended one, for the known devices and for validity alike |
| `InputManager.HeldMembers` | dhc/src/input/mod.rs:109-119 | the consumer should see each Raw Input device that is not an XInput pad by handle, and each pad by slot |
| `InputManager.Disagreeing` | dhc/src/input/mod.rs:337-350 | the slots below k whose knowledge disagrees with the platform, each exactly once and in increasing order |
| `InputManager.Removals` | dhc/src/input/mod.rs:353-356 | one DeviceRemoved per killed slot, in order |
| `InputManager.Arrivals` | dhc/src/input/mod.rs:359-372 | one DeviceArrived per new slot, in order, named `XInputDeviceId(i)` |
| `InputManager.ScannedPads` | dhc/src/input/mod.rs:333-376 | after a scan slots 0 .. 3 hold a pad exactly when the platform reads one; other slots are untouched; a kept pad keeps its buffer, a new one gets the default |
| `InputManager.ScanXInput` | dhc/src/input/mod.rs:333-376 | a scan updates the pads as above, leaves the Raw Input devices alone, and appends the removals of the gone pads before the arrivals of the new ones |
| `InputManager.ScanXInputIdempotent` | dhc/src/input/mod.rs:341-343 | a second scan against the same platform answer changes nothing |
| `InputManager.ScanOfAgreeingIsIdentity` | dhc/src/input/mod.rs:341-343 | when every slot's knowledge agrees with the platform, a scan changes nothing |
| `InputManager.ScanKeepsScanned` | dhc/src/input/mod.rs:341-343 | pads already in agreement with the platform are kept as they are |
| `InputManager.NothingDisagrees` | dhc/src/input/mod.rs:341-343 | when the pads agree with the platform no slot is killed or new |
| `InputManager.RemovalsApply` | dhc/src/input/mod.rs:353-356 | removing distinct known pads in order is a run the consumer can follow, and it forgets exactly those pads |
| `InputManager.ArrivalsApply` | dhc/src/input/mod.rs:359-372 | announcing distinct unknown pads in order is a run the consumer can follow, and it learns exactly those pads |
| `InputManager.PadsAfterScan` | dhc/src/input/mod.rs:333-376 | the pads held after a scan are the old ones minus the killed plus the new |
| `InputManager.RawAreNotPads` | dhc/src/input/mod.rs:38-42 | a Raw Input id is never a pad id |
| `InputManager.RegroupDisjoint` | dhc/src/input/mod.rs:333-376 | removing and adding pads does not touch the Raw Input devices held beside them |
| `InputManager.HeldAfterScan` | dhc/src/input/mod.rs:333-376 | all that the manager holds after a scan is the old set minus the killed pads plus the new |
| `InputManager.ScanEventsApply` | dhc/src/input/mod.rs:352-375 | the events a scan queues are a run the consumer can follow, ending at exactly what the manager holds after the scan |
| `InputManager.ConsistentByRun` | dhc/src/input/mod.rs:294-375 | appending a followable run that ends at what the manager holds keeps it consistent |
| `InputManager.ScanPreserves` | dhc/src/input/mod.rs:333-376 | a scan keeps the manager consistent |
| `InputManager.Arrival` | dhc/src/input/mod.rs:278-297 | a device that fails to open is ignored; one that opens is recorded with a default buffer, flagged XInput exactly when it is one, and a non-XInput device's arrival is queued under its handle and name; a panic while opening aborts |
| `InputManager.ArrivalPreserves` | dhc/src/input/mod.rs:278-297 | the arrival of a handle the manager does not hold keeps it consistent |
| `InputManager.ArrivalOfHeldDeviceReannounces` | dhc/src/input/mod.rs:288-296 | a second arrival of a held non-XInput device queues a second DeviceArrived, which no consumer can follow: the source does not check whether the handle is already held |
| `InputManager.RawAfterStore` | dhc/src/input/mod.rs:289 | storing a new handle adds it to the Raw Input devices the consumer should see, unless it is an XInput pad |
| `InputManager.RawAfterDelete` | dhc/src/input/mod.rs:306 | removing a handle removes it from the devices the consumer should see |
| `InputManager.Removal` | dhc/src/input/mod.rs:299-314 | removing an unknown handle changes nothing; otherwise the handle is dropped, no other handle changes, and a non-XInput device's removal is queued |
| `InputManager.RemovalPreserves` | dhc/src/input/mod.rs:299-314 | a removal keeps the manager consistent |
| `InputManager.ReadXInput` | dhc/src/input/mod.rs:316-331 | the Raw Input devices are untouched; when every pad reads, each pad's buffer takes its reading and nothing is queued |
| `InputManager.ReadXInputPreserves` | dhc/src/input/mod.rs:316-331 | reading the pads, with the rescan a failed read triggers, keeps the manager consistent |
| `InputManager.DeviceInput` | dhc/src/input/mod.rs:242-276 | input never adds or drops a device; a report from an unknown device is dropped; a report from a non-XInput device sets that device's buffer to the parsed value and queues nothing |
| `InputManager.DeviceInputPreserves` | dhc/src/input/mod.rs:242-276 | handling input keeps the manager consistent |
| `InputManager.CodeInjective` | dhc/src/input/mod.rs:38-42 | the binding core's number for a device id tells the ids apart |
| `InputManager.ToBindingAll` | dhc/src/input/mod.rs:96-100 | each event is handed on to the binding core as the same event on the device's number, in order |
| `InputManager.ValidForBinding` | dhc/src/input/mod.rs:96-100 | a run the consumer can follow is a queue the binding core accepts |
| `InputManager.DeliveredEventsBindSafely` | dhc/src/input/mod.rs:235-240 | the events drained from a consistent manager, given to a binding context that knows the delivered devices, are accepted and keep the context's invariant |
| `InputManager.DeviceChange` | dhc/src/input/mod.rs:149-158 | a device change succeeds only for GIDC_ARRIVAL or GIDC_REMOVAL, any other argument panics; a removal always succeeds and leaves the handle unheld; an arrival that opens leaves it held |
| `InputManager.DeviceChangePreserves` | dhc/src/input/mod.rs:149-158 | a device change that is not the arrival of an already held handle keeps the manager consistent |
| `RawInputManager.NewManager` | dhc/src/rawinput/mod.rs:158-163 | a new registry has an empty queue and no devices |
| `RawInputManager.NewManagerConsistent` | dhc/src/rawinput/mod.rs:158-163 | a new registry is consistent with a consumer that knows no device |
| `RawInputManager.GetEvents` | dhc/src/rawinput/mod.rs:206-211 | draining hands over exactly the queued events and leaves the queue empty and the devices unchanged |
| `RawInputManager.GetEventsPreserves` | dhc/src/rawinput/mod.rs:206-211 | after draining the registry is consistent with what the consumer then knows |
| `RawInputManager.LastParse` | dhc/src/rawinput/mod.rs:103-108 | the reports of one message succeed exactly when every report parses, and leave the last report's parse, or the starting value when there is none |
| `RawInputManager.HandleInput` | dhc/src/rawinput/mod.rs:99-110 | the buffer takes the last report's parse, or the default without a report; any failed parse panics; the parser is kept |
| `RawInputManager.HandleOneReport` | dhc/src/rawinput/mod.rs:99-110 | a message of one report writes exactly what that report parses to |
| `RawInputManager.DeviceInput` | dhc/src/rawinput/mod.rs:213-242 | a failed read panics; a report from an unknown device is dropped; a known device's report succeeds exactly when it is HID and every report parses; only that device changes and nothing is queued |
| `RawInputManager.Arrival` | dhc/src/rawinput/mod.rs:244-258 | a device that fails to open is ignored; one that opens is stored under its handle with a default buffer and its arrival queued with its name; a panic while opening aborts |
| `RawInputManager.ArrivalPreserves` | dhc/src/rawinput/mod.rs:244-258 | the arrival of a handle the registry does not hold keeps it consistent |
| `RawInputManager.Removal` | dhc/src/rawinput/mod.rs:260-264 | the removal is queued whether or not the handle is known, the handle is forgotten and no other device changes |
| `RawInputManager.RemovalPreserves` | dhc/src/rawinput/mod.rs:260-264 | the removal of a held handle keeps the registry consistent |
| `RawInputManager.RemovalOfUnknownHandleBreaks` | dhc/src/rawinput/mod.rs:260-264 | the removal of a handle the registry does not hold queues an event no consumer can follow |
| `RawInputManager.ArrivalThenRemoval` | dhc/src/rawinput/mod.rs:244-264 | an arrival and then the removal of a fresh handle leave the devices as they were, with both events queued in order |
| `RawInputManager.DeviceChange` | dhc/src/rawinput/mod.rs:121-130 | a device change succeeds only for GIDC_ARRIVAL or GIDC_REMOVAL, any other argument panics; a removal always queues one event and leaves the handle unheld |
| `RawInputManager.DeviceChangePreserves` | dhc/src/rawinput/mod.rs:121-130 | a device change that announces an unheld handle or removes a held one keeps the registry consistent |
| `RawInputManager.DeviceInputPreserves` | dhc/src/rawinput/mod.rs:213-242 | reports keep the registry consistent |
| `RawInputManager.Lift` | dhc/src/rawinput/mod.rs:75-79 | an event of the older registry is read as the same event on the Raw Input id of its handle |
| `RawInputManager.LiftAll` | dhc/src/rawinput/mod.rs:75-79 | a run is read event by event, in order |
| `RawInputManager.LiftAppend` | dhc/src/rawinput/mod.rs:257-262 | reading a queue that grew by appending is reading the old queue and then the appended events |
| `RawInputManager.ConsistentByEvent` | dhc/src/rawinput/mod.rs:257-262 | appending one followable event that takes the consumer to the new devices keeps the registry consistent |
| `DInput.MakeInstance` | dhc/frontend/ps4.h:20 | DIDFT_MAKEINSTANCE(n) puts the low 16 bits of n in the instance field and no bit outside it |
| `DInput.HalfTowardZero` | dinput8/dinput.cpp:795-796 | C++ division of a LONG by two: the quotient is within one half of x/2 and lies between 0 and x, truncated toward zero |
| `DInput.Truncate` | dinput8/dinput.cpp:812 | the integer part of a double, truncated toward zero |
| `DInput.RealToDword` | dinput8/dinput.cpp:812 | converting a double to DWORD gives its floor whenever it lies in [0, 2^32) (the same conversion stores the dead zone and saturation at lines 402-405) |
| `Strings.Decimal` | dinput8/utils.cpp:125-126 | `std::to_string` of an unsigned number is a non-empty run of digits, with a leading zero only for 0 |
| `Strings.DecimalRoundTrip` | dinput8/utils.cpp:125-126 | reading the decimal text back gives the number |
| `Strings.DecimalInjective` | dinput8/utils.cpp:125-126 | distinct numbers print differently |
| `Strings.Hex` | dinput8/utils.cpp:154-159 | a `%0NX` field is exactly N hexadecimal digits |
| `Strings.HexRoundTrip` | dinput8/utils.cpp:154-159 | reading back a field whose value fits its width gives the value |

## Left out

Contracts deliberately weaker than the source, or abstractions that change
behaviour, each on a line starting with the member concerned:

- Renderer.Cell: the model computes the midpoint of an unmapped axis (dinput8/dinput.cpp:795-796) from an unbounded sum. The source adds two `LONG`s, and that sum can overflow, which is undefined behaviour, because `SetProperty` stores any `lMin` and `lMax` unchecked (dinput8/dinput.cpp:494-501). The branch is dead for the shipped catalog, which has no unmapped object (`Ps4Catalog.CatalogTypesAgree`).
- Properties.GetProperty: the source tells the DIPROP_* properties apart by the ADDRESS of the GUID it is passed (`&guid == &DIPROP_DEADZONE`, dinput8/dinput.cpp:371-383, 397-409). The model's `Property` enum names the property the caller meant. A caller that passes a copy of the GUID, which the source sends to `UNIMPLEMENTED(FATAL)` or the not-found path, is not modelled.
- Properties.SetProperty: the same address identity (dinput8/dinput.cpp:443-456, 470-486) is modelled by the `Property` enum.
- Properties.FindPropertyObject: the property header's `dwHow` is modelled as an enum of the three addressing modes, and any other value is an error, as in the source.
- DInput.RealToDword: the model fixes the 32-bit build. A `double` outside [0, 2^32) converted to `DWORD` is undefined behaviour in C++, and the model truncates it and keeps the low 32 bits.
- DhcGuid.Parse: `uintptr_t` is 32 bits wide in the 32-bit build modelled, so the device index is a `Dword`. A 64-bit build is not modelled.
- Dinput8Api.StickInstanceGuid: the same 32-bit `uintptr_t`, so the index `StickInstance` packs into the GUID, and parses back, is the device index modulo 2^32 (`ToDword`). The `SIZEOF_*` constants of `DInput` are the structure sizes of the 32-bit build.
- Dinput8Api.StickInstanceName: the name's number is printed as a 32-bit `long`, so from index 2^31 - 1 on it would print negative; the lemma states the name only below that.
- Renderer.DeviceState: a format default stored past the end of the client's buffer (dinput8/dinput.cpp:525-528) is undefined behaviour in the source and an `Abort` in the model.
- Dinput8Api.CreateDevice: `devices_[*dhc_idx]` with an index past the end (dinput8/dinput.cpp:88) is undefined behaviour in the source and an `Abort` in the model.
- HidMapping.Unlerp: `f32` is modelled as `real`. A degenerate range (min == max) is an `Abort` in the model. In the source it is a float division by zero. That gives ±infinity, which `set_value` rejects with a panic, or NaN when x == min, which `set_value` lets through. The `i32` overflow of `x - min` is not modelled either.
- XInputRead.StickScaling: the stick normalisation of dhc/src/input/xinput.rs is computed in `real` arithmetic, not in `f32`.
- Properties.GetFractionReads: the dead zone and saturation are stored as `real` fractions, not as `double`.
- Renderer.AdjustAxis: the dead-zone and saturation arithmetic is done in `real`, not in `double`.
- Binding.ApplyEventsPreserve: this lemma and `Binding.ContextUpdatePreserves` require `ValidEvents`, which assumes that the input layer never announces an id twice. `handle_device_arrival` (dhc/src/input/mod.rs:278-297) inserts and queues without checking whether the handle is already held, so a repeated arrival breaks that assumption (`InputManager.ArrivalOfHeldDeviceReannounces`).
- InputManager.DeviceInput: `handle_input` (dhc/src/input/mod.rs:122-134) assigns the `Result` of `HidParser::parse` to a `DeviceInputs` and does not type-check as written. The value parsing leaves is therefore a parameter (`written`). The older `DeviceState::handle_input` (`RawInputManager.HandleInput`) is modelled in full.
- InputManager.HidUsage: registering and unregistering a device class are platform calls (dhc/src/input/mod.rs:194-233) and are left out. The usage pair they pass is this function. The older registry's `hid_usage` (dhc/src/rawinput/mod.rs:67-72) is the same table.
- Configuration.MalformedFileIsReplaced: the TOML decoder is a parameter. The hypothesis that the embedded `DEFAULT_CONFIG` text decodes to `DefaultConfig` is not proved (see above).

Operations not modelled:

- The entry points of dinput8/dinput.cpp that only abort: `GetDeviceStatus`, `FindDevice`, `RunControlPanel`, `Initialize`, `EnumDevicesBySemantics` and `ConfigureDevices` (`LOG(FATAL)` or `UNIMPLEMENTED(FATAL)`, lines 167-207), and `GetDeviceData`, `SetEventNotification`, `GetObjectInfo`, `Escape`, `SendDeviceData`, the effect-file, action-map and image entry points (`UNIMPLEMENTED(FATAL)`). The corresponding entry points of dhc/frontend/dinput.cpp and dhc/dinput.cpp abort too. The C++ frontend's `GetDeviceStatus` and `FindDevice`, which answer a constant, are modelled (`LegacyFrontend.EnumeratedSticksCreateThemselves`).
- `SendForceFeedbackCommand` (DIERR_UNSUPPORTED), `EnumCreatedEffectObjects`, `Acquire` and `Unacquire` (DI_OK) of dinput8/dinput.cpp answer a constant and are not modelled.
- `GetDIPropName` (dinput8/dinput.cpp:297-326) and `SetCooperativeLevel` only build log text.
- `Poll` of dinput8/dinput.cpp only calls into the input library and answers DI_OK.
- `QueryInterface`, reference counting, `com_base` and `com_ptr` (dhc/utils.h:57-150) are COM object lifetime management, which the value model has no counterpart for.
- `DirectInput8Create`, `DllMain` and the `Dll*` exports (dinput8/dinput.cpp:875-937) are DLL loading and forwarding to the system DLL.
- `GetRealDirectInput8W/A` and the passthrough of the system keyboard and mouse: calls into the real DirectInput. The passthrough is only its routing decision (`Dinput8Api.CreateDevice`, `LegacyFrontend.CreateDevice`).
- `mutex`, `lock_guard` and the provider's locking (dhc/types.h:66-136, dhc/backend/dinput.cpp). Every provider operation is one sequential step under its lock, and the scanner thread is not modelled.
- `DinputProvider::Revoke` (dhc/backend/dinput.cpp:25) is `UNIMPLEMENTED`. The logging in `EnumerateObjectCallback` is not modelled.
- The library's start-up in dhc/src/lib.rs (`init`, the `CONFIG` global, `get_executable_path`, lines 38-83), `logger::init` (dhc/src/logger.rs:84-113) and the loading of the XInput DLL (dhc/src/input/xinput.rs:9-27) are process and file-system set-up.
- The assertions inside `get_rawinput_device_info_impl` (dhc/src/input/hid.rs:364-382) are platform calls. Their results reach the model as the `Probe` parameter.
- The window-message loop, the thread priority and the command channel of both registries: platform and threading code. The dispatch of device-change messages is modelled (`InputManager.DeviceChange`, `RawInputManager.DeviceChange`).
- The header declaring `Device`, `PovState` and the axis and button enums of the C++ generation is not part of this model. The enums follow the order the code lists their members in.
- `dhc_dinput.h`, which declares `EmulatedDeviceObject`, `MatchesType`, `MatchesFlags` and `lerp`, is not part of this model. These three functions are parameters of the operations that use them.

## Findings

| source | as written | input that shows it | evidently intended | confidence | as-written member | corrected member |
|---|---|---|---|---|---|---|
| dinput8/dinput.cpp:249 | `GetCapabilities` always reports 6 axes | a build without ENABLE_TRIGGERS (dinput8/ps4.cpp:41), whose catalog has only the 4 stick axes | report the number of axes the catalog holds | not executed; no build file shows whether ENABLE_TRIGGERS is defined | `Dinput8Api.CapabilitiesOverstateAxes` | `Dinput8Api.CapabilitiesMatchCatalog` |
| dhc/frontend/dinput.h:115-121 | the older table gives R2 the GUID of L2 (GUID_RxAxis), and gives the Trackpad the type bits of Cross (instance 1, lines 241-247) | enumerating the older table: R2 and L2 are indistinguishable by GUID, and Trackpad and Cross by type | distinct GUIDs and instances, as in dhc/frontend/ps4.h | not executed | `LegacyPs4.OlderTableConflates` | `LegacyPs4.TableIdentifiesObjects` |
| dhc/frontend/dinput.cpp:260-296 | `EnumObjects` tests each group bit of the flags, so DIDFT_ALL (0) selects no object | `EnumObjects(callback, arg, DIDFT_ALL)` hands out nothing | DIDFT_ALL enumerates every object, as DirectInput defines it | not executed | `LegacyFrontend.EnumObjectsAllSeesNothing` | `LegacyFrontend.IntendedEnumObjectsAll` |

=== FILE: binding.dfy ===
/** The binding core of the Rust library (dhc/src/lib.rs): a fixed set of
    virtual devices, the real devices that arrived, and the symmetric
    binding between them.  Real device ids are opaque handles; the
    triple buffer a real device publishes through is modelled as the last
    value written to it. */
module Binding {
  import opened Wrappers
  import opened Inputs

  type DeviceId = nat

  datatype VirtualDevice = VirtualDevice(inputs: DeviceInputs, binding: Option<DeviceId>)

  datatype RealDevice = RealDevice(id: DeviceId, name: string, buffer: DeviceInputs, binding: Option<nat>)

  datatype State = State(vdevs: seq<VirtualDevice>, rdevs: seq<RealDevice>)

  /** True when some real device carries `id`. */
  predicate HasId(rdevs: seq<RealDevice>, id: DeviceId)
  {
    exists j :: 0 <= j < |rdevs| && rdevs[j].id == id
  }

  /** `find_real_device`: the index of the first real device with `id`. */
  function FindRealDevice(rdevs: seq<RealDevice>, id: DeviceId): (r: Option<nat>)
    ensures r.Some? <==> HasId(rdevs, id)
    ensures r.Some? ==> r.value < |rdevs| && rdevs[r.value].id == id
    ensures r.Some? ==> forall j :: 0 <= j < r.value ==> rdevs[j].id != id
    decreases |rdevs|
  {
    if |rdevs| == 0 then None
    else if rdevs[0].id == id then Some(0)
    else
      var rest := FindRealDevice(rdevs[1..], id);
      assert forall j :: 1 <= j < |rdevs| ==> rdevs[j] == rdevs[1..][j - 1];
      if rest.None? then None else Some(rest.value + 1)
  }

  // ---------------------------------------------------------------------
  // The invariant

  /** Real device ids are unique. */
  predicate DistinctIds(rdevs: seq<RealDevice>)
  {
    forall a, b :: 0 <= a < b < |rdevs| ==> rdevs[a].id != rdevs[b].id
  }

  /** Virtual device i is bound to real device j exactly when j is bound to i. */
  predicate Symmetric(s: State)
  {
    forall i, j :: 0 <= i < |s.vdevs| && 0 <= j < |s.rdevs| ==>
      (s.vdevs[i].binding == Some(s.rdevs[j].id) <==> s.rdevs[j].binding == Some(i))
  }

  /** Every binding names a device that exists. */
  predicate BindingsExist(s: State)
  {
    (forall i :: 0 <= i < |s.vdevs| && s.vdevs[i].binding.Some? ==> HasId(s.rdevs, s.vdevs[i].binding.value))
    && (forall j :: 0 <= j < |s.rdevs| && s.rdevs[j].binding.Some? ==> s.rdevs[j].binding.value < |s.vdevs|)
  }

  predicate Invariant(s: State)
  {
    DistinctIds(s.rdevs) && Symmetric(s) && BindingsExist(s)
  }

  /** `State::new`: `n` unbound virtual devices with default inputs and no
      real devices. */
  function New(n: nat): (s: State)
    ensures |s.vdevs| == n && s.rdevs == []
    ensures forall i :: 0 <= i < n ==> s.vdevs[i].binding.None? && s.vdevs[i].inputs == Default()
    ensures Invariant(s)
  {
    State(seq(n, i => VirtualDevice(Default(), None)), [])
  }

  // ---------------------------------------------------------------------
  // bind_devices

  /** The unbound real device nearest the end of the list: the newest one. */
  function LastUnbound(rdevs: seq<RealDevice>): (r: Option<nat>)
    ensures r.Some? ==> r.value < |rdevs| && rdevs[r.value].binding.None?
    ensures r.Some? ==> forall j :: r.value < j < |rdevs| ==> rdevs[j].binding.Some?
    ensures r.None? ==> forall j :: 0 <= j < |rdevs| ==> rdevs[j].binding.Some?
    decreases |rdevs|
  {
    if |rdevs| == 0 then None
    else if rdevs[|rdevs| - 1].binding.None? then Some(|rdevs| - 1)
    else LastUnbound(rdevs[..|rdevs| - 1])
  }

  /** Binds virtual device i to real device j, on both sides. */
  function Bind(s: State, i: nat, j: nat): State
    requires i < |s.vdevs| && j < |s.rdevs|
  {
    State(s.vdevs[i := s.vdevs[i].(binding := Some(s.rdevs[j].id))],
          s.rdevs[j := s.rdevs[j].(binding := Some(i))])
  }

  /** The loop of `bind_devices` from virtual device `i` on: skip bound
      devices, bind an unbound one to the newest unbound real device, and
      stop once no real device is left to bind. */
  function BindFrom(s: State, i: nat): (r: State)
    requires i <= |s.vdevs|
    ensures |r.vdevs| == |s.vdevs| && |r.rdevs| == |s.rdevs|
    decreases |s.vdevs| - i
  {
    if i == |s.vdevs| then s
    else if s.vdevs[i].binding.Some? then BindFrom(s, i + 1)
    else match LastUnbound(s.rdevs)
      case None => s
      case Some(j) => BindFrom(Bind(s, i, j), i + 1)
  }

  /** `State::bind_devices`. */
  function BindDevices(s: State): State
  {
    BindFrom(s, 0)
  }

  /** `b` differs from `a` at most in bindings, and only by binding what was
      unbound: inputs, ids, names and buffers are kept, and every existing
      binding stays as it was. */
  predicate OnlyAddsBindings(a: State, b: State)
  {
    |a.vdevs| == |b.vdevs| && |a.rdevs| == |b.rdevs|
    && (forall k :: 0 <= k < |a.vdevs| ==> b.vdevs[k].inputs == a.vdevs[k].inputs)
    && (forall k :: 0 <= k < |a.vdevs| && a.vdevs[k].binding.Some? ==> b.vdevs[k].binding == a.vdevs[k].binding)
    && (forall j :: 0 <= j < |a.rdevs| ==> b.rdevs[j].(binding := None) == a.rdevs[j].(binding := None))
    && (forall j :: 0 <= j < |a.rdevs| && a.rdevs[j].binding.Some? ==> b.rdevs[j].binding == a.rdevs[j].binding)
  }

  /** From virtual device `i` on every one is bound, or no real device is
      left unbound. */
  predicate CompleteFrom(r: State, i: nat)
  {
    (forall k :: i <= k < |r.vdevs| ==> r.vdevs[k].binding.Some?)
    || (forall j :: 0 <= j < |r.rdevs| ==> r.rdevs[j].binding.Some?)
  }

  /** Of two virtual devices from `i` on that `s` leaves unbound, `r` binds a
      later one only if it binds the earlier one. */
  predicate InIndexOrder(s: State, r: State, i: nat)
    requires |r.vdevs| == |s.vdevs|
  {
    forall k1, k2 :: (i <= k1 < k2 < |s.vdevs| && s.vdevs[k1].binding.None? && s.vdevs[k2].binding.None?
                      && r.vdevs[k2].binding.Some?) ==> r.vdevs[k1].binding.Some?
  }

  /** Of two real devices that `s` leaves unbound, `r` binds an earlier one
      only if it binds the later one. */
  predicate NewestFirst(s: State, r: State)
    requires |r.rdevs| == |s.rdevs|
  {
    forall j1, j2 :: (0 <= j1 < j2 < |s.rdevs| && s.rdevs[j1].binding.None? && s.rdevs[j2].binding.None?
                      && r.rdevs[j1].binding.Some?) ==> r.rdevs[j2].binding.Some?
  }

  /** Of two real devices that `s` leaves unbound and `r` binds, the later
      (newer) one is bound to the lower-numbered virtual device. */
  predicate PairedNewestFirst(s: State, r: State)
    requires |r.rdevs| == |s.rdevs|
  {
    forall j1, j2 :: (0 <= j1 < j2 < |s.rdevs| && s.rdevs[j1].binding.None? && s.rdevs[j2].binding.None?
                      && r.rdevs[j1].binding.Some? && r.rdevs[j2].binding.Some?)
                     ==> r.rdevs[j2].binding.value < r.rdevs[j1].binding.value
  }

  /** Every real device that `r` binds but `s` left unbound is bound to a
      virtual device numbered `i` or more. */
  predicate NewBindingsFrom(s: State, r: State, i: nat)
    requires |r.rdevs| == |s.rdevs|
  {
    forall j :: 0 <= j < |s.rdevs| && s.rdevs[j].binding.None? && r.rdevs[j].binding.Some?
                ==> i <= r.rdevs[j].binding.value
  }

  lemma OnlyAddsBindingsTransitive(a: State, b: State, c: State)
    requires OnlyAddsBindings(a, b) && OnlyAddsBindings(b, c)
    ensures OnlyAddsBindings(a, c)
  {
    forall j | 0 <= j < |a.rdevs| ensures c.rdevs[j].(binding := None) == a.rdevs[j].(binding := None) {
      assert c.rdevs[j].(binding := None) == b.rdevs[j].(binding := None);
    }
  }

  lemma {:induction false} BindFromOnlyAdds(s: State, i: nat)
    requires i <= |s.vdevs|
    ensures OnlyAddsBindings(s, BindFrom(s, i))
    decreases |s.vdevs| - i
  {
    if i == |s.vdevs| {
    } else if s.vdevs[i].binding.Some? {
      BindFromOnlyAdds(s, i + 1);
    } else {
      match LastUnbound(s.rdevs)
      case None =>
      case Some(j) =>
        var t := Bind(s, i, j);
        assert OnlyAddsBindings(s, t);
        BindFromOnlyAdds(t, i + 1);
        OnlyAddsBindingsTransitive(s, t, BindFrom(t, i + 1));
    }
  }

  /** After the loop, every virtual device from `i` on is bound, or no real
      device is left unbound. */
  lemma {:induction false} BindFromComplete(s: State, i: nat)
    requires i <= |s.vdevs|
    ensures CompleteFrom(BindFrom(s, i), i)
    decreases |s.vdevs| - i
  {
    if i == |s.vdevs| {
    } else if s.vdevs[i].binding.Some? {
      assert BindFrom(s, i) == BindFrom(s, i + 1);
      BindFromComplete(s, i + 1);
      BindFromOnlyAdds(s, i + 1);
    } else {
      match LastUnbound(s.rdevs)
      case None =>
      case Some(j) =>
        var t := Bind(s, i, j);
        BindFromComplete(t, i + 1);
        BindFromOnlyAdds(t, i + 1);
    }
  }

  /** Virtual devices are bound in index order: of two devices unbound
      before the loop, a later one is bound only if the earlier one is. */
  lemma {:induction false} BindFromInIndexOrder(s: State, i: nat)
    requires i <= |s.vdevs|
    ensures InIndexOrder(s, BindFrom(s, i), i)
    decreases |s.vdevs| - i
  {
    if i == |s.vdevs| {
    } else if s.vdevs[i].binding.Some? {
      BindFromInIndexOrder(s, i + 1);
    } else {
      match LastUnbound(s.rdevs)
      case None =>
      case Some(j) =>
        var t := Bind(s, i, j);
        BindFromInIndexOrder(t, i + 1);
        BindFromOnlyAdds(t, i + 1);
    }
  }

  /** Real devices are taken newest first: of two real devices unbound
      before the loop, an earlier one is bound only if the later one is. */
  lemma {:induction false} BindFromNewestFirst(s: State, i: nat)
    requires i <= |s.vdevs|
    ensures NewestFirst(s, BindFrom(s, i))
    decreases |s.vdevs| - i
  {
    if i == |s.vdevs| {
    } else if s.vdevs[i].binding.Some? {
      BindFromNewestFirst(s, i + 1);
    } else {
      match LastUnbound(s.rdevs)
      case None =>
      case Some(j) =>
        var t := Bind(s, i, j);
        BindFromNewestFirst(t, i + 1);
        BindFromOnlyAdds(t, i + 1);
    }
  }

  /** The loop from virtual device `i` on binds real devices only to
      virtual devices numbered `i` or more. */
  lemma {:induction false} BindFromBindsLater(s: State, i: nat)
    requires i <= |s.vdevs|
    ensures NewBindingsFrom(s, BindFrom(s, i), i)
    decreases |s.vdevs| - i
  {
    if i == |s.vdevs| {
    } else if s.vdevs[i].binding.Some? {
      BindFromBindsLater(s, i + 1);
    } else {
      match LastUnbound(s.rdevs)
      case None =>
      case Some(j) =>
        var t := Bind(s, i, j);
        BindFromBindsLater(t, i + 1);
        BindFromOnlyAdds(t, i + 1);
    }
  }

  /** The pairing of `bind_devices`: the first unbound virtual device takes
      the newest unbound real device, the next one the newest left, and so
      on, so a newer real device goes to a lower-numbered virtual device. */
  lemma {:induction false} BindFromPairsNewestFirst(s: State, i: nat)
    requires i <= |s.vdevs|
    ensures PairedNewestFirst(s, BindFrom(s, i))
    decreases |s.vdevs| - i
  {
    if i == |s.vdevs| {
    } else if s.vdevs[i].binding.Some? {
      BindFromPairsNewestFirst(s, i + 1);
    } else {
      match LastUnbound(s.rdevs)
      case None =>
      case Some(j) =>
        var t := Bind(s, i, j);
        var r := BindFrom(t, i + 1);
        BindFromPairsNewestFirst(t, i + 1);
        BindFromOnlyAdds(t, i + 1);
        BindFromBindsLater(t, i + 1);
        forall j1, j2 | 0 <= j1 < j2 < |s.rdevs| && s.rdevs[j1].binding.None? && s.rdevs[j2].binding.None?
                        && r.rdevs[j1].binding.Some? && r.rdevs[j2].binding.Some?
          ensures r.rdevs[j2].binding.value < r.rdevs[j1].binding.value
        {
          if j2 == j {
            assert t.rdevs[j1].binding.None?;
            assert r.rdevs[j2].binding == Some(i);
          } else {
            assert j1 != j;
            assert t.rdevs[j1] == s.rdevs[j1] && t.rdevs[j2] == s.rdevs[j2];
          }
        }
      }
  }

  lemma BindPreserves(s: State, i: nat, j: nat)
    requires Invariant(s)
    requires i < |s.vdevs| && j < |s.rdevs|
    requires s.vdevs[i].binding.None? && s.rdevs[j].binding.None?
    ensures Invariant(Bind(s, i, j))
  {
    var t := Bind(s, i, j);
    forall k | 0 <= k < |t.vdevs| && t.vdevs[k].binding.Some?
      ensures HasId(t.rdevs, t.vdevs[k].binding.value)
    {
      if k == i {
        assert t.rdevs[j].id == s.rdevs[j].id;
      } else {
        var id := s.vdevs[k].binding.value;
        var w :| 0 <= w < |s.rdevs| && s.rdevs[w].id == id;
        assert t.rdevs[w].id == id;
      }
    }
  }

  lemma {:induction false} BindFromPreserves(s: State, i: nat)
    requires Invariant(s) && i <= |s.vdevs|
    ensures Invariant(BindFrom(s, i))
    decreases |s.vdevs| - i
  {
    if i == |s.vdevs| {
    } else if s.vdevs[i].binding.Some? {
      BindFromPreserves(s, i + 1);
    } else {
      match LastUnbound(s.rdevs)
      case None =>
      case Some(j) =>
        BindPreserves(s, i, j);
        BindFromPreserves(Bind(s, i, j), i + 1);
    }
  }

  /** `bind_devices` keeps the invariant and every existing binding, and
      afterwards every virtual device is bound or every real device is;
      virtual devices are served in index order, real devices newest first. */
  lemma BindDevicesSpec(s: State)
    requires Invariant(s)
    ensures Invariant(BindDevices(s))
    ensures OnlyAddsBindings(s, BindDevices(s))
    ensures CompleteFrom(BindDevices(s), 0)
    ensures InIndexOrder(s, BindDevices(s), 0)
    ensures NewestFirst(s, BindDevices(s))
    ensures PairedNewestFirst(s, BindDevices(s))
  {
    BindFromPreserves(s, 0);
    BindFromOnlyAdds(s, 0);
    BindFromComplete(s, 0);
    BindFromInIndexOrder(s, 0);
    BindFromNewestFirst(s, 0);
    BindFromPairsNewestFirst(s, 0);
  }

  /** The pairing seen from the virtual devices: of two virtual devices
      that `bind_devices` binds, the lower-numbered one (the earlier
      player) holds the newer real device. */
  lemma BindDevicesPlayerOrder(s: State, k1: nat, k2: nat, j1: nat, j2: nat)
    requires Invariant(s)
    requires k1 < k2 < |s.vdevs| && s.vdevs[k1].binding.None? && s.vdevs[k2].binding.None?
    requires j1 < |s.rdevs| && j2 < |s.rdevs|
    requires BindDevices(s).vdevs[k1].binding == Some(BindDevices(s).rdevs[j1].id)
    requires BindDevices(s).vdevs[k2].binding == Some(BindDevices(s).rdevs[j2].id)
    ensures j2 < j1
  {
    var r := BindDevices(s);
    BindDevicesSpec(s);
    assert r.rdevs[j1].binding == Some(k1) && r.rdevs[j2].binding == Some(k2);
    assert s.rdevs[j1].binding != Some(k1) && s.rdevs[j2].binding != Some(k2);
  }

  /** Two players and two real devices, none bound: player 1 (virtual
      device 0) takes the newer device `b` and player 2 the older `a`. */
  lemma BindTwoFresh(a: RealDevice, b: RealDevice, v0: VirtualDevice, v1: VirtualDevice)
    requires a.binding.None? && b.binding.None? && a.id != b.id
    requires v0.binding.None? && v1.binding.None?
    ensures var r := BindDevices(State([v0, v1], [a, b]));
            r.vdevs[0].binding == Some(b.id) && r.vdevs[1].binding == Some(a.id)
            && r.rdevs == [a.(binding := Some(1)), b.(binding := Some(0))]
  {
    var s := State([v0, v1], [a, b]);
    assert LastUnbound(s.rdevs) == Some(1);
    var t := Bind(s, 0, 1);
    assert BindDevices(s) == BindFrom(t, 1);
    assert t.vdevs[1] == v1 && t.rdevs == [a, b.(binding := Some(0))];
    assert t.rdevs[..1] == [a];
    assert LastUnbound(t.rdevs) == Some(0);
    var u := Bind(t, 1, 0);
    assert BindFrom(t, 1) == BindFrom(u, 2) == u;
    assert u.rdevs == [a.(binding := Some(1)), b.(binding := Some(0))];
  }

  // ---------------------------------------------------------------------
  // unbind_device, add_device, remove_device

  /** `State::unbind_device`: indexing beyond the real devices, a binding to
      a missing virtual device, or a one-sided binding (`assert_eq!`)
      panics; an unbound device is left alone; otherwise both sides are
      cleared and the virtual device's inputs reset. */
  function Unbind(s: State, idx: nat): (r: Outcome<State>)
    ensures idx < |s.rdevs| && s.rdevs[idx].binding.None? ==> r == Ok(s)
    ensures idx >= |s.rdevs| ==> r.Abort?
    ensures r.Ok? ==> |r.value.rdevs| == |s.rdevs| && r.value.rdevs[idx].binding.None?
  {
    if idx >= |s.rdevs| then Abort
    else match s.rdevs[idx].binding
      case None => Ok(s)
      case Some(v) =>
        if v >= |s.vdevs| || s.vdevs[v].binding != Some(s.rdevs[idx].id) then Abort
        else Ok(State(s.vdevs[v := VirtualDevice(Default(), None)], s.rdevs[idx := s.rdevs[idx].(binding := None)]))
  }

  /** Under the invariant unbinding never panics, keeps the invariant,
      clears both sides and resets the virtual device; nothing else
      changes. */
  lemma UnbindSpec(s: State, idx: nat)
    requires Invariant(s) && idx < |s.rdevs|
    ensures Unbind(s, idx).Ok?
    ensures var u := Unbind(s, idx).value;
      Invariant(u) && u.rdevs[idx].binding.None?
      && |u.vdevs| == |s.vdevs| && |u.rdevs| == |s.rdevs|
      && (forall j :: 0 <= j < |s.rdevs| ==> u.rdevs[j].(binding := None) == s.rdevs[j].(binding := None))
      && (forall j :: 0 <= j < |s.rdevs| && j != idx ==> u.rdevs[j] == s.rdevs[j])
      && (forall k :: 0 <= k < |s.vdevs| && s.rdevs[idx].binding != Some(k) ==> u.vdevs[k] == s.vdevs[k])
      && (forall k :: 0 <= k < |s.vdevs| && s.rdevs[idx].binding == Some(k) ==> u.vdevs[k] == VirtualDevice(Default(), None))
  {
    if s.rdevs[idx].binding.Some? {
      var v := s.rdevs[idx].binding.value;
      assert s.vdevs[v].binding == Some(s.rdevs[idx].id);
      var u := Unbind(s, idx).value;
      forall k | 0 <= k < |u.vdevs| && u.vdevs[k].binding.Some?
        ensures HasId(u.rdevs, u.vdevs[k].binding.value)
      {
        var id := s.vdevs[k].binding.value;
        var w :| 0 <= w < |s.rdevs| && s.rdevs[w].id == id;
        assert u.rdevs[w].id == id;
      }
    }
  }

  /** The sequence without its element at `idx`. */
  function RemoveAt<T>(xs: seq<T>, idx: nat): (r: seq<T>)
    requires idx < |xs|
    ensures |r| == |xs| - 1
    ensures forall j :: 0 <= j < |r| ==> r[j] == xs[if j < idx then j else j + 1]
  {
    xs[..idx] + xs[idx + 1..]
  }

  /** Removing an unbound real device keeps the invariant, and exactly its id
      disappears. */
  lemma RemoveUnboundPreserves(s: State, idx: nat)
    requires Invariant(s) && idx < |s.rdevs| && s.rdevs[idx].binding.None?
    ensures Invariant(s.(rdevs := RemoveAt(s.rdevs, idx)))
    ensures forall x :: HasId(RemoveAt(s.rdevs, idx), x) <==> HasId(s.rdevs, x) && x != s.rdevs[idx].id
  {
    var t := s.(rdevs := RemoveAt(s.rdevs, idx));
    forall x ensures HasId(t.rdevs, x) <==> HasId(s.rdevs, x) && x != s.rdevs[idx].id {
      if HasId(t.rdevs, x) {
        var j :| 0 <= j < |t.rdevs| && t.rdevs[j].id == x;
        assert s.rdevs[if j < idx then j else j + 1].id == x;
      }
      if HasId(s.rdevs, x) && x != s.rdevs[idx].id {
        var w :| 0 <= w < |s.rdevs| && s.rdevs[w].id == x;
        assert t.rdevs[if w < idx then w else w - 1].id == x;
      }
    }
    forall k | 0 <= k < |t.vdevs| && t.vdevs[k].binding.Some?
      ensures HasId(t.rdevs, t.vdevs[k].binding.value)
    {
      var id := s.vdevs[k].binding.value;
      assert id != s.rdevs[idx].id;
    }
    forall a, b | 0 <= a < b < |t.rdevs| ensures t.rdevs[a].id != t.rdevs[b].id {
      assert t.rdevs[a] == s.rdevs[if a < idx then a else a + 1];
      assert t.rdevs[b] == s.rdevs[if b < idx then b else b + 1];
    }
    forall i, j | 0 <= i < |t.vdevs| && 0 <= j < |t.rdevs|
      ensures t.vdevs[i].binding == Some(t.rdevs[j].id) <==> t.rdevs[j].binding == Some(i)
    {
      assert t.rdevs[j] == s.rdevs[if j < idx then j else j + 1];
    }
  }

  /** A newly arrived, unbound real device at the end of the list. */
  function Arrive(s: State, id: DeviceId, name: string, buffer: DeviceInputs): State
  {
    s.(rdevs := s.rdevs + [RealDevice(id, name, buffer, None)])
  }

  lemma ArrivePreserves(s: State, id: DeviceId, name: string, buffer: DeviceInputs)
    requires Invariant(s) && !HasId(s.rdevs, id)
    ensures Invariant(Arrive(s, id, name, buffer))
    ensures forall x :: HasId(Arrive(s, id, name, buffer).rdevs, x) <==> HasId(s.rdevs, x) || x == id
  {
    var t := Arrive(s, id, name, buffer);
    assert forall j :: 0 <= j < |s.rdevs| ==> t.rdevs[j] == s.rdevs[j];
    forall x ensures HasId(t.rdevs, x) <==> HasId(s.rdevs, x) || x == id {
      if HasId(s.rdevs, x) {
        var w :| 0 <= w < |s.rdevs| && s.rdevs[w].id == x;
        assert t.rdevs[w].id == x;
      }
      if x == id {
        assert t.rdevs[|s.rdevs|].id == x;
      }
    }
    forall i | 0 <= i < |t.vdevs| && t.vdevs[i].binding.Some?
      ensures t.vdevs[i].binding != Some(id)
    {
    }
  }

  /** `State::add_device`: append the device unbound, then bind. */
  function AddDevice(s: State, id: DeviceId, name: string, buffer: DeviceInputs): State
  {
    BindDevices(Arrive(s, id, name, buffer))
  }

  /** `State::remove_device`: an absent id panics (`unwrap`); otherwise the
      device is unbound, removed, and the freed virtual device may take
      another unbound real device. */
  function RemoveDevice(s: State, id: DeviceId): (r: Outcome<State>)
    ensures !HasId(s.rdevs, id) ==> r.Abort?
  {
    match FindRealDevice(s.rdevs, id)
    case None => Abort
    case Some(idx) =>
      match Unbind(s, idx)
      case Abort => Abort
      case Ok(u) => Ok(BindDevices(u.(rdevs := RemoveAt(u.rdevs, idx))))
  }

  /** Binding keeps the set of real device ids. */
  lemma OnlyAddsKeepsIds(a: State, b: State)
    requires OnlyAddsBindings(a, b)
    ensures forall x :: HasId(b.rdevs, x) <==> HasId(a.rdevs, x)
  {
    forall x ensures HasId(b.rdevs, x) <==> HasId(a.rdevs, x) {
      if HasId(b.rdevs, x) {
        var w :| 0 <= w < |b.rdevs| && b.rdevs[w].id == x;
        assert b.rdevs[w].(binding := None) == a.rdevs[w].(binding := None);
      }
      if HasId(a.rdevs, x) {
        var w :| 0 <= w < |a.rdevs| && a.rdevs[w].id == x;
        assert b.rdevs[w].(binding := None) == a.rdevs[w].(binding := None);
      }
    }
  }

  /** Adding a device with a fresh id keeps the invariant and adds exactly
      that id; afterwards every virtual device is bound or every real one. */
  lemma AddDeviceSpec(s: State, id: DeviceId, name: string, buffer: DeviceInputs)
    requires Invariant(s) && !HasId(s.rdevs, id)
    ensures Invariant(AddDevice(s, id, name, buffer))
    ensures forall x :: HasId(AddDevice(s, id, name, buffer).rdevs, x) <==> HasId(s.rdevs, x) || x == id
    ensures CompleteFrom(AddDevice(s, id, name, buffer), 0)
    ensures OnlyAddsBindings(Arrive(s, id, name, buffer), AddDevice(s, id, name, buffer))
  {
    var t := Arrive(s, id, name, buffer);
    ArrivePreserves(s, id, name, buffer);
    BindDevicesSpec(t);
    OnlyAddsKeepsIds(t, BindDevices(t));
  }

  /** Removing a present device never panics under the invariant, keeps it,
      drops exactly that id, resets the virtual device it was bound to, and
      rebinds: afterwards every virtual device is bound or every real one. */
  lemma RemoveDeviceSpec(s: State, id: DeviceId)
    requires Invariant(s)
    ensures RemoveDevice(s, id).Ok? <==> HasId(s.rdevs, id)
    ensures RemoveDevice(s, id).Ok? ==> var r := RemoveDevice(s, id).value;
      Invariant(r)
      && (forall x :: HasId(r.rdevs, x) <==> HasId(s.rdevs, x) && x != id)
      && CompleteFrom(r, 0)
      && (forall k :: 0 <= k < |s.vdevs| && s.vdevs[k].binding == Some(id) ==> r.vdevs[k].inputs == Default())
  {
    if HasId(s.rdevs, id) {
      var idx := FindRealDevice(s.rdevs, id).value;
      UnbindSpec(s, idx);
      var u := Unbind(s, idx).value;
      RemoveUnboundPreserves(u, idx);
      var t := u.(rdevs := RemoveAt(u.rdevs, idx));
      BindDevicesSpec(t);
      OnlyAddsKeepsIds(t, BindDevices(t));
      forall x ensures HasId(u.rdevs, x) <==> HasId(s.rdevs, x) {
        OnlyAddsKeepsIdsAfterUnbind(s, u, x);
      }
      forall k | 0 <= k < |s.vdevs| && s.vdevs[k].binding == Some(id)
        ensures BindDevices(t).vdevs[k].inputs == Default()
      {
        assert s.rdevs[idx].binding == Some(k);
      }
    }
  }

  lemma OnlyAddsKeepsIdsAfterUnbind(s: State, u: State, x: DeviceId)
    requires |u.rdevs| == |s.rdevs|
    requires forall j :: 0 <= j < |s.rdevs| ==> u.rdevs[j].(binding := None) == s.rdevs[j].(binding := None)
    ensures HasId(u.rdevs, x) <==> HasId(s.rdevs, x)
  {
    if HasId(u.rdevs, x) {
      var w :| 0 <= w < |u.rdevs| && u.rdevs[w].id == x;
      assert u.rdevs[w].(binding := None) == s.rdevs[w].(binding := None);
    }
    if HasId(s.rdevs, x) {
      var w :| 0 <= w < |s.rdevs| && s.rdevs[w].id == x;
      assert u.rdevs[w].(binding := None) == s.rdevs[w].(binding := None);
    }
  }

  // ---------------------------------------------------------------------
  // update

  /** The loop of `State::update` over the virtual devices: a bound device
      takes the latest inputs of its real device (a missing one panics on
      `unwrap`), an unbound one keeps its inputs. */
  function UpdateDevices(vdevs: seq<VirtualDevice>, rdevs: seq<RealDevice>): (r: Outcome<seq<VirtualDevice>>)
    ensures r.Ok? <==> forall k :: 0 <= k < |vdevs| && vdevs[k].binding.Some? ==> HasId(rdevs, vdevs[k].binding.value)
    ensures r.Ok? ==> |r.value| == |vdevs|
    ensures r.Ok? ==> forall k :: 0 <= k < |vdevs| ==> r.value[k].binding == vdevs[k].binding
    ensures r.Ok? ==> forall k :: 0 <= k < |vdevs| && vdevs[k].binding.None? ==> r.value[k].inputs == vdevs[k].inputs
    ensures r.Ok? ==> forall k :: 0 <= k < |vdevs| && vdevs[k].binding.Some? ==>
              r.value[k].inputs == rdevs[FindRealDevice(rdevs, vdevs[k].binding.value).value].buffer
    decreases |vdevs|
  {
    if |vdevs| == 0 then Ok([])
    else
      var v := vdevs[0];
      var rest := UpdateDevices(vdevs[1..], rdevs);
      assert forall k :: 1 <= k < |vdevs| ==> vdevs[k] == vdevs[1..][k - 1];
      match v.binding
      case None => if rest.Abort? then Abort else Ok([v] + rest.value)
      case Some(id) =>
        match FindRealDevice(rdevs, id)
        case None => Abort
        case Some(j) => if rest.Abort? then Abort else Ok([v.(inputs := rdevs[j].buffer)] + rest.value)
  }

  /** `State::update`. */
  function Update(s: State): (r: Outcome<State>)
    ensures r.Ok? ==> r.value.rdevs == s.rdevs
  {
    match UpdateDevices(s.vdevs, s.rdevs)
    case Abort => Abort
    case Ok(vs) => Ok(State(vs, s.rdevs))
  }

  /** Under the invariant `update` never panics and keeps the invariant; a
      bound virtual device ends with the inputs its real device published,
      an unbound one keeps its inputs. */
  lemma UpdateSpec(s: State)
    requires Invariant(s)
    ensures Update(s).Ok? && Invariant(Update(s).value)
    ensures forall k :: 0 <= k < |s.vdevs| && s.vdevs[k].binding.None? ==> Update(s).value.vdevs[k] == s.vdevs[k]
    ensures forall k, j :: 0 <= k < |s.vdevs| && 0 <= j < |s.rdevs| && s.rdevs[j].binding == Some(k) ==>
              Update(s).value.vdevs[k] == s.vdevs[k].(inputs := s.rdevs[j].buffer)
  {
    var r := Update(s).value;
    SameBindingsKeepInvariant(s, r);
    forall k, j | 0 <= k < |s.vdevs| && 0 <= j < |s.rdevs| && s.rdevs[j].binding == Some(k)
      ensures r.vdevs[k] == s.vdevs[k].(inputs := s.rdevs[j].buffer)
    {
      UpdatedFromItsDevice(s, r, k, j);
    }
  }

  lemma UpdatedFromItsDevice(s: State, r: State, k: nat, j: nat)
    requires Invariant(s) && Update(s) == Ok(r)
    requires k < |s.vdevs| && j < |s.rdevs| && s.rdevs[j].binding == Some(k)
    ensures r.vdevs[k] == s.vdevs[k].(inputs := s.rdevs[j].buffer)
  {
    assert s.vdevs[k].binding == Some(s.rdevs[j].id);
    var f := FindRealDevice(s.rdevs, s.rdevs[j].id).value;
    assert f == j;
  }

  /** The invariant only reads the bindings and the real devices. */
  lemma SameBindingsKeepInvariant(s: State, t: State)
    requires Invariant(s) && t.rdevs == s.rdevs && |t.vdevs| == |s.vdevs|
    requires forall k :: 0 <= k < |s.vdevs| ==> t.vdevs[k].binding == s.vdevs[k].binding
    ensures Invariant(t)
  {
  }

  // ---------------------------------------------------------------------
  // The input thread's side of a triple buffer

  /** `buffer.write(inputs)` on the input thread: the real device with `id`
      publishes `v`.  Only that device's buffer changes; an id no real
      device carries changes nothing. */
  function Publish(s: State, id: DeviceId, v: DeviceInputs): (r: State)
    ensures r.vdevs == s.vdevs && |r.rdevs| == |s.rdevs|
    ensures forall j :: 0 <= j < |s.rdevs| ==> r.rdevs[j].(buffer := s.rdevs[j].buffer) == s.rdevs[j]
    ensures forall j :: 0 <= j < |s.rdevs| && s.rdevs[j].id != id ==> r.rdevs[j] == s.rdevs[j]
    ensures HasId(s.rdevs, id) ==> r.rdevs[FindRealDevice(s.rdevs, id).value].buffer == v
    ensures !HasId(s.rdevs, id) ==> r == s
  {
    match FindRealDevice(s.rdevs, id)
    case None => s
    case Some(j) => s.(rdevs := s.rdevs[j := s.rdevs[j].(buffer := v)])
  }

  /** Publishing keeps the invariant, and with distinct ids the device
      carrying `id` holds `v` afterwards. */
  lemma PublishPreserves(s: State, id: DeviceId, v: DeviceInputs)
    requires Invariant(s)
    ensures Invariant(Publish(s, id, v))
    ensures forall j :: 0 <= j < |s.rdevs| && s.rdevs[j].id == id ==> Publish(s, id, v).rdevs[j].buffer == v
  {
    var r := Publish(s, id, v);
    forall j | 0 <= j < |s.rdevs| && s.rdevs[j].id == id
      ensures r.rdevs[j].buffer == v
    {
      assert HasId(s.rdevs, id);
      assert FindRealDevice(s.rdevs, id).value == j;
    }
    assert forall j :: 0 <= j < |s.rdevs| ==> r.rdevs[j].id == s.rdevs[j].id && r.rdevs[j].binding == s.rdevs[j].binding;
    forall x | HasId(s.rdevs, x)
      ensures HasId(r.rdevs, x)
    {
      var j :| 0 <= j < |s.rdevs| && s.rdevs[j].id == x;
      assert r.rdevs[j].id == x;
    }
  }

  /** What a real device publishes reaches the virtual device bound to it
      on the next `update`. */
  lemma PublishThenUpdate(s: State, j: nat, k: nat, v: DeviceInputs)
    requires Invariant(s) && j < |s.rdevs| && s.rdevs[j].binding == Some(k)
    ensures var r := Update(Publish(s, s.rdevs[j].id, v));
            r.Ok? && k < |r.value.vdevs| && r.value.vdevs[k] == s.vdevs[k].(inputs := v)
  {
    var t := Publish(s, s.rdevs[j].id, v);
    PublishPreserves(s, s.rdevs[j].id, v);
    UpdateSpec(t);
  }

  /** What an unbound real device publishes reaches no virtual device: the
      next `update` gives the virtual devices it would have given anyway. */
  lemma PublishUnboundInvisible(s: State, j: nat, v: DeviceInputs)
    requires Invariant(s) && j < |s.rdevs| && s.rdevs[j].binding.None?
    ensures Update(Publish(s, s.rdevs[j].id, v)).Ok? && Update(s).Ok?
    ensures Update(Publish(s, s.rdevs[j].id, v)).value.vdevs == Update(s).value.vdevs
  {
    var t := Publish(s, s.rdevs[j].id, v);
    PublishPreserves(s, s.rdevs[j].id, v);
    UpdateSpec(s);
    UpdateSpec(t);
    var a := Update(s).value.vdevs;
    var b := Update(t).value.vdevs;
    forall k | 0 <= k < |s.vdevs|
      ensures a[k] == b[k]
    {
      if s.vdevs[k].binding.Some? {
        var f := FindRealDevice(s.rdevs, s.vdevs[k].binding.value).value;
        assert s.rdevs[f].binding == Some(k);
        assert t.rdevs[f] == s.rdevs[f];
        UpdatedFromItsDevice(s, Update(s).value, k, f);
        UpdatedFromItsDevice(t, Update(t).value, k, f);
      }
    }
  }

  // ---------------------------------------------------------------------
  // Context::update

  /** The events the input layer queues for the binding core. */
  datatype Event =
    | DeviceArrived(id: DeviceId, name: string, buffer: DeviceInputs)
    | DeviceRemoved(id: DeviceId)

  function ApplyEvent(s: State, e: Event): Outcome<State>
  {
    match e
    case DeviceArrived(id, name, buffer) => Ok(AddDevice(s, id, name, buffer))
    case DeviceRemoved(id) => RemoveDevice(s, id)
  }

  /** The events in queue order; the first panic ends the update. */
  function ApplyEvents(s: State, events: seq<Event>): Outcome<State>
    decreases |events|
  {
    if |events| == 0 then Ok(s)
    else match ApplyEvent(s, events[0])
      case Abort => Abort
      case Ok(t) => ApplyEvents(t, events[1..])
  }

  /** `Context::update`: apply the queued events in order, then copy the
      published inputs into the bound virtual devices. */
  function ContextUpdate(s: State, events: seq<Event>): Outcome<State>
  {
    match ApplyEvents(s, events)
    case Abort => Abort
    case Ok(t) => Update(t)
  }

  /** A queue the input layer can produce when `present` are the ids of the
      devices already reported: arrivals of new ids and removals of present
      ones. */
  predicate ValidEvents(present: set<DeviceId>, events: seq<Event>)
    decreases |events|
  {
    |events| == 0
    || match events[0]
       case DeviceArrived(id, _, _) => id !in present && ValidEvents(present + {id}, events[1..])
       case DeviceRemoved(id) => id in present && ValidEvents(present - {id}, events[1..])
  }

  /** A valid queue is applied without a panic and keeps the invariant. */
  lemma {:induction false} ApplyEventsPreserve(s: State, present: set<DeviceId>, events: seq<Event>)
    requires Invariant(s) && ValidEvents(present, events)
    requires forall x :: HasId(s.rdevs, x) <==> x in present
    ensures ApplyEvents(s, events).Ok? && Invariant(ApplyEvents(s, events).value)
    decreases |events|
  {
    if |events| > 0 {
      match events[0]
      case DeviceArrived(id, name, buffer) =>
        AddDeviceSpec(s, id, name, buffer);
        ApplyEventsPreserve(AddDevice(s, id, name, buffer), present + {id}, events[1..]);
      case DeviceRemoved(id) =>
        RemoveDeviceSpec(s, id);
        ApplyEventsPreserve(RemoveDevice(s, id).value, present - {id}, events[1..]);
    }
  }

  /** `Context::update` on a valid queue never panics and keeps the
      invariant. */
  lemma ContextUpdatePreserves(s: State, present: set<DeviceId>, events: seq<Event>)
    requires Invariant(s) && ValidEvents(present, events)
    requires forall x :: HasId(s.rdevs, x) <==> x in present
    ensures ContextUpdate(s, events).Ok? && Invariant(ContextUpdate(s, events).value)
  {
    ApplyEventsPreserve(s, present, events);
    UpdateSpec(ApplyEvents(s, events).value);
  }

  /** `Context::device_state`: an index beyond the virtual devices panics. */
  function DeviceState(s: State, idx: nat): (r: Outcome<DeviceInputs>)
    ensures r.Ok? <==> idx < |s.vdevs|
  {
    if idx < |s.vdevs| then Ok(s.vdevs[idx].inputs) else Abort
  }
}

=== FILE: config.dfy ===
/** The configuration file of the Rust library (dhc/src/config.rs): its
    values, the emulation-mode names, and the fallback policy of
    `Config::read`.  TOML parsing and the file system are supplied by the
    caller. */
module Configuration {
  import opened Wrappers
  import opened Logger

  datatype EmulationMode = DirectInput | XInput

  datatype DeadzoneConfig = DeadzoneConfig(enabled: bool, threshold: real)

  datatype Config = Config(console: bool, logLevel: LogLevel, deviceCount: nat, mode: EmulationMode,
                           dpadOverride: bool, deadzone: Option<DeadzoneConfig>)

  /** The values the built-in default file sets (dhc/src/config.rs:10-40):
      log level info, a console, two devices, DirectInput emulation, no
      D-pad override, and the deadzone off at threshold 0.5. */
  const DefaultConfig: Config :=
    Config(true, Info, 2, DirectInput, false, Some(DeadzoneConfig(false, 0.5)))

  /** `EmulationMode::deserialize`. */
  function ParseMode(s: string): (r: Option<EmulationMode>)
    ensures r == Some(DirectInput) <==> s == "directinput"
    ensures r == Some(XInput) <==> s == "xinput"
  {
    if s == "directinput" then Some(DirectInput)
    else if s == "xinput" then Some(XInput)
    else None
  }

  /** The mode names are the only strings accepted. */
  lemma ParseModeAcceptsOnlyNames(s: string)
    ensures ParseMode(s).Some? <==> s == "directinput" || s == "xinput"
  {
  }

  /** What opening and reading the configuration file gave. */
  datatype FileRead = OpenFailed | ReadFailed(error: string) | Contents(text: string)

  /** The effects of `Config::read` the model tracks: whether the default
      file was written over the path, and the result. */
  datatype ReadOutcome = ReadOutcome(wroteDefault: bool, result: Result<Config, string>)

  /** `Config::read`.  A file that opens and parses is used as is; a read
      error propagates; otherwise the default text is written to the path
      (a write error propagates) and parsed, and a default that does not
      parse panics.  `parse` is the TOML decoder, `defaultText` the
      built-in default file, `writeError` the outcome of writing it. */
  function Read(file: FileRead, parse: string -> Option<Config>, defaultText: string,
                writeError: Option<string>): (r: Outcome<ReadOutcome>)
    ensures file.Contents? && parse(file.text).Some? ==> r == Ok(ReadOutcome(false, Success(parse(file.text).value)))
    ensures file.ReadFailed? ==> r == Ok(ReadOutcome(false, Failure(file.error)))
    ensures r.Ok? && r.value.wroteDefault <==>
              r.Ok? && (file.OpenFailed? || (file.Contents? && parse(file.text).None?))
    ensures r.Abort? <==> (file.OpenFailed? || (file.Contents? && parse(file.text).None?))
                          && writeError.None? && parse(defaultText).None?
  {
    match file
    case ReadFailed(e) => Ok(ReadOutcome(false, Failure(e)))
    case Contents(text) =>
      if parse(text).Some? then Ok(ReadOutcome(false, Success(parse(text).value)))
      else Fallback(parse, defaultText, writeError)
    case OpenFailed => Fallback(parse, defaultText, writeError)
  }

  /** Write the default file and use its parse. */
  function Fallback(parse: string -> Option<Config>, defaultText: string, writeError: Option<string>)
    : (r: Outcome<ReadOutcome>)
    ensures r.Ok? ==> r.value.wroteDefault
  {
    match writeError
    case Some(e) => Ok(ReadOutcome(true, Failure(e)))
    case None =>
      match parse(defaultText)
      case None => Abort
      case Some(c) => Ok(ReadOutcome(true, Success(c)))
  }

  /** When the default text decodes to the default values, a missing or
      malformed file is replaced by the default file and the default
      configuration is used. */
  lemma MalformedFileIsReplaced(file: FileRead, parse: string -> Option<Config>, defaultText: string)
    requires parse(defaultText) == Some(DefaultConfig)
    requires file.OpenFailed? || (file.Contents? && parse(file.text).None?)
    ensures Read(file, parse, defaultText, None) == Ok(ReadOutcome(true, Success(DefaultConfig)))
  {
  }

  /** On a first run, with no file to open, `Config::read` writes the
      default file and, when its text decodes to the default values,
      configures a console and two DirectInput devices with the D-pad
      override and the deadzone off at threshold 0.5.  The strings the file
      gives the log level and the mode, "info" and "directinput", name the
      level and mode the configuration holds. */
  lemma FirstRunDefaults(parse: string -> Option<Config>, defaultText: string)
    requires parse(defaultText) == Some(DefaultConfig)
    ensures var r := Read(OpenFailed, parse, defaultText, None);
            r.Ok? && r.value.wroteDefault && r.value.result.Success?
            && var c := r.value.result.value;
               c.console && c.deviceCount == 2 && !c.dpadOverride
               && c.deadzone == Some(DeadzoneConfig(false, 0.5))
               && Deserialize("info") == Some(c.logLevel)
               && ParseMode("directinput") == Some(c.mode)
  {
    MalformedFileIsReplaced(OpenFailed, parse, defaultText);
  }
}

=== FILE: device_objects.dfy ===
/** The objects an emulated DirectInput device exposes (the
    `EmulatedDeviceObject` record of `dhc_dinput.h`, which is not part of
    this model): the static description the catalog fixes, and the
    per-object settings the property store changes. */
module DeviceObjects {
  import opened DInput
  import opened Inputs

  /** The controller input an object reports, or none. */
  datatype MappedObject = Unmapped | AxisMap(axis: AxisType) | ButtonMap(button: ButtonType) | HatMap(hat: HatType)

  /** What the catalog states about an object: name, type GUID, DIDFT type
      bits (without the instance), DIDOI flags, instance number, offset in
      the native data format, and the mapped input. */
  datatype ObjectInfo = ObjectInfo(name: string, guid: Guid, typeBits: Dword, flags: Dword,
                                   instanceId: nat, offset: nat, mapped: MappedObject)

  /** The settings the property store keeps for an object.  Dead zone and
      saturation are fractions of the axis travel; the range is the pair of
      `LONG`s a client installs with DIPROP_RANGE. */
  datatype Settings = Settings(deadzone: real, saturation: real, rangeMin: int, rangeMax: int)

  /** An object of a live device: its description, whether a data format has
      claimed it, and its settings. */
  datatype DeviceObject = DeviceObject(info: ObjectInfo, matched: bool, settings: Settings)

  /** A fresh device object.  The initial settings are the member
      initialisers of `EmulatedDeviceObject`, a parameter here. */
  function Fresh(info: ObjectInfo, init: Settings): (o: DeviceObject)
    ensures o.info == info && !o.matched && o.settings == init
  {
    DeviceObject(info, false, init)
  }

  function FreshAll(infos: seq<ObjectInfo>, init: Settings): (r: seq<DeviceObject>)
    ensures |r| == |infos|
    ensures forall i :: 0 <= i < |r| ==> r[i] == Fresh(infos[i], init)
  {
    seq(|infos|, i requires 0 <= i < |infos| => Fresh(infos[i], init))
  }

  /** The object is an axis in the sense of the DIDFT_AXIS test. */
  predicate IsAxis(info: ObjectInfo)
  {
    info.typeBits & DIDFT_AXIS != 0
  }

  /** The object's type bits agree with the input it reports: an axis input
      sits on an object with an axis bit, a button on one with a button bit,
      a hat on one with the POV bit. */
  predicate TypeAgreesWithMapping(info: ObjectInfo)
  {
    match info.mapped
    case Unmapped => true
    case AxisMap(_) => IsAxis(info)
    case ButtonMap(_) => info.typeBits & DIDFT_BUTTON != 0
    case HatMap(_) => info.typeBits & DIDFT_POV != 0
  }

  /** Axis, button and hat objects form three classes. */
  predicate SameClass(a: MappedObject, b: MappedObject)
  {
    a.AxisMap? == b.AxisMap? && a.ButtonMap? == b.ButtonMap? && a.HatMap? == b.HatMap?
  }
}

=== FILE: dhc_guid.dfy ===
/** The GUIDs of the emulated DirectInput devices (dinput8/utils.cpp): a
    fixed template whose last four bytes carry the virtual-device index,
    most significant byte first.  `uintptr_t` is 32 bits wide in the 32-bit
    build this models, so an index is a DWORD. */
module DhcGuid {
  import opened Wrappers
  import opened DInput

  /** `dhc_template`: the index bytes Data4[4..8] are zero. */
  const Template: Guid := Guid(0xdead_571c, 0x4efc, 0x9fa7, [0x9a, 0x7e, 0x8d, 0x10, 0x00, 0x00, 0x00, 0x00])

  /** `memcpy` of four bytes into a `uint32_t` on a little-endian machine. */
  function LoadLE(b: seq<Byte>): Dword
    requires |b| == 4
  {
    (b[0] as bv32) | ((b[1] as bv32) << 8) | ((b[2] as bv32) << 16) | ((b[3] as bv32) << 24)
  }

  /** `memcpy` of a `uint32_t` into four bytes on a little-endian machine. */
  function StoreLE(w: Dword): (b: seq<Byte>)
    ensures |b| == 4
  {
    [(w & 0xFF) as bv8, ((w >> 8) & 0xFF) as bv8, ((w >> 16) & 0xFF) as bv8, ((w >> 24) & 0xFF) as bv8]
  }

  /** `_byteswap_ulong`. */
  function ByteSwap(w: Dword): Dword
  {
    ((w & 0xFF) << 24) | (((w >> 8) & 0xFF) << 16) | (((w >> 16) & 0xFF) << 8) | ((w >> 24) & 0xFF)
  }

  /** Four bytes read as a big-endian number: the reference reading of the
      index bytes. */
  function BigEndian(b: seq<Byte>): Dword
    requires |b| == 4
  {
    ((b[0] as bv32) << 24) | ((b[1] as bv32) << 16) | ((b[2] as bv32) << 8) | (b[3] as bv32)
  }

  lemma LoadStoreInverse(w: Dword)
    ensures LoadLE(StoreLE(w)) == w
  {
  }

  lemma StoreLoadInverse(b: seq<Byte>)
    requires |b| == 4
    ensures StoreLE(LoadLE(b)) == b
  {
  }

  /** Swapping after a little-endian load is a big-endian load. */
  lemma SwappedLoadIsBigEndian(b: seq<Byte>)
    requires |b| == 4
    ensures ByteSwap(LoadLE(b)) == BigEndian(b)
  {
  }

  lemma ByteSwapInvolutive(w: Dword)
    ensures ByteSwap(ByteSwap(w)) == w
  {
  }

  /** The index field of a GUID. */
  function IndexBytes(g: Guid): seq<Byte>
  {
    g.data4[4..8]
  }

  /** `g` agrees with the template everywhere except in the index bytes. */
  predicate MatchesTemplate(g: Guid)
  {
    g.data1 == Template.data1 && g.data2 == Template.data2 && g.data3 == Template.data3
    && g.data4[..4] == Template.data4[..4]
  }

  /** `parse_dhc_guid`: zero the index bytes of a copy, compare the copy with
      the template, and byte-swap the little-endian load of the index bytes. */
  function Parse(g: Guid): (r: Option<Dword>)
    ensures r.Some? <==> MatchesTemplate(g)
    ensures r.Some? ==> r.value == BigEndian(IndexBytes(g))
  {
    var copy := g.(data4 := g.data4[..4] + [0, 0, 0, 0]);
    if copy != Template then
      assert copy.data4[..4] == g.data4[..4];
      None
    else
      SwappedLoadIsBigEndian(IndexBytes(g));
      Some(ByteSwap(LoadLE(IndexBytes(g))))
  }

  /** `create_dhc_guid`: the template with the byte-swapped index stored in
      the index bytes, so that they hold the index most significant byte
      first. */
  function Create(index: Dword): (g: Guid)
    ensures MatchesTemplate(g)
    ensures IndexBytes(g) == [(index >> 24) as bv8, ((index >> 16) & 0xFF) as bv8,
                              ((index >> 8) & 0xFF) as bv8, (index & 0xFF) as bv8]
  {
    var bytes := StoreLE(ByteSwap(index));
    var g := Template.(data4 := Template.data4[..4] + bytes);
    assert IndexBytes(g) == bytes;
    assert g.data4[..4] == Template.data4[..4];
    g
  }

  /** Decoding an encoded index gives the index back. */
  lemma ParseCreate(index: Dword)
    ensures Parse(Create(index)) == Some(index)
  {
    var g := Create(index);
    assert IndexBytes(g) == StoreLE(ByteSwap(index));
    SwappedLoadIsBigEndian(IndexBytes(g));
    LoadStoreInverse(ByteSwap(index));
    ByteSwapInvolutive(index);
  }

  /** Encoding a decoded index gives the GUID back. */
  lemma CreateParse(g: Guid)
    requires Parse(g).Some?
    ensures Create(Parse(g).value) == g
  {
    var b := IndexBytes(g);
    var i := Parse(g).value;
    SwappedLoadIsBigEndian(b);
    ByteSwapInvolutive(LoadLE(b));
    StoreLoadInverse(b);
    assert IndexBytes(Create(i)) == StoreLE(ByteSwap(i));
    assert Create(i).data4 == Create(i).data4[..4] + IndexBytes(Create(i));
    assert g.data4 == g.data4[..4] + b;
  }

  /** Distinct indices give distinct GUIDs. */
  lemma CreateInjective(i: Dword, j: Dword)
    requires Create(i) == Create(j)
    ensures i == j
  {
    ParseCreate(i);
    ParseCreate(j);
  }
}

=== FILE: di_strings.dfy ===
/** The diagnostic pretty-printers of dinput8/utils.cpp: HRESULT names,
    GUID names, and the decomposition of DIDFT_* object types and DIDOI_*
    object flags into named components joined with " | ". */
module DiStrings {
  import opened Wrappers
  import opened DInput
  import Strings
  import DhcGuid
  import opened FlagWords

  // ---------------------------------------------------------------------
  // dierr_to_string

  /** The six return codes `dierr_to_string` knows by name. */
  const NamedResults: set<Dword> :=
    {DI_OK, DIERR_INPUTLOST, DIERR_INVALIDPARAM, DIERR_NOTACQUIRED, DIERR_NOTINITIALIZED, E_PENDING}

  /** `dierr_to_string`: the name of one of six codes, "<unknown>" otherwise. */
  function DierrToString(result: Dword): (r: string)
    ensures r != "<unknown>" <==> result in NamedResults
  {
    if result == DI_OK then "DI_OK"
    else if result == DIERR_INPUTLOST then "DIERR_INPUTLOST"
    else if result == DIERR_INVALIDPARAM then "DIERR_INVALIDPARAM"
    else if result == DIERR_NOTACQUIRED then "DIERR_NOTACQUIRED"
    else if result == DIERR_NOTINITIALIZED then "DIERR_NOTINITIALIZED"
    else if result == E_PENDING then "E_PENDING"
    else "<unknown>"
  }

  /** Distinct named codes get distinct names. */
  lemma DierrNamesDistinct(a: Dword, b: Dword)
    requires a in NamedResults && b in NamedResults
    requires DierrToString(a) == DierrToString(b)
    ensures a == b
  {
  }

  // ---------------------------------------------------------------------
  // Bitwise OR as the join of `FlagWords`.

  function Or(a: Dword, b: Dword): Dword { a | b }

  /** The OR of the bits every component stands for. */
  function OrAll<P>(parts: seq<P>, bits: P -> Dword): Dword
  {
    Fold(parts, bits, Or, 0)
  }

  /** A group that owns `mask` and pushes a component standing for exactly
      the bits of the word under that mask splits the word without loss. */
  lemma SplitByMask(w: Dword, m: Dword, b: Dword)
    requires b == w & m
    ensures Or(b, w & !m) == w
  {
  }

  function UnknownName(v: Dword): string
  {
    "<unknown value " + Strings.Decimal(v as nat) + ">"
  }

  // ---------------------------------------------------------------------
  // didft_to_string

  datatype DidftPart =
    | AxisAll | AbsAxis | RelAxis
    | ButtonAll | PshButton | TglButton
    | Pov | VendorDefined | Collection | NoData | Optional
    | AnyInstance | Instance(instance: Dword)
    | UnknownType(bits: Dword)

  function DidftName(p: DidftPart): (r: string)
    ensures |r| > 1
  {
    match p
    case AxisAll => "DIDFT_AXIS"
    case AbsAxis => "DIDFT_ABSAXIS"
    case RelAxis => "DIDFT_RELAXIS"
    case ButtonAll => "DIDFT_BUTTON"
    case PshButton => "DIDFT_PSHBUTTON"
    case TglButton => "DIDFT_TGLBUTTON"
    case Pov => "DIDFT_POV"
    case VendorDefined => "DIDFT_VENDORDEFINED"
    case Collection => "DIDFT_COLLECTION"
    case NoData => "DIDFT_NODATA"
    case Optional => "DIDFT_OPTIONAL"
    case AnyInstance => "DIDFT_ANYINSTANCE"
    case Instance(n) => "DIDFT_MAKE_INSTANCE(" + Strings.Decimal(n as nat) + ")"
    case UnknownType(v) => UnknownName(v)
  }

  /** The bits of the type word a component stands for. */
  function DidftBits(p: DidftPart): Dword
  {
    match p
    case AxisAll => DIDFT_AXIS
    case AbsAxis => DIDFT_ABSAXIS
    case RelAxis => DIDFT_RELAXIS
    case ButtonAll => DIDFT_BUTTON
    case PshButton => DIDFT_PSHBUTTON
    case TglButton => DIDFT_TGLBUTTON
    case Pov => DIDFT_POV
    case VendorDefined => DIDFT_VENDORDEFINED
    case Collection => DIDFT_COLLECTION
    case NoData => DIDFT_NODATA
    case Optional => DIDFT_OPTIONAL
    case AnyInstance => DIDFT_ANYINSTANCE
    case Instance(n) => MakeInstance(n)
    case UnknownType(v) => v
  }

  /** The groups of `didft_to_string`, in its order. */
  datatype DidftGroup = AxisGroup | ButtonGroup | TypeFlag(flag: DidftPart) | InstanceGroup

  const DidftTable: seq<DidftGroup> := [
    AxisGroup, ButtonGroup,
    TypeFlag(Pov), TypeFlag(VendorDefined), TypeFlag(Collection), TypeFlag(NoData),
    TypeFlag(Optional),
    InstanceGroup]

  function DidftMask(g: DidftGroup): Dword
  {
    match g
    case AxisGroup => DIDFT_AXIS
    case ButtonGroup => DIDFT_BUTTON
    case TypeFlag(p) => DidftBits(p)
    case InstanceGroup => DIDFT_ANYINSTANCE
  }

  /** Each group clears the bits it owns. */
  function DidftClear(g: DidftGroup, t: Dword): Dword
  {
    t & !DidftMask(g)
  }

  /** What one group pushes: both axis bits, else absolute, else relative;
      both button bits, else push, else toggle; a flag when its bit is set;
      all instance bits, else the instance number when any is set. */
  function DidftClassify(g: DidftGroup, t: Dword): Option<DidftPart>
  {
    match g
    case AxisGroup =>
      if t & DIDFT_AXIS == DIDFT_AXIS then Some(AxisAll)
      else if t & DIDFT_AXIS == DIDFT_ABSAXIS then Some(AbsAxis)
      else if t & DIDFT_AXIS == DIDFT_RELAXIS then Some(RelAxis)
      else None
    case ButtonGroup =>
      if t & DIDFT_BUTTON == DIDFT_BUTTON then Some(ButtonAll)
      else if t & DIDFT_BUTTON == DIDFT_PSHBUTTON then Some(PshButton)
      else if t & DIDFT_BUTTON == DIDFT_TGLBUTTON then Some(TglButton)
      else None
    case TypeFlag(p) => if t & DidftBits(p) != 0 then Some(p) else None
    case InstanceGroup =>
      if t & DIDFT_ANYINSTANCE == DIDFT_ANYINSTANCE then Some(AnyInstance)
      else if t & DIDFT_ANYINSTANCE != 0 then Some(Instance(GetInstance(t)))
      else None
  }

  function DidftUnknown(v: Dword): DidftPart { UnknownType(v) }

  /** The components `didft_to_string` pushes for a type word. */
  function DidftParts(t: Dword): seq<DidftPart>
  {
    Components(DidftTable, t, DidftClear, DidftClassify, 0, DidftUnknown)
  }

  /** `didft_to_string`. */
  function DidftToString(t: Dword): string
  {
    Render(DidftParts(t), DidftName)
  }

  /** The values a word can show under a two-bit mask. */
  lemma TwoBitField(t: Dword, m: Dword, lo: Dword, hi: Dword)
    requires (m == 3 && lo == 1 && hi == 2) || (m == 0xC && lo == 4 && hi == 8)
      || (m == 0x300 && lo == 0x100 && hi == 0x200)
    ensures t & m == 0 || t & m == lo || t & m == hi || t & m == m
    ensures t & lo != 0 <==> t & m == lo || t & m == m
    ensures t & hi != 0 <==> t & m == hi || t & m == m
  {
  }

  /** Under a one-bit mask a word shows either nothing or the bit. */
  lemma OneBitField(t: Dword, m: Dword)
    requires m in {DIDFT_POV, DIDFT_VENDORDEFINED, DIDFT_COLLECTION, DIDFT_NODATA, DIDFT_OPTIONAL,
                   DIDOI_ASPECTFORCE, DIDOI_POLLED, DIDOI_FFACTUATOR, DIDOI_FFEFFECTTRIGGER}
    ensures t & m == 0 || t & m == m
  {
  }

  /** Within the instance field, making the instance the word carries gives
      the field back. */
  lemma InstanceBits(t: Dword)
    ensures MakeInstance(GetInstance(t)) == t & DIDFT_ANYINSTANCE
  {
  }

  /** A group whose component stands for exactly the word's bits under the
      mask (no component when there are none) splits the word without loss. */
  lemma ClaimSplits<P>(c: Option<P>, bits: P -> Dword, t: Dword, m: Dword, rest: Dword)
    requires c.Some? ==> bits(c.value) == t & m
    requires c.None? ==> t & m == 0
    requires rest == t & !m
    ensures Prepend(c, rest, bits, Or) == t
  {
    var b := if c.Some? then bits(c.value) else 0;
    SplitByMask(t, m, b);
  }

  // The component each group pushes stands for exactly the bits of the word
  // under the group's mask; a group pushing nothing sees no bit.

  lemma DidftAxisGroupBits(t: Dword)
    ensures DidftClassify(AxisGroup, t).Some? ==> DidftBits(DidftClassify(AxisGroup, t).value) == t & DIDFT_AXIS
    ensures DidftClassify(AxisGroup, t).None? ==> t & DIDFT_AXIS == 0
  {
    TwoBitField(t, DIDFT_AXIS, DIDFT_RELAXIS, DIDFT_ABSAXIS);
  }

  lemma DidftButtonGroupBits(t: Dword)
    ensures DidftClassify(ButtonGroup, t).Some? ==> DidftBits(DidftClassify(ButtonGroup, t).value) == t & DIDFT_BUTTON
    ensures DidftClassify(ButtonGroup, t).None? ==> t & DIDFT_BUTTON == 0
  {
    TwoBitField(t, DIDFT_BUTTON, DIDFT_PSHBUTTON, DIDFT_TGLBUTTON);
  }

  lemma DidftFlagBits(p: DidftPart, t: Dword)
    requires p in {Pov, VendorDefined, Collection, NoData, Optional}
    ensures DidftClassify(TypeFlag(p), t).Some? ==> DidftBits(p) == t & DidftBits(p)
    ensures DidftClassify(TypeFlag(p), t).None? ==> t & DidftBits(p) == 0
  {
    OneBitField(t, DidftBits(p));
  }

  lemma DidftInstanceGroupBits(t: Dword)
    ensures DidftClassify(InstanceGroup, t).Some? ==> DidftBits(DidftClassify(InstanceGroup, t).value) == t & DIDFT_ANYINSTANCE
    ensures DidftClassify(InstanceGroup, t).None? ==> t & DIDFT_ANYINSTANCE == 0
  {
    InstanceBits(t);
  }

  lemma DidftAxisSplits(t: Dword)
    ensures Prepend(DidftClassify(AxisGroup, t), DidftClear(AxisGroup, t), DidftBits, Or) == t
  {
    DidftAxisGroupBits(t);
    ClaimSplits(DidftClassify(AxisGroup, t), DidftBits, t, DIDFT_AXIS, DidftClear(AxisGroup, t));
  }

  lemma DidftButtonSplits(t: Dword)
    ensures Prepend(DidftClassify(ButtonGroup, t), DidftClear(ButtonGroup, t), DidftBits, Or) == t
  {
    DidftButtonGroupBits(t);
    ClaimSplits(DidftClassify(ButtonGroup, t), DidftBits, t, DIDFT_BUTTON, DidftClear(ButtonGroup, t));
  }

  lemma DidftFlagSplits(p: DidftPart, t: Dword)
    requires p in {Pov, VendorDefined, Collection, NoData, Optional}
    ensures Prepend(DidftClassify(TypeFlag(p), t), DidftClear(TypeFlag(p), t), DidftBits, Or) == t
  {
    var m := DidftBits(p);
    var c := DidftClassify(TypeFlag(p), t);
    assert DidftClear(TypeFlag(p), t) == t & !m;
    FlagSplits(c, p, t, m);
  }

  /** A one-bit flag either claims its bit or sees none, and splits the word
      without loss. */
  lemma FlagSplits(c: Option<DidftPart>, p: DidftPart, t: Dword, m: Dword)
    requires m in {DIDFT_POV, DIDFT_VENDORDEFINED, DIDFT_COLLECTION, DIDFT_NODATA, DIDFT_OPTIONAL}
    requires DidftBits(p) == m
    requires c == (if t & m != 0 then Some(p) else None)
    ensures Prepend(c, t & !m, DidftBits, Or) == t
  {
    OneBitField(t, m);
    ClaimSplits(c, DidftBits, t, m, t & !m);
  }

  lemma DidftInstanceSplits(t: Dword)
    ensures Prepend(DidftClassify(InstanceGroup, t), DidftClear(InstanceGroup, t), DidftBits, Or) == t
  {
    DidftInstanceGroupBits(t);
    ClaimSplits(DidftClassify(InstanceGroup, t), DidftBits, t, DIDFT_ANYINSTANCE, DidftClear(InstanceGroup, t));
  }

  lemma DidftGroupSplits(g: DidftGroup, t: Dword)
    requires g in DidftTable
    ensures Prepend(DidftClassify(g, t), DidftClear(g, t), DidftBits, Or) == t
  {
    match g
    case AxisGroup => DidftAxisSplits(t);
    case ButtonGroup => DidftButtonSplits(t);
    case TypeFlag(p) => DidftFlagSplits(p, t);
    case InstanceGroup => DidftInstanceSplits(t);
  }

  lemma DidftTableLaws()
    ensures forall g, v :: g in DidftTable ==> Prepend(DidftClassify(g, v), DidftClear(g, v), DidftBits, Or) == v
    ensures forall v :: v != 0 ==> Or(DidftBits(DidftUnknown(v)), 0) == v
    ensures forall g :: g in DidftTable ==> DidftClassify(g, 0).None? && DidftClear(g, 0) == 0
  {
    forall g, v | g in DidftTable
      ensures Prepend(DidftClassify(g, v), DidftClear(g, v), DidftBits, Or) == v
    {
      DidftGroupSplits(g, v);
    }
  }

  /** The components account for every bit of the type word: OR-ing the bits
      they stand for gives the word back, so the printout loses no bit and
      invents none. */
  lemma DidftPartsCover(t: Dword)
    ensures OrAll(DidftParts(t), DidftBits) == t
  {
    DidftTableLaws();
    ComponentsFromCover(DidftTable, 0, t, DidftClear, DidftClassify, 0, DidftUnknown, DidftBits, Or);
  }

  /** `didft_to_string` prints "0" exactly for the zero word. */
  lemma DidftZero(t: Dword)
    ensures DidftToString(t) == "0" <==> t == 0
  {
    DidftTableLaws();
    RenderZero(DidftTable, t, DidftClear, DidftClassify, 0, DidftUnknown, DidftBits, Or, DidftName);
  }

  // ---------------------------------------------------------------------
  // didoi_to_string

  datatype DidoiPart =
    | AspectAccel | AspectPosition | AspectVelocity | AspectForce
    | Polled | FfActuator | FfEffectTrigger
    | UnknownFlags(bits: Dword)

  function DidoiName(p: DidoiPart): (r: string)
    ensures |r| > 1
  {
    match p
    case AspectAccel => "DIDOI_ASPECTACCEL"
    case AspectPosition => "DIDOI_ASPECTPOSITION"
    case AspectVelocity => "DIDOI_ASPECTVELOCITY"
    case AspectForce => "DIDOI_ASPECTFORCE"
    case Polled => "DIDOI_POLLED"
    case FfActuator => "DIDOI_FFACTUATOR"
    case FfEffectTrigger => "DIDOI_FFEFFECTTRIGGER"
    case UnknownFlags(v) => UnknownName(v)
  }

  function DidoiBits(p: DidoiPart): Dword
  {
    match p
    case AspectAccel => DIDOI_ASPECTACCEL
    case AspectPosition => DIDOI_ASPECTPOSITION
    case AspectVelocity => DIDOI_ASPECTVELOCITY
    case AspectForce => DIDOI_ASPECTFORCE
    case Polled => DIDOI_POLLED
    case FfActuator => DIDOI_FFACTUATOR
    case FfEffectTrigger => DIDOI_FFEFFECTTRIGGER
    case UnknownFlags(v) => v
  }

  predicate IsAspect(p: DidoiPart)
  {
    p.AspectAccel? || p.AspectPosition? || p.AspectVelocity?
  }

  /** The groups of `didoi_to_string`, in its order.  The aspect group owns
      the two bits of DIDOI_ASPECTACCEL (position and velocity); the force
      aspect is a group of its own. */
  datatype DidoiGroup = AspectGroup | ObjectFlag(flag: DidoiPart)

  const DidoiTable: seq<DidoiGroup> := [
    AspectGroup,
    ObjectFlag(AspectForce), ObjectFlag(Polled), ObjectFlag(FfActuator), ObjectFlag(FfEffectTrigger)]

  function DidoiMask(g: DidoiGroup): Dword
  {
    match g
    case AspectGroup => DIDOI_ASPECTACCEL
    case ObjectFlag(p) => DidoiBits(p)
  }

  function DidoiClear(g: DidoiGroup, f: Dword): Dword
  {
    f & !DidoiMask(g)
  }

  /** What one group pushes: both aspect bits mean acceleration, else the
      position bit, else the velocity bit; a flag when its bit is set. */
  function DidoiClassify(g: DidoiGroup, f: Dword): Option<DidoiPart>
  {
    match g
    case AspectGroup =>
      if f & DIDOI_ASPECTACCEL == DIDOI_ASPECTACCEL then Some(AspectAccel)
      else if f & DIDOI_ASPECTPOSITION != 0 then Some(AspectPosition)
      else if f & DIDOI_ASPECTVELOCITY != 0 then Some(AspectVelocity)
      else None
    case ObjectFlag(p) => if f & DidoiBits(p) != 0 then Some(p) else None
  }

  function DidoiUnknown(v: Dword): DidoiPart { UnknownFlags(v) }

  /** The components `didoi_to_string` pushes for a flag word. */
  function DidoiParts(f: Dword): seq<DidoiPart>
  {
    Components(DidoiTable, f, DidoiClear, DidoiClassify, 0, DidoiUnknown)
  }

  /** `didoi_to_string`. */
  function DidoiToString(f: Dword): string
  {
    Render(DidoiParts(f), DidoiName)
  }

  lemma DidoiAspectGroupBits(f: Dword)
    ensures DidoiClassify(AspectGroup, f).Some? ==> DidoiBits(DidoiClassify(AspectGroup, f).value) == f & DIDOI_ASPECTACCEL
    ensures DidoiClassify(AspectGroup, f).None? ==> f & DIDOI_ASPECTACCEL == 0
  {
    TwoBitField(f, DIDOI_ASPECTACCEL, DIDOI_ASPECTPOSITION, DIDOI_ASPECTVELOCITY);
  }

  lemma DidoiFlagBits(p: DidoiPart, f: Dword)
    requires p in {AspectForce, Polled, FfActuator, FfEffectTrigger}
    ensures DidoiClassify(ObjectFlag(p), f).Some? ==> DidoiBits(p) == f & DidoiBits(p)
    ensures DidoiClassify(ObjectFlag(p), f).None? ==> f & DidoiBits(p) == 0
  {
    OneBitField(f, DidoiBits(p));
  }

  lemma DidoiAspectSplits(f: Dword)
    ensures Prepend(DidoiClassify(AspectGroup, f), DidoiClear(AspectGroup, f), DidoiBits, Or) == f
  {
    DidoiAspectGroupBits(f);
    ClaimSplits(DidoiClassify(AspectGroup, f), DidoiBits, f, DIDOI_ASPECTACCEL, DidoiClear(AspectGroup, f));
  }

  lemma DidoiFlagSplits(p: DidoiPart, f: Dword)
    requires p in {AspectForce, Polled, FfActuator, FfEffectTrigger}
    ensures Prepend(DidoiClassify(ObjectFlag(p), f), DidoiClear(ObjectFlag(p), f), DidoiBits, Or) == f
  {
    DidoiFlagBits(p, f);
    ClaimSplits(DidoiClassify(ObjectFlag(p), f), DidoiBits, f, DidoiBits(p), DidoiClear(ObjectFlag(p), f));
  }

  lemma DidoiGroupSplits(g: DidoiGroup, f: Dword)
    requires g in DidoiTable
    ensures Prepend(DidoiClassify(g, f), DidoiClear(g, f), DidoiBits, Or) == f
  {
    match g
    case AspectGroup => DidoiAspectSplits(f);
    case ObjectFlag(p) => DidoiFlagSplits(p, f);
  }

  lemma DidoiTableLaws()
    ensures forall g, v :: g in DidoiTable ==> Prepend(DidoiClassify(g, v), DidoiClear(g, v), DidoiBits, Or) == v
    ensures forall v :: v != 0 ==> Or(DidoiBits(DidoiUnknown(v)), 0) == v
    ensures forall g :: g in DidoiTable ==> DidoiClassify(g, 0).None? && DidoiClear(g, 0) == 0
  {
    forall g, v | g in DidoiTable
      ensures Prepend(DidoiClassify(g, v), DidoiClear(g, v), DidoiBits, Or) == v
    {
      DidoiGroupSplits(g, v);
    }
  }

  /** The components account for every bit of the flag word. */
  lemma DidoiPartsCover(f: Dword)
    ensures OrAll(DidoiParts(f), DidoiBits) == f
  {
    DidoiTableLaws();
    ComponentsFromCover(DidoiTable, 0, f, DidoiClear, DidoiClassify, 0, DidoiUnknown, DidoiBits, Or);
  }

  /** `didoi_to_string` prints "0" exactly for the zero word. */
  lemma DidoiZero(f: Dword)
    ensures DidoiToString(f) == "0" <==> f == 0
  {
    DidoiTableLaws();
    RenderZero(DidoiTable, f, DidoiClear, DidoiClassify, 0, DidoiUnknown, DidoiBits, Or, DidoiName);
  }

  /** The flag groups never push an aspect. */
  lemma {:induction false} FlagGroupsHaveNoAspect(k: nat, f: Dword)
    requires 1 <= k <= |DidoiTable|
    ensures forall p :: p in ComponentsFrom(DidoiTable, k, f, DidoiClear, DidoiClassify, 0, DidoiUnknown)
                      ==> !IsAspect(p)
    decreases |DidoiTable| - k
  {
    if k < |DidoiTable| {
      FlagGroupsHaveNoAspect(k + 1, DidoiClear(DidoiTable[k], f));
    }
  }

  /** At most one of acceleration, position and velocity is printed, and
      then first. */
  lemma DidoiSingleAspect(f: Dword)
    ensures forall i :: 0 <= i < |DidoiParts(f)| && IsAspect(DidoiParts(f)[i]) ==> i == 0
  {
    var head := OptionList(DidoiClassify(AspectGroup, f));
    var tail := ComponentsFrom(DidoiTable, 1, DidoiClear(AspectGroup, f), DidoiClear, DidoiClassify, 0, DidoiUnknown);
    FlagGroupsHaveNoAspect(1, DidoiClear(AspectGroup, f));
    assert DidoiParts(f) == head + tail;
  }
}

=== FILE: dinput8_api.dfy ===
/** The entry points of the emulated DirectInput 8 interface and device
    that route and enumerate (dinput8/dinput.cpp): `CreateDevice`,
    `EnumDevices`, `GetDeviceInfo`, `EnumObjects` and `GetCapabilities`. */
module Dinput8Api {
  import opened Wrappers
  import opened DInput
  import opened Strings
  import opened DeviceObjects
  import opened Negotiation
  import opened Enumeration
  import opened Ps4Catalog
  import DhcGuid

  /** The emulated `IDirectInput8`: one emulated device per virtual device
      index, in index order. */
  datatype DirectInput = DirectInput(devices: seq<nat>)

  /** The constructor: no emulated devices when XInput emulation is on,
      otherwise devices 0 .. count-1 (`dhc_get_device_count`). */
  function NewDirectInput(xinputEnabled: bool, deviceCount: nat): (di: DirectInput)
    ensures xinputEnabled ==> di.devices == []
    ensures !xinputEnabled ==> |di.devices| == deviceCount && forall i :: 0 <= i < deviceCount ==> di.devices[i] == i
  {
    if xinputEnabled then DirectInput([]) else DirectInput(seq(deviceCount, i => i))
  }

  /** What `CreateDevice` hands back. */
  datatype Created =
    | Passthrough                // the real DirectInput creates the device
    | Emulated(vdev: nat)        // a new reference to an emulated device
    | NotRegistered              // DIERR_DEVICENOTREG, `*device = nullptr`

  /** `CreateDevice`: the system keyboard and mouse go to the real
      DirectInput, a DHC GUID to the emulated device it names, anything
      else is not registered.  An index beyond the device list is an
      unchecked vector access. */
  function CreateDevice(di: DirectInput, g: Guid): (r: Outcome<Created>)
    ensures g == GUID_SysKeyboard || g == GUID_SysMouse ==> r == Ok(Passthrough)
    ensures g != GUID_SysKeyboard && g != GUID_SysMouse ==>
              match DhcGuid.Parse(g)
              case None => r == Ok(NotRegistered)
              case Some(idx) => if U(idx) < |di.devices| then r == Ok(Emulated(di.devices[U(idx)])) else r.Abort?
  {
    if g == GUID_SysKeyboard || g == GUID_SysMouse then Ok(Passthrough)
    else match DhcGuid.Parse(g)
      case Some(idx) =>
        if U(idx) < |di.devices| then Ok(Emulated(di.devices[U(idx)])) else Abort
      case None => Ok(NotRegistered)
  }

  /** The HRESULT of a `CreateDevice` that did not pass through. */
  function CreatedResult(c: Created): (hr: Dword)
    requires !c.Passthrough?
    ensures hr == DI_OK <==> c.Emulated?
  {
    if c.Emulated? then DI_OK else DIERR_DEVICENOTREG
  }

  /** Every emulated device is reachable through the GUID that
      `GetDeviceInfo` reports for it. */
  lemma CreateDeviceRoundTrip(deviceCount: nat, i: Dword)
    requires U(i) < deviceCount
    ensures CreateDevice(NewDirectInput(false, deviceCount), DhcGuid.Create(i)) == Ok(Emulated(U(i)))
  {
    DhcGuid.ParseCreate(i);
    DhcGuidsAreNotSystem(i);
  }

  /** No DHC GUID names the system keyboard or mouse. */
  lemma DhcGuidsAreNotSystem(i: Dword)
    ensures DhcGuid.Create(i) != GUID_SysKeyboard && DhcGuid.Create(i) != GUID_SysMouse
  {
    assert DhcGuid.Create(i).data1 == DhcGuid.Template.data1;
  }

  /** `DIDEVICEINSTANCE`, the fields the model distinguishes. */
  datatype DeviceInstance = DeviceInstance(guidInstance: Guid, guidProduct: Guid, devType: Dword,
                                           instanceName: string, productName: string)

  const KeyboardInstance: DeviceInstance :=
    DeviceInstance(GUID_SysKeyboard, GUID_SysKeyboard, DI8DEVTYPE_KEYBOARD | (DI8DEVTYPEKEYBOARD_PCENH << 8),
                   "Keyboard", "Keyboard")

  const MouseInstance: DeviceInstance :=
    DeviceInstance(GUID_SysMouse, GUID_SysMouse, DI8DEVTYPE_MOUSE | (DI8DEVTYPEMOUSE_TRADITIONAL << 8),
                   "Mouse", "Mouse")

  /** `printf("%ld", (long)x)` for the 32-bit `long`. */
  function LongDecimal(x: int): (r: string)
    ensures 0 < |r|
  {
    var v := x % 0x1_0000_0000;
    if v >= 0x8000_0000 then "-" + Decimal(0x1_0000_0000 - v) else Decimal(v)
  }

  /** The name of virtual device `vdev`: "DHC P" and the 1-based index,
      computed in `uintptr_t` and printed as a 32-bit `long`. */
  function StickName(vdev: nat): string
  {
    "DHC P" + LongDecimal(vdev + 1)
  }

  /** The instance of virtual device `vdev`: its DHC GUID as instance and
      product, a standard gamepad, named "DHC P" and the 1-based index
      (`uintptr_t` arithmetic, printed as a 32-bit `long`). */
  function StickInstance(vdev: nat): DeviceInstance
  {
    var name := StickName(vdev);
    var g := DhcGuid.Create(ToDword(vdev));
    DeviceInstance(g, g, DI8DEVTYPE_GAMEPAD | (DI8DEVTYPEGAMEPAD_STANDARD << 8), name, name)
  }

  /** `GetDeviceInfo`: DIERR_INVALIDPARAM unless `dwSize` is the size of
      the character width's `DIDEVICEINSTANCE`. */
  function GetDeviceInfo(vdev: nat, wide: bool, dwSize: Dword): (r: (Dword, Option<DeviceInstance>))
    ensures r.0 == DI_OK <==> r.1.Some?
    ensures r.0 == DI_OK <==> dwSize == (if wide then SIZEOF_DIDEVICEINSTANCEW else SIZEOF_DIDEVICEINSTANCEA)
    ensures r.1.Some? ==> r.1.value == StickInstance(vdev)
  {
    if dwSize != (if wide then SIZEOF_DIDEVICEINSTANCEW else SIZEOF_DIDEVICEINSTANCEA) then (DIERR_INVALIDPARAM, None)
    else (DI_OK, Some(StickInstance(vdev)))
  }

  /** A small virtual device is named by its 1-based index, and the GUID it
      reports names it back. */
  lemma StickInstanceName(vdev: nat)
    requires vdev + 1 < 0x8000_0000
    ensures StickInstance(vdev).instanceName == "DHC P" + Decimal(vdev + 1)
    ensures StickInstance(vdev).productName == StickInstance(vdev).instanceName
  {
    LongDecimalSmall(vdev + 1);
  }

  lemma LongDecimalSmall(x: nat)
    requires x < 0x8000_0000
    ensures LongDecimal(x) == Decimal(x)
  {
    assert x % 0x1_0000_0000 == x;
  }

  /** The GUID a device reports is parsed back to its index. */
  lemma StickInstanceGuid(vdev: nat)
    ensures DhcGuid.Parse(StickInstance(vdev).guidInstance) == Some(ToDword(vdev))
  {
    DhcGuid.ParseCreate(ToDword(vdev));
  }

  /** The candidates of `EnumDevices` for a device class: the keyboard,
      the mouse, then every emulated device, each only for its class or
      DI8DEVCLASS_ALL. */
  function Candidates(di: DirectInput, devType: Dword): (r: seq<DeviceInstance>)
  {
    var all := devType == DI8DEVCLASS_ALL;
    (if all || devType == DI8DEVCLASS_KEYBOARD then [KeyboardInstance] else [])
    + (if all || devType == DI8DEVCLASS_POINTER then [MouseInstance] else [])
    + (if all || devType == DI8DEVCLASS_GAMECTRL then Sticks(di.devices) else [])
  }

  function Sticks(vdevs: seq<nat>): (r: seq<DeviceInstance>)
    ensures |r| == |vdevs|
    ensures forall i :: 0 <= i < |vdevs| ==> r[i] == StickInstance(vdevs[i])
  {
    seq(|vdevs|, i requires 0 <= i < |vdevs| => StickInstance(vdevs[i]))
  }

  /** The flags `EnumDevices` accepts without complaint. */
  const ToleratedEnumFlags: Dword :=
    DIEDFL_ATTACHEDONLY | DIEDFL_FORCEFEEDBACK | DIEDFL_INCLUDEALIASES | DIEDFL_INCLUDEHIDDEN | DIEDFL_INCLUDEPHANTOMS

  /** `EnumDevices`: the HRESULT and the instances handed to the callback.
      A force-feedback request returns 0 without any callback; any flag
      beyond the tolerated ones is fatal; the callback's k-th verdict is
      `callback(k, instance)`, and DIENUM_STOP ends the enumeration. */
  function EnumDevices(di: DirectInput, devType: Dword, flags: Dword, callback: (nat, DeviceInstance) -> Dword)
    : (r: Outcome<(Dword, seq<DeviceInstance>)>)
    ensures flags & DIEDFL_FORCEFEEDBACK != 0 ==> r == Ok((0, []))
    ensures flags & DIEDFL_FORCEFEEDBACK == 0 ==> (r.Ok? <==> flags & !ToleratedEnumFlags == 0)
    ensures r.Ok? ==> r.value.0 == DI_OK && r.value.1 <= Candidates(di, devType)
  {
    if flags & DIEDFL_FORCEFEEDBACK != 0 then Ok((0, []))
    else if flags & !ToleratedEnumFlags != 0 then Abort
    else Ok((DI_OK, Enumerate(Candidates(di, devType), (k, inst) => callback(k, inst) == DIENUM_STOP)))
  }

  /** With DI8DEVCLASS_ALL and a callback that never stops, the client sees
      the keyboard, the mouse and then every emulated device in index
      order. */
  lemma EnumDevicesOrder(di: DirectInput, flags: Dword, callback: (nat, DeviceInstance) -> Dword)
    requires flags & !ToleratedEnumFlags == 0 && flags & DIEDFL_FORCEFEEDBACK == 0
    requires forall k, inst :: callback(k, inst) != DIENUM_STOP
    ensures EnumDevices(di, DI8DEVCLASS_ALL, flags, callback) == Ok((DI_OK, [KeyboardInstance, MouseInstance] + Sticks(di.devices)))
  {
    var c := Candidates(di, DI8DEVCLASS_ALL);
    assert c == [KeyboardInstance, MouseInstance] + Sticks(di.devices);
    EnumerateAll(c, (k, inst) => callback(k, inst) == DIENUM_STOP);
  }

  /** A device class other than the four handled ones enumerates nothing. */
  lemma EnumDevicesOtherClass(di: DirectInput, devType: Dword, flags: Dword, callback: (nat, DeviceInstance) -> Dword)
    requires devType !in {DI8DEVCLASS_ALL, DI8DEVCLASS_KEYBOARD, DI8DEVCLASS_POINTER, DI8DEVCLASS_GAMECTRL}
    requires EnumDevices(di, devType, flags, callback).Ok?
    ensures EnumDevices(di, devType, flags, callback).value.1 == []
  {
  }

  /** `DIDEVICEOBJECTINSTANCE`, the fields the model distinguishes. */
  datatype ObjectInstance = ObjectInstance(guidType: Guid, ofs: nat, dwType: Dword, dwFlags: Dword, name: string)

  /** The instance an object is enumerated as: its type bits carry the
      instance number (DIDFT_MAKEINSTANCE). */
  function ObjectInstanceOf(o: ObjectInfo): (r: ObjectInstance)
    ensures r.dwType & !DIDFT_ANYINSTANCE == o.typeBits & !DIDFT_ANYINSTANCE
  {
    var t := o.typeBits | MakeInstance(ToDword(o.instanceId));
    InstanceBitsAside(o.typeBits, MakeInstance(ToDword(o.instanceId)));
    ObjectInstance(o.guid, o.offset, t, o.flags, o.name)
  }

  lemma InstanceBitsAside(t: Dword, inst: Dword)
    requires inst & !DIDFT_ANYINSTANCE == 0
    ensures (t | inst) & !DIDFT_ANYINSTANCE == t & !DIDFT_ANYINSTANCE
  {
  }

  /** The collection number an EnumObjects request names: bits 8..15 of
      its low word. */
  function EnumCollection(flags: Dword): Dword
  {
    (flags & 0xFFFF) >> 8
  }

  /** `EnumObjects`: a request for a non-zero collection sees nothing;
      otherwise the objects whose `MatchesFlags` holds are enumerated in
      catalog order until the callback returns anything but
      DIENUM_CONTINUE.  It always returns DI_OK. */
  function EnumObjects(objects: seq<DeviceObject>, flags: Dword, m: Matchers, callback: (nat, ObjectInstance) -> Dword)
    : (r: seq<ObjectInstance>)
    ensures EnumCollection(flags) != 0 ==> r == []
    ensures r <= Instances(Selected(objects, flags, m))
  {
    if EnumCollection(flags) != 0 then []
    else Enumerate(Instances(Selected(objects, flags, m)), (k, inst) => callback(k, inst) != DIENUM_CONTINUE)
  }

  /** The objects `MatchesFlags` admits, in catalog order. */
  function Selected(objects: seq<DeviceObject>, flags: Dword, m: Matchers): (r: seq<ObjectInfo>)
    ensures forall i :: 0 <= i < |r| ==> m.matchesFlags(r[i], flags)
    ensures forall i :: 0 <= i < |objects| && m.matchesFlags(objects[i].info, flags) ==> objects[i].info in r
    ensures forall o :: o in r ==> exists i :: 0 <= i < |objects| && objects[i].info == o
    decreases |objects|
  {
    if objects == [] then []
    else
      var rest := Selected(objects[1..], flags, m);
      assert forall i :: 1 <= i < |objects| ==> objects[i] == objects[1..][i - 1];
      (if m.matchesFlags(objects[0].info, flags) then [objects[0].info] else []) + rest
  }

  /** Selection keeps catalog order: one more object at the end of the
      catalog adds at most itself, at the end of the selection. */
  lemma {:induction false} SelectedSnoc(objects: seq<DeviceObject>, o: DeviceObject, flags: Dword, m: Matchers)
    ensures Selected(objects + [o], flags, m)
      == Selected(objects, flags, m) + (if m.matchesFlags(o.info, flags) then [o.info] else [])
    decreases |objects|
  {
    if objects == [] {
      assert [o][1..] == [];
    } else {
      assert (objects + [o])[1..] == objects[1..] + [o];
      SelectedSnoc(objects[1..], o, flags, m);
    }
  }

  /** With a callback that always continues, `EnumObjects` hands out the
      instance of every admitted object, in catalog order. */
  lemma EnumObjectsOrder(objects: seq<DeviceObject>, flags: Dword, m: Matchers, callback: (nat, ObjectInstance) -> Dword)
    requires EnumCollection(flags) == 0
    requires forall k, inst :: callback(k, inst) == DIENUM_CONTINUE
    ensures EnumObjects(objects, flags, m, callback) == Instances(Selected(objects, flags, m))
  {
    var items := Instances(Selected(objects, flags, m));
    Enumeration.EnumerateAll(items, (k, inst) => callback(k, inst) != DIENUM_CONTINUE);
  }

  function Instances(os: seq<ObjectInfo>): (r: seq<ObjectInstance>)
    ensures |r| == |os|
    ensures forall i :: 0 <= i < |os| ==> r[i] == ObjectInstanceOf(os[i])
  {
    seq(|os|, i requires 0 <= i < |os| => ObjectInstanceOf(os[i]))
  }

  /** `DIDEVCAPS`, the fields the device fills in. */
  datatype Capabilities = Capabilities(flags: Dword, devType: Dword, axes: nat, buttons: nat, povs: nat)

  const CapabilityFlags: Dword := DIDC_ATTACHED | DIDC_EMULATED
  const CapabilityDevType: Dword := DI8DEVTYPE_GAMEPAD | (DI8DEVTYPEGAMEPAD_STANDARD << 8) | 0x1_0000

  /** `GetCapabilities` as written: an attached, emulated standard gamepad
      with six axes, fourteen buttons and one POV, whatever the build's
      catalog holds. */
  function GetCapabilities(objects: seq<ObjectInfo>): (caps: Capabilities)
    ensures caps.flags == CapabilityFlags && caps.devType == CapabilityDevType
  {
    Capabilities(CapabilityFlags, CapabilityDevType, 6, 14, 1)
  }

  /** The kinds of object `DIDEVCAPS` counts. */
  datatype Kind = AxisKind | ButtonKind | PovKind

  predicate OfKind(m: MappedObject, kind: Kind)
  {
    match kind
    case AxisKind => m.AxisMap?
    case ButtonKind => m.ButtonMap?
    case PovKind => m.HatMap?
  }

  /** The number of objects mapped to an input of kind `kind`. */
  function CountKind(os: seq<ObjectInfo>, kind: Kind): (n: nat)
    ensures n <= |os|
  {
    if os == [] then 0 else (if OfKind(os[0].mapped, kind) then 1 else 0) + CountKind(os[1..], kind)
  }

  lemma {:induction false} CountKindAppend(a: seq<ObjectInfo>, b: seq<ObjectInfo>, kind: Kind)
    ensures CountKind(a + b, kind) == CountKind(a, kind) + CountKind(b, kind)
  {
    if a != [] {
      assert (a + b)[1..] == a[1..] + b;
      CountKindAppend(a[1..], b, kind);
    } else {
      assert a + b == b;
    }
  }

  lemma {:induction false} CountKindUniform(os: seq<ObjectInfo>, kind: Kind, holds: bool)
    requires forall i :: 0 <= i < |os| ==> OfKind(os[i].mapped, kind) == holds
    ensures CountKind(os, kind) == if holds then |os| else 0
  {
    if os != [] {
      assert forall i :: 0 <= i < |os[1..]| ==> os[1..][i] == os[i + 1];
      CountKindUniform(os[1..], kind, holds);
    }
  }

  /** `GetCapabilities` as evidently intended: the axis, button and POV
      counts of the objects the device enumerates. */
  function CatalogCapabilities(objects: seq<ObjectInfo>): (caps: Capabilities)
    ensures caps.flags == CapabilityFlags && caps.devType == CapabilityDevType
    ensures caps.axes + caps.buttons + caps.povs <= |objects|
  {
    var axes := CountKind(objects, AxisKind);
    var buttons := CountKind(objects, ButtonKind);
    var povs := CountKind(objects, PovKind);
    CountKindsDisjoint(objects);
    Capabilities(CapabilityFlags, CapabilityDevType, axes, buttons, povs)
  }

  lemma {:induction false} CountKindsDisjoint(os: seq<ObjectInfo>)
    ensures CountKind(os, AxisKind) + CountKind(os, ButtonKind) + CountKind(os, PovKind) <= |os|
  {
    if os != [] {
      CountKindsDisjoint(os[1..]);
    }
  }

  /** The corrected capabilities agree with the catalog in every build:
      four or six axes, fourteen buttons, one POV. */
  lemma CapabilitiesMatchCatalog(t: bool)
    ensures CatalogCapabilities(Catalog(t)) == Capabilities(CapabilityFlags, CapabilityDevType, AxisCount(t), 14, 1)
  {
    var a, b, h := Axes(t), Buttons(), [HatObject];
    assert Catalog(t) == a + b + h;
    AxesAreSpread(t);
    CountKinds(a, b, h, AxisKind, true, false, false);
    CountKinds(a, b, h, ButtonKind, false, true, false);
    CountKinds(a, b, h, PovKind, false, false, true);
  }

  lemma CountKinds(a: seq<ObjectInfo>, b: seq<ObjectInfo>, h: seq<ObjectInfo>, kind: Kind,
                   inA: bool, inB: bool, inH: bool)
    requires forall i :: 0 <= i < |a| ==> OfKind(a[i].mapped, kind) == inA
    requires forall i :: 0 <= i < |b| ==> OfKind(b[i].mapped, kind) == inB
    requires forall i :: 0 <= i < |h| ==> OfKind(h[i].mapped, kind) == inH
    ensures CountKind(a + b + h, kind) == (if inA then |a| else 0) + (if inB then |b| else 0) + (if inH then |h| else 0)
  {
    CountKindAppend(a + b, h, kind);
    CountKindAppend(a, b, kind);
    CountKindUniform(a, kind, inA);
    CountKindUniform(b, kind, inB);
    CountKindUniform(h, kind, inH);
  }

  /** As written, a build without ENABLE_TRIGGERS reports six axes while
      enumerating four axis objects. */
  lemma CapabilitiesOverstateAxes()
    ensures GetCapabilities(Catalog(false)).axes == 6 && AxisCount(false) == 4
    ensures GetCapabilities(Catalog(false)) != CatalogCapabilities(Catalog(false))
    ensures GetCapabilities(Catalog(true)) == CatalogCapabilities(Catalog(true))
  {
    CapabilitiesMatchCatalog(false);
    CapabilitiesMatchCatalog(true);
  }
}

=== FILE: dinput_consts.dfy ===
/** Constants and value types of the DirectInput 8 interface that the
    emulated devices speak: 32-bit words, HRESULT codes, object-type and
    object-flag bits, property and enumeration selectors, and GUIDs.  The
    numeric values are those of the platform headers `dinput.h` and
    `winerror.h`, which are not part of this model. */
module DInput {

  /** DWORD, and the bit pattern of an HRESULT. */
  type Dword = bv32

  type Byte = bv8

  /** The eight trailing bytes of a GUID. */
  type Bytes8 = s: seq<Byte> | |s| == 8 witness [0, 0, 0, 0, 0, 0, 0, 0]

  /** A GUID in its in-memory layout: Data1, Data2, Data3, Data4[8]. */
  datatype Guid = Guid(data1: bv32, data2: bv16, data3: bv16, data4: Bytes8)

  // HRESULT values.
  const DI_OK: Dword := 0
  const DI_NOEFFECT: Dword := 1
  const DI_NOTATTACHED: Dword := 1
  const DIERR_INPUTLOST: Dword := 0x8007_001E
  const DIERR_INVALIDPARAM: Dword := 0x8007_0057
  const DIERR_NOTACQUIRED: Dword := 0x8007_000C
  const DIERR_NOTINITIALIZED: Dword := 0x8007_0015
  const DIERR_OBJECTNOTFOUND: Dword := 0x8007_0002
  const DIERR_DEVICENOTREG: Dword := 0x8004_0154
  const E_PENDING: Dword := 0x8000_000A

  // Callback verdicts.
  const DIENUM_STOP: Dword := 0
  const DIENUM_CONTINUE: Dword := 1

  // DIDFT_*: object type bits.
  const DIDFT_ALL: Dword := 0
  const DIDFT_RELAXIS: Dword := 0x1
  const DIDFT_ABSAXIS: Dword := 0x2
  const DIDFT_AXIS: Dword := 0x3
  const DIDFT_PSHBUTTON: Dword := 0x4
  const DIDFT_TGLBUTTON: Dword := 0x8
  const DIDFT_BUTTON: Dword := 0xC
  const DIDFT_POV: Dword := 0x10
  const DIDFT_COLLECTION: Dword := 0x40
  const DIDFT_NODATA: Dword := 0x80
  const DIDFT_ANYINSTANCE: Dword := 0x00FF_FF00
  const DIDFT_FFACTUATOR: Dword := 0x0100_0000
  const DIDFT_FFEFFECTTRIGGER: Dword := 0x0200_0000
  const DIDFT_VENDORDEFINED: Dword := 0x0400_0000
  const DIDFT_ALIAS: Dword := 0x0800_0000
  const DIDFT_OUTPUT: Dword := 0x1000_0000
  const DIDFT_OPTIONAL: Dword := 0x8000_0000

  /** DIDFT_MAKEINSTANCE: the instance number in bits 8..23. */
  function MakeInstance(n: Dword): (r: Dword)
    ensures r & !DIDFT_ANYINSTANCE == 0
    ensures GetInstance(r) == n & 0xFFFF
  {
    (n & 0xFFFF) << 8
  }

  /** DIDFT_GETINSTANCE. */
  function GetInstance(t: Dword): Dword
  {
    (t >> 8) & 0xFFFF
  }

  // DIDOI_*: object flag bits.
  const DIDOI_FFACTUATOR: Dword := 0x1
  const DIDOI_FFEFFECTTRIGGER: Dword := 0x2
  const DIDOI_ASPECTPOSITION: Dword := 0x100
  const DIDOI_ASPECTVELOCITY: Dword := 0x200
  const DIDOI_ASPECTACCEL: Dword := 0x300
  const DIDOI_ASPECTFORCE: Dword := 0x400
  const DIDOI_POLLED: Dword := 0x8000

  // DIPH_*: how a property header addresses its object.
  const DIPH_DEVICE: Dword := 0
  const DIPH_BYOFFSET: Dword := 1
  const DIPH_BYID: Dword := 2
  const DIPH_BYUSAGE: Dword := 3

  // DI8DEVCLASS_*: device classes for EnumDevices.
  const DI8DEVCLASS_ALL: Dword := 0
  const DI8DEVCLASS_DEVICE: Dword := 1
  const DI8DEVCLASS_POINTER: Dword := 2
  const DI8DEVCLASS_KEYBOARD: Dword := 3
  const DI8DEVCLASS_GAMECTRL: Dword := 4

  // DIEDFL_*: EnumDevices flags.
  const DIEDFL_ATTACHEDONLY: Dword := 0x1
  const DIEDFL_FORCEFEEDBACK: Dword := 0x100
  const DIEDFL_INCLUDEALIASES: Dword := 0x1_0000
  const DIEDFL_INCLUDEPHANTOMS: Dword := 0x2_0000
  const DIEDFL_INCLUDEHIDDEN: Dword := 0x4_0000

  // DI8DEVTYPE_* device types and subtypes (the subtype sits in bits 8..15).
  const DI8DEVTYPE_MOUSE: Dword := 0x12
  const DI8DEVTYPE_KEYBOARD: Dword := 0x13
  const DI8DEVTYPE_GAMEPAD: Dword := 0x15
  const DI8DEVTYPEMOUSE_TRADITIONAL: Dword := 2
  const DI8DEVTYPEKEYBOARD_PCENH: Dword := 4
  const DI8DEVTYPEGAMEPAD_STANDARD: Dword := 2

  // DIDC_*: device capability flags.
  const DIDC_ATTACHED: Dword := 0x1
  const DIDC_EMULATED: Dword := 0x4

  // Structure sizes of the 32-bit layout.
  const SIZEOF_DIDATAFORMAT: Dword := 24
  const SIZEOF_DIOBJECTDATAFORMAT: Dword := 16
  const SIZEOF_DIPROPHEADER: Dword := 16
  const SIZEOF_DIPROPDWORD: Dword := 20
  const SIZEOF_DIPROPRANGE: Dword := 24
  const SIZEOF_DIDEVICEINSTANCEA: Dword := 580
  const SIZEOF_DIDEVICEINSTANCEW: Dword := 1100

  /** The trailing bytes shared by the predefined object-type GUIDs. */
  const ObjectGuidTail: Bytes8 := [0xBF, 0xC7, 0x44, 0x45, 0x53, 0x54, 0x00, 0x00]

  const GUID_XAxis := Guid(0xA36D_02E0, 0xC9F3, 0x11CF, ObjectGuidTail)
  const GUID_YAxis := Guid(0xA36D_02E1, 0xC9F3, 0x11CF, ObjectGuidTail)
  const GUID_ZAxis := Guid(0xA36D_02E2, 0xC9F3, 0x11CF, ObjectGuidTail)
  const GUID_RzAxis := Guid(0xA36D_02E3, 0xC9F3, 0x11CF, ObjectGuidTail)
  const GUID_Slider := Guid(0xA36D_02E4, 0xC9F3, 0x11CF, ObjectGuidTail)
  const GUID_Button := Guid(0xA36D_02F0, 0xC9F3, 0x11CF, ObjectGuidTail)
  const GUID_POV := Guid(0xA36D_02F2, 0xC9F3, 0x11CF, ObjectGuidTail)
  const GUID_Unknown := Guid(0xA36D_02F3, 0xC9F3, 0x11CF, ObjectGuidTail)
  const GUID_RxAxis := Guid(0xA36D_02F4, 0xC9F3, 0x11CF, ObjectGuidTail)
  const GUID_RyAxis := Guid(0xA36D_02F5, 0xC9F3, 0x11CF, ObjectGuidTail)
  const GUID_Key := Guid(0x5572_8220, 0xD33C, 0x11CF, ObjectGuidTail)
  const GUID_SysMouse := Guid(0x6F1D_2B60, 0xD5A0, 0x11CF, ObjectGuidTail)
  const GUID_SysKeyboard := Guid(0x6F1D_2B61, 0xD5A0, 0x11CF, ObjectGuidTail)

  /** True when any of the bits of `mask` is set in `v`. */
  predicate HasAny(v: Dword, mask: Dword)
  {
    v & mask != 0
  }

  /** A DWORD as an unsigned number. */
  function U(v: Dword): nat
  {
    v as nat
  }

  /** The DWORD holding the low 32 bits of an integer (a C conversion to DWORD). */
  function ToDword(x: int): Dword
  {
    (x % 0x1_0000_0000) as bv32
  }

  /** A DWORD held as an unsigned number. */
  type U32 = x: nat | x < 0x1_0000_0000

  /** C++ integer division by two: the quotient is truncated toward zero. */
  function HalfTowardZero(x: int): (r: int)
    ensures 2 * r == x || 2 * r == x - 1 || 2 * r == x + 1
    ensures x >= 0 ==> 0 <= r <= x
    ensures x < 0 ==> x <= r <= 0
  {
    if x >= 0 then x / 2 else -((-x) / 2)
  }

  /** The integer part of a real, truncated toward zero. */
  function Truncate(x: real): (r: int)
    ensures x >= 0.0 ==> r as real <= x < r as real + 1.0
    ensures x < 0.0 ==> r as real - 1.0 < x <= r as real
  {
    if x >= 0.0 then x.Floor else -((-x).Floor)
  }

  /** The conversion of a `double` to `DWORD` as the 32-bit compiler
      performs it: truncation toward zero, then the low 32 bits. */
  function RealToDword(x: real): (r: U32)
    ensures 0.0 <= x < 4294967296.0 ==> r == x.Floor
  {
    Truncate(x) % 0x1_0000_0000
  }
}

=== FILE: enum_map.dfy ===
/** `EnumMap` (dhc/types.h): a fixed-size array indexed by an enum's
    numeric value, whose entries each record the key they sit under.  An
    entry is the value type's `type` member together with the rest of the
    value; the key is the enum's numeric value. */
module EnumMaps {
  import opened Wrappers

  datatype Entry<V> = Entry(key: nat, value: V)

  datatype EnumMap<V> = EnumMap(data: seq<Entry<V>>)

  /** Every entry records the index it sits at. */
  predicate Keyed<V>(m: EnumMap<V>)
  {
    forall i :: 0 <= i < |m.data| ==> m.data[i].key == i
  }

  /** The constructor: `Count` default-constructed entries, entry i given
      `type == i`. */
  function New<V>(count: nat, init: V): (m: EnumMap<V>)
    ensures |m.data| == count && Keyed(m)
    ensures forall i :: 0 <= i < count ==> m.data[i].value == init
  {
    EnumMap(seq(count, i requires 0 <= i < count => Entry(i, init)))
  }

  /** `operator[]` for reading: `data_.at(idx)`, which throws for an index
      outside the array. */
  function Get<V>(m: EnumMap<V>, idx: int): (r: Outcome<V>)
    ensures r.Ok? <==> 0 <= idx < |m.data|
    ensures r.Ok? ==> r.value == m.data[idx].value
  {
    if 0 <= idx < |m.data| then Ok(m.data[idx].value) else Abort
  }

  /** `operator[](idx).value = v` for an index the array holds: the member
      is overwritten, the entry's key is not. */
  function Store<V>(m: EnumMap<V>, idx: nat, v: V): (r: EnumMap<V>)
    requires idx < |m.data|
    ensures |r.data| == |m.data|
    ensures r.data[idx] == Entry(m.data[idx].key, v)
    ensures forall j :: 0 <= j < |m.data| && j != idx ==> r.data[j] == m.data[j]
  {
    EnumMap(m.data[idx := Entry(m.data[idx].key, v)])
  }

  /** `operator[](idx).value = v` for any index: out of range, `at()` throws. */
  function Put<V>(m: EnumMap<V>, idx: int, v: V): (r: Outcome<EnumMap<V>>)
    ensures r.Ok? <==> 0 <= idx < |m.data|
  {
    if 0 <= idx < |m.data| then Ok(Store(m, idx, v)) else Abort
  }

  /** A write followed by a read of the same key yields the value written;
      every other key reads as before, and every entry keeps its key. */
  lemma PutThenGet<V>(m: EnumMap<V>, idx: int, v: V, other: int)
    requires Put(m, idx, v).Ok?
    ensures Get(Put(m, idx, v).value, idx) == Ok(v)
    ensures other != idx ==> Get(Put(m, idx, v).value, other) == Get(m, other)
    ensures Keyed(m) ==> Keyed(Put(m, idx, v).value)
  {
  }

  /** An iterator: the array it walks (by identity) and an offset. */
  datatype Iterator = Iterator(base: nat, offset: nat)

  /** `Iterator::operator==`: the same array and the same offset. */
  predicate IteratorEquals(a: Iterator, b: Iterator)
  {
    a.base == b.base && a.offset == b.offset
  }

  /** `operator==` is equality of iterators, and `operator!=` its negation. */
  lemma IteratorEqualsIsIdentity(a: Iterator, b: Iterator)
    ensures IteratorEquals(a, b) <==> a == b
    ensures !IteratorEquals(a, b) <==> a.base != b.base || a.offset != b.offset
  {
  }

  function Begin<V>(m: EnumMap<V>, base: nat): Iterator
  {
    Iterator(base, 0)
  }

  function End<V>(m: EnumMap<V>, base: nat): Iterator
  {
    Iterator(base, |m.data|)
  }

  /** The pairs a `for` loop over the map sees from offset `from` to `end()`:
      `operator*` yields `(static_cast<Key>(offset), data_[offset])` and
      `operator++` advances the offset by one. */
  function Walk<V>(m: EnumMap<V>, base: nat, from: nat): (r: seq<(nat, Entry<V>)>)
    requires from <= |m.data|
    decreases |m.data| - from
  {
    if IteratorEquals(Iterator(base, from), End(m, base)) then []
    else [(from, m.data[from])] + Walk(m, base, from + 1)
  }

  /** The pairs seen by a range-`for` from `begin()` to `end()`. */
  function Items<V>(m: EnumMap<V>, base: nat): (r: seq<(nat, Entry<V>)>)
  {
    Walk(m, base, Begin(m, base).offset)
  }

  lemma {:induction false} WalkVisits<V>(m: EnumMap<V>, base: nat, from: nat)
    requires from <= |m.data|
    ensures |Walk(m, base, from)| == |m.data| - from
    ensures forall k :: 0 <= k < |m.data| - from ==> Walk(m, base, from)[k] == (from + k, m.data[from + k])
    decreases |m.data| - from
  {
    if from < |m.data| {
      WalkVisits(m, base, from + 1);
    }
  }

  /** Iteration yields every key 0 .. Count-1 once, in increasing order,
      each with its entry; after construction each entry's recorded key is
      the key it is visited under. */
  lemma ItemsInKeyOrder<V>(m: EnumMap<V>, base: nat)
    ensures |Items(m, base)| == |m.data|
    ensures forall k :: 0 <= k < |m.data| ==> Items(m, base)[k] == (k, m.data[k])
    ensures Keyed(m) ==> forall k :: 0 <= k < |m.data| ==> Items(m, base)[k].1.key == Items(m, base)[k].0
  {
    WalkVisits(m, base, 0);
  }
}

=== FILE: enumeration.dfy ===
/** The callback-driven enumeration every `Enum*` entry point performs:
    candidates are handed to the client's callback in order until the
    callback asks to stop. */
module Enumeration {

  /** The candidates the callback sees: `items` up to and including the
      first one for which `stops(k, item)` holds.  `stops` receives the
      call's position, so a callback that counts its calls is expressible. */
  function Enumerate<T>(items: seq<T>, stops: (nat, T) -> bool): (r: seq<T>)
    ensures r <= items
    ensures forall k :: 0 <= k < |r| - 1 ==> !stops(k, r[k])
    ensures |r| < |items| ==> |r| > 0 && stops(|r| - 1, r[|r| - 1])
    ensures |r| == |items| ==> forall k :: 0 <= k < |r| - 1 ==> !stops(k, items[k])
  {
    EnumerateFrom(items, stops, 0)
  }

  function EnumerateFrom<T>(items: seq<T>, stops: (nat, T) -> bool, k: nat): (r: seq<T>)
    requires k <= |items|
    ensures r <= items[k..]
    ensures forall j :: 0 <= j < |r| - 1 ==> !stops(k + j, r[j])
    ensures |r| < |items| - k ==> |r| > 0 && stops(k + |r| - 1, r[|r| - 1])
    decreases |items| - k
  {
    if k == |items| then []
    else if stops(k, items[k]) then [items[k]]
    else
      var rest := EnumerateFrom(items, stops, k + 1);
      assert items[k..] == [items[k]] + items[k + 1..];
      [items[k]] + rest
  }

  /** When the callback never asks to stop, it sees every candidate. */
  lemma EnumerateAll<T>(items: seq<T>, stops: (nat, T) -> bool)
    requires forall k :: 0 <= k < |items| ==> !stops(k, items[k])
    ensures Enumerate(items, stops) == items
  {
  }
}

=== FILE: flag_words.dfy ===
/** The shape shared by the flag-word printers of dinput8/utils.cpp: a word
    is examined by a fixed table of groups in order; each group may push
    one named component and then clears the bits it owns; whatever is left
    at the end is pushed as one "unknown" component.  The word type is a
    parameter, with `join` standing for bitwise OR, so the statements here
    carry no bit-vector arithmetic of their own. */
module FlagWords {
  import opened Wrappers
  import Strings

  function When<P>(c: bool, p: P): (r: seq<P>)
    ensures |r| <= 1
    ensures p in r <==> c
  {
    if c then [p] else []
  }

  function OptionList<P>(o: Option<P>): (r: seq<P>)
    ensures |r| <= 1
    ensures o.Some? <==> |r| == 1
    ensures o.Some? ==> r[0] == o.value
  {
    if o.Some? then [o.value] else []
  }

  /** Joins the bits every component stands for; `zero` for no component. */
  function Fold<P, W>(parts: seq<P>, bits: P -> W, join: (W, W) -> W, zero: W): W
    decreases |parts|
  {
    if |parts| == 0 then zero else join(bits(parts[0]), Fold(parts[1..], bits, join, zero))
  }

  /** The bits a group's (optional) component stands for, joined to `rest`. */
  function Prepend<P, W>(head: Option<P>, rest: W, bits: P -> W, join: (W, W) -> W): W
  {
    if head.Some? then join(bits(head.value), rest) else rest
  }

  /** The components pushed by groups `k..` of `table` for the word `w`,
      followed by the leftover word when it is not `zero`. */
  function ComponentsFrom<G, P, W(==)>(table: seq<G>, k: nat, w: W, clear: (G, W) -> W,
                                       classify: (G, W) -> Option<P>, zero: W,
                                       unknown: W -> P): seq<P>
    requires k <= |table|
    decreases |table| - k
  {
    if k == |table| then When(w != zero, unknown(w))
    else
      OptionList(classify(table[k], w))
        + ComponentsFrom(table, k + 1, clear(table[k], w), clear, classify, zero, unknown)
  }

  /** The components pushed for the whole table. */
  function Components<G, P, W(==)>(table: seq<G>, w: W, clear: (G, W) -> W,
                                   classify: (G, W) -> Option<P>, zero: W,
                                   unknown: W -> P): seq<P>
  {
    ComponentsFrom(table, 0, w, clear, classify, zero, unknown)
  }

  lemma FoldPrepend<P, W>(head: Option<P>, tail: seq<P>, bits: P -> W, join: (W, W) -> W, zero: W)
    ensures Fold(OptionList(head) + tail, bits, join, zero)
         == Prepend(head, Fold(tail, bits, join, zero), bits, join)
  {
    if head.Some? {
      assert (OptionList(head) + tail)[1..] == tail;
    } else {
      assert OptionList(head) + tail == tail;
    }
  }

  /** When every group splits a word into its own component and the bits it
      leaves behind, and the leftover component stands for itself, joining
      the bits of all components gives the word back: no bit is lost and
      none is invented. */
  lemma {:induction false} ComponentsFromCover<G, P, W>(table: seq<G>, k: nat, w: W,
                                                        clear: (G, W) -> W,
                                                        classify: (G, W) -> Option<P>, zero: W,
                                                        unknown: W -> P, bits: P -> W,
                                                        join: (W, W) -> W)
    requires k <= |table|
    requires forall g, v :: g in table ==> Prepend(classify(g, v), clear(g, v), bits, join) == v
    requires forall v :: v != zero ==> join(bits(unknown(v)), zero) == v
    ensures Fold(ComponentsFrom(table, k, w, clear, classify, zero, unknown), bits, join, zero) == w
    decreases |table| - k
  {
    if k == |table| {
      if w != zero {
        assert [unknown(w)][1..] == [];
      }
    } else {
      var g := table[k];
      var tail := ComponentsFrom(table, k + 1, clear(g, w), clear, classify, zero, unknown);
      ComponentsFromCover(table, k + 1, clear(g, w), clear, classify, zero, unknown, bits, join);
      FoldPrepend(classify(g, w), tail, bits, join, zero);
      assert g in table;
    }
  }

  /** When no group claims anything of the zero word and clearing keeps it
      zero, nothing is pushed for it. */
  lemma {:induction false} ComponentsFromZero<G, P, W>(table: seq<G>, k: nat, clear: (G, W) -> W,
                                                       classify: (G, W) -> Option<P>, zero: W,
                                                       unknown: W -> P)
    requires k <= |table|
    requires forall g :: g in table ==> classify(g, zero).None? && clear(g, zero) == zero
    ensures ComponentsFrom(table, k, zero, clear, classify, zero, unknown) == []
    decreases |table| - k
  {
    if k < |table| {
      assert table[k] in table;
      ComponentsFromZero(table, k + 1, clear, classify, zero, unknown);
    }
  }

  /** The names of the components, in order. */
  function Names<P>(parts: seq<P>, name: P -> string): (r: seq<string>)
    ensures |r| == |parts|
    ensures forall i :: 0 <= i < |parts| ==> r[i] == name(parts[i])
    decreases |parts|
  {
    if |parts| == 0 then [] else [name(parts[0])] + Names(parts[1..], name)
  }

  /** The printed text: "0" for no component, otherwise the names joined
      with " | " (the `Join` helper of utils.h). */
  function Render<P>(parts: seq<P>, name: P -> string): string
  {
    if |parts| == 0 then "0" else Strings.Join(Names(parts, name), " | ")
  }

  /** A word prints as "0" exactly when it is zero, provided the components
      cover the word, none is pushed for zero, and every name is longer
      than one character. */
  lemma RenderZero<G, P, W>(table: seq<G>, w: W, clear: (G, W) -> W,
                            classify: (G, W) -> Option<P>, zero: W, unknown: W -> P,
                            bits: P -> W, join: (W, W) -> W, name: P -> string)
    requires forall g, v :: g in table ==> Prepend(classify(g, v), clear(g, v), bits, join) == v
    requires forall v :: v != zero ==> join(bits(unknown(v)), zero) == v
    requires forall g :: g in table ==> classify(g, zero).None? && clear(g, zero) == zero
    requires forall p :: |name(p)| > 1
    ensures Render(Components(table, w, clear, classify, zero, unknown), name) == "0" <==> w == zero
  {
    var parts := Components(table, w, clear, classify, zero, unknown);
    if w == zero {
      ComponentsFromZero(table, 0, clear, classify, zero, unknown);
    } else {
      ComponentsFromCover(table, 0, w, clear, classify, zero, unknown, bits, join);
      assert |parts| > 0;
      var names := Names(parts, name);
      assert |names[0]| > 1;
      Strings.JoinStartsWithFirst(names, " | ");
    }
  }
}

=== FILE: guid_names.dfy ===
/** `to_string(REFGUID)` of dinput8/utils.cpp: the emulated devices print as
    "GUID_DHC_P<n>", thirteen well-known GUIDs print by name, and any other
    GUID prints in the registry form {XXXXXXXX-XXXX-XXXX-XXXX-XXXXXXXXXXXX}. */
module GuidNames {
  import opened Wrappers
  import opened DInput
  import Strings
  import DhcGuid

  /** Well-known GUID `i`, in the order `to_string` tests them. */
  function NamedGuid(i: int): Guid
  {
    if i == 0 then GUID_SysKeyboard
    else if i == 1 then GUID_SysMouse
    else if i == 2 then GUID_XAxis
    else if i == 3 then GUID_YAxis
    else if i == 4 then GUID_ZAxis
    else if i == 5 then GUID_RxAxis
    else if i == 6 then GUID_RyAxis
    else if i == 7 then GUID_RzAxis
    else if i == 8 then GUID_Slider
    else if i == 9 then GUID_Button
    else if i == 10 then GUID_Key
    else if i == 11 then GUID_POV
    else GUID_Unknown
  }

  /** The name `to_string` prints for well-known GUID `i`. */
  function NamedGuidName(i: int): string
  {
    if i == 0 then "GUID_SysKeyboard"
    else if i == 1 then "GUID_SysMouse"
    else if i == 2 then "GUID_XAxis"
    else if i == 3 then "GUID_YAxis"
    else if i == 4 then "GUID_ZAxis"
    else if i == 5 then "GUID_RxAxis"
    else if i == 6 then "GUID_RyAxis"
    else if i == 7 then "GUID_RzAxis"
    else if i == 8 then "GUID_Slider"
    else if i == 9 then "GUID_Button"
    else if i == 10 then "GUID_Key"
    else if i == 11 then "GUID_POV"
    else "GUID_Unknown"
  }

  /** The thirteen well-known GUIDs. */
  function NamedGuids(): (r: seq<(Guid, string)>)
    ensures |r| == 13
  {
    seq(13, i => (NamedGuid(i), NamedGuidName(i)))
  }

  /** The position of the well-known GUID with this Data1, or 13. */
  function PositionOfData1(d: bv32): nat
  {
    if d == GUID_SysKeyboard.data1 then 0
    else if d == GUID_SysMouse.data1 then 1
    else if d == GUID_XAxis.data1 then 2
    else if d == GUID_YAxis.data1 then 3
    else if d == GUID_ZAxis.data1 then 4
    else if d == GUID_RxAxis.data1 then 5
    else if d == GUID_RyAxis.data1 then 6
    else if d == GUID_RzAxis.data1 then 7
    else if d == GUID_Slider.data1 then 8
    else if d == GUID_Button.data1 then 9
    else if d == GUID_Key.data1 then 10
    else if d == GUID_POV.data1 then 11
    else if d == GUID_Unknown.data1 then 12
    else 13
  }

  /** The position of the well-known GUID with this name, or 13. */
  function PositionOfName(s: string): nat
  {
    if s == "GUID_SysKeyboard" then 0
    else if s == "GUID_SysMouse" then 1
    else if s == "GUID_XAxis" then 2
    else if s == "GUID_YAxis" then 3
    else if s == "GUID_ZAxis" then 4
    else if s == "GUID_RxAxis" then 5
    else if s == "GUID_RyAxis" then 6
    else if s == "GUID_RzAxis" then 7
    else if s == "GUID_Slider" then 8
    else if s == "GUID_Button" then 9
    else if s == "GUID_Key" then 10
    else if s == "GUID_POV" then 11
    else if s == "GUID_Unknown" then 12
    else 13
  }

  lemma Data1PositionRecovered(i: nat)
    requires i < 13
    ensures PositionOfData1(NamedGuid(i).data1) == i
  {
  }

  lemma NamePositionRecovered(i: nat)
    requires i < 13
    ensures PositionOfName(NamedGuidName(i)) == i
  {
  }

  /** The name of the first well-known GUID from position `k` on equal to `g`. */
  function LookupName(g: Guid, k: nat): (r: Option<string>)
    requires k <= |NamedGuids()|
    ensures r.Some? <==> exists i :: k <= i < |NamedGuids()| && NamedGuids()[i].0 == g
    ensures r.Some? ==> exists i :: k <= i < |NamedGuids()| && NamedGuids()[i] == (g, r.value)
    decreases |NamedGuids()| - k
  {
    if k == |NamedGuids()| then None
    else if NamedGuids()[k].0 == g then Some(NamedGuids()[k].1)
    else LookupName(g, k + 1)
  }

  /** Numeric field `k` of a GUID: Data1, Data2, Data3, then the eight
      Data4 bytes. */
  function Field(g: Guid, k: nat): nat
    requires k < 11
  {
    if k == 0 then g.data1 as nat
    else if k == 1 then g.data2 as nat
    else if k == 2 then g.data3 as nat
    else g.data4[k - 3] as nat
  }

  /** The eleven numeric fields of a GUID. */
  function Fields(g: Guid): (r: seq<nat>)
    ensures |r| == 11
  {
    seq(11, k requires 0 <= k < 11 => Field(g, k))
  }

  /** Digits per field: 8 for Data1, 4 for Data2 and Data3, 2 per byte. */
  function FieldWidth(k: nat): nat
  {
    if k == 0 then 8 else if k < 3 then 4 else 2
  }

  /** The registry form has seventeen pieces: the eleven fields and the
      punctuation "{", "-" after the first three fields and after the
      second byte, and "}". */
  const PieceCount := 17

  /** The field piece `i` shows, if any. */
  function PieceField(i: nat): Option<nat>
  {
    if i == 1 || i == 3 || i == 5 then Some((i - 1) / 2)
    else if i == 7 || i == 8 then Some(i - 4)
    else if 10 <= i <= 15 then Some(i - 5)
    else None
  }

  /** The piece that shows field `k`. */
  function FieldPiece(k: nat): nat
  {
    if k < 3 then 2 * k + 1 else if k < 5 then k + 4 else k + 5
  }

  lemma FieldPieceInverse(k: nat)
    requires k < 11
    ensures FieldPiece(k) < PieceCount && PieceField(FieldPiece(k)) == Some(k)
  {
  }

  function PieceWidth(i: nat): nat
  {
    if PieceField(i).Some? then FieldWidth(PieceField(i).value) else 1
  }

  function Piece(g: Guid, i: nat): (r: string)
    requires i < PieceCount
    ensures |r| == PieceWidth(i)
  {
    match PieceField(i)
    case Some(k) => Strings.Hex(if k < 11 then Fields(g)[k] else 0, FieldWidth(k))
    case None => if i == 0 then "{" else if i == PieceCount - 1 then "}" else "-"
  }

  function HexPieces(g: Guid): (r: seq<string>)
    ensures |r| == PieceCount
    ensures forall i :: 0 <= i < PieceCount ==> r[i] == Piece(g, i)
  {
    seq(PieceCount, i requires 0 <= i < PieceCount => Piece(g, i))
  }

  /** `%08lX-%04X-%04X-%02X%02X-%02X%02X%02X%02X%02X%02X` in braces. */
  function HexForm(g: Guid): string
  {
    Strings.Concat(HexPieces(g))
  }

  /** The DHC name of virtual device `index`: one-based, computed in 32-bit
      `uintptr_t`, so the largest index wraps round to 0. */
  function DhcName(index: Dword): string
  {
    "GUID_DHC_P" + Strings.Decimal((index as nat + 1) % 0x1_0000_0000)
  }

  /** `to_string(REFGUID)`. */
  function GuidToString(g: Guid): string
  {
    match DhcGuid.Parse(g)
    case Some(index) => DhcName(index)
    case None =>
      match LookupName(g, 0)
      case Some(name) => name
      case None => HexForm(g)
  }

  // ---------------------------------------------------------------------
  // Reading the registry form back.

  lemma FieldsInjective(g: Guid, h: Guid)
    requires Fields(g) == Fields(h)
    ensures g == h
  {
    assert Field(g, 0) == Field(h, 0) by { assert Fields(g)[0] == Fields(h)[0]; }
    assert Field(g, 1) == Field(h, 1) by { assert Fields(g)[1] == Fields(h)[1]; }
    assert Field(g, 2) == Field(h, 2) by { assert Fields(g)[2] == Fields(h)[2]; }
    DwordNatInjective(g.data1, h.data1);
    WordNatInjective(g.data2, h.data2);
    WordNatInjective(g.data3, h.data3);
    forall i | 0 <= i < 8 ensures g.data4[i] == h.data4[i] {
      assert Fields(g)[i + 3] == Fields(h)[i + 3];
      ByteNatInjective(g.data4[i], h.data4[i]);
    }
  }

  lemma DwordNatInjective(x: bv32, y: bv32)
    requires x as nat == y as nat
    ensures x == y
  {
    assert (x as nat) as bv32 == x;
    assert (y as nat) as bv32 == y;
  }

  lemma WordNatInjective(x: bv16, y: bv16)
    requires x as nat == y as nat
    ensures x == y
  {
    assert (x as nat) as bv16 == x;
    assert (y as nat) as bv16 == y;
  }

  lemma ByteNatInjective(x: Byte, y: Byte)
    requires x as nat == y as nat
    ensures x == y
  {
  }

  /** The widths of the pieces of the registry form. */
  function Layout(): (r: seq<nat>)
    ensures |r| == PieceCount
  {
    seq(PieceCount, i requires 0 <= i => PieceWidth(i))
  }

  /** The fields shown by the seventeen pieces of a registry form. */
  function FieldsOfPieces(c: seq<string>): (r: seq<nat>)
    requires |c| == PieceCount
    ensures |r| == 11
  {
    seq(11, k requires 0 <= k < 11 => Strings.ParseHex(c[FieldPiece(k)]))
  }

  /** Reads the numeric fields of a registry-form string at the positions
      `HexForm` writes them. */
  function ParseHexForm(s: string): (r: seq<nat>)
    ensures |r| == 11
  {
    FieldsOfPieces(Strings.Split(s, Layout()))
  }

  lemma PowersOfSixteen()
    ensures Strings.Pow16(2) == 256 && Strings.Pow16(4) == 0x1_0000 && Strings.Pow16(8) == 0x1_0000_0000
  {
  }

  lemma FieldBound(g: Guid, k: nat)
    requires k < 11
    ensures Fields(g)[k] < Strings.Pow16(FieldWidth(k))
  {
    PowersOfSixteen();
  }

  /** Cutting the registry form at the layout gives its pieces back. */
  lemma PiecesRecovered(g: Guid)
    ensures Strings.Split(HexForm(g), Layout()) == HexPieces(g)
  {
    var ps := HexPieces(g);
    assert forall i :: 0 <= i < PieceCount ==> Strings.Widths(ps)[i] == Layout()[i];
    assert Strings.Widths(ps) == Layout();
    Strings.SplitConcat(ps);
  }

  /** The piece of field `k` reads back as the field. */
  lemma FieldRecovered(g: Guid, k: nat)
    requires k < 11
    ensures FieldPiece(k) < PieceCount
    ensures Strings.ParseHex(HexPieces(g)[FieldPiece(k)]) == Fields(g)[k]
  {
    FieldPieceInverse(k);
    assert HexPieces(g)[FieldPiece(k)] == Strings.Hex(Fields(g)[k], FieldWidth(k));
    FieldBound(g, k);
    Strings.HexRoundTrip(Fields(g)[k], FieldWidth(k));
  }

  /** The registry form loses nothing: reading it back gives the fields of
      the GUID. */
  lemma HexFormRoundTrip(g: Guid)
    ensures ParseHexForm(HexForm(g)) == Fields(g)
  {
    var ps := HexPieces(g);
    forall k | 0 <= k < 11 ensures FieldPiece(k) < PieceCount && Strings.ParseHex(ps[FieldPiece(k)]) == Fields(g)[k] {
      FieldRecovered(g, k);
    }
    FieldsOfPiecesSpec(ps, Fields(g));
    PiecesRecovered(g);
  }

  lemma FieldsOfPiecesSpec(c: seq<string>, fs: seq<nat>)
    requires |c| == PieceCount && |fs| == 11
    requires forall k :: 0 <= k < 11 ==> Strings.ParseHex(c[FieldPiece(k)]) == fs[k]
    ensures FieldsOfPieces(c) == fs
  {
    assert forall k :: 0 <= k < 11 ==> FieldsOfPieces(c)[k] == fs[k];
  }

  /** Distinct GUIDs have distinct registry forms. */
  lemma HexFormInjective(g: Guid, h: Guid)
    requires HexForm(g) == HexForm(h)
    ensures g == h
  {
    HexFormRoundTrip(g);
    HexFormRoundTrip(h);
    FieldsInjective(g, h);
  }

  // ---------------------------------------------------------------------
  // What `to_string` prints for each kind of GUID.

  /** An emulated device's GUID prints as its one-based DHC name. */
  lemma GuidToStringOfDhc(index: Dword)
    ensures GuidToString(DhcGuid.Create(index)) == DhcName(index)
  {
    DhcGuid.ParseCreate(index);
  }

  /** No well-known GUID lies in the emulated devices' range. */
  lemma NamedGuidsAreNotDhc(i: nat)
    requires i < |NamedGuids()|
    ensures !DhcGuid.MatchesTemplate(NamedGuids()[i].0)
  {
  }

  /** The well-known GUIDs are pairwise distinct (their Data1 differ) and so
      are their names. */
  lemma NamedGuidsDistinct(i: nat, j: nat)
    requires i < |NamedGuids()| && j < |NamedGuids()| && i != j
    ensures NamedGuids()[i].0.data1 != NamedGuids()[j].0.data1
    ensures NamedGuids()[i].1 != NamedGuids()[j].1
  {
    Data1PositionRecovered(i);
    Data1PositionRecovered(j);
    NamePositionRecovered(i);
    NamePositionRecovered(j);
  }

  /** A well-known GUID prints as its own name. */
  lemma GuidToStringOfNamed(i: nat)
    requires i < |NamedGuids()|
    ensures GuidToString(NamedGuids()[i].0) == NamedGuids()[i].1
  {
    var g := NamedGuids()[i].0;
    NamedGuidsAreNotDhc(i);
    var r := LookupName(g, 0);
    var j :| 0 <= j < |NamedGuids()| && NamedGuids()[j] == (g, r.value);
    if j != i {
      NamedGuidsDistinct(i, j);
    }
  }

  /** Any other GUID prints in the registry form. */
  lemma GuidToStringOfOther(g: Guid)
    requires !DhcGuid.MatchesTemplate(g)
    requires forall i :: 0 <= i < |NamedGuids()| ==> NamedGuids()[i].0 != g
    ensures GuidToString(g) == HexForm(g)
  {
  }

  // ---------------------------------------------------------------------
  // The printout identifies the GUID.

  lemma DhcNameShape(index: Dword)
    ensures |DhcName(index)| > 10 && DhcName(index)[0] == 'G' && DhcName(index)[5] == 'D'
  {
  }

  lemma NamedShape(i: nat)
    requires i < |NamedGuids()|
    ensures |NamedGuids()[i].1| > 6 && NamedGuids()[i].1[0] == 'G' && NamedGuids()[i].1[5] != 'D'
  {
  }

  lemma HexFormShape(g: Guid)
    ensures |HexForm(g)| > 0 && HexForm(g)[0] == '{'
  {
    var ps := HexPieces(g);
    assert ps[0] == "{";
    assert HexForm(g) == ps[0] + Strings.Concat(ps[1..]);
  }

  lemma DhcNameInjective(i: Dword, j: Dword)
    requires DhcName(i) == DhcName(j)
    ensures i == j
  {
    var p := "GUID_DHC_P";
    var m := (i as nat + 1) % 0x1_0000_0000;
    var n := (j as nat + 1) % 0x1_0000_0000;
    assert DhcName(i)[|p|..] == Strings.Decimal(m);
    assert DhcName(j)[|p|..] == Strings.Decimal(n);
    Strings.DecimalInjective(m, n);
    NextIndexInjective(i as nat, j as nat);
    DwordNatInjective(i, j);
  }

  /** The one-based numbering modulo 2^32 loses no index. */
  lemma NextIndexInjective(x: nat, y: nat)
    requires x < 0x1_0000_0000 && y < 0x1_0000_0000
    requires (x + 1) % 0x1_0000_0000 == (y + 1) % 0x1_0000_0000
    ensures x == y
  {
  }

  /** Distinct GUIDs print differently. */
  lemma GuidToStringInjective(a: Guid, b: Guid)
    requires GuidToString(a) == GuidToString(b)
    ensures a == b
  {
    var s := GuidToString(a);
    match DhcGuid.Parse(a) {
      case Some(i) =>
        DhcNameShape(i);
        match DhcGuid.Parse(b) {
          case Some(j) =>
            DhcNameInjective(i, j);
            DhcGuid.CreateParse(a);
            DhcGuid.CreateParse(b);
          case None =>
            OtherThanDhc(b, s);
        }
      case None =>
        match DhcGuid.Parse(b) {
          case Some(j) =>
            DhcNameShape(j);
            OtherThanDhc(a, s);
          case None =>
            NonDhcInjective(a, b);
        }
    }
  }

  /** A GUID outside the emulated devices' range never prints with the DHC
      prefix. */
  lemma OtherThanDhc(g: Guid, s: string)
    requires DhcGuid.Parse(g).None? && GuidToString(g) == s
    ensures |s| > 5 ==> !(s[0] == 'G' && s[5] == 'D')
  {
    match LookupName(g, 0)
    case Some(name) =>
      var i :| 0 <= i < |NamedGuids()| && NamedGuids()[i] == (g, name);
      NamedShape(i);
    case None =>
      HexFormShape(g);
  }

  lemma NonDhcInjective(a: Guid, b: Guid)
    requires DhcGuid.Parse(a).None? && DhcGuid.Parse(b).None?
    requires GuidToString(a) == GuidToString(b)
    ensures a == b
  {
    match LookupName(a, 0) {
      case Some(na) =>
        var i :| 0 <= i < |NamedGuids()| && NamedGuids()[i] == (a, na);
        NamedShape(i);
        match LookupName(b, 0) {
          case Some(nb) =>
            var j :| 0 <= j < |NamedGuids()| && NamedGuids()[j] == (b, nb);
            if i != j {
              NamedGuidsDistinct(i, j);
            }
          case None =>
            HexFormShape(b);
        }
      case None =>
        HexFormShape(a);
        match LookupName(b, 0) {
          case Some(nb) =>
            var j :| 0 <= j < |NamedGuids()| && NamedGuids()[j] == (b, nb);
            NamedShape(j);
          case None =>
            HexFormInjective(a, b);
        }
    }
  }
}

=== FILE: hid.dfy ===
/** The HID front end of the Rust library's input thread
    (dhc/src/input/hid.rs): status codes of the HID parsing library, the
    parser a device is given when it is opened, and report parsing, whose
    failures are returned as errors. */
module Hid {
  import opened Wrappers
  import opened Inputs
  import opened HidMapping
  import opened HidDevice
  import Ps4Catalog

  /** An NTSTATUS of the HID parsing library: severity in the top four bits,
      facility 0x11, then the code. */
  function HidStatus(severity: nat, code: nat): nat
    requires severity < 16 && code < 0x10000
  {
    severity * 0x1000_0000 + 0x11 * 0x1_0000 + code
  }

  /** The status each error stands for; an unknown error keeps its code. */
  function StatusCode(e: HidError): nat
  {
    match e
    case StatusSuccess => HidStatus(0x0, 0x0)
    case Null => HidStatus(0x8, 0x1)
    case InvalidPreparsedData => HidStatus(0xC, 0x1)
    case InvalidReportType => HidStatus(0xC, 0x2)
    case InvalidReportLength => HidStatus(0xC, 0x3)
    case UsageNotFound => HidStatus(0xC, 0x4)
    case ValueOutOfRange => HidStatus(0xC, 0x5)
    case BadLogPhyValues => HidStatus(0xC, 0x6)
    case BufferTooSmall => HidStatus(0xC, 0x7)
    case InternalError => HidStatus(0xC, 0x8)
    case I8042TransUnknown => HidStatus(0xC, 0x9)
    case IncompatibleReportId => HidStatus(0xC, 0xA)
    case NotValueArray => HidStatus(0xC, 0xB)
    case IsValueArray => HidStatus(0xC, 0xC)
    case DataIndexNotFound => HidStatus(0xC, 0xD)
    case DataIndexOutOfRange => HidStatus(0xC, 0xE)
    case ButtonNotPressed => HidStatus(0xC, 0xF)
    case ReportDoesNotExist => HidStatus(0xC, 0x10)
    case NotImplemented => HidStatus(0xC, 0x20)
    case Unknown(code) => code
  }

  const HIDP_STATUS_SUCCESS: nat := StatusCode(StatusSuccess)

  /** `HidPError::from_code`: the named error of a status, or Unknown
      carrying it. */
  function FromCode(code: nat): (r: HidError)
    ensures StatusCode(r) == code
  {
    if code == StatusCode(BadLogPhyValues) then BadLogPhyValues
    else if code == StatusCode(BufferTooSmall) then BufferTooSmall
    else if code == StatusCode(ButtonNotPressed) then ButtonNotPressed
    else if code == StatusCode(DataIndexNotFound) then DataIndexNotFound
    else if code == StatusCode(DataIndexOutOfRange) then DataIndexOutOfRange
    else if code == StatusCode(I8042TransUnknown) then I8042TransUnknown
    else if code == StatusCode(IncompatibleReportId) then IncompatibleReportId
    else if code == StatusCode(InternalError) then InternalError
    else if code == StatusCode(InvalidPreparsedData) then InvalidPreparsedData
    else if code == StatusCode(InvalidReportLength) then InvalidReportLength
    else if code == StatusCode(InvalidReportType) then InvalidReportType
    else if code == StatusCode(IsValueArray) then IsValueArray
    else if code == StatusCode(NotImplemented) then NotImplemented
    else if code == StatusCode(NotValueArray) then NotValueArray
    else if code == StatusCode(Null) then Null
    else if code == StatusCode(ReportDoesNotExist) then ReportDoesNotExist
    else if code == StatusCode(StatusSuccess) then StatusSuccess
    else if code == StatusCode(UsageNotFound) then UsageNotFound
    else if code == StatusCode(ValueOutOfRange) then ValueOutOfRange
    else Unknown(code)
  }

  /** Every named error is decoded from its own status, so the named codes
      are pairwise distinct. */
  lemma FromCodeOfStatus(e: HidError)
    requires !e.Unknown?
    ensures FromCode(StatusCode(e)) == e
  {
  }

  /** `hidp_result`: success exactly for the success status, otherwise the
      decoded error, which is never the success variant. */
  function HidpResult(status: nat): (r: Result<(), HidError>)
    ensures r.Success? <==> status == HIDP_STATUS_SUCCESS
    ensures r.Failure? ==> StatusCode(r.error) == status && r.error != StatusSuccess
  {
    if status == HIDP_STATUS_SUCCESS then Success(()) else Failure(FromCode(status))
  }

  /** The kind of pad a device is parsed as. */
  datatype DeviceType = PS4 | PS3 | Generic | XInput

  datatype HidParser = HidParser(deviceType: DeviceType, valueCaps: seq<ValueCap>)

  /** `HidParser::new`: 14 buttons make a PS4 pad, 13 a PS3 pad, any other
      count a generic device; reading the value capabilities may fail. */
  function New(buttonCount: nat, valueCaps: Result<seq<ValueCap>, HidError>): (r: Result<HidParser, HidError>)
    ensures r.Success? <==> valueCaps.Success?
    ensures r.Failure? ==> r.error == valueCaps.error
    ensures r.Success? ==> r.value.valueCaps == valueCaps.value
    ensures r.Success? ==> (r.value.deviceType == PS4 <==> buttonCount == 14)
    ensures r.Success? ==> (r.value.deviceType == PS3 <==> buttonCount == 13)
    ensures r.Success? ==> r.value.deviceType != XInput
  {
    var deviceType := if buttonCount == 14 then PS4 else if buttonCount == 13 then PS3 else Generic;
    match valueCaps
    case Failure(e) => Failure(e)
    case Success(caps) => Success(HidParser(deviceType, caps))
  }

  /** `HidParser::new_xinput`. */
  function NewXInput(valueCaps: Result<seq<ValueCap>, HidError>): (r: Result<HidParser, HidError>)
    ensures r.Success? <==> valueCaps.Success?
    ensures r.Failure? ==> r.error == valueCaps.error
    ensures r.Success? ==> r.value == HidParser(XInput, valueCaps.value)
  {
    match valueCaps
    case Failure(e) => Failure(e)
    case Success(caps) => Success(HidParser(XInput, caps))
  }

  /** `HidParser::parse`: PS4, PS3 and generic devices share the PS4
      mapping; XInput parsing is unimplemented and panics. */
  function Parse(p: HidParser, report: Report): (r: Outcome<Result<DeviceInputs, HidError>>)
    ensures p.deviceType == XInput ==> r.Abort?
    ensures p.deviceType != XInput ==> r == ParseReport(Ps4Layout, p.valueCaps, report)
  {
    if p.deviceType == XInput then Abort else ParseReport(Ps4Layout, p.valueCaps, report)
  }

  /** The PS4 usages number the buttons in the order of the DirectInput
      catalog: usage k + 1 is catalog button k. */
  lemma Ps4UsagesFollowCatalog(k: nat)
    requires k < 14
    ensures ButtonForUsage(Ps4Layout, k + 1) == Some(Ps4Catalog.ButtonMapping[k])
  {
  }

  /** A failed read of the pressed buttons is the parse's error. */
  lemma ParseButtonsError(p: HidParser, report: Report)
    requires p.deviceType != XInput && report.buttons.Failure?
    ensures Parse(p, report) == Ok(Failure(report.buttons.error))
  {
  }

  /** `RIM_TYPEHID`, the Raw Input type of a HID device. */
  const RIM_TYPEHID: nat := 2

  /** What the platform reports while a Raw Input device is opened. */
  datatype Probe = Probe(
    infoType: nat,
    rawPath: seq<PathByte>,
    opens: bool,
    vendor: Option<string>,
    product: Option<string>,
    serial: Option<string>,
    hasPreparsedData: bool,
    buttonCount: nat,
    valueCaps: Result<seq<ValueCap>, HidError>)

  /** An I/O error of the platform, or a HID error converted into one. */
  datatype OpenError = IoError | HidFailure(error: HidError)

  datatype Opened = Opened(parser: HidParser, deviceType: DeviceType, name: string)

  /** `open_rawinput_device`: read the path (which panics on an interior
      NUL), open the device, read its name and preparsed data, insist on a
      HID device, then build the parser: the XInput one when the path
      carries the XInput marker.  Opening logs the path through
      `to_str().unwrap()` whether or not the file opens, so a path that is
      not UTF-8 panics there. */
  function OpenRawinputDevice(p: Probe): (r: Outcome<Result<Opened, OpenError>>)
    ensures r.Abort? <==> DevicePath(p.rawPath).Abort? || !Utf8(DevicePath(p.rawPath).value)
                          || (p.opens && p.hasPreparsedData && p.infoType != RIM_TYPEHID)
    ensures r.Ok? && r.value.Failure? ==> (r.value.error == IoError <==> !p.opens || !p.hasPreparsedData)
    ensures r.Ok? ==> (r.value.Success? <==> p.opens && p.hasPreparsedData && p.valueCaps.Success?)
    ensures r.Ok? && r.value.Success? ==>
              var o := r.value.value;
              o.deviceType == o.parser.deviceType
              && o.parser.valueCaps == p.valueCaps.value
              && o.name == DeviceName(p.vendor, p.product, p.serial)
              && (o.deviceType == XInput <==> IsXInputPath(DevicePath(p.rawPath).value))
  {
    match DevicePath(p.rawPath)
    case Abort => Abort
    case Ok(path) =>
      var isXInput := IsXInputPath(path);
      if !Utf8(path) then Abort
      else if !p.opens then Ok(Failure(IoError))
      else
        var name := DeviceName(p.vendor, p.product, p.serial);
        if !p.hasPreparsedData then Ok(Failure(IoError))
        else if p.infoType != RIM_TYPEHID then Abort
        else
          var parser := if isXInput then NewXInput(p.valueCaps) else New(p.buttonCount, p.valueCaps);
          match parser
          case Failure(e) => Ok(Failure(HidFailure(e)))
          case Success(hp) => Ok(Success(Opened(hp, hp.deviceType, name)))
  }

  /** An XInput device opened through Raw Input panics at its first report:
      XInput pads are read through the XInput API instead. */
  lemma OpenedXInputCannotParse(p: Probe, report: Report)
    requires var r := OpenRawinputDevice(p); r.Ok? && r.value.Success? && r.value.value.deviceType == XInput
    ensures Parse(OpenRawinputDevice(p).value.value.parser, report).Abort?
  {
  }

  /** A path of a backslash and the byte 0xFF is not UTF-8, so opening it
      panics even when the file does not open. */
  lemma NonUtf8PathPanics(p: Probe)
    requires p.rawPath == [0x5C, 0xFF]
    ensures OpenRawinputDevice(p).Abort?
  {
    assert StripTrailingNuls(p.rawPath) == p.rawPath;
    assert p.rawPath[1..] == [0xFF] && !Utf8([0xFF]);
    assert !Utf8(p.rawPath);
  }
}

=== FILE: hid_device.dfy ===
/** The device-opening helpers both HID front ends share: the Raw Input
    device path, the XInput path test and the human-readable device name. */
module HidDevice {
  import opened Wrappers

  type PathByte = b: int | 0 <= b < 256

  /** The path with its trailing NUL bytes dropped. */
  function StripTrailingNuls(bytes: seq<PathByte>): (r: seq<PathByte>)
    ensures r <= bytes
    ensures |r| == 0 || r[|r| - 1] != 0
    ensures forall i :: |r| <= i < |bytes| ==> bytes[i] == 0
    decreases |bytes|
  {
    if |bytes| == 0 || bytes[|bytes| - 1] != 0 then bytes
    else StripTrailingNuls(bytes[..|bytes| - 1])
  }

  /** Stripping twice strips nothing more. */
  lemma StripIdempotent(bytes: seq<PathByte>)
    ensures StripTrailingNuls(StripTrailingNuls(bytes)) == StripTrailingNuls(bytes)
  {
  }

  function Nuls(n: nat): (r: seq<PathByte>)
    ensures |r| == n && forall i :: 0 <= i < n ==> r[i] == 0
  {
    if n == 0 then [] else Nuls(n - 1) + [0]
  }

  /** Appending NULs to a path does not change what is left after stripping. */
  lemma {:induction false} StripAppendedNuls(bytes: seq<PathByte>, n: nat)
    ensures StripTrailingNuls(bytes + Nuls(n)) == StripTrailingNuls(bytes)
    decreases n
  {
    if n > 0 {
      var longer := bytes + Nuls(n);
      assert longer[|longer| - 1] == 0;
      assert longer[..|longer| - 1] == bytes + Nuls(n - 1);
      StripAppendedNuls(bytes, n - 1);
    } else {
      assert bytes + Nuls(0) == bytes;
    }
  }

  /** `get_rawinput_device_path`: strip the terminator, then build a C
      string, which panics on a NUL left inside the path. */
  function DevicePath(raw: seq<PathByte>): (r: Outcome<seq<PathByte>>)
    ensures r.Ok? <==> 0 !in StripTrailingNuls(raw)
    ensures r.Ok? ==> r.value <= raw && 0 !in r.value
    ensures r.Ok? ==> forall i :: |r.value| <= i < |raw| ==> raw[i] == 0
  {
    var path := StripTrailingNuls(raw);
    if 0 in path then Abort else Ok(path)
  }

  // ---------------------------------------------------------------------
  // UTF-8 (section 3.9 of the Unicode Standard, Table 3-7)

  /** The length of the sequence a lead byte starts, or 0 for a byte that
      starts none (a continuation byte, C0, C1, or F5 and above). */
  function LeadLength(b: PathByte): (n: nat)
    ensures n <= 4 && (n == 1 <==> b < 0x80)
  {
    if b < 0x80 then 1
    else if 0xC2 <= b <= 0xDF then 2
    else if 0xE0 <= b <= 0xEF then 3
    else if 0xF0 <= b <= 0xF4 then 4
    else 0
  }

  predicate Continuation(b: PathByte)
  {
    0x80 <= b <= 0xBF
  }

  /** The second byte's range, which the lead narrows to rule out overlong
      forms, surrogates and values past U+10FFFF. */
  predicate SecondFits(lead: PathByte, b: PathByte)
  {
    if lead == 0xE0 then 0xA0 <= b <= 0xBF
    else if lead == 0xED then 0x80 <= b <= 0x9F
    else if lead == 0xF0 then 0x90 <= b <= 0xBF
    else if lead == 0xF4 then 0x80 <= b <= 0x8F
    else Continuation(b)
  }

  /** One well-formed UTF-8 byte sequence. */
  predicate WellFormedChar(s: seq<PathByte>)
  {
    |s| > 0 && LeadLength(s[0]) == |s|
    && (|s| > 1 ==> SecondFits(s[0], s[1]))
    && forall i :: 2 <= i < |s| ==> Continuation(s[i])
  }

  /** The bytes are well-formed UTF-8, which is what `CStr::to_str` asks. */
  predicate Utf8(s: seq<PathByte>)
    decreases |s|
  {
    |s| == 0
    || (0 < LeadLength(s[0]) <= |s| && WellFormedChar(s[..LeadLength(s[0])]) && Utf8(s[LeadLength(s[0])..]))
  }

  predicate IsScalar(c: nat)
  {
    c < 0x11_0000 && !(0xD800 <= c < 0xE000)
  }

  /** The UTF-8 encoding of a Unicode scalar value: the value's bits in
      groups of six, high group first, behind the lead byte's length mark. */
  function EncodeScalar(c: nat): seq<PathByte>
    requires IsScalar(c)
  {
    var b1 := c / 64;
    var b2 := b1 / 64;
    if c < 0x80 then [c]
    else if c < 0x800 then [0xC0 + b1, 0x80 + c % 64]
    else if c < 0x1_0000 then [0xE0 + b2, 0x80 + b1 % 64, 0x80 + c % 64]
    else [0xF0 + b2 / 64, 0x80 + b2 % 64, 0x80 + b1 % 64, 0x80 + c % 64]
  }

  function DecodeChar(s: seq<PathByte>): nat
    requires WellFormedChar(s)
  {
    var lead: int := s[0];
    if |s| == 1 then lead
    else
      var t1: int := s[|s| - 1] as int - 0x80;
      if |s| == 2 then (lead - 0xC0) * 64 + t1
      else
        var t2: int := s[|s| - 2] as int - 0x80;
        if |s| == 3 then ((lead - 0xE0) * 64 + t2) * 64 + t1
        else
          var t3: int := s[1] as int - 0x80;
          (((lead - 0xF0) * 64 + t3) * 64 + t2) * 64 + t1
  }

  lemma DivMod64(q: int, r: int)
    requires 0 <= r < 64
    ensures (q * 64 + r) / 64 == q && (q * 64 + r) % 64 == r
  {
  }

  /** Every scalar value encodes to one well-formed sequence that decodes
      back to it. */
  lemma EncodeDecode(c: nat)
    requires IsScalar(c)
    ensures WellFormedChar(EncodeScalar(c)) && DecodeChar(EncodeScalar(c)) == c
  {
    var b1 := c / 64;
    var b2 := b1 / 64;
    assert c == b1 * 64 + c % 64;
    assert b1 == b2 * 64 + b1 % 64;
    assert b2 == (b2 / 64) * 64 + b2 % 64;
  }

  /** Every well-formed sequence is the encoding of the scalar value it
      decodes to. */
  lemma DecodeEncode(s: seq<PathByte>)
    requires WellFormedChar(s)
    ensures IsScalar(DecodeChar(s)) && EncodeScalar(DecodeChar(s)) == s
  {
    var lead: int := s[0];
    if |s| == 2 {
      DivMod64(lead - 0xC0, s[1] as int - 0x80);
    } else if |s| == 3 {
      DecodeEncode3(s);
    } else if |s| == 4 {
      DecodeEncode4(s);
    }
  }

  lemma DecodeEncode3(s: seq<PathByte>)
    requires WellFormedChar(s) && |s| == 3
    ensures IsScalar(DecodeChar(s)) && EncodeScalar(DecodeChar(s)) == s
  {
    var lead: int := s[0];
    var m := (lead - 0xE0) * 64 + (s[1] as int - 0x80);
    DivMod64(m, s[2] as int - 0x80);
    DivMod64(lead - 0xE0, s[1] as int - 0x80);
  }

  lemma DecodeEncode4(s: seq<PathByte>)
    requires WellFormedChar(s) && |s| == 4
    ensures IsScalar(DecodeChar(s)) && EncodeScalar(DecodeChar(s)) == s
  {
    var lead: int := s[0];
    var m2 := (lead - 0xF0) * 64 + (s[1] as int - 0x80);
    var m1 := m2 * 64 + (s[2] as int - 0x80);
    DivMod64(m1, s[3] as int - 0x80);
    DivMod64(m2, s[2] as int - 0x80);
    DivMod64(lead - 0xF0, s[1] as int - 0x80);
  }

  predicate AllScalars(cs: seq<nat>)
  {
    forall i :: 0 <= i < |cs| ==> IsScalar(cs[i])
  }

  function EncodeAll(cs: seq<nat>): seq<PathByte>
    requires AllScalars(cs)
  {
    if |cs| == 0 then [] else EncodeScalar(cs[0]) + EncodeAll(cs[1..])
  }

  /** The scalar values of well-formed UTF-8 bytes. */
  function DecodeAll(s: seq<PathByte>): (cs: seq<nat>)
    requires Utf8(s)
    ensures AllScalars(cs)
    decreases |s|
  {
    if |s| == 0 then []
    else
      var n := LeadLength(s[0]);
      DecodeEncode(s[..n]);
      [DecodeChar(s[..n])] + DecodeAll(s[n..])
  }

  /** The encoding of any scalar values is UTF-8 and decodes back to
      them. */
  lemma {:induction false} EncodedIsUtf8(cs: seq<nat>)
    requires AllScalars(cs)
    ensures Utf8(EncodeAll(cs)) && DecodeAll(EncodeAll(cs)) == cs
  {
    if |cs| > 0 {
      var e := EncodeScalar(cs[0]);
      var rest := EncodeAll(cs[1..]);
      EncodeDecode(cs[0]);
      assert (e + rest)[..|e|] == e && (e + rest)[|e|..] == rest;
      EncodedIsUtf8(cs[1..]);
      assert [cs[0]] + cs[1..] == cs;
    }
  }

  lemma EncodeAllCons(c: nat, cs: seq<nat>)
    requires IsScalar(c) && AllScalars(cs)
    ensures AllScalars([c] + cs) && EncodeAll([c] + cs) == EncodeScalar(c) + EncodeAll(cs)
  {
    assert ([c] + cs)[1..] == cs;
  }

  /** Non-empty UTF-8 bytes are one well-formed sequence followed by more
      UTF-8, and decode as that sequence's value followed by the rest. */
  lemma DecodeAllSplit(s: seq<PathByte>)
    requires Utf8(s) && |s| > 0
    ensures var n := LeadLength(s[0]);
            0 < n <= |s| && WellFormedChar(s[..n]) && Utf8(s[n..])
            && DecodeAll(s) == [DecodeChar(s[..n])] + DecodeAll(s[n..])
  {
  }

  /** UTF-8 bytes are exactly the encodings: re-encoding what they decode
      to gives them back. */
  lemma {:induction false} Utf8IsEncoded(s: seq<PathByte>)
    requires Utf8(s)
    ensures EncodeAll(DecodeAll(s)) == s
    decreases |s|
  {
    if |s| > 0 {
      DecodeAllSplit(s);
      var n := LeadLength(s[0]);
      var head, tail := s[..n], s[n..];
      DecodeEncode(head);
      Utf8IsEncoded(tail);
      EncodeAllCons(DecodeChar(head), DecodeAll(tail));
      assert s == head + tail;
    }
  }

  /** The bytes "&IG_", which only XInput devices carry in their path. */
  const XInputMarker: seq<PathByte> := [0x26, 0x49, 0x47, 0x5F]

  predicate MarkerAt(path: seq<PathByte>, i: int)
  {
    0 <= i && i + |XInputMarker| <= |path| && path[i..i + |XInputMarker|] == XInputMarker
  }

  lemma MarkerShift(path: seq<PathByte>, i: int)
    requires |path| > 0 && 0 <= i
    ensures MarkerAt(path[1..], i) <==> MarkerAt(path, i + 1)
  {
    if 0 <= i && i + |XInputMarker| <= |path| - 1 {
      assert path[1..][i..i + |XInputMarker|] == path[i + 1..i + 1 + |XInputMarker|];
    }
  }

  /** `is_xinput_device_path`: whether the marker occurs anywhere. */
  function IsXInputPath(path: seq<PathByte>): (r: bool)
    ensures r <==> exists i :: MarkerAt(path, i)
    decreases |path|
  {
    if |path| < |XInputMarker| then false
    else if path[..|XInputMarker|] == XInputMarker then (assert MarkerAt(path, 0); true)
    else
      var rest := IsXInputPath(path[1..]);
      forall i | 0 <= i ensures MarkerAt(path[1..], i) <==> MarkerAt(path, i + 1) {
        MarkerShift(path, i);
      }
      assert !MarkerAt(path, 0);
      assert forall i :: MarkerAt(path, i) ==> i > 0 && MarkerAt(path[1..], i - 1);
      rest
  }

  /** A marker anywhere, however much surrounds it, makes a path XInput. */
  lemma MarkerAnywhere(prefix: seq<PathByte>, suffix: seq<PathByte>)
    ensures IsXInputPath(prefix + XInputMarker + suffix)
  {
    var path := prefix + XInputMarker + suffix;
    assert path[|prefix|..|prefix| + |XInputMarker|] == XInputMarker;
    assert MarkerAt(path, |prefix|);
  }

  /** A part of the name followed by a space, or nothing when it is absent. */
  function Part(s: Option<string>, open: string, close: string): (r: string)
    ensures s.None? <==> r == []
  {
    match s
    case None => []
    case Some(v) => open + v + close + " "
  }

  /** `get_rawinput_device_name`: vendor, product and "(serial)" separated by
      spaces, or "<unknown>" when the device reports none of them. */
  function DeviceName(vendor: Option<string>, product: Option<string>, serial: Option<string>): (r: string)
    ensures vendor.None? && product.None? && serial.None? ==> r == "<unknown>"
  {
    var written := Part(vendor, "", "") + Part(product, "", "") + Part(serial, "(", ")");
    if written == [] then "<unknown>" else written[..|written| - 1]
  }

  /** Dropping the last character of `a + b`, with `b` not empty, keeps `a`
      as a prefix. */
  lemma DropLastKeepsPrefix(a: string, b: string)
    requires |b| > 0
    ensures a <= (a + b)[..|a + b| - 1]
  {
    assert (a + b)[..|a + b| - 1][..|a|] == a;
  }

  /** A reported vendor starts the name. */
  lemma DeviceNameStartsWithVendor(vendor: string, product: Option<string>, serial: Option<string>)
    ensures vendor <= DeviceName(Some(vendor), product, serial)
  {
    var tail := Part(product, "", "") + Part(serial, "(", ")");
    assert Part(Some(vendor), "", "") == vendor + " ";
    var written := vendor + (" " + tail);
    assert (vendor + " ") + tail == written;
    assert DeviceName(Some(vendor), product, serial) == written[..|written| - 1];
    DropLastKeepsPrefix(vendor, " " + tail);
  }

  /** A reported serial number ends the name, in parentheses. */
  lemma DeviceNameEndsWithSerial(vendor: Option<string>, product: Option<string>, serial: string)
    ensures var r := DeviceName(vendor, product, Some(serial));
      |r| >= |serial| + 2 && r[|r| - |serial| - 2..] == "(" + serial + ")"
  {
    var head := Part(vendor, "", "") + Part(product, "", "");
    var x := "(" + serial + ")";
    assert Part(vendor, "", "") + Part(product, "", "") + Part(Some(serial), "(", ")") == (head + x) + " ";
    assert ((head + x) + " ")[..|head + x|] == head + x;
    assert (head + x)[|head|..] == x;
  }

  /** With all three parts present the name is "vendor product (serial)",
      and a device naming only its product is called by it. */
  lemma DeviceNameParts(vendor: string, product: string, serial: string)
    ensures DeviceName(Some(vendor), Some(product), Some(serial)) == vendor + " " + product + " (" + serial + ")"
    ensures DeviceName(None, Some(product), None) == product
  {
    var written := vendor + " " + product + " " + "(" + serial + ")" + " ";
    assert Part(Some(vendor), "", "") + Part(Some(product), "", "") + Part(Some(serial), "(", ")") == written;
    assert written[..|written| - 1] == vendor + " " + product + " (" + serial + ")";
    assert (product + " ")[..|product|] == product;
  }
}

=== FILE: hid_mapping.dfy ===
/** The report-to-input mapping shared by both HID parsers of the Rust
    library (dhc/src/input/hid.rs and the older dhc/src/rawinput/hid.rs):
    button usages from the Button page (section 12 of the USB HID Usage
    Tables 1.12), axis and hat usages from the Generic Desktop page
    (section 4), and the fold over the device's value capabilities.  The
    HID parsing library is an oracle: the caller supplies the pressed
    usages and the value of each usage. */
module HidMapping {
  import opened Wrappers
  import opened Inputs
  import Renderer

  const USAGE_PAGE_BUTTON: nat := 9
  const USAGE_X: nat := 0x30
  const USAGE_Y: nat := 0x31
  const USAGE_Z: nat := 0x32
  const USAGE_RX: nat := 0x33
  const USAGE_RY: nat := 0x34
  const USAGE_RZ: nat := 0x35
  const USAGE_HAT: nat := 0x39

  /** The length of the usage list `HidP_GetUsages` fills. */
  const MAX_BUTTONS: nat := 32

  /** The two button and axis layouts: the PS4 pad (also used for PS3 and
      generic devices) and the XInput pad of the older parser. */
  datatype Layout = Ps4Layout | XInputLayout

  /** The button a Button-page usage sets. */
  function ButtonForUsage(layout: Layout, u: nat): (r: Option<ButtonType>)
    ensures r.Some? ==> 1 <= u <= (if layout.Ps4Layout? then 14 else 10)
  {
    match layout
    case Ps4Layout =>
      if u == 1 then Some(ButtonType.West) else if u == 2 then Some(ButtonType.South)
      else if u == 3 then Some(ButtonType.East) else if u == 4 then Some(ButtonType.North)
      else if u == 5 then Some(L1) else if u == 6 then Some(R1)
      else if u == 7 then Some(L2) else if u == 8 then Some(R2)
      else if u == 9 then Some(Select) else if u == 10 then Some(Start)
      else if u == 11 then Some(L3) else if u == 12 then Some(R3)
      else if u == 13 then Some(Home) else if u == 14 then Some(Trackpad)
      else None
    case XInputLayout =>
      if u == 1 then Some(ButtonType.South) else if u == 2 then Some(ButtonType.East)
      else if u == 3 then Some(ButtonType.West) else if u == 4 then Some(ButtonType.North)
      else if u == 5 then Some(L1) else if u == 6 then Some(R1)
      else if u == 7 then Some(Select) else if u == 8 then Some(Start)
      else if u == 9 then Some(L3) else if u == 10 then Some(R3)
      else None
  }

  /** No two usages set the same button; the PS4 layout reaches every
      button, the XInput layout every button but L2, R2, Home and
      Trackpad. */
  lemma ButtonUsagesInjective(layout: Layout, u: nat, v: nat)
    requires ButtonForUsage(layout, u).Some? && ButtonForUsage(layout, u) == ButtonForUsage(layout, v)
    ensures u == v
  {
  }

  lemma ButtonUsagesCover(b: ButtonType)
    ensures exists u :: 1 <= u <= 14 && ButtonForUsage(Ps4Layout, u) == Some(b)
    ensures b !in {L2, R2, Home, Trackpad} <==> exists u :: 1 <= u <= 10 && ButtonForUsage(XInputLayout, u) == Some(b)
  {
    var u := match b
      case West => 1 case South => 2 case East => 3 case North => 4 case L1 => 5 case R1 => 6
      case L2 => 7 case R2 => 8 case Select => 9 case Start => 10 case L3 => 11 case R3 => 12
      case Home => 13 case Trackpad => 14;
    assert ButtonForUsage(Ps4Layout, u) == Some(b);
    if b !in {L2, R2, Home, Trackpad} {
      var x := match b
        case South => 1 case East => 2 case West => 3 case North => 4 case L1 => 5 case R1 => 6
        case Select => 7 case Start => 8 case L3 => 9 case R3 => 10 case _ => 0;
      assert ButtonForUsage(XInputLayout, x) == Some(b);
    }
  }

  /** The usages the parser reads: the list up to its first 0. */
  function Consumed(usages: seq<nat>): (r: seq<nat>)
    ensures r <= usages
    ensures 0 !in r
    ensures |r| < |usages| ==> usages[|r|] == 0
    decreases |usages|
  {
    if |usages| == 0 || usages[0] == 0 then []
    else [usages[0]] + Consumed(usages[1..])
  }

  /** The button loop: every usage up to the first 0 sets its button;
      unknown usages are ignored. */
  function ApplyButtons(layout: Layout, d: DeviceInputs, usages: seq<nat>): DeviceInputs
    decreases |usages|
  {
    if |usages| == 0 || usages[0] == 0 then d
    else
      var next := match ButtonForUsage(layout, usages[0])
        case None => d
        case Some(b) => WithButton(d, b, true);
      ApplyButtons(layout, next, usages[1..])
  }

  /** A button ends pressed exactly when it was pressed before or a consumed
      usage names it; axes and hat are untouched. */
  lemma {:induction false} ApplyButtonsSpec(layout: Layout, d: DeviceInputs, usages: seq<nat>, b: ButtonType)
    ensures GetButton(ApplyButtons(layout, d, usages), b) <==>
              GetButton(d, b) || exists u :: u in Consumed(usages) && ButtonForUsage(layout, u) == Some(b)
    ensures ApplyButtons(layout, d, usages).axes == d.axes
    ensures ApplyButtons(layout, d, usages).hatDpad == d.hatDpad
    decreases |usages|
  {
    if |usages| > 0 && usages[0] != 0 {
      var next := match ButtonForUsage(layout, usages[0])
        case None => d
        case Some(c) => WithButton(d, c, true);
      ApplyButtonsSpec(layout, next, usages[1..], b);
      assert Consumed(usages) == [usages[0]] + Consumed(usages[1..]);
      if ButtonForUsage(layout, usages[0]).Some? {
        GetButtonSelectsItsField(d, ButtonForUsage(layout, usages[0]).value, b, true);
      }
    }
  }

  /** The generic-desktop usage each axis value is written to. */
  function AxisForUsage(layout: Layout, u: nat): Option<AxisType>
  {
    match layout
    case Ps4Layout =>
      if u == USAGE_X then Some(LeftStickX) else if u == USAGE_Y then Some(LeftStickY)
      else if u == USAGE_Z then Some(RightStickX) else if u == USAGE_RZ then Some(LeftStickY)
      else if u == USAGE_RX then Some(LeftTrigger) else if u == USAGE_RY then Some(RightTrigger)
      else None
    case XInputLayout =>
      if u == USAGE_X then Some(LeftStickX) else if u == USAGE_Y then Some(LeftStickY)
      else if u == USAGE_RX then Some(RightStickX) else if u == USAGE_RY then Some(RightStickY)
      else None
  }

  /** The hat switch value: 0 to 7 clockwise from North, anything else
      centred. */
  function HatForValue(v: int): (h: Hat)
    ensures h != Neutral <==> 0 <= v < 8
    ensures h != Neutral ==> Renderer.HatDirection(h) == v
  {
    if v == 0 then Hat.North else if v == 1 then NorthEast else if v == 2 then Hat.East
    else if v == 3 then SouthEast else if v == 4 then Hat.South else if v == 5 then SouthWest
    else if v == 6 then Hat.West else if v == 7 then NorthWest else Neutral
  }

  /** The hat values are the directions the DirectInput renderer reports:
      decoding a direction's index gives the direction back. */
  lemma HatForValueInverse(h: Hat)
    requires h != Neutral
    ensures HatForValue(Renderer.HatDirection(h)) == h
  {
  }

  /** A HID value capability: its usage and logical range. */
  datatype ValueCap = ValueCap(usagePage: nat, usage: nat, logicalMin: int, logicalMax: int)

  /** `unlerp`: the position of `x` in [min, max].  A degenerate range is a
      division by zero. */
  function Unlerp(x: int, min: int, max: int): (r: Option<real>)
    ensures r.Some? <==> min != max
    ensures r.Some? && min < max ==> (InUnitRange(r.value) <==> min <= x <= max)
  {
    if min == max then None else Some((x - min) as real / (max - min) as real)
  }

  /** The older XInput parser reads a logical maximum of -1 as 65535. */
  function EffectiveMax(layout: Layout, max: int): (r: int)
    ensures layout.Ps4Layout? || max != -1 ==> r == max
    ensures layout.XInputLayout? && max == -1 ==> r == 65535
  {
    if layout.XInputLayout? && max == -1 then 65535 else max
  }

  /** One value capability: an axis usage stores the normalised value
      (`Axis::set_value` panics outside [0, 1]), the hat usage stores the
      direction, any other usage is skipped. */
  function ApplyValue(layout: Layout, d: DeviceInputs, c: ValueCap, v: int): (r: Outcome<DeviceInputs>)
    ensures AxisForUsage(layout, c.usage).None? && c.usage != USAGE_HAT ==> r == Ok(d)
    ensures AxisForUsage(layout, c.usage).None? && c.usage == USAGE_HAT ==> r == Ok(WithHat(d, HatForValue(v)))
    ensures AxisForUsage(layout, c.usage).Some? ==>
              var x := Unlerp(v, c.logicalMin, EffectiveMax(layout, c.logicalMax));
              (r.Ok? <==> x.Some? && InUnitRange(x.value))
              && (r.Ok? ==> r.value == WithAxis(d, AxisForUsage(layout, c.usage).value, x.value))
  {
    match AxisForUsage(layout, c.usage)
    case Some(t) =>
      (match Unlerp(v, c.logicalMin, EffectiveMax(layout, c.logicalMax))
       case None => Abort
       case Some(x) => if InUnitRange(x) then Ok(WithAxis(d, t, x)) else Abort)
    case None => if c.usage == USAGE_HAT then Ok(WithHat(d, HatForValue(v))) else Ok(d)
  }

  /** The value loop: each capability's usage value is read from the report
      (a failed read ends the parse with its error), then applied. */
  function ApplyValueCaps(layout: Layout, d: DeviceInputs, caps: seq<ValueCap>,
                          values: (nat, nat) -> Result<int, HidError>): Outcome<Result<DeviceInputs, HidError>>
    decreases |caps|
  {
    if |caps| == 0 then Ok(Success(d))
    else match values(caps[0].usagePage, caps[0].usage)
      case Failure(e) => Ok(Failure(e))
      case Success(v) =>
        match ApplyValue(layout, d, caps[0], v)
        case Abort => Abort
        case Ok(next) => ApplyValueCaps(layout, next, caps[1..], values)
  }

  /** An axis no usage of the layout names keeps its value through the
      value loop, and the buttons are never touched. */
  lemma {:induction false} ApplyValueCapsKeeps(layout: Layout, d: DeviceInputs, caps: seq<ValueCap>,
                                               values: (nat, nat) -> Result<int, HidError>, t: AxisType)
    requires forall u :: AxisForUsage(layout, u) != Some(t)
    ensures var r := ApplyValueCaps(layout, d, caps, values);
      r.Ok? && r.value.Success? ==> GetAxis(r.value.value, t) == GetAxis(d, t) && r.value.value.buttons == d.buttons
    decreases |caps|
  {
    if |caps| > 0 {
      match values(caps[0].usagePage, caps[0].usage)
      case Failure(e) =>
      case Success(v) =>
        match ApplyValue(layout, d, caps[0], v)
        case Abort =>
        case Ok(next) =>
          if AxisForUsage(layout, caps[0].usage).Some? {
            GetAxisSelectsItsField(d, AxisForUsage(layout, caps[0].usage).value, t,
                                   Unlerp(v, caps[0].logicalMin, EffectiveMax(layout, caps[0].logicalMax)).value);
          }
          ApplyValueCapsKeeps(layout, next, caps[1..], values, t);
    }
  }

  /** The errors of the HID parsing library, `HidPError`. */
  datatype HidError =
    | BadLogPhyValues | BufferTooSmall | ButtonNotPressed | DataIndexNotFound | DataIndexOutOfRange
    | I8042TransUnknown | IncompatibleReportId | InternalError | InvalidPreparsedData | InvalidReportLength
    | InvalidReportType | IsValueArray | NotImplemented | NotValueArray | Null | ReportDoesNotExist
    | StatusSuccess | UsageNotFound | ValueOutOfRange | Unknown(code: nat)

  /** What the HID library reports for one input report: the pressed
      Button-page usages, and the value of a (page, usage) pair. */
  datatype Report = Report(buttons: Result<seq<nat>, HidError>, values: (nat, nat) -> Result<int, HidError>)

  /** `parse_ps4` and its XInput counterpart: start from the default state,
      apply the button usages, then the value capabilities. */
  function ParseReport(layout: Layout, caps: seq<ValueCap>, report: Report): Outcome<Result<DeviceInputs, HidError>>
  {
    match report.buttons
    case Failure(e) => Ok(Failure(e))
    case Success(usages) => ApplyValueCaps(layout, ApplyButtons(layout, Default(), usages), caps, report.values)
  }

  /** A parsed PS4 report never writes the right stick's Y axis: it keeps
      its default 0.5. */
  lemma Ps4RightStickYUnwritten(caps: seq<ValueCap>, report: Report)
    ensures var r := ParseReport(Ps4Layout, caps, report);
      r.Ok? && r.value.Success? ==> GetAxis(r.value.value, RightStickY) == 0.5
  {
    if report.buttons.Success? {
      var d := ApplyButtons(Ps4Layout, Default(), report.buttons.value);
      ApplyButtonsSpec(Ps4Layout, Default(), report.buttons.value, Start);
      ApplyValueCapsKeeps(Ps4Layout, d, caps, report.values, RightStickY);
    }
  }

  /** A parsed XInput report never writes the trigger axes: both keep
      their default 0.5. */
  lemma XInputTriggersUnwritten(caps: seq<ValueCap>, report: Report, t: AxisType)
    requires t in {LeftTrigger, RightTrigger}
    ensures var r := ParseReport(XInputLayout, caps, report);
      r.Ok? && r.value.Success? ==> GetAxis(r.value.value, t) == 0.5
  {
    if report.buttons.Success? {
      var d := ApplyButtons(XInputLayout, Default(), report.buttons.value);
      ApplyButtonsSpec(XInputLayout, Default(), report.buttons.value, Start);
      ApplyValueCapsKeeps(XInputLayout, d, caps, report.values, t);
    }
  }

  /** The buttons of a parsed report are exactly those named by the usages
      before the first 0. */
  lemma ParsedButtons(layout: Layout, caps: seq<ValueCap>, report: Report, b: ButtonType)
    requires report.buttons.Success?
    ensures var r := ParseReport(layout, caps, report);
      r.Ok? && r.value.Success? ==>
        (GetButton(r.value.value, b) <==> exists u :: u in Consumed(report.buttons.value) && ButtonForUsage(layout, u) == Some(b))
  {
    var d := ApplyButtons(layout, Default(), report.buttons.value);
    ApplyButtonsSpec(layout, Default(), report.buttons.value, b);
    ApplyValueCapsKeeps(layout, d, caps, report.values, if layout.Ps4Layout? then RightStickY else LeftTrigger);
  }
}

=== FILE: input_manager.dfy ===
/** The device registry of the Rust library's input thread
    (dhc/src/input/mod.rs): the Raw Input devices that arrived, the XInput
    pads found by scanning the four XInput slots, and the queue of arrival
    and removal events the binding core drains.  A device's triple buffer
    is modelled as the last value written to it; the platform's answers
    (opening a device, whether an XInput slot holds a pad, what a pad
    reads) are parameters. */
module InputManager {
  import opened Wrappers
  import opened Strings
  import opened Inputs
  import Hid
  import Binding

  /** The two Raw Input device classes DHC registers for. */
  datatype RawInputDeviceType = Joystick | GamePad

  /** `hid_usage`: the HID usage page and usage a class is registered
      under: the generic-desktop page, with the joystick or the gamepad
      usage. */
  function HidUsage(t: RawInputDeviceType): (r: (nat, nat))
    ensures r.0 == 0x01 && r.1 in {0x04, 0x05}
  {
    match t
    case Joystick => (0x01, 0x04)
    case GamePad => (0x01, 0x05)
  }

  /** The two classes are registered under different usages. */
  lemma HidUsageDistinct(t: RawInputDeviceType, u: RawInputDeviceType)
    ensures HidUsage(t) == HidUsage(u) <==> t == u
  {
  }

  /** `DeviceId`: a Raw Input handle or an XInput slot. */
  datatype DeviceId = RawInput(handle: nat) | XInput(slot: nat)

  /** `RawInputEvent`; an arrival carries the `DeviceDescription`. */
  datatype Event = DeviceArrived(id: DeviceId, name: string) | DeviceRemoved(id: DeviceId)

  /** `RawInputDeviceState`: the buffer written on each report, the parser
      and whether the device is an XInput pad seen through Raw Input. */
  datatype RawDevice = RawDevice(buffer: DeviceInputs, parser: Hid.HidParser, isXInput: bool)

  /** `RawInputManager`: the event queue, the Raw Input devices by handle
      and the XInput pads by slot, each with its buffer. */
  datatype Manager = Manager(queue: seq<Event>, devices: map<nat, RawDevice>, xinput: map<nat, DeviceInputs>)

  /** XInput slots 0 .. 3 are scanned. */
  const XInputSlots: nat := 4

  /** `RawInputManager::new`. */
  function NewManager(): (m: Manager)
    ensures m.queue == [] && m.devices == map[] && m.xinput == map[]
  {
    Manager([], map[], map[])
  }

  /** `cmd_get_events`: the queue is swapped for an empty one and handed
      over whole. */
  function GetEvents(m: Manager): (r: (seq<Event>, Manager))
    ensures r.0 == m.queue && r.1.queue == []
    ensures r.1.devices == m.devices && r.1.xinput == m.xinput
  {
    (m.queue, m.(queue := []))
  }

  // ---------------------------------------------------------------------
  // What the events announce

  /** The announced devices after one event. */
  function Step(s: set<DeviceId>, e: Event): set<DeviceId>
  {
    match e
    case DeviceArrived(id, _) => s + {id}
    case DeviceRemoved(id) => s - {id}
  }

  /** The announced devices after a run of events. */
  function Apply(s: set<DeviceId>, es: seq<Event>): set<DeviceId>
    decreases |es|
  {
    if es == [] then s else Apply(Step(s, es[0]), es[1..])
  }

  /** A run of events a consumer can follow: every arrival is of a device
      not yet announced, every removal of one that is. */
  predicate Valid(s: set<DeviceId>, es: seq<Event>)
    decreases |es|
  {
    es == []
    || ((match es[0]
         case DeviceArrived(id, _) => id !in s
         case DeviceRemoved(id) => id in s)
        && Valid(Step(s, es[0]), es[1..]))
  }

  lemma {:induction false} ApplyAppend(s: set<DeviceId>, a: seq<Event>, b: seq<Event>)
    ensures Apply(s, a + b) == Apply(Apply(s, a), b)
    ensures Valid(s, a + b) <==> Valid(s, a) && Valid(Apply(s, a), b)
    decreases |a|
  {
    if a == [] {
      assert a + b == b;
    } else {
      assert (a + b)[0] == a[0];
      assert (a + b)[1..] == a[1..] + b;
      ApplyAppend(Step(s, a[0]), a[1..], b);
    }
  }

  /** The Raw Input devices the consumer should see: all but the XInput
      pads, which it sees by slot instead. */
  function RawHeld(devices: map<nat, RawDevice>): set<DeviceId>
  {
    set h | h in devices && !devices[h].isXInput :: RawInput(h)
  }

  /** The XInput pads the consumer should see, by slot. */
  function PadsHeld(xs: map<nat, DeviceInputs>): set<DeviceId>
  {
    set i | i in xs :: XInput(i)
  }

  lemma HeldMembers(devices: map<nat, RawDevice>, xs: map<nat, DeviceInputs>, id: DeviceId)
    ensures id in RawHeld(devices) <==> id.RawInput? && id.handle in devices && !devices[id.handle].isXInput
    ensures id in PadsHeld(xs) <==> id.XInput? && id.slot in xs
  {
  }

  /** The devices the manager holds as the consumer should see them. */
  function Held(m: Manager): set<DeviceId>
  {
    RawHeld(m.devices) + PadsHeld(m.xinput)
  }

  /** The registry's invariant relative to what the consumer has already
      drained (`delivered`): the queue is a run it can follow, and after it
      the consumer knows exactly the devices the manager holds. */
  predicate Consistent(delivered: set<DeviceId>, m: Manager)
  {
    Valid(delivered, m.queue) && Apply(delivered, m.queue) == Held(m)
  }

  /** A new manager is consistent with a consumer that knows nothing. */
  lemma NewManagerConsistent()
    ensures Consistent({}, NewManager())
  {
    assert Held(NewManager()) == {};
  }

  /** Draining keeps the registry consistent with a consumer that has now
      also received the drained events. */
  lemma GetEventsPreserves(delivered: set<DeviceId>, m: Manager)
    requires Consistent(delivered, m)
    ensures Consistent(Apply(delivered, GetEvents(m).0), GetEvents(m).1)
    ensures Valid(delivered, GetEvents(m).0)
  {
    assert Held(GetEvents(m).1) == Held(m);
  }

  // ---------------------------------------------------------------------
  // scan_xinput

  /** Whether slot `i`'s knowledge disagrees with the platform: a known
      pad that is `gone`, or (not `gone`) an unknown slot that holds a pad. */
  predicate Disagrees(xs: map<nat, DeviceInputs>, present: nat -> bool, gone: bool, i: nat)
  {
    if gone then i in xs && !present(i) else i !in xs && present(i)
  }

  predicate Increasing(r: seq<nat>)
  {
    forall a, b :: 0 <= a < b < |r| ==> r[a] < r[b]
  }

  /** The disagreeing slots below `k`, in increasing order. */
  function Disagreeing(xs: map<nat, DeviceInputs>, present: nat -> bool, gone: bool, k: nat): (r: seq<nat>)
    ensures forall i: nat :: i in r <==> i < k && Disagrees(xs, present, gone, i)
    ensures Increasing(r)
    decreases k
  {
    if k == 0 then []
    else
      var r := Disagreeing(xs, present, gone, k - 1);
      assert forall a :: 0 <= a < |r| ==> r[a] < k - 1 by {
        forall a | 0 <= a < |r| ensures r[a] < k - 1 {
          assert r[a] in r;
        }
      }
      r + (if Disagrees(xs, present, gone, k - 1) then [k - 1] else [])
  }

  /** The name of a pad's description: `format!("{:?}", id)`. */
  function XInputName(i: nat): string
  {
    "XInputDeviceId(" + Decimal(i) + ")"
  }

  function Removals(ids: seq<nat>): (r: seq<Event>)
    ensures |r| == |ids| && forall j :: 0 <= j < |ids| ==> r[j] == DeviceRemoved(XInput(ids[j]))
  {
    seq(|ids|, j requires 0 <= j < |ids| => DeviceRemoved(XInput(ids[j])))
  }

  function Arrivals(ids: seq<nat>): (r: seq<Event>)
    ensures |r| == |ids| && forall j :: 0 <= j < |ids| ==> r[j] == DeviceArrived(XInput(ids[j]), XInputName(ids[j]))
  {
    seq(|ids|, j requires 0 <= j < |ids| => DeviceArrived(XInput(ids[j]), XInputName(ids[j])))
  }

  /** The known slots whose pad is gone. */
  function Killed(xs: map<nat, DeviceInputs>, present: nat -> bool): seq<nat>
  {
    Disagreeing(xs, present, true, XInputSlots)
  }

  /** The unknown slots that now hold a pad. */
  function Fresh(xs: map<nat, DeviceInputs>, present: nat -> bool): seq<nat>
  {
    Disagreeing(xs, present, false, XInputSlots)
  }

  /** The pads of a list of slots. */
  function Slots(ids: seq<nat>): set<DeviceId>
  {
    set j | j in ids :: XInput(j)
  }

  /** The pads after a scan: the gone ones dropped, the new ones added with
      a default buffer, slots past the scanned ones untouched. */
  function ScannedPads(xs: map<nat, DeviceInputs>, present: nat -> bool): (r: map<nat, DeviceInputs>)
    ensures forall i: nat :: i < XInputSlots ==> (i in r <==> present(i))
    ensures forall i :: i >= XInputSlots ==> (i in r <==> i in xs)
    ensures forall i :: i in r ==> r[i] == if i in xs then xs[i] else Default()
  {
    var added := set i: nat | i < XInputSlots && present(i);
    map i | i in xs.Keys + added && (i >= XInputSlots || present(i)) :: if i in xs then xs[i] else Default()
  }

  /** `scan_xinput`: every slot whose knowledge disagrees with the
      platform is corrected, the gone pads first, each reported by an event
      in slot order; a new pad gets a default buffer. */
  function ScanXInput(m: Manager, present: nat -> bool): (r: Manager)
    ensures forall i: nat :: i < XInputSlots ==> (i in r.xinput <==> present(i))
    ensures forall i :: i >= XInputSlots ==> (i in r.xinput <==> i in m.xinput)
    ensures forall i :: i in r.xinput ==> r.xinput[i] == if i in m.xinput then m.xinput[i] else Default()
    ensures r.devices == m.devices
    ensures r.queue == m.queue + (Removals(Killed(m.xinput, present)) + Arrivals(Fresh(m.xinput, present)))
  {
    var killed := Killed(m.xinput, present);
    var added := Fresh(m.xinput, present);
    Manager(m.queue + (Removals(killed) + Arrivals(added)), m.devices, ScannedPads(m.xinput, present))
  }

  /** A second scan against the same platform finds nothing to report
      and changes nothing. */
  lemma ScanXInputIdempotent(m: Manager, present: nat -> bool)
    ensures ScanXInput(ScanXInput(m, present), present) == ScanXInput(m, present)
  {
    ScanOfAgreeingIsIdentity(ScanXInput(m, present), present);
  }

  /** A scan of a manager whose slots already agree with the platform
      changes nothing. */
  lemma ScanOfAgreeingIsIdentity(m: Manager, present: nat -> bool)
    requires forall i: nat :: i < XInputSlots ==> (i in m.xinput <==> present(i))
    ensures ScanXInput(m, present) == m
  {
    NothingDisagrees(m.xinput, present, true);
    NothingDisagrees(m.xinput, present, false);
    assert Removals([]) == [] && Arrivals([]) == [];
    assert m.queue + ([] + []) == m.queue;
    ScanKeepsScanned(m.xinput, present);
  }

  lemma ScanKeepsScanned(xs: map<nat, DeviceInputs>, present: nat -> bool)
    requires forall i: nat :: i < XInputSlots ==> (i in xs <==> present(i))
    ensures ScannedPads(xs, present) == xs
  {
    var r := ScannedPads(xs, present);
    assert r.Keys == xs.Keys;
  }

  lemma NothingDisagrees(xs: map<nat, DeviceInputs>, present: nat -> bool, gone: bool)
    requires forall i: nat :: i < XInputSlots ==> (i in xs <==> present(i))
    ensures Disagreeing(xs, present, gone, XInputSlots) == []
  {
    var k := Disagreeing(xs, present, gone, XInputSlots);
    if k != [] {
      assert false;
    }
  }

  /** Removing pads the consumer knows of, each once, is a run it can
      follow and takes exactly those pads away. */
  lemma {:induction false} RemovalsApply(s: set<DeviceId>, ids: seq<nat>)
    requires forall j :: j in ids ==> XInput(j) in s
    requires Increasing(ids)
    ensures Valid(s, Removals(ids))
    ensures Apply(s, Removals(ids)) == s - Slots(ids)
    decreases |ids|
  {
    var es := Removals(ids);
    if ids != [] {
      var rest := ids[1..];
      assert es[1..] == Removals(rest);
      assert ids[0] !in rest by {
        forall j | 0 <= j < |rest| ensures rest[j] != ids[0] {
          assert ids[0] < ids[j + 1];
        }
      }
      var t := Step(s, es[0]);
      assert t == s - {XInput(ids[0])};
      assert forall j :: j in rest ==> j in ids;
      RemovalsApply(t, rest);
      assert Slots(ids) == {XInput(ids[0])} + Slots(rest) by {
        assert forall j :: j in ids <==> j == ids[0] || j in rest;
      }
    }
  }

  /** Announcing pads the consumer does not know of, each once, is a run
      it can follow and adds exactly those pads. */
  lemma {:induction false} ArrivalsApply(s: set<DeviceId>, ids: seq<nat>)
    requires forall j :: j in ids ==> XInput(j) !in s
    requires Increasing(ids)
    ensures Valid(s, Arrivals(ids))
    ensures Apply(s, Arrivals(ids)) == s + Slots(ids)
    decreases |ids|
  {
    var es := Arrivals(ids);
    if ids != [] {
      var rest := ids[1..];
      assert es[1..] == Arrivals(rest);
      assert ids[0] !in rest by {
        forall j | 0 <= j < |rest| ensures rest[j] != ids[0] {
          assert ids[0] < ids[j + 1];
        }
      }
      var t := Step(s, es[0]);
      assert t == s + {XInput(ids[0])};
      assert forall j :: j in rest ==> j in ids;
      ArrivalsApply(t, rest);
      assert Slots(ids) == {XInput(ids[0])} + Slots(rest) by {
        assert forall j :: j in ids <==> j == ids[0] || j in rest;
      }
    }
  }

  /** The pads after a scan are the old ones less the gone and plus the
      new. */
  lemma PadsAfterScan(xs: map<nat, DeviceInputs>, present: nat -> bool)
    ensures PadsHeld(ScannedPads(xs, present)) == (PadsHeld(xs) - Slots(Killed(xs, present))) + Slots(Fresh(xs, present))
  {
    var r := ScannedPads(xs, present);
    var killed := Killed(xs, present);
    var added := Fresh(xs, present);
    forall id
      ensures id in PadsHeld(r) <==> id in (PadsHeld(xs) - Slots(killed)) + Slots(added)
    {
      HeldMembers(map[], r, id);
      HeldMembers(map[], xs, id);
      if id.XInput? {
        assert XInput(id.slot) == id;
        assert id in Slots(killed) <==> id.slot in killed;
        assert id in Slots(added) <==> id.slot in added;
      } else {
        assert id !in Slots(killed) && id !in Slots(added);
      }
    }
  }

  lemma RawAreNotPads(devices: map<nat, RawDevice>, ids: seq<nat>)
    ensures RawHeld(devices) !! Slots(ids)
  {
    forall id | id in RawHeld(devices) ensures id.RawInput? {
      HeldMembers(devices, map[], id);
    }
  }

  lemma RegroupDisjoint(a: set<DeviceId>, b: set<DeviceId>, k: set<DeviceId>, f: set<DeviceId>)
    requires a !! k
    ensures a + ((b - k) + f) == ((a + b) - k) + f
  {
  }

  /** What the manager holds after a scan. */
  lemma HeldAfterScan(m: Manager, present: nat -> bool)
    ensures Held(ScanXInput(m, present))
         == (Held(m) - Slots(Killed(m.xinput, present))) + Slots(Fresh(m.xinput, present))
  {
    PadsAfterScan(m.xinput, present);
    RawAreNotPads(m.devices, Killed(m.xinput, present));
    RegroupDisjoint(RawHeld(m.devices), PadsHeld(m.xinput), Slots(Killed(m.xinput, present)), Slots(Fresh(m.xinput, present)));
  }

  /** The scan's events are a run that takes a consumer knowing the
      manager's devices to the scanned ones. */
  lemma ScanEventsApply(m: Manager, present: nat -> bool)
    ensures Valid(Held(m), Removals(Killed(m.xinput, present)) + Arrivals(Fresh(m.xinput, present)))
    ensures Apply(Held(m), Removals(Killed(m.xinput, present)) + Arrivals(Fresh(m.xinput, present)))
         == (Held(m) - Slots(Killed(m.xinput, present))) + Slots(Fresh(m.xinput, present))
  {
    var killed := Killed(m.xinput, present);
    var added := Fresh(m.xinput, present);
    var s := Held(m);
    forall j | j in killed ensures XInput(j) in s {
      HeldMembers(m.devices, m.xinput, XInput(j));
    }
    RemovalsApply(s, killed);
    var s1 := s - Slots(killed);
    forall j | j in added ensures XInput(j) !in s1 {
      HeldMembers(m.devices, m.xinput, XInput(j));
    }
    ArrivalsApply(s1, added);
    ApplyAppend(s, Removals(killed), Arrivals(added));
  }

  /** A run that takes the manager's devices to the new manager's, queued
      after the old queue, keeps the registry consistent. */
  lemma ConsistentByRun(delivered: set<DeviceId>, m: Manager, es: seq<Event>, r: Manager)
    requires Consistent(delivered, m)
    requires r.queue == m.queue + es
    requires Valid(Held(m), es) && Apply(Held(m), es) == Held(r)
    ensures Consistent(delivered, r)
  {
    ApplyAppend(delivered, m.queue, es);
  }

  /** A scan keeps the registry consistent: its events take the consumer
      from the old pads to the new ones. */
  lemma ScanPreserves(delivered: set<DeviceId>, m: Manager, present: nat -> bool)
    requires Consistent(delivered, m)
    ensures Consistent(delivered, ScanXInput(m, present))
  {
    var es := Removals(Killed(m.xinput, present)) + Arrivals(Fresh(m.xinput, present));
    ScanEventsApply(m, present);
    HeldAfterScan(m, present);
    ConsistentByRun(delivered, m, es, ScanXInput(m, present));
  }

  // ---------------------------------------------------------------------
  // Arrival, removal and input

  /** `handle_device_arrival`: a device that fails to open is ignored;
      otherwise it is recorded under its handle (replacing any earlier
      record) with a default buffer, and then either the XInput slots are
      rescanned or its arrival is queued. */
  function Arrival(m: Manager, id: nat, probe: Hid.Probe, present: nat -> bool): (r: Outcome<Manager>)
    ensures r.Abort? <==> Hid.OpenRawinputDevice(probe).Abort?
    ensures r.Ok? && Hid.OpenRawinputDevice(probe).value.Failure? ==> r.value == m
    ensures r.Ok? && Hid.OpenRawinputDevice(probe).value.Success? ==>
              id in r.value.devices && r.value.devices[id].buffer == Default()
              && (r.value.devices[id].isXInput <==> Hid.OpenRawinputDevice(probe).value.value.deviceType == Hid.XInput)
              && (!r.value.devices[id].isXInput ==>
                    r.value.queue == m.queue + [DeviceArrived(RawInput(id), Hid.OpenRawinputDevice(probe).value.value.name)])
  {
    match Hid.OpenRawinputDevice(probe)
    case Abort => Abort
    case Ok(Failure(_)) => Ok(m)
    case Ok(Success(o)) =>
      var isXInput := o.deviceType == Hid.XInput;
      var m1 := m.(devices := m.devices[id := RawDevice(Default(), o.parser, isXInput)]);
      if isXInput then Ok(ScanXInput(m1, present))
      else Ok(m1.(queue := m1.queue + [DeviceArrived(RawInput(id), o.name)]))
  }

  /** The arrival of a handle the manager does not hold keeps it
      consistent. */
  lemma ArrivalPreserves(delivered: set<DeviceId>, m: Manager, id: nat, probe: Hid.Probe, present: nat -> bool)
    requires Consistent(delivered, m) && id !in m.devices
    requires Arrival(m, id, probe, present).Ok?
    ensures Consistent(delivered, Arrival(m, id, probe, present).value)
  {
    match Hid.OpenRawinputDevice(probe)
    case Ok(Failure(_)) =>
    case Ok(Success(o)) =>
      var isXInput := o.deviceType == Hid.XInput;
      var d := m.devices[id := RawDevice(Default(), o.parser, isXInput)];
      var m1 := m.(devices := d);
      if isXInput {
        RawAfterStore(m.devices, id, RawDevice(Default(), o.parser, isXInput));
        assert Held(m1) == Held(m);
        ScanPreserves(delivered, m1, present);
      } else {
        var e := DeviceArrived(RawInput(id), o.name);
        RawAfterStore(m.devices, id, RawDevice(Default(), o.parser, isXInput));
        HeldMembers(m.devices, m.xinput, RawInput(id));
        assert Held(m1) == Held(m) + {RawInput(id)};
        assert Apply(Held(m), [e]) == Step(Held(m), e);
        assert Valid(Held(m), [e]);
        ConsistentByRun(delivered, m, [e], m1.(queue := m.queue + [e]));
      }
  }

  /** Recording a device under a handle the manager does not hold adds it
      to the Raw Input devices the consumer sees unless it is a pad. */
  lemma RawAfterStore(devices: map<nat, RawDevice>, id: nat, d: RawDevice)
    requires id !in devices
    ensures RawHeld(devices[id := d]) == RawHeld(devices) + (if d.isXInput then {} else {RawInput(id)})
  {
    var lhs := RawHeld(devices[id := d]);
    var rhs := RawHeld(devices) + (if d.isXInput then {} else {RawInput(id)});
    forall x ensures x in lhs <==> x in rhs {
      HeldMembers(devices[id := d], map[], x);
      HeldMembers(devices, map[], x);
    }
  }

  /** Forgetting a held handle takes it out of the Raw Input devices the
      consumer sees. */
  lemma RawAfterDelete(devices: map<nat, RawDevice>, id: nat)
    requires id in devices
    ensures RawHeld(devices - {id}) == RawHeld(devices) - {RawInput(id)}
  {
    var lhs := RawHeld(devices - {id});
    var rhs := RawHeld(devices) - {RawInput(id)};
    forall x ensures x in lhs <==> x in rhs {
      HeldMembers(devices - {id}, map[], x);
      HeldMembers(devices, map[], x);
    }
  }

  /** A second arrival of a held Raw Input device queues a second
      announcement of it, which a consumer cannot follow. */
  lemma ArrivalOfHeldDeviceReannounces(delivered: set<DeviceId>, m: Manager, id: nat, probe: Hid.Probe, present: nat -> bool)
    requires Consistent(delivered, m)
    requires id in m.devices && !m.devices[id].isXInput
    requires Hid.OpenRawinputDevice(probe).Ok? && Hid.OpenRawinputDevice(probe).value.Success?
    requires Hid.OpenRawinputDevice(probe).value.value.deviceType != Hid.XInput
    ensures !Valid(delivered, Arrival(m, id, probe, present).value.queue)
  {
    var o := Hid.OpenRawinputDevice(probe).value.value;
    var e := DeviceArrived(RawInput(id), o.name);
    assert RawInput(id) in Held(m);
    ApplyAppend(delivered, m.queue, [e]);
  }

  /** `handle_device_removal`: an unknown handle is ignored; otherwise the
      device is forgotten and either the XInput slots are rescanned or its
      removal is queued. */
  function Removal(m: Manager, id: nat, present: nat -> bool): (r: Manager)
    ensures id !in r.devices
    ensures id !in m.devices ==> r == m
    ensures id in m.devices && !m.devices[id].isXInput ==> r.queue == m.queue + [DeviceRemoved(RawInput(id))]
    ensures forall h :: h != id ==> (h in r.devices <==> h in m.devices)
  {
    if id !in m.devices then m
    else
      var isXInput := m.devices[id].isXInput;
      var m1 := m.(devices := m.devices - {id});
      if isXInput then ScanXInput(m1, present)
      else m1.(queue := m1.queue + [DeviceRemoved(RawInput(id))])
  }

  /** A removal keeps the registry consistent. */
  lemma RemovalPreserves(delivered: set<DeviceId>, m: Manager, id: nat, present: nat -> bool)
    requires Consistent(delivered, m)
    ensures Consistent(delivered, Removal(m, id, present))
  {
    if id in m.devices {
      var m1 := m.(devices := m.devices - {id});
      RawAfterDelete(m.devices, id);
      HeldMembers(m.devices, m.xinput, RawInput(id));
      if m.devices[id].isXInput {
        assert Held(m1) == Held(m);
        ScanPreserves(delivered, m1, present);
      } else {
        var e := DeviceRemoved(RawInput(id));
        assert Held(m1) == Held(m) - {RawInput(id)};
        assert Apply(Held(m), [e]) == Step(Held(m), e);
        assert Valid(Held(m), [e]);
        ConsistentByRun(delivered, m, [e], m1.(queue := m.queue + [e]));
      }
    }
  }

  /** The `wParam` values WM_INPUT_DEVICE_CHANGE carries. */
  const GIDC_ARRIVAL: nat := 1
  const GIDC_REMOVAL: nat := 2

  /** `handle_message` on WM_INPUT_DEVICE_CHANGE: GIDC_ARRIVAL is an
      arrival, GIDC_REMOVAL a removal, and any other argument panics. */
  function DeviceChange(m: Manager, w: nat, id: nat, probe: Hid.Probe, present: nat -> bool): (r: Outcome<Manager>)
    ensures r.Ok? ==> w == GIDC_ARRIVAL || w == GIDC_REMOVAL
    ensures w == GIDC_REMOVAL ==> r.Ok? && id !in r.value.devices
    ensures w == GIDC_ARRIVAL && r.Ok? && Hid.OpenRawinputDevice(probe).Ok? && Hid.OpenRawinputDevice(probe).value.Success? ==> id in r.value.devices
  {
    if w == GIDC_ARRIVAL then Arrival(m, id, probe, present)
    else if w == GIDC_REMOVAL then Ok(Removal(m, id, present))
    else Abort
  }

  /** A device change keeps the registry consistent, unless it is the
      arrival of a handle already held. */
  lemma DeviceChangePreserves(delivered: set<DeviceId>, m: Manager, w: nat, id: nat, probe: Hid.Probe,
                              present: nat -> bool)
    requires Consistent(delivered, m)
    requires w == GIDC_ARRIVAL ==> id !in m.devices
    requires DeviceChange(m, w, id, probe, present).Ok?
    ensures Consistent(delivered, DeviceChange(m, w, id, probe, present).value)
  {
    if w == GIDC_ARRIVAL {
      ArrivalPreserves(delivered, m, id, probe, present);
    } else {
      RemovalPreserves(delivered, m, id, present);
    }
  }

  /** `read_xinput`: every known pad's buffer takes what the pad reads;
      if any pad cannot be read, the slots are rescanned. */
  function ReadXInput(m: Manager, readings: nat -> Option<DeviceInputs>, present: nat -> bool): (r: Manager)
    ensures r.devices == m.devices
    ensures (forall i :: i in m.xinput ==> readings(i).Some?) ==>
              r.queue == m.queue && r.xinput.Keys == m.xinput.Keys
              && forall i :: i in m.xinput ==> r.xinput[i] == readings(i).value
  {
    var xs := map i | i in m.xinput :: if readings(i).Some? then readings(i).value else m.xinput[i];
    var m1 := m.(xinput := xs);
    if exists i :: i in m.xinput && readings(i).None? then ScanXInput(m1, present) else m1
  }

  lemma ReadXInputPreserves(delivered: set<DeviceId>, m: Manager, readings: nat -> Option<DeviceInputs>, present: nat -> bool)
    requires Consistent(delivered, m)
    ensures Consistent(delivered, ReadXInput(m, readings, present))
  {
    var xs := map i | i in m.xinput :: if readings(i).Some? then readings(i).value else m.xinput[i];
    var m1 := m.(xinput := xs);
    assert Held(m1) == Held(m);
    if exists i :: i in m.xinput && readings(i).None? {
      ScanPreserves(delivered, m1, present);
    }
  }

  /** `handle_device_input`: a failed read of the report panics, a report
      from an unknown device is dropped, a report that is not HID panics,
      an XInput pad's report triggers `read_xinput`, and any other device's
      buffer takes the value its report parsing wrote (`written`). */
  function DeviceInput(m: Manager, dataRead: bool, id: nat, isHid: bool, written: Outcome<DeviceInputs>,
                       readings: nat -> Option<DeviceInputs>, present: nat -> bool): (r: Outcome<Manager>)
    ensures r.Ok? ==> r.value.devices.Keys == m.devices.Keys
    ensures dataRead && id !in m.devices ==> r == Ok(m)
    ensures r.Ok? && id in m.devices && !m.devices[id].isXInput ==>
              written.Ok? && r.value.devices[id].buffer == written.value && r.value.queue == m.queue
  {
    if !dataRead then Abort
    else if id !in m.devices then Ok(m)
    else if !isHid then Abort
    else if m.devices[id].isXInput then Ok(ReadXInput(m, readings, present))
    else match written
      case Abort => Abort
      case Ok(v) => Ok(m.(devices := m.devices[id := m.devices[id].(buffer := v)]))
  }

  lemma DeviceInputPreserves(delivered: set<DeviceId>, m: Manager, dataRead: bool, id: nat, isHid: bool,
                             written: Outcome<DeviceInputs>, readings: nat -> Option<DeviceInputs>, present: nat -> bool)
    requires Consistent(delivered, m)
    requires DeviceInput(m, dataRead, id, isHid, written, readings, present).Ok?
    ensures Consistent(delivered, DeviceInput(m, dataRead, id, isHid, written, readings, present).value)
  {
    if id in m.devices {
      if m.devices[id].isXInput {
        ReadXInputPreserves(delivered, m, readings, present);
      } else {
        var r := DeviceInput(m, dataRead, id, isHid, written, readings, present).value;
        assert Held(r) == Held(m);
      }
    }
  }

  // ---------------------------------------------------------------------
  // Handing the events to the binding core

  /** The binding core's opaque id for a device id. */
  function Code(id: DeviceId): nat
  {
    match id
    case RawInput(h) => 2 * h
    case XInput(i) => 2 * i + 1
  }

  lemma CodeInjective(a: DeviceId, b: DeviceId)
    ensures Code(a) == Code(b) <==> a == b
  {
  }

  function Codes(s: set<DeviceId>): set<nat>
  {
    set id | id in s :: Code(id)
  }

  /** An event as the binding core receives it; a new device's buffer
      starts at `DeviceInputs::default()`. */
  function ToBinding(e: Event): Binding.Event
  {
    match e
    case DeviceArrived(id, name) => Binding.DeviceArrived(Code(id), name, Default())
    case DeviceRemoved(id) => Binding.DeviceRemoved(Code(id))
  }

  function ToBindingAll(es: seq<Event>): (r: seq<Binding.Event>)
    ensures |r| == |es| && forall j :: 0 <= j < |es| ==> r[j] == ToBinding(es[j])
  {
    seq(|es|, j requires 0 <= j < |es| => ToBinding(es[j]))
  }

  /** A run the consumer can follow is a queue the binding core accepts. */
  lemma {:induction false} ValidForBinding(s: set<DeviceId>, es: seq<Event>)
    requires Valid(s, es)
    ensures Binding.ValidEvents(Codes(s), ToBindingAll(es))
    decreases |es|
  {
    if es != [] {
      var bs := ToBindingAll(es);
      assert bs[1..] == ToBindingAll(es[1..]);
      var id := es[0].id;
      forall x | x in s ensures Code(x) == Code(id) <==> x == id {
        CodeInjective(x, id);
      }
      assert Code(id) in Codes(s) <==> id in s;
      if es[0].DeviceArrived? {
        assert Codes(Step(s, es[0])) == Codes(s) + {Code(id)};
      } else {
        assert Codes(Step(s, es[0])) == Codes(s) - {Code(id)};
      }
      ValidForBinding(Step(s, es[0]), es[1..]);
    }
  }
  /** A drained queue of a consistent registry, handed to a binding core
      that holds exactly the devices already delivered, is applied without
      a panic and keeps the binding core's invariant. */
  lemma DeliveredEventsBindSafely(delivered: set<DeviceId>, m: Manager, s: Binding.State)
    requires Consistent(delivered, m)
    requires Binding.Invariant(s)
    requires forall x :: Binding.HasId(s.rdevs, x) <==> x in Codes(delivered)
    ensures Binding.ContextUpdate(s, ToBindingAll(GetEvents(m).0)).Ok?
    ensures Binding.Invariant(Binding.ContextUpdate(s, ToBindingAll(GetEvents(m).0)).value)
  {
    ValidForBinding(delivered, m.queue);
    Binding.ContextUpdatePreserves(s, Codes(delivered), ToBindingAll(m.queue));
  }
}

=== FILE: inputs.dfy ===
/** The controller state value type shared by every generation of DHC
    (dhc/src/input/types.rs): six normalised axes, one hat switch and
    fourteen buttons.  `f32` axis values are modelled as reals. */
module Inputs {
  import opened Wrappers

  datatype AxisType = LeftStickX | LeftStickY | RightStickX | RightStickY | LeftTrigger | RightTrigger

  datatype ButtonType =
    Start | Select | Home | North | East | South | West | L1 | L2 | L3 | R1 | R2 | R3 | Trackpad

  datatype Hat = Neutral | North | NorthEast | East | SouthEast | South | SouthWest | West | NorthWest

  datatype HatType = DPad

  /** Every axis type, in declaration order. */
  const AllAxes: seq<AxisType> := [LeftStickX, LeftStickY, RightStickX, RightStickY, LeftTrigger, RightTrigger]

  /** Every button type, in declaration order. */
  const AllButtons: seq<ButtonType> :=
    [Start, Select, Home, ButtonType.North, ButtonType.East, ButtonType.South, ButtonType.West, L1, L2, L3, R1, R2, R3, Trackpad]

  lemma AllAxesComplete(t: AxisType)
    ensures t in AllAxes
  {
  }

  lemma AllButtonsComplete(b: ButtonType)
    ensures b in AllButtons
  {
  }

  predicate InUnitRange(v: real) { 0.0 <= v <= 1.0 }

  /** `Axis::set_value`: panics outside [0, 1], otherwise stores the value. */
  function AxisSetValue(value: real): (r: Outcome<real>)
    ensures r.Ok? <==> InUnitRange(value)
    ensures r.Ok? ==> r.value == value
  {
    if value < 0.0 || value > 1.0 then Abort else Ok(value)
  }

  /** Field index of an axis in the `DeviceInputs` record. */
  function AxisIndex(t: AxisType): (i: nat)
    ensures i < 6
  {
    match t
    case LeftStickX => 0
    case LeftStickY => 1
    case RightStickX => 2
    case RightStickY => 3
    case LeftTrigger => 4
    case RightTrigger => 5
  }

  /** Field index of a button in the `DeviceInputs` record. */
  function ButtonIndex(b: ButtonType): (i: nat)
    ensures i < 14
  {
    match b
    case Start => 0
    case Select => 1
    case Home => 2
    case North => 3
    case East => 4
    case South => 5
    case West => 6
    case L1 => 7
    case L2 => 8
    case L3 => 9
    case R1 => 10
    case R2 => 11
    case R3 => 12
    case Trackpad => 13
  }

  /** The record's fields: the six axes in declaration order, the D-pad hat,
      and the fourteen buttons in declaration order. */
  datatype InputFields = InputFields(axes: seq<real>, hatDpad: Hat, buttons: seq<bool>)

  type DeviceInputs = d: InputFields | |d.axes| == 6 && |d.buttons| == 14
    witness InputFields([0.0, 0.0, 0.0, 0.0, 0.0, 0.0], Neutral,
                        [false, false, false, false, false, false, false,
                         false, false, false, false, false, false, false])

  /** `DeviceInputs::default`: every axis centred (triggers included), hat
      neutral, no button pressed. */
  function Default(): (d: DeviceInputs)
    ensures forall t :: GetAxis(d, t) == 0.5
    ensures forall b :: !GetButton(d, b)
    ensures GetHat(d, DPad) == Neutral
  {
    InputFields([0.5, 0.5, 0.5, 0.5, 0.5, 0.5], Neutral,
                [false, false, false, false, false, false, false,
                 false, false, false, false, false, false, false])
  }

  /** `get_axis`: the field named by the axis type. */
  function GetAxis(d: DeviceInputs, t: AxisType): real
  {
    d.axes[AxisIndex(t)]
  }

  /** `get_button`: the field named by the button type. */
  function GetButton(d: DeviceInputs, b: ButtonType): bool
  {
    d.buttons[ButtonIndex(b)]
  }

  /** `get_hat`. */
  function GetHat(d: DeviceInputs, h: HatType): Hat
  {
    match h
    case DPad => d.hatDpad
  }

  /** Writes the field named by an axis type (the field assignment the
      mappers perform). */
  function WithAxis(d: DeviceInputs, t: AxisType, v: real): DeviceInputs
  {
    d.(axes := d.axes[AxisIndex(t) := v])
  }

  /** Writes the field named by a button type. */
  function WithButton(d: DeviceInputs, b: ButtonType, v: bool): DeviceInputs
  {
    d.(buttons := d.buttons[ButtonIndex(b) := v])
  }

  /** Writes the D-pad hat. */
  function WithHat(d: DeviceInputs, h: Hat): DeviceInputs
  {
    d.(hatDpad := h)
  }

  /** Every field is named by exactly one axis type, and by exactly one
      button type: `AllAxes` and `AllButtons` list the types in field order. */
  lemma IndicesAreBijective()
    ensures forall t, u :: AxisIndex(t) == AxisIndex(u) ==> t == u
    ensures forall i :: 0 <= i < 6 ==> AxisIndex(AllAxes[i]) == i
    ensures forall b, c :: ButtonIndex(b) == ButtonIndex(c) ==> b == c
    ensures forall i :: 0 <= i < 14 ==> ButtonIndex(AllButtons[i]) == i
  {
  }

  /** `get_axis` selects one field per axis type and no two types share a
      field: writing the field of `t` is seen by `t` and by no other type. */
  lemma GetAxisSelectsItsField(d: DeviceInputs, t: AxisType, u: AxisType, v: real)
    ensures GetAxis(WithAxis(d, t, v), u) == if t == u then v else GetAxis(d, u)
    ensures GetHat(WithAxis(d, t, v), DPad) == GetHat(d, DPad)
    ensures forall b :: GetButton(WithAxis(d, t, v), b) == GetButton(d, b)
  {
    IndicesAreBijective();
  }

  /** `get_button` selects one field per button type and no two types share a
      field. */
  lemma GetButtonSelectsItsField(d: DeviceInputs, b: ButtonType, c: ButtonType, v: bool)
    ensures GetButton(WithButton(d, b, v), c) == if b == c then v else GetButton(d, c)
    ensures GetHat(WithButton(d, b, v), DPad) == GetHat(d, DPad)
    ensures forall t :: GetAxis(WithButton(d, b, v), t) == GetAxis(d, t)
  {
    IndicesAreBijective();
  }

  /** Two states that agree on every axis, button and the hat are equal: the
      getters together read every field. */
  lemma GettersDetermineState(d: DeviceInputs, e: DeviceInputs)
    requires forall t :: GetAxis(d, t) == GetAxis(e, t)
    requires forall b :: GetButton(d, b) == GetButton(e, b)
    requires GetHat(d, DPad) == GetHat(e, DPad)
    ensures d == e
  {
    forall i | 0 <= i < 6 ensures d.axes[i] == e.axes[i] {
      assert GetAxis(d, AllAxes[i]) == GetAxis(e, AllAxes[i]);
    }
    forall i | 0 <= i < 14 ensures d.buttons[i] == e.buttons[i] {
      assert GetButton(d, AllButtons[i]) == GetButton(e, AllButtons[i]);
    }
  }

  /** `Button::set` then `get` is true; `Button::reset` then `get` is false. */
  lemma ButtonSetResetGet(d: DeviceInputs, b: ButtonType)
    ensures GetButton(WithButton(d, b, true), b)
    ensures !GetButton(WithButton(d, b, false), b)
  {
  }

  /** `reset_buttons`: releases all fourteen buttons. */
  function ResetButtons(d: DeviceInputs): (r: DeviceInputs)
    ensures forall b :: !GetButton(r, b)
    ensures forall t :: GetAxis(r, t) == GetAxis(d, t)
    ensures GetHat(r, DPad) == GetHat(d, DPad)
  {
    d.(buttons := seq(14, i => false))
  }

  /** Resetting the buttons twice is the same as once. */
  lemma ResetButtonsIdempotent(d: DeviceInputs)
    ensures ResetButtons(ResetButtons(d)) == ResetButtons(d)
  {
    GettersDetermineState(ResetButtons(ResetButtons(d)), ResetButtons(d));
  }

  // ---------------------------------------------------------------------
  // Display

  /** The glyph or name `Display` prints for a button. */
  function ButtonLabel(b: ButtonType): string
  {
    match b
    case North => "△"
    case East => "○"
    case South => "✖"
    case West => "□"
    case Start => "Start"
    case Select => "Select"
    case L1 => "L1"
    case L2 => "L2"
    case L3 => "L3"
    case R1 => "R1"
    case R2 => "R2"
    case R3 => "R3"
    case Home => "Home"
    case Trackpad => "Trackpad"
  }

  /** The order of `Display`'s `if` chain. */
  const DisplayOrder: seq<ButtonType> :=
    [ButtonType.North, ButtonType.East, ButtonType.South, ButtonType.West, Start, Select,
     L1, L2, L3, R1, R2, R3, Home, Trackpad]

  /** The buttons of `order` that are pressed in `d`, in that order. */
  function Pressed(d: DeviceInputs, order: seq<ButtonType>): (r: seq<ButtonType>)
    ensures |r| <= |order|
    decreases |order|
  {
    if |order| == 0 then []
    else (if GetButton(d, order[0]) then [order[0]] else []) + Pressed(d, order[1..])
  }

  lemma {:induction false} PressedMembers(d: DeviceInputs, order: seq<ButtonType>)
    ensures forall b :: b in Pressed(d, order) <==> b in order && GetButton(d, b)
    decreases |order|
  {
    if |order| > 0 {
      PressedMembers(d, order[1..]);
      assert order == [order[0]] + order[1..];
    }
  }

  /** Position of each button in `DisplayOrder`. */
  function DisplayRank(b: ButtonType): nat
  {
    match b
    case North => 0
    case East => 1
    case South => 2
    case West => 3
    case Start => 4
    case Select => 5
    case L1 => 6
    case L2 => 7
    case L3 => 8
    case R1 => 9
    case R2 => 10
    case R3 => 11
    case Home => 12
    case Trackpad => 13
  }

  /** Filtering a run of consecutively ranked buttons keeps ranks strictly
      increasing, and never yields a rank below the run's start. */
  lemma {:induction false} PressedKeepsOrder(d: DeviceInputs, order: seq<ButtonType>, base: nat)
    requires forall i :: 0 <= i < |order| ==> DisplayRank(order[i]) == base + i
    ensures forall b :: b in Pressed(d, order) ==> base <= DisplayRank(b)
    ensures forall i, j :: 0 <= i < j < |Pressed(d, order)| ==>
              DisplayRank(Pressed(d, order)[i]) < DisplayRank(Pressed(d, order)[j])
    decreases |order|
  {
    if |order| > 0 {
      var rest := order[1..];
      assert forall i :: 0 <= i < |rest| ==> DisplayRank(rest[i]) == base + 1 + i by {
        forall i | 0 <= i < |rest| ensures DisplayRank(rest[i]) == base + 1 + i {
          assert rest[i] == order[i + 1];
        }
      }
      PressedKeepsOrder(d, rest, base + 1);
    }
  }

  /** `DisplayOrder` lists every button once, at the position of its rank. */
  lemma DisplayOrderIsRanked()
    ensures |DisplayOrder| == 14
    ensures forall i :: 0 <= i < |DisplayOrder| ==> DisplayRank(DisplayOrder[i]) == i
    ensures forall b :: DisplayRank(b) < 14 && DisplayOrder[DisplayRank(b)] == b
  {
  }

  /** The buttons `Display` pushes. */
  function DisplayedButtons(d: DeviceInputs): seq<ButtonType>
  {
    Pressed(d, DisplayOrder)
  }

  /** `Display` lists exactly the pressed buttons in the fixed order
      △ ○ ✖ □ Start Select L1 L2 L3 R1 R2 R3 Home Trackpad, so none twice. */
  lemma DisplayListsPressedButtons(d: DeviceInputs)
    ensures forall b :: b in DisplayedButtons(d) <==> GetButton(d, b)
    ensures forall i, j :: 0 <= i < j < |DisplayedButtons(d)| ==>
              DisplayRank(DisplayedButtons(d)[i]) < DisplayRank(DisplayedButtons(d)[j])
  {
    PressedMembers(d, DisplayOrder);
    DisplayOrderIsRanked();
    forall b ensures b in DisplayOrder {
      assert DisplayOrder[DisplayRank(b)] == b;
    }
    PressedKeepsOrder(d, DisplayOrder, 0);
  }

  /** `{:?}` of a vector of strings: quoted items separated by ", " in brackets. */
  function DebugList(items: seq<string>): string
    decreases |items|
  {
    "[" + DebugItems(items) + "]"
  }

  function DebugItems(items: seq<string>): string
    decreases |items|
  {
    if |items| == 0 then ""
    else if |items| == 1 then "\"" + items[0] + "\""
    else "\"" + items[0] + "\", " + DebugItems(items[1..])
  }

  function Labels(bs: seq<ButtonType>): (r: seq<string>)
    ensures |r| == |bs|
    ensures forall i :: 0 <= i < |bs| ==> r[i] == ButtonLabel(bs[i])
  {
    if |bs| == 0 then [] else [ButtonLabel(bs[0])] + Labels(bs[1..])
  }

  /** `impl Display for DeviceInputs`. */
  function Display(d: DeviceInputs): string
  {
    DebugList(Labels(DisplayedButtons(d)))
  }

  /** With no button pressed, `Display` prints an empty list; in particular
      for the default state. */
  lemma DisplayOfReleased(d: DeviceInputs)
    requires forall b :: !GetButton(d, b)
    ensures Display(d) == "[]"
  {
    PressedOfReleased(d, DisplayOrder);
    assert Labels(DisplayedButtons(d)) == [];
    DebugListEmpty();
  }

  lemma DebugListEmpty()
    ensures DebugList([]) == "[]"
  {
  }

  lemma {:induction false} PressedOfReleased(d: DeviceInputs, order: seq<ButtonType>)
    requires forall b :: !GetButton(d, b)
    ensures Pressed(d, order) == []
    decreases |order|
  {
    if |order| > 0 {
      PressedOfReleased(d, order[1..]);
    }
  }

}

=== FILE: legacy_backend.dfy ===
/** The DirectInput input provider of the C++ generation
    (dhc/backend/dinput.cpp): a deque of virtual devices waiting for a
    physical device, and a list of assignments binding a virtual device to
    an opened physical one.  Every operation runs under the provider's one
    mutex and is modelled as one sequential step.  The real DirectInput is
    an oracle: a scan is handed the physical devices it enumerates, each
    with the results the calls on it return; `Poll` and `GetDeviceState`
    results are parameters of a refresh. */
module LegacyBackend {
  import opened Wrappers
  import opened DInput
  import opened LegacyDevice

  type VdevId = nat

  /** A physical game controller as the real `EnumDevices` reports it,
      with the HRESULTs of `CreateDevice`, `EnumObjects`, `SetDataFormat`
      and `Acquire` on it. */
  datatype Candidate = Candidate(guid: Guid, handle: nat, createRc: Dword, enumObjectsRc: Dword,
                                 setFormatRc: Dword, acquireRc: Dword)

  /** `DeviceAssignment`: the virtual device, the opened physical device
      (by handle) and the physical device's instance GUID. */
  datatype Assignment = Assignment(vdev: VdevId, guid: Guid, handle: nat)

  /** `available_devices_` (front first), `assignments_`, and the virtual
      devices the observer pointers designate, indexed by id. */
  datatype Provider = Provider(available: seq<VdevId>, assignments: seq<Assignment>, devices: seq<Device>)

  function Vdevs(asgs: seq<Assignment>): (r: seq<VdevId>)
    ensures |r| == |asgs| && forall i :: 0 <= i < |asgs| ==> r[i] == asgs[i].vdev
  {
    seq(|asgs|, i requires 0 <= i < |asgs| => asgs[i].vdev)
  }

  /** Where the virtual devices are: waiting, then assigned. */
  function Places(p: Provider): seq<VdevId>
  {
    p.available + Vdevs(p.assignments)
  }

  /** The partition: the virtual devices `ids` are exactly the ones waiting
      or assigned, each of them exactly once. */
  predicate Partitioned(p: Provider, ids: set<VdevId>)
  {
    multiset(Places(p)) == multiset(ids)
  }

  predicate GuidsDistinct(asgs: seq<Assignment>)
  {
    forall i, j :: 0 <= i < j < |asgs| ==> asgs[i].guid != asgs[j].guid
  }

  /** Every virtual device has its fixed shape and sits at its own id. */
  predicate DevicesWellFormed(devices: seq<Device>)
  {
    forall i :: 0 <= i < |devices| ==> Shaped(devices[i]) && devices[i].id == i
  }

  /** The provider's invariant for the virtual devices `ids`. */
  predicate Valid(p: Provider, ids: set<VdevId>)
  {
    Partitioned(p, ids) && GuidsDistinct(p.assignments) && DevicesWellFormed(p.devices)
    && forall v :: v in ids ==> v < |p.devices|
  }

  /** Under the partition, each of the devices is either waiting or
      assigned, never both, and appears at most once in each place; no
      other device appears anywhere. */
  lemma ExactlyOnePlace(p: Provider, ids: set<VdevId>, v: VdevId)
    requires Partitioned(p, ids)
    ensures v in ids <==> v in p.available || v in Vdevs(p.assignments)
    ensures v in ids ==> (v in p.available <==> v !in Vdevs(p.assignments))
    ensures multiset(p.available)[v] <= 1 && multiset(Vdevs(p.assignments))[v] <= 1
  {
    assert multiset(Places(p))[v] == multiset(p.available)[v] + multiset(Vdevs(p.assignments))[v];
  }

  /** Every assigned virtual device is one of the devices. */
  lemma AssignedAreDevices(p: Provider, ids: set<VdevId>)
    requires Valid(p, ids)
    ensures forall i :: 0 <= i < |p.assignments| ==> p.assignments[i].vdev < |p.devices|
  {
    forall i | 0 <= i < |p.assignments| ensures p.assignments[i].vdev < |p.devices| {
      var v := p.assignments[i].vdev;
      assert Vdevs(p.assignments)[i] == v;
      ExactlyOnePlace(p, ids, v);
    }
  }

  /** A device of the invariant that is not assigned is waiting. */
  lemma WaitingUnlessAssigned(p: Provider, ids: set<VdevId>, v: VdevId)
    requires Valid(p, ids) && v in ids
    ensures FindByVdev(p.assignments, v).None? ==> v in p.available
  {
    ExactlyOnePlace(p, ids, v);
    if v in Vdevs(p.assignments) {
      var i :| 0 <= i < |p.assignments| && Vdevs(p.assignments)[i] == v;
      assert p.assignments[i].vdev == v;
    }
  }

  // ---------------------------------------------------------------------
  // Lookups

  /** `FindAssignmentLocked(GUID)`: the first assignment of that physical
      device. */
  function FindByGuid(asgs: seq<Assignment>, g: Guid): (r: Option<nat>)
    ensures r.Some? <==> exists i :: 0 <= i < |asgs| && asgs[i].guid == g
    ensures r.Some? ==> r.value < |asgs| && asgs[r.value].guid == g
    ensures r.Some? ==> forall j :: 0 <= j < r.value ==> asgs[j].guid != g
    decreases |asgs|
  {
    if |asgs| == 0 then None
    else if asgs[0].guid == g then Some(0)
    else
      var rest := FindByGuid(asgs[1..], g);
      assert forall j :: 1 <= j < |asgs| ==> asgs[j] == asgs[1..][j - 1];
      if rest.None? then None else Some(rest.value + 1)
  }

  /** `FindAssignmentLocked(Device*)`: the first assignment of that virtual
      device. */
  function FindByVdev(asgs: seq<Assignment>, v: VdevId): (r: Option<nat>)
    ensures r.Some? <==> exists i :: 0 <= i < |asgs| && asgs[i].vdev == v
    ensures r.Some? ==> r.value < |asgs| && asgs[r.value].vdev == v
    ensures r.Some? ==> forall j :: 0 <= j < r.value ==> asgs[j].vdev != v
    decreases |asgs|
  {
    if |asgs| == 0 then None
    else if asgs[0].vdev == v then Some(0)
    else
      var rest := FindByVdev(asgs[1..], v);
      assert forall j :: 1 <= j < |asgs| ==> asgs[j] == asgs[1..][j - 1];
      if rest.None? then None else Some(rest.value + 1)
  }

  // ---------------------------------------------------------------------
  // Scanning

  /** True when every call `EnumerateDevice` makes on the candidate
      returns DI_OK. */
  predicate Opens(c: Candidate)
  {
    c.createRc == DI_OK && c.enumObjectsRc == DI_OK && c.setFormatRc == DI_OK && c.acquireRc == DI_OK
  }

  /** A device waits, the physical device is not assigned yet, and it
      opens. */
  predicate Binds(p: Provider, c: Candidate)
  {
    |p.available| > 0 && FindByGuid(p.assignments, c.guid).None? && Opens(c)
  }

  /** `EnumerateDevice`: nothing happens when no virtual device waits, when
      the physical device is already assigned, or when opening it fails at
      any step; otherwise the front waiting device is bound to it.  The
      verdict is always "continue". */
  function EnumerateDevice(p: Provider, c: Candidate): (r: (Provider, bool))
    ensures r.1
    ensures r.0.devices == p.devices
    ensures !Binds(p, c) ==> r.0 == p
    ensures Binds(p, c) ==> r.0.available == p.available[1..]
    ensures Binds(p, c) ==> r.0.assignments == p.assignments + [Assignment(p.available[0], c.guid, c.handle)]
  {
    if |p.available| == 0 then (p, true)
    else if FindByGuid(p.assignments, c.guid).Some? then (p, true)
    else if c.createRc != DI_OK then (p, true)
    else if c.enumObjectsRc != DI_OK then (p, true)
    else if c.setFormatRc != DI_OK then (p, true)
    else if c.acquireRc != DI_OK then (p, true)
    else
      var a := Assignment(p.available[0], c.guid, c.handle);
      (p.(available := p.available[1..], assignments := p.assignments + [a]), true)
  }

  /** The callbacks of one enumeration: the trampoline never asks to stop,
      so every candidate from `k` on is visited in order. */
  function EnumerateFrom(p: Provider, cs: seq<Candidate>, k: nat): (r: Provider)
    requires k <= |cs|
    ensures r.devices == p.devices
    decreases |cs| - k
  {
    if k == |cs| then p else EnumerateFrom(EnumerateDevice(p, cs[k]).0, cs, k + 1)
  }

  /** `ScanLocked`: no enumeration at all when no virtual device waits;
      otherwise `EnumDevices(DI8DEVCLASS_GAMECTRL, ...)` over the physical
      devices `cs`. */
  function ScanLocked(p: Provider, cs: seq<Candidate>): (r: Provider)
    ensures |p.available| == 0 ==> r == p
  {
    if |p.available| == 0 then p else EnumerateFrom(p, cs, 0)
  }

  /** `Assign`: the device joins the back of the waiting deque, then a scan
      runs. */
  function Assign(p: Provider, v: VdevId, cs: seq<Candidate>): (r: Provider)
  {
    ScanLocked(p.(available := p.available + [v]), cs)
  }

  // ---------------------------------------------------------------------
  // Releasing

  /** `Release`: the virtual device goes to the FRONT of the waiting deque
      (not to its sorted place), exactly that assignment is erased, and the
      virtual device is reset. */
  function Release(p: Provider, k: nat): (r: Provider)
    requires k < |p.assignments| && p.assignments[k].vdev < |p.devices| && Shaped(p.devices[p.assignments[k].vdev])
    ensures |r.available| == |p.available| + 1
    ensures r.available[0] == p.assignments[k].vdev && r.available[1..] == p.available
    ensures |r.assignments| + 1 == |p.assignments|
    ensures forall j :: 0 <= j < |r.assignments| ==> r.assignments[j] == p.assignments[if j < k then j else j + 1]
    ensures |r.devices| == |p.devices|
    ensures r.devices[p.assignments[k].vdev] == Reset(p.devices[p.assignments[k].vdev])
    ensures forall i :: 0 <= i < |p.devices| && i != p.assignments[k].vdev ==> r.devices[i] == p.devices[i]
  {
    var v := p.assignments[k].vdev;
    Provider([v] + p.available, p.assignments[..k] + p.assignments[k + 1..], p.devices[v := Reset(p.devices[v])])
  }

  // ---------------------------------------------------------------------
  // The invariant is kept

  lemma GuidsDistinctSnoc(asgs: seq<Assignment>, a: Assignment)
    requires GuidsDistinct(asgs) && FindByGuid(asgs, a.guid).None?
    ensures GuidsDistinct(asgs + [a])
  {
    var bs := asgs + [a];
    forall i, j | 0 <= i < j < |bs| ensures bs[i].guid != bs[j].guid {
      if j == |asgs| {
        assert bs[i] == asgs[i];
      } else {
        assert bs[i] == asgs[i] && bs[j] == asgs[j];
      }
    }
  }

  lemma EnumerateDeviceKeeps(p: Provider, c: Candidate, ids: set<VdevId>)
    requires Valid(p, ids)
    ensures Valid(EnumerateDevice(p, c).0, ids)
  {
    var r := EnumerateDevice(p, c).0;
    if Binds(p, c) {
      var a := Assignment(p.available[0], c.guid, c.handle);
      GuidsDistinctSnoc(p.assignments, a);
      assert p.available == [p.available[0]] + p.available[1..];
      assert Vdevs(r.assignments) == Vdevs(p.assignments) + [a.vdev];
      assert multiset(Places(r)) == multiset(Places(p));
    }
  }

  lemma {:induction false} EnumerateFromKeeps(p: Provider, cs: seq<Candidate>, k: nat, ids: set<VdevId>)
    requires k <= |cs| && Valid(p, ids)
    ensures Valid(EnumerateFrom(p, cs, k), ids)
    decreases |cs| - k
  {
    if k < |cs| {
      EnumerateDeviceKeeps(p, cs[k], ids);
      EnumerateFromKeeps(EnumerateDevice(p, cs[k]).0, cs, k + 1, ids);
    }
  }

  /** A scan keeps the partition, the distinct physical GUIDs and the
      devices. */
  lemma ScanKeeps(p: Provider, cs: seq<Candidate>, ids: set<VdevId>)
    requires Valid(p, ids)
    ensures Valid(ScanLocked(p, cs), ids)
  {
    if |p.available| > 0 {
      EnumerateFromKeeps(p, cs, 0, ids);
    }
  }

  /** `Assign` of a device not yet placed adds it to the partition. */
  lemma AssignKeeps(p: Provider, v: VdevId, cs: seq<Candidate>, ids: set<VdevId>)
    requires Valid(p, ids) && v !in ids && v < |p.devices|
    ensures Valid(Assign(p, v, cs), ids + {v})
  {
    var q := p.(available := p.available + [v]);
    assert Places(q) == p.available + [v] + Vdevs(p.assignments);
    assert multiset(Places(q)) == multiset(Places(p)) + multiset{v};
    assert multiset(ids + {v}) == multiset(ids) + multiset{v};
    ScanKeeps(q, cs, ids + {v});
  }

  lemma GuidsDistinctErase(asgs: seq<Assignment>, k: nat)
    requires GuidsDistinct(asgs) && k < |asgs|
    ensures GuidsDistinct(asgs[..k] + asgs[k + 1..])
  {
    var bs := asgs[..k] + asgs[k + 1..];
    forall i, j | 0 <= i < j < |bs| ensures bs[i].guid != bs[j].guid {
      assert bs[i] == asgs[if i < k then i else i + 1];
      assert bs[j] == asgs[if j < k then j else j + 1];
    }
  }

  lemma VdevsErase(asgs: seq<Assignment>, k: nat)
    requires k < |asgs|
    ensures Vdevs(asgs) == Vdevs(asgs[..k]) + [asgs[k].vdev] + Vdevs(asgs[k + 1..])
    ensures Vdevs(asgs[..k] + asgs[k + 1..]) == Vdevs(asgs[..k]) + Vdevs(asgs[k + 1..])
  {
  }

  /** `Release` keeps the partition: the device moves from its assignment
      to the front of the waiting deque. */
  lemma ReleaseKeeps(p: Provider, k: nat, ids: set<VdevId>)
    requires Valid(p, ids) && k < |p.assignments|
    requires p.assignments[k].vdev < |p.devices|
    ensures Valid(Release(p, k), ids)
  {
    var v := p.assignments[k].vdev;
    var q := Provider([v] + p.available, p.assignments[..k] + p.assignments[k + 1..], p.devices);
    VdevsErase(p.assignments, k);
    GuidsDistinctErase(p.assignments, k);
    assert multiset(Places(q)) == multiset(Places(p));
    ReplaceDeviceKeeps(q, v, Reset(p.devices[v]), ids);
  }

  /** Writing a virtual device's inputs keeps the invariant. */
  lemma ReplaceDeviceKeeps(p: Provider, w: VdevId, d: Device, ids: set<VdevId>)
    requires Valid(p, ids) && w < |p.devices| && Shaped(d) && d.id == w
    ensures Valid(p.(devices := p.devices[w := d]), ids)
  {
    var r := p.(devices := p.devices[w := d]);
    assert Places(r) == Places(p);
  }

  // ---------------------------------------------------------------------
  // What a scan does

  /** `r` extends `p` by binding devices off the front of the waiting
      deque: the assignments already made stay, in order, and the devices
      the deque lost, front first, are the new assignments' devices. */
  predicate Extends(p: Provider, r: Provider)
  {
    p.assignments <= r.assignments && |r.available| <= |p.available|
    && r.available == p.available[|p.available| - |r.available|..]
    && Vdevs(r.assignments) == Vdevs(p.assignments) + p.available[..|p.available| - |r.available|]
  }

  lemma {:induction false} EnumerateFromExtends(p: Provider, cs: seq<Candidate>, k: nat)
    requires k <= |cs|
    ensures Extends(p, EnumerateFrom(p, cs, k))
    decreases |cs| - k
  {
    if k < |cs| {
      var q := EnumerateDevice(p, cs[k]).0;
      EnumerateFromExtends(q, cs, k + 1);
      if Binds(p, cs[k]) {
        ExtendsStep(p, q, EnumerateFrom(q, cs, k + 1), Assignment(p.available[0], cs[k].guid, cs[k].handle));
      }
    }
  }

  /** One binding followed by an extension is an extension. */
  lemma ExtendsStep(p: Provider, q: Provider, r: Provider, a: Assignment)
    requires |p.available| > 0 && q.available == p.available[1..]
    requires a.vdev == p.available[0] && q.assignments == p.assignments + [a]
    requires Extends(q, r)
    ensures Extends(p, r)
  {
    var av := p.available;
    var m := |av| - 1 - |r.available|;
    assert Vdevs(q.assignments) == Vdevs(p.assignments) + [av[0]];
    SliceShift(av, m);
    Append3(Vdevs(p.assignments), [av[0]], av[1..][..m]);
  }

  lemma Append3<T>(a: seq<T>, b: seq<T>, c: seq<T>)
    ensures (a + b) + c == a + (b + c)
  {
  }

  lemma SliceShift<T>(av: seq<T>, m: nat)
    requires m + 1 <= |av|
    ensures av[1..][..m] == av[1..m + 1]
    ensures av[..m + 1] == [av[0]] + av[1..][..m]
    ensures av[1..][m..] == av[m + 1..]
  {
  }

  /** A scan never changes an existing assignment, and binds waiting
      devices in deque order, front first. */
  lemma ScanBindsFrontFirst(p: Provider, cs: seq<Candidate>)
    ensures Extends(p, ScanLocked(p, cs))
  {
    if |p.available| > 0 {
      EnumerateFromExtends(p, cs, 0);
    }
  }

  /** A scan over physical devices that all fail to open changes nothing. */
  lemma {:induction false} ScanOfUnopenable(p: Provider, cs: seq<Candidate>, k: nat)
    requires k <= |cs| && forall j :: 0 <= j < |cs| ==> !Opens(cs[j])
    ensures EnumerateFrom(p, cs, k) == p
    decreases |cs| - k
  {
    if k < |cs| {
      ScanOfUnopenable(p, cs, k + 1);
    }
  }

  /** The front of the waiting deque after a release is the released
      device, whatever its id: releasing device 1 while device 0 waits
      gives the deque [1, 0]. */
  lemma ReleaseIsNotSorted(d0: Device, d1: Device, g: Guid)
    requires Shaped(d0) && Shaped(d1)
    ensures Release(Provider([0], [Assignment(1, g, 0)], [d0, d1]), 0).available == [1, 0]
  {
  }
}

=== FILE: legacy_context.dfy ===
/** The process-wide context of the C++ generation (dhc/dhc.cpp): two
    virtual devices handed to the DirectInput provider at start-up. */
module LegacyContext {
  import opened Wrappers
  import opened DInput
  import opened LegacyDevice
  import opened LegacyBackend
  import opened LegacyRefresh

  const DeviceCount: nat := 2

  datatype Context = Context(provider: Provider)

  /** The context's invariant: both devices exist, and each is waiting or
      assigned, exactly once. */
  predicate ContextValid(c: Context)
  {
    |c.provider.devices| == DeviceCount && Valid(c.provider, {0, 1})
  }

  /** `Context::Context`: devices 0 and 1 are constructed, then `Assign(0)`
      and `Assign(1)` run, each scanning the physical devices present at
      that moment (`first`, `second`).  The members of a fresh device start
      at `axis`, `button` and `pov`. */
  function NewContext(axis: real, button: bool, pov: PovState, first: seq<Candidate>, second: seq<Candidate>)
    : (c: Context)
    ensures |c.provider.devices| == DeviceCount
  {
    var devices := [NewDevice(0, axis, button, pov), NewDevice(1, axis, button, pov)];
    Context(Assign(Assign(Provider([], [], devices), 0, first), 1, second))
  }

  /** A new context satisfies the invariant. */
  lemma NewContextValid(axis: real, button: bool, pov: PovState, first: seq<Candidate>, second: seq<Candidate>)
    ensures ContextValid(NewContext(axis, button, pov, first, second))
  {
    var devices := [NewDevice(0, axis, button, pov), NewDevice(1, axis, button, pov)];
    var p0 := Provider([], [], devices);
    assert Places(p0) == [];
    assert Valid(p0, {});
    AssignKeeps(p0, 0, first, {});
    assert {} + {0} == {0};
    AssignKeeps(Assign(p0, 0, first), 1, second, {0});
    assert {0} + {1} == {0, 1};
  }

  /** With no physical device that opens, both devices wait, 0 before 1. */
  lemma NewContextWithoutControllers(axis: real, button: bool, pov: PovState, first: seq<Candidate>, second: seq<Candidate>)
    requires forall j :: 0 <= j < |first| ==> !Opens(first[j])
    requires forall j :: 0 <= j < |second| ==> !Opens(second[j])
    ensures NewContext(axis, button, pov, first, second).provider.available == [0, 1]
    ensures NewContext(axis, button, pov, first, second).provider.assignments == []
  {
    var devices := [NewDevice(0, axis, button, pov), NewDevice(1, axis, button, pov)];
    var p0 := Provider([], [], devices);
    var q0 := p0.(available := [0]);
    assert p0.(available := p0.available + [0]) == q0;
    ScanOfUnopenable(q0, first, 0);
    var q1 := q0.(available := [0, 1]);
    assert q0.(available := q0.available + [1]) == q1;
    ScanOfUnopenable(q1, second, 0);
  }

  /** `Context::GetDevice`: no device for an id of 2 or more. */
  function GetDevice(c: Context, id: nat): (r: Option<Device>)
    requires |c.provider.devices| == DeviceCount
    ensures r.None? <==> id >= DeviceCount
    ensures r.Some? ==> r.value == c.provider.devices[id]
  {
    if id >= 2 then None else Some(c.provider.devices[id])
  }

  /** Device `id` is the device whose id is `id`. */
  lemma GetDeviceReturnsItsId(c: Context, id: nat)
    requires ContextValid(c) && id < DeviceCount
    ensures GetDevice(c, id).Some? && GetDevice(c, id).value.id == id
  {
  }

  /** `Device::Update`: the provider refreshes the device. */
  function Update(c: Context, id: nat, cs: seq<Candidate>, pollRc: Dword, reading: Reading, codes: PovCodes)
    : (r: Outcome<Context>)
    requires ContextValid(c)
    requires id < DeviceCount
  {
    AssignedAreDevices(c.provider, {0, 1});
    var p :- Refresh(c.provider, id, cs, pollRc, reading, codes);
    Ok(Context(p))
  }

  /** An update that does not abort keeps the context's invariant. */
  lemma UpdateKeeps(c: Context, id: nat, cs: seq<Candidate>, pollRc: Dword, reading: Reading, codes: PovCodes)
    requires ContextValid(c) && id < DeviceCount
    requires Update(c, id, cs, pollRc, reading, codes).Ok?
    ensures ContextValid(Update(c, id, cs, pollRc, reading, codes).value)
  {
    AssignedAreDevices(c.provider, {0, 1});
    RefreshKeeps(c.provider, id, cs, pollRc, reading, codes, {0, 1});
  }

  /** Under the invariant an update aborts only through the refresh: a
      device is always waiting or assigned, so the CHECK holds, and only a
      hat value that is no position is fatal. */
  lemma UpdateAbortsOnlyOnBadHat(c: Context, id: nat, cs: seq<Candidate>, pollRc: Dword, reading: Reading,
                                 codes: PovCodes)
    requires ContextValid(c) && id < DeviceCount
    requires Update(c, id, cs, pollRc, reading, codes).Abort?
    ensures (pollRc == DI_OK || pollRc == DI_NOEFFECT) && reading.rc == DI_OK
    ensures PovStateFromDword(codes, reading.state.rgdwPOV[0]).Abort?
  {
    AssignedAreDevices(c.provider, {0, 1});
    WaitingUnlessAssigned(c.provider, {0, 1}, id);
  }
}

=== FILE: legacy_device.dfy ===
/** The virtual device of the C++ generation of DHC (dhc/dhc.cpp): six
    axes, fourteen buttons and one POV hat, each kept in an `EnumMap`.
    The header declaring `Device`, `AxisType`, `ButtonType`, `PovType` and
    `PovState` for this generation is not part of this model; the enums are
    taken in the order the code lists their members, and `PovState` has the
    nine hat positions of the shared `Hat`. */
module LegacyDevice {
  import opened DInput
  import opened EnumMaps
  import Inputs

  datatype AxisType = LStickX | LStickY | RStickX | RStickY | LTrigger | RTrigger

  datatype ButtonType =
    Square | Cross | Circle | Triangle | L1 | R1 | L2 | R2 | Share | Options | L3 | R3 | PlayStation | Trackpad

  type PovState = Inputs.Hat

  const AxisCount: nat := 6
  const ButtonCount: nat := 14
  const PovCount: nat := 1

  /** The numeric value of an axis type: its `EnumMap` index. */
  function AxisKey(t: AxisType): (k: nat)
    ensures k < AxisCount
  {
    match t
    case LStickX => 0
    case LStickY => 1
    case RStickX => 2
    case RStickY => 3
    case LTrigger => 4
    case RTrigger => 5
  }

  /** The numeric value of a button type: its `EnumMap` index. */
  function ButtonKey(b: ButtonType): (k: nat)
    ensures k < ButtonCount
  {
    match b
    case Square => 0
    case Cross => 1
    case Circle => 2
    case Triangle => 3
    case L1 => 4
    case R1 => 5
    case L2 => 6
    case R2 => 7
    case Share => 8
    case Options => 9
    case L3 => 10
    case R3 => 11
    case PlayStation => 12
    case Trackpad => 13
  }

  /** `PovType::DPad`, the only hat. */
  const DPadKey: nat := 0

  lemma KeysAreInjective(t: AxisType, u: AxisType, b: ButtonType, c: ButtonType)
    ensures AxisKey(t) == AxisKey(u) ==> t == u
    ensures ButtonKey(b) == ButtonKey(c) ==> b == c
  {
  }

  predicate IsTrigger(t: AxisType)
  {
    t == LTrigger || t == RTrigger
  }

  datatype Device = Device(id: nat, axes: EnumMap<real>, buttons: EnumMap<bool>, povs: EnumMap<PovState>)

  /** The array sizes the `EnumMap` template arguments fix. */
  predicate Shaped(d: Device)
  {
    |d.axes.data| == AxisCount && |d.buttons.data| == ButtonCount && |d.povs.data| == PovCount
  }

  /** `Device(context, id)`: three freshly constructed `EnumMap`s whose
      members start at the value types' defaults. */
  function NewDevice(id: nat, axis: real, button: bool, pov: PovState): (d: Device)
    ensures Shaped(d) && d.id == id
    ensures Keyed(d.axes) && Keyed(d.buttons) && Keyed(d.povs)
  {
    Device(id, New(AxisCount, axis), New(ButtonCount, button), New(PovCount, pov))
  }

  function AxisValue(d: Device, t: AxisType): real
    requires Shaped(d)
  {
    d.axes.data[AxisKey(t)].value
  }

  function Pressed(d: Device, b: ButtonType): bool
    requires Shaped(d)
  {
    d.buttons.data[ButtonKey(b)].value
  }

  function DPad(d: Device): PovState
    requires Shaped(d)
  {
    d.povs.data[DPadKey].value
  }

  function SetButton(d: Device, b: ButtonType, v: bool): (r: Device)
    requires Shaped(d)
    ensures Shaped(r) && r.id == d.id && r.axes == d.axes && r.povs == d.povs
    ensures Pressed(r, b) == v
    ensures forall c :: c != b ==> Pressed(r, c) == Pressed(d, c)
    ensures forall i :: 0 <= i < ButtonCount ==> r.buttons.data[i].key == d.buttons.data[i].key
  {
    d.(buttons := Store(d.buttons, ButtonKey(b), v))
  }

  function SetDPad(d: Device, s: PovState): (r: Device)
    requires Shaped(d)
    ensures Shaped(r) && r.id == d.id && r.axes == d.axes && r.buttons == d.buttons
    ensures DPad(r) == s && r.povs.data[DPadKey].key == d.povs.data[DPadKey].key
  {
    d.(povs := Store(d.povs, DPadKey, s))
  }

  /** `Device::Reset`: the four stick axes to centre, the two triggers to
      released and the D-pad to Neutral.  Buttons are not touched. */
  function Reset(d: Device): (r: Device)
    requires Shaped(d)
    ensures Shaped(r) && r.id == d.id && r.buttons == d.buttons
    ensures forall t :: AxisValue(r, t) == if IsTrigger(t) then 0.0 else 0.5
    ensures DPad(r) == Inputs.Neutral
    ensures forall i :: 0 <= i < AxisCount ==> r.axes.data[i].key == d.axes.data[i].key
    ensures r.povs.data[DPadKey].key == d.povs.data[DPadKey].key
  {
    var k := d.axes.data;
    var axes := EnumMap([Entry(k[0].key, 0.5), Entry(k[1].key, 0.5), Entry(k[2].key, 0.5),
                         Entry(k[3].key, 0.5), Entry(k[4].key, 0.0), Entry(k[5].key, 0.0)]);
    d.(axes := axes, povs := Store(d.povs, DPadKey, Inputs.Neutral))
  }

  /** Two devices agree on every reading once their shape, id, keys and
      readable members agree. */
  lemma {:induction false} SameReadings(d: Device, e: Device)
    requires Shaped(d) && Shaped(e) && d.id == e.id && d.buttons == e.buttons
    requires forall i :: 0 <= i < AxisCount ==> d.axes.data[i].key == e.axes.data[i].key
    requires forall t :: AxisValue(d, t) == AxisValue(e, t)
    requires d.povs.data[DPadKey] == e.povs.data[DPadKey]
    ensures d == e
  {
    var all := [LStickX, LStickY, RStickX, RStickY, LTrigger, RTrigger];
    forall i | 0 <= i < AxisCount
      ensures d.axes.data[i] == e.axes.data[i]
    {
      assert AxisKey(all[i]) == i;
      assert AxisValue(d, all[i]) == AxisValue(e, all[i]);
    }
    assert d.axes.data == e.axes.data;
    assert d.povs.data == e.povs.data;
  }

  /** Resetting twice is resetting once. */
  lemma ResetIdempotent(d: Device)
    requires Shaped(d)
    ensures Reset(Reset(d)) == Reset(d)
  {
    SameReadings(Reset(Reset(d)), Reset(d));
  }

  /** `AxisToGUID`: the DirectInput object GUID of each axis type. */
  function AxisToGUID(t: AxisType): (g: Guid)
    ensures g in {GUID_XAxis, GUID_YAxis, GUID_ZAxis, GUID_RxAxis, GUID_RyAxis, GUID_RzAxis}
  {
    match t
    case LStickX => GUID_XAxis
    case LStickY => GUID_YAxis
    case RStickX => GUID_ZAxis
    case RStickY => GUID_RzAxis
    case LTrigger => GUID_RxAxis
    case RTrigger => GUID_RyAxis
  }

  /** No two axis types share a GUID, so the GUID names the axis back. */
  lemma AxisToGUIDInjective(t: AxisType, u: AxisType)
    ensures AxisToGUID(t) == AxisToGUID(u) <==> t == u
  {
    if t != u {
      assert AxisToGUID(t).data1 != AxisToGUID(u).data1;
    }
  }
}

=== FILE: legacy_frontend.dfy ===
/** The DirectInput 8 frontend of the C++ generation
    (dhc/frontend/dinput.cpp, with an older copy in dhc/dinput.cpp): an
    `IDirectInput8` that hands out two fixed emulated gamepads, P1 and P2,
    and the device those gamepads are, which describes itself with the
    ps4.h object table. */
module LegacyFrontend {
  import opened Wrappers
  import opened DInput
  import opened Strings
  import opened Enumeration
  import opened LegacyDevice
  import opened LegacyPs4
  import Negotiation
  import Dinput8Api

  type DeviceInstance = Dinput8Api.DeviceInstance
  type ObjectInstance = Dinput8Api.ObjectInstance

  /** dhc/dhc.h: the instance GUIDs of the two gamepads, which differ only
      in the last byte, the player number. */
  const GUID_DHC_P1 := Guid(0xDEAD_571C, 0x4EFC, 0x9FA7, [0x9A, 0x7E, 0x8D, 0x10, 0x00, 0x00, 0x00, 0x01])
  const GUID_DHC_P2 := Guid(0xDEAD_571C, 0x4EFC, 0x9FA7, [0x9A, 0x7E, 0x8D, 0x10, 0x00, 0x00, 0x00, 0x02])

  /** The GUID of gamepad `k` (0 for P1, 1 for P2). */
  function PlayerGuid(k: nat): Guid
    requires k < 2
  {
    if k == 0 then GUID_DHC_P1 else GUID_DHC_P2
  }

  // ---------------------------------------------------------------------
  // EmulatedDirectInput8

  /** `CreateDevice`: the system keyboard and mouse go to the real
      DirectInput, the two DHC GUIDs to a new reference to P1 or P2, and
      anything else is not registered. */
  function CreateDevice(g: Guid): (r: Dinput8Api.Created)
    ensures r == Dinput8Api.Passthrough <==> g == GUID_SysKeyboard || g == GUID_SysMouse
    ensures r == Dinput8Api.Emulated(0) <==> g == GUID_DHC_P1
    ensures r == Dinput8Api.Emulated(1) <==> g == GUID_DHC_P2
    ensures r.Emulated? ==> r.vdev < 2
    ensures r.NotRegistered? <==> g !in {GUID_SysKeyboard, GUID_SysMouse, GUID_DHC_P1, GUID_DHC_P2}
  {
    if g == GUID_SysKeyboard || g == GUID_SysMouse then Dinput8Api.Passthrough
    else if g == GUID_DHC_P1 || g == GUID_DHC_P2 then Dinput8Api.Emulated(if g == GUID_DHC_P1 then 0 else 1)
    else Dinput8Api.NotRegistered
  }

  /** A gamepad's name, chosen by the player byte of its GUID. */
  function StickName(g: Guid): string
  {
    if g.data4[7] == 1 then "DHC P1" else "DHC P2"
  }

  /** The instance reported for a gamepad GUID: a standard gamepad whose
      instance and product are the GUID itself. */
  function StickInstance(g: Guid): DeviceInstance
  {
    Dinput8Api.DeviceInstance(g, g, DI8DEVTYPE_GAMEPAD | (DI8DEVTYPEGAMEPAD_STANDARD << 8), StickName(g), StickName(g))
  }

  /** The instances of a device class, in the order `EnumDevices` offers
      them: the keyboard, the mouse, then P1 and P2, each only for its own
      class or DI8DEVCLASS_ALL. */
  function Candidates(devType: Dword): seq<DeviceInstance>
  {
    var all := devType == DI8DEVCLASS_ALL;
    (if all || devType == DI8DEVCLASS_KEYBOARD then [Dinput8Api.KeyboardInstance] else [])
    + (if all || devType == DI8DEVCLASS_POINTER then [Dinput8Api.MouseInstance] else [])
    + (if all || devType == DI8DEVCLASS_GAMECTRL then [StickInstance(GUID_DHC_P1), StickInstance(GUID_DHC_P2)] else [])
  }

  /** `EnumDevices` of dhc/dinput.cpp, which ignores its flags: the HRESULT
      and the instances the callback is handed until it returns
      DIENUM_STOP. */
  function OlderEnumDevices(devType: Dword, callback: (nat, DeviceInstance) -> Dword): (r: (Dword, seq<DeviceInstance>))
    ensures r.0 == DI_OK && r.1 <= Candidates(devType)
  {
    (DI_OK, Enumerate(Candidates(devType), (k, inst) => callback(k, inst) == DIENUM_STOP))
  }

  /** `EnumDevices` of dhc/frontend/dinput.cpp: DIEDFL_ATTACHEDONLY is
      dropped and any other flag is fatal; otherwise as the older copy. */
  function EnumDevices(devType: Dword, flags: Dword, callback: (nat, DeviceInstance) -> Dword)
    : (r: Outcome<(Dword, seq<DeviceInstance>)>)
    ensures r.Ok? <==> flags & !DIEDFL_ATTACHEDONLY == 0
    ensures r.Ok? ==> r.value.0 == DI_OK && r.value.1 <= Candidates(devType)
  {
    if flags & !DIEDFL_ATTACHEDONLY != 0 then Abort
    else Ok(OlderEnumDevices(devType, callback))
  }

  /** The stricter copy accepts exactly the flag words 0 and
      DIEDFL_ATTACHEDONLY, and for them behaves as the older copy. */
  lemma EnumDevicesAgreesWithOlder(devType: Dword, flags: Dword, callback: (nat, DeviceInstance) -> Dword)
    ensures EnumDevices(devType, flags, callback).Ok? <==> flags == 0 || flags == DIEDFL_ATTACHEDONLY
    ensures EnumDevices(devType, flags, callback).Ok? ==> EnumDevices(devType, flags, callback).value == OlderEnumDevices(devType, callback)
  {
  }

  /** With DI8DEVCLASS_ALL and a callback that never stops, the client sees
      the keyboard, the mouse, P1 and P2, in that order. */
  lemma EnumDevicesOrder(flags: Dword, callback: (nat, DeviceInstance) -> Dword)
    requires flags & !DIEDFL_ATTACHEDONLY == 0
    requires forall k, inst :: callback(k, inst) != DIENUM_STOP
    ensures EnumDevices(DI8DEVCLASS_ALL, flags, callback)
         == Ok((DI_OK, [Dinput8Api.KeyboardInstance, Dinput8Api.MouseInstance, StickInstance(GUID_DHC_P1), StickInstance(GUID_DHC_P2)]))
  {
    var c := Candidates(DI8DEVCLASS_ALL);
    assert c == [Dinput8Api.KeyboardInstance, Dinput8Api.MouseInstance, StickInstance(GUID_DHC_P1), StickInstance(GUID_DHC_P2)];
    EnumerateAll(c, (k, inst) => callback(k, inst) == DIENUM_STOP);
  }

  /** `GetDeviceStatus`: every device reads as not attached. */
  function GetDeviceStatus(g: Guid): Dword
  {
    DI_NOTATTACHED
  }

  /** `FindDevice`: no device is found. */
  function FindDevice(g: Guid, name: string): Dword
  {
    DIERR_DEVICENOTREG
  }

  /** The k-th gamepad offered for DI8DEVCLASS_GAMECTRL is player k + 1:
      it is named "DHC P" and its player number, and its instance GUID
      creates emulated device k, which `GetDeviceStatus` reports as not
      attached and `FindDevice` does not find. */
  lemma EnumeratedSticksCreateThemselves(k: nat, name: string)
    requires k < 2
    ensures |Candidates(DI8DEVCLASS_GAMECTRL)| == 2
    ensures var inst := Candidates(DI8DEVCLASS_GAMECTRL)[k];
            && inst.guidInstance == PlayerGuid(k)
            && inst.instanceName == "DHC P" + Decimal(k + 1) && inst.productName == inst.instanceName
            && CreateDevice(inst.guidInstance) == Dinput8Api.Emulated(k)
            && GetDeviceStatus(inst.guidInstance) == DI_NOTATTACHED
            && FindDevice(inst.guidInstance, name) == DIERR_DEVICENOTREG
  {
    assert Decimal(1) == "1" && Decimal(2) == "2";
  }

  /** The two gamepads are neither system device nor each other. */
  lemma PlayerGuidsDistinct()
    ensures GUID_DHC_P1 != GUID_DHC_P2
    ensures GUID_DHC_P1 !in {GUID_SysKeyboard, GUID_SysMouse} && GUID_DHC_P2 !in {GUID_SysKeyboard, GUID_SysMouse}
  {
    assert GUID_DHC_P1.data4[7] != GUID_DHC_P2.data4[7];
  }

  // ---------------------------------------------------------------------
  // EmulatedDirectInputDevice8

  /** The emulated gamepad: the object data format the client last set. */
  datatype EmulatedDevice = EmulatedDevice(objectDataFormat: seq<Negotiation.ObjectRequest>)

  /** `DIDATAFORMAT` as the client passes it: the header words and the
      array `rgodf` points at, whose real length the call cannot see. */
  datatype DataFormat = DataFormat(size: Dword, objSize: Dword, numObjs: Dword, rgodf: seq<Negotiation.ObjectRequest>)

  /** A header `SetDataFormat` refuses. */
  predicate HeaderRejected(f: DataFormat)
  {
    f.size != SIZEOF_DIDATAFORMAT || f.objSize != SIZEOF_DIOBJECTDATAFORMAT || f.numObjs == 0
  }

  /** `SetDataFormat`: a wrong structure size, a wrong object size or no
      objects is DIERR_INVALIDPARAM with the device untouched; otherwise the
      first `dwNumObjs` object formats are stored, replacing the previous
      ones, and the call returns DI_OK.  An array shorter than `dwNumObjs`
      is read past its end. */
  function SetDataFormat(d: EmulatedDevice, f: DataFormat): (r: Outcome<(Dword, EmulatedDevice)>)
    ensures HeaderRejected(f) ==> r == Ok((DIERR_INVALIDPARAM, d))
    ensures !HeaderRejected(f) ==> (r.Ok? <==> U(f.numObjs) <= |f.rgodf|)
    ensures r.Ok? ==> (r.value.0 == DI_OK <==> !HeaderRejected(f))
    ensures r.Ok? && r.value.0 == DI_OK ==>
              |r.value.1.objectDataFormat| == U(f.numObjs)
              && forall i :: 0 <= i < U(f.numObjs) ==> r.value.1.objectDataFormat[i] == f.rgodf[i]
  {
    if HeaderRejected(f) then Ok((DIERR_INVALIDPARAM, d))
    else if U(f.numObjs) > |f.rgodf| then Abort
    else Ok((DI_OK, EmulatedDevice(f.rgodf[..U(f.numObjs)])))
  }

  /** Setting a format twice is setting it once, and an accepted format
      leaves nothing of the device's previous one. */
  lemma SetDataFormatIdempotent(d: EmulatedDevice, e: EmulatedDevice, f: DataFormat)
    requires SetDataFormat(d, f).Ok?
    ensures SetDataFormat(SetDataFormat(d, f).value.1, f) == SetDataFormat(d, f)
    ensures SetDataFormat(d, f).value.0 == DI_OK ==> SetDataFormat(e, f) == SetDataFormat(d, f)
  {
  }

  /** `Poll`: nothing to poll, a success code other than DI_OK. */
  function Poll(): (hr: Dword)
    ensures hr & 0x8000_0000 == 0 && hr != DI_OK
  {
    DI_NOEFFECT
  }

  /** `GetCapabilities`: an attached, emulated standard gamepad. */
  function GetCapabilities(): (caps: Dinput8Api.Capabilities)
    ensures caps.flags == Dinput8Api.CapabilityFlags && caps.devType == Dinput8Api.CapabilityDevType
  {
    Dinput8Api.Capabilities(Dinput8Api.CapabilityFlags, Dinput8Api.CapabilityDevType, 6, 14, 1)
  }

  /** The type bit under which `EnumObjects` offers an object. */
  function Group(o: TableObject): Dword
  {
    match o
    case AxisObject(_) => DIDFT_ABSAXIS
    case DPadObject => DIDFT_POV
    case ButtonObject(_) => DIDFT_PSHBUTTON
    case CollectionObject => DIDFT_COLLECTION
  }

  /** The objects a flag word asks for, in push order: the axes for
      DIDFT_ABSAXIS, the hat for DIDFT_POV, the buttons for DIDFT_PSHBUTTON
      and the collection for DIDFT_COLLECTION. */
  function Requested(flags: Dword): seq<TableObject>
  {
    (if flags & DIDFT_ABSAXIS != 0 then AxisObjects() else [])
    + (if flags & DIDFT_POV != 0 then [DPadObject] else [])
    + (if flags & DIDFT_PSHBUTTON != 0 then ButtonObjects() else [])
    + (if flags & DIDFT_COLLECTION != 0 then [CollectionObject] else [])
  }

  /** The `DIDEVICEOBJECTINSTANCE` built from an object's constant. */
  function Instance(o: TableObject): (r: ObjectInstance)
    ensures r.dwType == Conf(o).typeBits && r.guidType == Conf(o).guid && r.name == Conf(o).name
  {
    var c := Conf(o);
    Dinput8Api.ObjectInstance(c.guid, U(c.offset), c.typeBits, c.flags, c.name)
  }

  function Instances(os: seq<TableObject>): (r: seq<ObjectInstance>)
    ensures |r| == |os|
    ensures forall i :: 0 <= i < |os| ==> r[i] == Instance(os[i])
  {
    seq(|os|, i requires 0 <= i < |os| => Instance(os[i]))
  }

  /** `EnumObjects`: a request for a non-zero collection sees nothing;
      otherwise the requested objects are handed to the callback in push
      order until it returns anything but DIENUM_CONTINUE.  The HRESULT is
      always DI_OK. */
  function EnumObjects(flags: Dword, callback: (nat, ObjectInstance) -> Dword): (r: (Dword, seq<ObjectInstance>))
    ensures r.0 == DI_OK
    ensures Dinput8Api.EnumCollection(flags) != 0 ==> r.1 == []
    ensures r.1 <= Instances(Requested(flags))
  {
    if Dinput8Api.EnumCollection(flags) != 0 then (DI_OK, [])
    else (DI_OK, Enumerate(Instances(Requested(flags)), (k, inst) => callback(k, inst) != DIENUM_CONTINUE))
  }

  /** With collection 0 and a callback that always continues, the client
      sees the instances of the requested objects. */
  lemma EnumObjectsSeesRequested(flags: Dword, callback: (nat, ObjectInstance) -> Dword)
    requires Dinput8Api.EnumCollection(flags) == 0
    requires forall k, inst :: callback(k, inst) == DIENUM_CONTINUE
    ensures EnumObjects(flags, callback).1 == Instances(Requested(flags))
  {
    EnumerateAll(Instances(Requested(flags)), (k, inst) => callback(k, inst) != DIENUM_CONTINUE);
  }

  /** An object is requested exactly when the flag word carries its
      group's bit. */
  lemma RequestedMembership(flags: Dword, o: TableObject)
    ensures o in Requested(flags) <==> flags & Group(o) != 0
  {
    match o
    case AxisObject(t) => AxisAtKey(t); assert AxisObjects()[AxisKey(t)] == o;
    case ButtonObject(b) => ButtonAtKey(b); assert ButtonObjects()[ButtonKey(b)] == o;
    case DPadObject =>
    case CollectionObject =>
  }

  /** With collection 0 and a callback that always continues, an object's
      instance is handed out exactly when its group's bit is requested: no
      instance stands for two objects. */
  lemma EnumObjectsSeesExactlyItsGroups(flags: Dword, callback: (nat, ObjectInstance) -> Dword, o: TableObject)
    requires Dinput8Api.EnumCollection(flags) == 0
    requires forall k, inst :: callback(k, inst) == DIENUM_CONTINUE
    ensures Instance(o) in EnumObjects(flags, callback).1 <==> flags & Group(o) != 0
  {
    EnumObjectsSeesRequested(flags, callback);
    RequestedMembership(flags, o);
    InstancesIdentify(Requested(flags), o);
  }

  /** An object's instance is among the instances of a list exactly when
      the object is in the list. */
  lemma InstancesIdentify(os: seq<TableObject>, o: TableObject)
    ensures Instance(o) in Instances(os) <==> o in os
  {
    if Instance(o) in Instances(os) {
      var i :| 0 <= i < |os| && Instances(os)[i] == Instance(o);
      TableIdentifiesObjects(os[i], o);
    }
    if o in os {
      var i :| 0 <= i < |os| && os[i] == o;
      assert Instances(os)[i] == Instance(o);
    }
  }

  /** Asking for every group hands out the whole table in push order. */
  lemma EnumObjectsEveryGroup(callback: (nat, ObjectInstance) -> Dword)
    requires forall k, inst :: callback(k, inst) == DIENUM_CONTINUE
    ensures EnumObjects(DIDFT_ABSAXIS | DIDFT_POV | DIDFT_PSHBUTTON | DIDFT_COLLECTION, callback).1 == Instances(TableOrder())
  {
    EnumObjectsSeesRequested(DIDFT_ABSAXIS | DIDFT_POV | DIDFT_PSHBUTTON | DIDFT_COLLECTION, callback);
  }

  /** The counts `GetCapabilities` reports are the numbers of axes, hats
      and buttons `EnumObjects` hands out for their groups. */
  lemma CapabilitiesMatchEnumeration(callback: (nat, ObjectInstance) -> Dword)
    requires forall k, inst :: callback(k, inst) == DIENUM_CONTINUE
    ensures |EnumObjects(DIDFT_ABSAXIS, callback).1| == GetCapabilities().axes
    ensures |EnumObjects(DIDFT_PSHBUTTON, callback).1| == GetCapabilities().buttons
    ensures |EnumObjects(DIDFT_POV, callback).1| == GetCapabilities().povs
  {
    EnumObjectsSeesRequested(DIDFT_ABSAXIS, callback);
    EnumObjectsSeesRequested(DIDFT_PSHBUTTON, callback);
    EnumObjectsSeesRequested(DIDFT_POV, callback);
  }

  /** DIDFT_ALL is 0, so `EnumObjects(DIDFT_ALL)` tests no group bit and
      hands out nothing, where DirectInput promises every object. */
  lemma EnumObjectsAllSeesNothing(callback: (nat, ObjectInstance) -> Dword)
    ensures EnumObjects(DIDFT_ALL, callback) == (DI_OK, [])
  {
    assert Requested(DIDFT_ALL) == [];
  }

  /** The type field of an `EnumObjects` flag word: its low byte. */
  function TypeFilter(flags: Dword): Dword
  {
    flags & 0xFF
  }

  /** The request as DirectInput defines it: an empty type field (DIDFT_ALL)
      asks for every object; otherwise as `Requested`. */
  function IntendedRequested(flags: Dword): seq<TableObject>
  {
    if TypeFilter(flags) == 0 then TableOrder() else Requested(flags)
  }

  /** `EnumObjects` with DIDFT_ALL read as every object. */
  function IntendedEnumObjects(flags: Dword, callback: (nat, ObjectInstance) -> Dword): (r: (Dword, seq<ObjectInstance>))
    ensures r.0 == DI_OK
    ensures Dinput8Api.EnumCollection(flags) != 0 ==> r.1 == []
    ensures r.1 <= Instances(IntendedRequested(flags))
  {
    if Dinput8Api.EnumCollection(flags) != 0 then (DI_OK, [])
    else (DI_OK, Enumerate(Instances(IntendedRequested(flags)), (k, inst) => callback(k, inst) != DIENUM_CONTINUE))
  }

  /** The intended enumeration hands out all 22 objects for DIDFT_ALL. */
  lemma IntendedEnumObjectsAll(callback: (nat, ObjectInstance) -> Dword)
    requires forall k, inst :: callback(k, inst) == DIENUM_CONTINUE
    ensures IntendedEnumObjects(DIDFT_ALL, callback).1 == Instances(TableOrder())
    ensures |IntendedEnumObjects(DIDFT_ALL, callback).1| == 22
  {
    assert IntendedRequested(DIDFT_ALL) == TableOrder();
    EnumerateAll(Instances(TableOrder()), (k, inst) => callback(k, inst) != DIENUM_CONTINUE);
  }

  /** On every flag word with a type bit set the intended enumeration is
      `EnumObjects`. */
  lemma IntendedAgreesWithTypedRequests(flags: Dword, callback: (nat, ObjectInstance) -> Dword)
    requires TypeFilter(flags) != 0
    ensures IntendedEnumObjects(flags, callback) == EnumObjects(flags, callback)
  {
  }
}

=== FILE: legacy_ps4.dfy ===
/** The PS4-shaped object tables of the C++ generation: the
    `DirectInputButtonConf` constants the legacy `EnumObjects` hands out
    (dhc/frontend/ps4.h, with an older copy in dhc/frontend/dinput.h), and
    the `EmulatedDeviceObject` list `GeneratePS4EmulatedDeviceObjects`
    builds (dhc/frontend/ps4.cpp). */
module LegacyPs4 {
  import opened DInput
  import opened Strings
  import opened LegacyDevice

  /** `DirectInputButtonConf`: one object as the client is told of it. */
  datatype ButtonConf = ButtonConf(flags: Dword, offset: Dword, typeBits: Dword, guid: Guid, name: string)

  /** The type bits outside the instance field: the object's kind. */
  function Kind(typeBits: Dword): Dword
  {
    typeBits & !DIDFT_ANYINSTANCE
  }

  /** "Button k". */
  function ButtonName(k: nat): string
  {
    "Button " + Decimal(k)
  }

  /** A button's number, 0 .. 13, as the DWORD the tables write. */
  function ButtonNumber(b: ButtonType): (n: Dword)
    ensures U(n) == ButtonKey(b)
  {
    match b
    case Square => 0
    case Cross => 1
    case Circle => 2
    case Triangle => 3
    case L1 => 4
    case R1 => 5
    case L2 => 6
    case R2 => 7
    case Share => 8
    case Options => 9
    case L3 => 10
    case R3 => 11
    case PlayStation => 12
    case Trackpad => 13
  }

  // ---------------------------------------------------------------------
  // dhc/frontend/ps4.h

  /** `kDIAxisLeftX` .. `kDIAxisR2`, by the axis each stands for. */
  function HeaderAxis(t: AxisType): ButtonConf
  {
    match t
    case LStickX => ButtonConf(DIDOI_ASPECTPOSITION, 12, DIDFT_ABSAXIS | MakeInstance(0), GUID_XAxis, "X Axis")
    case LStickY => ButtonConf(DIDOI_ASPECTPOSITION, 8, DIDFT_ABSAXIS | MakeInstance(1), GUID_YAxis, "Y Axis")
    case RStickX => ButtonConf(DIDOI_ASPECTPOSITION, 4, DIDFT_ABSAXIS | MakeInstance(2), GUID_ZAxis, "Z Axis")
    case RStickY => ButtonConf(DIDOI_ASPECTPOSITION, 0, DIDFT_ABSAXIS | MakeInstance(5), GUID_RzAxis, "Z Rotation")
    case LTrigger => ButtonConf(DIDOI_ASPECTPOSITION, 28, DIDFT_ABSAXIS | MakeInstance(3), GUID_RxAxis, "X Rotation")
    case RTrigger => ButtonConf(DIDOI_ASPECTPOSITION, 24, DIDFT_ABSAXIS | MakeInstance(4), GUID_RyAxis, "Y Rotation")
  }

  /** `kDIButtonSquare` .. `kDIButtonTrackpad`: button k at offset 220 + k,
      instance k, named "Button k". */
  function HeaderButton(b: ButtonType): ButtonConf
  {
    var n := ButtonNumber(b);
    ButtonConf(0, 220 + n, DIDFT_PSHBUTTON | MakeInstance(n), GUID_Button, ButtonName(ButtonKey(b)))
  }

  const DPadConf := ButtonConf(0, 16, DIDFT_POV | MakeInstance(0), GUID_POV, "Hat Switch")
  const CollectionGamepad := ButtonConf(0, 0, DIDFT_COLLECTION | DIDFT_NODATA, GUID_Unknown, "Collection 0 - Game Pad")

  /** The objects the table describes. */
  datatype TableObject = AxisObject(axis: AxisType) | DPadObject | ButtonObject(button: ButtonType) | CollectionObject

  /** The ps4.h constant of each object. */
  function Conf(o: TableObject): ButtonConf
  {
    match o
    case AxisObject(t) => HeaderAxis(t)
    case DPadObject => DPadConf
    case ButtonObject(b) => HeaderButton(b)
    case CollectionObject => CollectionGamepad
  }

  const AllAxisTypes: seq<AxisType> := [LStickX, LStickY, RStickX, RStickY, LTrigger, RTrigger]

  const AllButtonTypes: seq<ButtonType> :=
    [Square, Cross, Circle, Triangle, L1, R1, L2, R2, Share, Options, L3, R3, PlayStation, Trackpad]

  lemma EnumOrders()
    ensures forall k :: 0 <= k < AxisCount ==> AxisKey(AllAxisTypes[k]) == k
    ensures forall k :: 0 <= k < ButtonCount ==> ButtonKey(AllButtonTypes[k]) == k
  {
  }

  /** Each axis type sits at its key in `AllAxisTypes`. */
  lemma AxisAtKey(t: AxisType)
    ensures AllAxisTypes[AxisKey(t)] == t
  {
    match t
    case LStickX => case LStickY => case RStickX => case RStickY => case LTrigger => case RTrigger =>
  }

  /** Each button type sits at its key in `AllButtonTypes`. */
  lemma ButtonAtKey(b: ButtonType)
    ensures AllButtonTypes[ButtonKey(b)] == b
  {
    EnumOrders();
    KeysAreInjective(LStickX, LStickX, AllButtonTypes[ButtonKey(b)], b);
  }

  /** The axes LeftX, LeftY, RightX, RightY, L2, R2. */
  function AxisObjects(): (r: seq<TableObject>)
    ensures |r| == AxisCount
    ensures forall k :: 0 <= k < AxisCount ==> r[k] == AxisObject(AllAxisTypes[k])
  {
    seq(AxisCount, k requires 0 <= k < AxisCount => AxisObject(AllAxisTypes[k]))
  }

  /** The buttons Square .. Trackpad. */
  function ButtonObjects(): (r: seq<TableObject>)
    ensures |r| == ButtonCount
    ensures forall k :: 0 <= k < ButtonCount ==> r[k] == ButtonObject(AllButtonTypes[k])
  {
    seq(ButtonCount, k requires 0 <= k < ButtonCount => ButtonObject(AllButtonTypes[k]))
  }

  /** Every object, in the order `EnumObjects` pushes them: the axes, the
      hat, the buttons, the collection. */
  function TableOrder(): (r: seq<TableObject>)
    ensures |r| == 22
    ensures forall k :: 0 <= k < AxisCount ==> r[k] == AxisObject(AllAxisTypes[k])
    ensures r[6] == DPadObject && r[21] == CollectionObject
    ensures forall k :: 7 <= k < 21 ==> r[k] == ButtonObject(AllButtonTypes[k - 7])
  {
    AxisObjects() + [DPadObject] + ButtonObjects() + [CollectionObject]
  }

  /** The place of an object in `TableOrder()`. */
  function Position(o: TableObject): (k: nat)
    ensures k < |TableOrder()| && TableOrder()[k] == o
  {
    match o
    case AxisObject(t) => AxisAtKey(t); AxisKey(t)
    case DPadObject => 6
    case ButtonObject(b) => ButtonAtKey(b); 7 + ButtonKey(b)
    case CollectionObject => 21
  }

  /** The object that type bits name, by position in `TableOrder`: axes by
      instance, the hat, buttons by instance, the collection; -1 for
      anything else. */
  function TablePosition(typeBits: Dword): int
  {
    var kind := Kind(typeBits);
    var inst := GetInstance(typeBits);
    if kind == DIDFT_ABSAXIS then
      (if inst == 0 then 0 else if inst == 1 then 1 else if inst == 2 then 2 else if inst == 3 then 4
       else if inst == 4 then 5 else if inst == 5 then 3 else -1)
    else if kind == DIDFT_POV then (if inst == 0 then 6 else -1)
    else if kind == DIDFT_PSHBUTTON then (if inst < 14 then 7 + U(inst) else -1)
    else if typeBits == DIDFT_COLLECTION | DIDFT_NODATA then 21
    else -1
  }

  /** In ps4.h the type bits of every object name that object back, so no
      two objects share type bits. */
  lemma TableIdentifiesObjects(o: TableObject, p: TableObject)
    ensures TablePosition(Conf(o).typeBits) == Position(o)
    ensures Conf(o).typeBits == Conf(p).typeBits ==> o == p
  {
    NamedBack(o);
    NamedBack(p);
  }

  /** In ps4.h no two axes share a GUID: each reports `AxisToGUID` of its
      axis type. */
  lemma TableAxisGuidsDistinct(t: AxisType, u: AxisType)
    ensures HeaderAxis(t).guid == AxisToGUID(t)
    ensures HeaderAxis(t).guid == HeaderAxis(u).guid <==> t == u
  {
    match t
    case LStickX => case LStickY => case RStickX => case RStickY => case LTrigger => case RTrigger =>
    AxisToGUIDInjective(t, u);
    assert HeaderAxis(u).guid == AxisToGUID(u) by {
      match u
      case LStickX => case LStickY => case RStickX => case RStickY => case LTrigger => case RTrigger =>
    }
  }

  lemma NamedBack(o: TableObject)
    ensures TablePosition(Conf(o).typeBits) == Position(o)
  {
    match o
    case AxisObject(t) => AxisNamedBack(t);
    case ButtonObject(b) => ButtonNamedBack(b);
    case DPadObject =>
    case CollectionObject =>
  }

  lemma AxisNamedBack(t: AxisType)
    ensures TablePosition(HeaderAxis(t).typeBits) == AxisKey(t)
  {
  }

  lemma ButtonNamedBack(b: ButtonType)
    ensures TablePosition(HeaderButton(b).typeBits) == 7 + ButtonKey(b)
  {
  }

  // ---------------------------------------------------------------------
  // The older copy in dhc/frontend/dinput.h: the same constants except
  // that R2 reports GUID_RxAxis and the Trackpad instance 1 as "Button 2".

  function OlderConf(o: TableObject): ButtonConf
  {
    match o
    case AxisObject(RTrigger) => HeaderAxis(RTrigger).(guid := GUID_RxAxis)
    case ButtonObject(Trackpad) => ButtonConf(0, 233, DIDFT_PSHBUTTON | MakeInstance(1), GUID_Button, ButtonName(2))
    case _ => Conf(o)
  }

  /** In the older copy L2 and R2 report the same axis GUID, and Cross and
      Trackpad the same type bits: a client cannot tell either pair apart. */
  lemma OlderTableConflates()
    ensures OlderConf(AxisObject(LTrigger)).guid == OlderConf(AxisObject(RTrigger)).guid
    ensures OlderConf(ButtonObject(Cross)).typeBits == OlderConf(ButtonObject(Trackpad)).typeBits
  {
  }

  // ---------------------------------------------------------------------
  // dhc/frontend/ps4.cpp

  /** What an emulated object stands for. */
  datatype Mapped = MappedAxis(axis: AxisType) | MappedButton(button: ButtonType) | MappedPov

  /** `EmulatedDeviceObject`. */
  datatype EmulatedObject =
    EmulatedObject(name: string, guid: Guid, typeBits: Dword, flags: Dword, instanceId: nat, offset: Dword, mapped: Mapped)

  /** The object pushed for each input, before the POLLED pass: the axes
      with their GUIDs, instances 1 .. 6 and offsets; button k (k = 1 .. 14
      in the order Square .. Trackpad) as "Button k", instance k, offset
      219 + k; the hat. */
  function Generated(m: Mapped): (o: EmulatedObject)
    ensures o.mapped == m
  {
    match m
    case MappedAxis(t) =>
      var a := EmulatedObject("", GUID_XAxis, DIDFT_ABSAXIS, DIDOI_ASPECTPOSITION, 0, 0, m);
      (match t
       case LStickX => a.(name := "X Axis", guid := GUID_XAxis, instanceId := 1, offset := 12)
       case LStickY => a.(name := "Y Axis", guid := GUID_YAxis, instanceId := 2, offset := 8)
       case RStickX => a.(name := "Z Axis", guid := GUID_ZAxis, instanceId := 3, offset := 4)
       case RStickY => a.(name := "Z Rotation", guid := GUID_RzAxis, instanceId := 6, offset := 0)
       case LTrigger => a.(name := "X Rotation", guid := GUID_RxAxis, instanceId := 4, offset := 28)
       case RTrigger => a.(name := "Y Rotation", guid := GUID_RyAxis, instanceId := 5, offset := 24))
    case MappedButton(b) =>
      EmulatedObject(ButtonName(ButtonKey(b) + 1), GUID_Button, DIDFT_PSHBUTTON, 0, ButtonKey(b) + 1,
                     219 + (ButtonNumber(b) + 1), m)
    case MappedPov => EmulatedObject("Hat Switch", GUID_POV, DIDFT_POV, 0, 1, 16, m)
  }

  /** The order of the pushes: the axes LStickX .. RTrigger, the buttons
      Square .. Trackpad, the hat. */
  function GeneratedOrder(): (r: seq<Mapped>)
    ensures |r| == AxisCount + ButtonCount + PovCount
    ensures forall k :: 0 <= k < AxisCount ==> r[k] == MappedAxis(AllAxisTypes[k])
    ensures forall k :: AxisCount <= k < AxisCount + ButtonCount ==> r[k] == MappedButton(AllButtonTypes[k - AxisCount])
    ensures r[AxisCount + ButtonCount] == MappedPov
  {
    seq(AxisCount, k requires 0 <= k < AxisCount => MappedAxis(AllAxisTypes[k]))
    + seq(ButtonCount, k requires 0 <= k < ButtonCount => MappedButton(AllButtonTypes[k])) + [MappedPov]
  }

  /** An object after the POLLED pass. */
  function Polled(o: EmulatedObject): EmulatedObject
  {
    o.(typeBits := o.typeBits | DIDOI_POLLED)
  }

  /** `GeneratePS4EmulatedDeviceObjects`: every pushed object, in push
      order, with DIDOI_POLLED or-ed into its type and nothing else
      changed. */
  function GeneratePs4Objects(): (r: seq<EmulatedObject>)
    ensures |r| == |GeneratedOrder()|
    ensures forall i :: 0 <= i < |r| ==> r[i] == Polled(Generated(GeneratedOrder()[i]))
  {
    seq(|GeneratedOrder()|, i requires 0 <= i < |GeneratedOrder()| => Polled(Generated(GeneratedOrder()[i])))
  }

  /** The place of each input in the generated list. */
  function GeneratedPosition(m: Mapped): (k: nat)
    ensures k < |GeneratedOrder()| && GeneratedOrder()[k] == m
  {
    match m
    case MappedAxis(t) => AxisAtKey(t); AxisKey(t)
    case MappedButton(b) => ButtonAtKey(b); AxisCount + ButtonKey(b)
    case MappedPov => AxisCount + ButtonCount
  }

  lemma GeneratedPositionsInverse()
    ensures forall i :: 0 <= i < |GeneratedOrder()| ==> GeneratedPosition(GeneratedOrder()[i]) == i
  {
    EnumOrders();
  }

  /** Every input is generated exactly once, at `GeneratedPosition`, and
      mapped to that input; an axis reports the GUID `AxisToGUID` gives its
      type. */
  lemma GeneratedMapsEachInputOnce(m: Mapped, i: nat)
    requires i < |GeneratePs4Objects()|
    ensures GeneratePs4Objects()[GeneratedPosition(m)].mapped == m
    ensures GeneratePs4Objects()[i].mapped == m <==> i == GeneratedPosition(m)
    ensures m.MappedAxis? ==> GeneratePs4Objects()[GeneratedPosition(m)].guid == AxisToGUID(m.axis)
  {
    GeneratedPositionsInverse();
    if m.MappedAxis? {
      match m.axis
      case LStickX => case LStickY => case RStickX => case RStickY => case LTrigger => case RTrigger =>
    }
  }

  /** The POLLED flag (0x8000) is or-ed into the TYPE, where it lands in
      the instance field: every generated object reads as instance 0x80,
      its kind unchanged. */
  lemma PolledLandsInInstanceField(m: Mapped)
    ensures Polled(Generated(m)).typeBits & DIDOI_POLLED != 0
    ensures GetInstance(Polled(Generated(m)).typeBits) == 0x80
    ensures Kind(Polled(Generated(m)).typeBits) == Generated(m).typeBits
  {
    var t := Generated(m).typeBits;
    assert t == DIDFT_ABSAXIS || t == DIDFT_PSHBUTTON || t == DIDFT_POV by {
      if m.MappedAxis? {
        match m.axis
        case LStickX => case LStickY => case RStickX => case RStickY => case LTrigger => case RTrigger =>
      }
    }
  }

  /** A generated axis and its ps4.h constant describe the same object:
      the same offset, GUID, name and kind, the generated instance one above
      the constant's. */
  lemma GeneratedAxisAgreesWithTable(t: AxisType)
    ensures var g := Generated(MappedAxis(t));
            var c := Conf(AxisObject(t));
            && g.offset == c.offset && g.guid == c.guid && g.name == c.name && g.typeBits == Kind(c.typeBits)
            && g.instanceId == U(GetInstance(c.typeBits)) + 1
  {
    match t
    case LStickX => case LStickY => case RStickX => case RStickY => case LTrigger => case RTrigger =>
  }

  /** The same for a button, whose generated name carries the constant's
      number plus one. */
  lemma GeneratedButtonAgreesWithTable(b: ButtonType)
    ensures var g := Generated(MappedButton(b));
            var c := Conf(ButtonObject(b));
            && g.offset == c.offset && g.guid == c.guid && g.typeBits == Kind(c.typeBits)
            && g.instanceId == U(GetInstance(c.typeBits)) + 1
            && g.name == ButtonName(ButtonKey(b) + 1) && c.name == ButtonName(ButtonKey(b))
  {
    var n := ButtonNumber(b);
    assert GetInstance(DIDFT_PSHBUTTON | MakeInstance(n)) == n;
  }

  /** The same for the hat. */
  lemma GeneratedHatAgreesWithTable()
    ensures var g := Generated(MappedPov);
            var c := Conf(DPadObject);
            && g.offset == c.offset && g.guid == c.guid && g.name == c.name && g.typeBits == Kind(c.typeBits)
            && g.instanceId == U(GetInstance(c.typeBits)) + 1
  {
  }
}

=== FILE: legacy_refresh.dfy ===
/** The refresh path of the DirectInput input provider of the C++
    generation (dhc/backend/dinput.cpp): decoding a physical device's
    reading into its virtual device, or releasing the assignment when the
    physical device stops answering. */
module LegacyRefresh {
  import opened Wrappers
  import opened DInput
  import opened EnumMaps
  import opened LegacyDevice
  import opened LegacyBackend
  import Inputs

  /** The parts of `DIJOYSTATE` the provider reads. */
  type ButtonBytes = s: seq<Byte> | |s| == 32
    witness [0, 0, 0, 0, 0, 0, 0, 0, 0, 0, 0, 0, 0, 0, 0, 0, 0, 0, 0, 0, 0, 0, 0, 0, 0, 0, 0, 0, 0, 0, 0, 0]
  type PovWords = s: seq<Dword> | |s| == 4 witness [0, 0, 0, 0]

  datatype JoyState = JoyState(lX: int, lY: int, lZ: int, lRx: int, lRy: int, lRz: int,
                               rgdwPOV: PovWords, rgbButtons: ButtonBytes)

  /** The numeric values of `PovState`: the declaring header is not part of
      this model, so the encoding is a parameter. */
  type PovCodes = PovState -> Dword

  const AllPovStates: seq<PovState> :=
    [Inputs.Hat.Neutral, Inputs.Hat.North, Inputs.Hat.NorthEast, Inputs.Hat.East, Inputs.Hat.SouthEast,
     Inputs.Hat.South, Inputs.Hat.SouthWest, Inputs.Hat.West, Inputs.Hat.NorthWest]

  /** The enumerators have distinct values (the `switch` in
      `PovStateFromDword` has one case label per enumerator). */
  predicate DistinctCodes(codes: PovCodes)
  {
    forall s, t :: codes(s) == codes(t) ==> s == t
  }

  function FirstWithCode(codes: PovCodes, pov: Dword, k: nat): (r: Option<PovState>)
    requires k <= |AllPovStates|
    ensures r.Some? ==> codes(r.value) == pov
    ensures r.None? ==> forall j :: k <= j < |AllPovStates| ==> codes(AllPovStates[j]) != pov
    decreases |AllPovStates| - k
  {
    if k == |AllPovStates| then None
    else if codes(AllPovStates[k]) == pov then Some(AllPovStates[k])
    else FirstWithCode(codes, pov, k + 1)
  }

  /** `PovStateFromDword`: a DWORD that is the value of a hat position is
      that position; any other value is fatal. */
  function PovStateFromDword(codes: PovCodes, pov: Dword): (r: Outcome<PovState>)
    ensures r.Ok? <==> exists s: PovState :: codes(s) == pov
    ensures r.Ok? ==> codes(r.value) == pov
  {
    var found := FirstWithCode(codes, pov, 0);
    if found.None? then
      assert forall s: PovState :: codes(s) != pov by {
        forall s: PovState ensures codes(s) != pov {
          assert s == AllPovStates[PovIndex(s)];
        }
      }
      Abort
    else Ok(found.value)
  }

  function PovIndex(s: PovState): (i: nat)
    ensures i < |AllPovStates| && AllPovStates[i] == s
  {
    match s
    case Neutral => 0
    case North => 1
    case NorthEast => 2
    case East => 3
    case SouthEast => 4
    case South => 5
    case SouthWest => 6
    case West => 7
    case NorthWest => 8
  }

  /** Decoding the value of a position gives that position back. */
  lemma PovStateRoundTrip(codes: PovCodes, s: PovState)
    requires DistinctCodes(codes)
    ensures PovStateFromDword(codes, codes(s)) == Ok(s)
  {
  }

  /** The byte of `rgbButtons` each button is read from. */
  function ButtonByte(b: ButtonType): nat
  {
    ButtonKey(b)
  }

  /** The state a successful refresh writes: each axis its `DIJOYSTATE`
      field over 65535, each button whether its byte is non-zero, and the
      decoded hat. */
  function ApplyState(d: Device, s: JoyState, hat: PovState): (r: Device)
    requires Shaped(d)
    ensures Shaped(r) && r.id == d.id
    ensures AxisValue(r, LStickX) == Scaled(s.lX) && AxisValue(r, LStickY) == Scaled(s.lY)
    ensures AxisValue(r, RStickX) == Scaled(s.lZ) && AxisValue(r, RStickY) == Scaled(s.lRz)
    ensures AxisValue(r, LTrigger) == Scaled(s.lRx) && AxisValue(r, RTrigger) == Scaled(s.lRy)
    ensures forall b :: Pressed(r, b) == (s.rgbButtons[ButtonByte(b)] != 0)
    ensures DPad(r) == hat
  {
    var a := ApplyAxes(d, s);
    var bs := SetButtons(a, s.rgbButtons, AllButtonTypes, 0);
    SetDPad(bs, hat)
  }

  function Scaled(v: int): real
  {
    v as real / 65535.0
  }

  /** The axis half of a refresh; every entry keeps its key. */
  function ApplyAxes(d: Device, s: JoyState): (r: Device)
    requires Shaped(d)
    ensures Shaped(r) && r.id == d.id && r.buttons == d.buttons && r.povs == d.povs
    ensures AxisValue(r, LStickX) == Scaled(s.lX) && AxisValue(r, LStickY) == Scaled(s.lY)
    ensures AxisValue(r, RStickX) == Scaled(s.lZ) && AxisValue(r, RStickY) == Scaled(s.lRz)
    ensures AxisValue(r, LTrigger) == Scaled(s.lRx) && AxisValue(r, RTrigger) == Scaled(s.lRy)
  {
    var k := d.axes.data;
    d.(axes := EnumMap([Entry(k[0].key, Scaled(s.lX)), Entry(k[1].key, Scaled(s.lY)), Entry(k[2].key, Scaled(s.lZ)),
                        Entry(k[3].key, Scaled(s.lRz)), Entry(k[4].key, Scaled(s.lRx)), Entry(k[5].key, Scaled(s.lRy))]))
  }

  const AllButtonTypes: seq<ButtonType> :=
    [Square, Cross, Circle, Triangle, L1, R1, L2, R2, Share, Options, L3, R3, PlayStation, Trackpad]

  function ButtonAt(k: nat): (b: ButtonType)
    requires k < ButtonCount
    ensures ButtonKey(b) == k
  {
    AllButtonTypes[k]
  }

  /** The button assignments from `AllButtonTypes[k]` on. */
  function SetButtons(d: Device, bytes: ButtonBytes, order: seq<ButtonType>, k: nat): (r: Device)
    requires Shaped(d) && order == AllButtonTypes && k <= |order|
    ensures Shaped(r) && r.id == d.id && r.axes == d.axes && r.povs == d.povs
    ensures forall b :: ButtonKey(b) >= k ==> Pressed(r, b) == (bytes[ButtonByte(b)] != 0)
    ensures forall b :: ButtonKey(b) < k ==> Pressed(r, b) == Pressed(d, b)
    decreases |order| - k
  {
    if k == |order| then d
    else SetButtons(SetButton(d, ButtonAt(k), bytes[k] != 0), bytes, order, k + 1)
  }

  /** A reading of the physical device: `GetDeviceState`'s HRESULT and the
      state it fills in. */
  datatype Reading = Reading(rc: Dword, state: JoyState)

  /** `Refresh(DeviceAssignment*)`: a `Poll` other than DI_OK/DI_NOEFFECT or
      a failed `GetDeviceState` releases the assignment and writes no input;
      otherwise the virtual device takes the reading, and a hat value that
      is no position is fatal. */
  function RefreshAssignment(p: Provider, k: nat, pollRc: Dword, reading: Reading, codes: PovCodes)
    : (r: Outcome<Provider>)
    requires k < |p.assignments| && p.assignments[k].vdev < |p.devices| && Shaped(p.devices[p.assignments[k].vdev])
    ensures (pollRc != DI_OK && pollRc != DI_NOEFFECT) || reading.rc != DI_OK ==> r == Ok(Release(p, k))
    ensures (pollRc == DI_OK || pollRc == DI_NOEFFECT) && reading.rc == DI_OK ==>
              match PovStateFromDword(codes, reading.state.rgdwPOV[0])
              case Abort => r.Abort?
              case Ok(hat) =>
                var v := p.assignments[k].vdev;
                r == Ok(p.(devices := p.devices[v := ApplyState(p.devices[v], reading.state, hat)]))
  {
    if pollRc != DI_OK && pollRc != DI_NOEFFECT then Ok(Release(p, k))
    else if reading.rc != DI_OK then Ok(Release(p, k))
    else
      var v := p.assignments[k].vdev;
      var hat :- PovStateFromDword(codes, reading.state.rgdwPOV[0]);
      Ok(p.(devices := p.devices[v := ApplyState(p.devices[v], reading.state, hat)]))
  }

  /** `Refresh(Device*)`: an unassigned device must be waiting (a failed
      CHECK otherwise) and triggers a scan; an assigned one is refreshed
      from its physical device. */
  function Refresh(p: Provider, v: VdevId, cs: seq<Candidate>, pollRc: Dword, reading: Reading, codes: PovCodes)
    : (r: Outcome<Provider>)
    requires forall i :: 0 <= i < |p.assignments| ==> p.assignments[i].vdev < |p.devices|
    requires DevicesWellFormed(p.devices)
    ensures FindByVdev(p.assignments, v).None? ==> (r.Ok? <==> v in p.available)
    ensures FindByVdev(p.assignments, v).None? && v in p.available ==> r == Ok(ScanLocked(p, cs))
    ensures FindByVdev(p.assignments, v).Some? ==>
              r == RefreshAssignment(p, FindByVdev(p.assignments, v).value, pollRc, reading, codes)
  {
    match FindByVdev(p.assignments, v)
    case None => if v in p.available then Ok(ScanLocked(p, cs)) else Abort
    case Some(k) => RefreshAssignment(p, k, pollRc, reading, codes)
  }

  /** A refresh that does not abort keeps the invariant. */
  lemma RefreshKeeps(p: Provider, v: VdevId, cs: seq<Candidate>, pollRc: Dword, reading: Reading,
                     codes: PovCodes, ids: set<VdevId>)
    requires Valid(p, ids) && forall i :: 0 <= i < |p.assignments| ==> p.assignments[i].vdev < |p.devices|
    ensures Refresh(p, v, cs, pollRc, reading, codes).Ok? ==>
              Valid(Refresh(p, v, cs, pollRc, reading, codes).value, ids)
    ensures Refresh(p, v, cs, pollRc, reading, codes).Ok? ==>
              |Refresh(p, v, cs, pollRc, reading, codes).value.devices| == |p.devices|
  {
    match FindByVdev(p.assignments, v)
    case None => ScanKeeps(p, cs, ids);
    case Some(k) =>
      if (pollRc != DI_OK && pollRc != DI_NOEFFECT) || reading.rc != DI_OK {
        ReleaseKeeps(p, k, ids);
      } else {
        var w := p.assignments[k].vdev;
        var pov := PovStateFromDword(codes, reading.state.rgdwPOV[0]);
        if pov.Ok? {
          ReplaceDeviceKeeps(p, w, ApplyState(p.devices[w], reading.state, pov.value), ids);
        }
      }
  }
}

=== FILE: logger.dfy ===
/** The log levels of the configuration file (dhc/src/logger.rs): their
    textual form and the levels of the two logging back ends. */
module Logger {
  import opened Wrappers

  datatype LogLevel = Trace | Debug | Info | Warn | Error | Fatal

  /** The levels of the `log` crate, which has no level above Error. */
  datatype LogCrateLevel = LogError | LogWarn | LogInfo | LogDebug | LogTrace

  /** The levels of `slog`. */
  datatype SlogLevel = Critical | SlogError | Warning | SlogInfo | SlogDebug | SlogTrace

  /** `to_log`: Fatal shares Error's level. */
  function ToLog(l: LogLevel): LogCrateLevel
  {
    match l
    case Trace => LogTrace
    case Debug => LogDebug
    case Info => LogInfo
    case Warn => LogWarn
    case Error => LogError
    case Fatal => LogError
  }

  function ToSlog(l: LogLevel): SlogLevel
  {
    match l
    case Trace => SlogTrace
    case Debug => SlogDebug
    case Info => SlogInfo
    case Warn => Warning
    case Error => SlogError
    case Fatal => Critical
  }

  /** `to_log` identifies exactly Error and Fatal. */
  lemma ToLogMerges(a: LogLevel, b: LogLevel)
    ensures ToLog(a) == ToLog(b) <==> a == b || (a in {Error, Fatal} && b in {Error, Fatal})
  {
  }

  /** `to_slog` is injective. */
  lemma ToSlogInjective(a: LogLevel, b: LogLevel)
    ensures ToSlog(a) == ToSlog(b) ==> a == b
  {
  }

  /** `Serialize`: the lowercase name. */
  function Serialize(l: LogLevel): (s: string)
    ensures |s| > 0
  {
    match l
    case Trace => "trace"
    case Debug => "debug"
    case Info => "info"
    case Warn => "warn"
    case Error => "error"
    case Fatal => "fatal"
  }

  /** `Deserialize`: exactly the six lowercase names; anything else is an
      "unknown log level" error. */
  function Deserialize(s: string): (r: Option<LogLevel>)
    ensures r.Some? ==> Serialize(r.value) == s
  {
    if s == "trace" then Some(Trace)
    else if s == "debug" then Some(Debug)
    else if s == "info" then Some(Info)
    else if s == "warn" then Some(Warn)
    else if s == "error" then Some(Error)
    else if s == "fatal" then Some(Fatal)
    else None
  }

  /** Deserialising the serialised form gives the level back. */
  lemma DeserializeSerialize(l: LogLevel)
    ensures Deserialize(Serialize(l)) == Some(l)
  {
  }

  /** Deserialisation accepts a string exactly when it is the name of a
      level. */
  lemma DeserializeAcceptsNames(s: string)
    ensures Deserialize(s).Some? <==> exists l :: Serialize(l) == s
  {
    if exists l :: Serialize(l) == s {
      var l :| Serialize(l) == s;
      DeserializeSerialize(l);
    }
  }
}

=== FILE: mangle.dfy ===
/** `mangle_inputs` (dhc/src/lib.rs): the D-pad override and the
    left-stick deadzone the configuration asks for. */
module Mangle {
  import opened Wrappers
  import opened Inputs
  import opened Configuration

  /** The distance of an axis value from the centre, scaled to [0, 1]. */
  function Magnitude(v: real): (m: real)
    ensures m >= 0.0
    ensures m == 2.0 * (if v > 0.5 then v - 0.5 else 0.5 - v)
  {
    if v > 0.5 then (v - 0.5) * 2.0 else (0.5 - v) * 2.0
  }

  /** The deadzone step for one axis: snap to the centre when the magnitude
      is within the threshold, to the edge on the value's side otherwise. */
  function SnapAxis(v: real, threshold: real): (r: real)
    ensures r == 0.5 <==> Magnitude(v) <= threshold
    ensures r == 1.0 <==> v > 0.5 && Magnitude(v) > threshold
    ensures r == 0.0 <==> v <= 0.5 && Magnitude(v) > threshold
  {
    var sign := if v > 0.5 then 1.0 else -1.0;
    var magnitude := if Magnitude(v) > threshold then 1.0 else 0.0;
    0.5 + 0.5 * sign * magnitude
  }

  /** `mangle_inputs`: with the override on and the D-pad pressed, centre
      the left stick; then, with an enabled deadzone, snap both left-stick
      axes.  `Axis::set_value` cannot panic here: every value written lies
      in [0, 1]. */
  function MangleInputs(config: Config, inputs: DeviceInputs): (r: DeviceInputs)
    ensures r.hatDpad == inputs.hatDpad
    ensures forall b :: GetButton(r, b) == GetButton(inputs, b)
    ensures forall t :: t !in {LeftStickX, LeftStickY} ==> GetAxis(r, t) == GetAxis(inputs, t)
  {
    var centred := if config.dpadOverride && GetHat(inputs, DPad) != Neutral
                   then WithAxis(WithAxis(inputs, LeftStickX, 0.5), LeftStickY, 0.5)
                   else inputs;
    if config.deadzone.Some? && config.deadzone.value.enabled then
      var th := config.deadzone.value.threshold;
      WithAxis(WithAxis(centred, LeftStickX, SnapAxis(GetAxis(centred, LeftStickX), th)),
               LeftStickY, SnapAxis(GetAxis(centred, LeftStickY), th))
    else centred
  }

  predicate DeadzoneOn(config: Config)
  {
    config.deadzone.Some? && config.deadzone.value.enabled
  }

  /** With the deadzone on, each left-stick axis ends at 0, 0.5 or 1, and at
      0.5 exactly when its magnitude (after the override) is within the
      threshold. */
  lemma DeadzoneSnaps(config: Config, inputs: DeviceInputs, t: AxisType)
    requires DeadzoneOn(config) && t in {LeftStickX, LeftStickY}
    requires !(config.dpadOverride && GetHat(inputs, DPad) != Neutral)
    ensures var v := GetAxis(MangleInputs(config, inputs), t);
      v in {0.0, 0.5, 1.0}
      && (v == 0.5 <==> Magnitude(GetAxis(inputs, t)) <= config.deadzone.value.threshold)
  {
    SnapAllFields(config, inputs);
  }

  lemma SnapAllFields(config: Config, inputs: DeviceInputs)
    requires DeadzoneOn(config)
    ensures var th := config.deadzone.value.threshold;
      var c := if config.dpadOverride && GetHat(inputs, DPad) != Neutral
               then WithAxis(WithAxis(inputs, LeftStickX, 0.5), LeftStickY, 0.5) else inputs;
      GetAxis(MangleInputs(config, inputs), LeftStickX) == SnapAxis(GetAxis(c, LeftStickX), th)
      && GetAxis(MangleInputs(config, inputs), LeftStickY) == SnapAxis(GetAxis(c, LeftStickY), th)
  {
    var th := config.deadzone.value.threshold;
    var c := if config.dpadOverride && GetHat(inputs, DPad) != Neutral
             then WithAxis(WithAxis(inputs, LeftStickX, 0.5), LeftStickY, 0.5) else inputs;
    var x := WithAxis(c, LeftStickX, SnapAxis(GetAxis(c, LeftStickX), th));
    GetAxisSelectsItsField(c, LeftStickX, LeftStickY, SnapAxis(GetAxis(c, LeftStickX), th));
    GetAxisSelectsItsField(x, LeftStickY, LeftStickX, SnapAxis(GetAxis(c, LeftStickY), th));
    GetAxisSelectsItsField(x, LeftStickY, LeftStickY, SnapAxis(GetAxis(c, LeftStickY), th));
  }

  /** With the override on and the D-pad pressed, the left stick is
      centred, unless a deadzone with a negative threshold then pushes it to
      0. */
  lemma OverrideCentres(config: Config, inputs: DeviceInputs, t: AxisType)
    requires config.dpadOverride && GetHat(inputs, DPad) != Neutral && t in {LeftStickX, LeftStickY}
    requires DeadzoneOn(config) ==> config.deadzone.value.threshold >= 0.0
    ensures GetAxis(MangleInputs(config, inputs), t) == 0.5
  {
    var c := WithAxis(WithAxis(inputs, LeftStickX, 0.5), LeftStickY, 0.5);
    GetAxisSelectsItsField(inputs, LeftStickX, LeftStickY, 0.5);
    GetAxisSelectsItsField(WithAxis(inputs, LeftStickX, 0.5), LeftStickY, LeftStickX, 0.5);
    GetAxisSelectsItsField(WithAxis(inputs, LeftStickX, 0.5), LeftStickY, LeftStickY, 0.5);
    if DeadzoneOn(config) {
      SnapAllFields(config, inputs);
    }
  }

  /** Every value `mangle_inputs` writes is accepted by `Axis::set_value`. */
  lemma MangleWritesUnitValues(config: Config, inputs: DeviceInputs, t: AxisType)
    requires forall u :: InUnitRange(GetAxis(inputs, u))
    ensures InUnitRange(GetAxis(MangleInputs(config, inputs), t))
  {
    var c := if config.dpadOverride && GetHat(inputs, DPad) != Neutral
             then WithAxis(WithAxis(inputs, LeftStickX, 0.5), LeftStickY, 0.5) else inputs;
    if config.dpadOverride && GetHat(inputs, DPad) != Neutral {
      GetAxisSelectsItsField(inputs, LeftStickX, t, 0.5);
      GetAxisSelectsItsField(WithAxis(inputs, LeftStickX, 0.5), LeftStickY, t, 0.5);
    }
    if DeadzoneOn(config) {
      SnapAllFields(config, inputs);
    }
  }

  /** With a threshold in [0, 1), the deadzone is idempotent: snapped values
      stay where they are. */
  lemma SnapIdempotent(v: real, threshold: real)
    requires 0.0 <= threshold < 1.0
    ensures SnapAxis(SnapAxis(v, threshold), threshold) == SnapAxis(v, threshold)
  {
  }
}

=== FILE: negotiation.dfy ===
/** Data-format negotiation of the emulated device (`SetDataFormat`,
    dinput8/dinput.cpp): each object request of the client's format binds to
    the first catalog object that is still free and matches it.  The device
    state persists across calls: `matched` flags are never cleared, the
    list of bound formats only grows, and a failing call keeps the bindings
    it made before the failure. */
module Negotiation {
  import opened Wrappers
  import opened DInput
  import opened DeviceObjects

  /** `DIOBJECTDATAFORMAT`: the optional type GUID (`pguid`), the offset the
      client wants the value at, and the requested type and flag bits. */
  datatype ObjectRequest = ObjectRequest(guid: Option<Guid>, offset: Dword, typeBits: Dword, flags: Dword)

  /** `DIDATAFORMAT`: the two structure sizes the client declares, and the
      `dwNumObjs` object requests of `rgodf`. */
  datatype DataFormat = DataFormat(size: Dword, objSize: Dword, requests: seq<ObjectRequest>)

  /** `DeviceFormat`: a bound object (its catalog position) and the client's
      offset for it. */
  datatype Binding = Binding(position: nat, offset: Dword)

  /** `DeviceFormatDefault`: a DWORD written at a client offset on every
      state read, for an optional request nothing matched. */
  datatype FormatDefault = FormatDefault(offset: Dword, value: Dword)

  /** The negotiation-relevant state of an emulated device. */
  datatype Device = Device(objects: seq<DeviceObject>, bindings: seq<Binding>, defaults: seq<FormatDefault>)

  /** `EmulatedDeviceObject::MatchesType` and `MatchesFlags`, defined in
      `dhc_dinput.h` (not part of this model), as oracles. */
  datatype Matchers = Matchers(matchesType: (ObjectInfo, Dword) -> bool, matchesFlags: (ObjectInfo, Dword) -> bool)

  /** A device as the constructor leaves it: every catalog object fresh,
      nothing bound. */
  function NewDevice(catalog: seq<ObjectInfo>, init: Settings): (d: Device)
    ensures Invariant(d)
    ensures |d.objects| == |catalog| && d.bindings == [] && d.defaults == []
  {
    Device(FreshAll(catalog, init), [], [])
  }

  /** The object may bind to the request: not yet matched, of a matching
      type and flags, and of the requested GUID when one is given. */
  predicate Eligible(o: DeviceObject, req: ObjectRequest, m: Matchers)
  {
    && !o.matched
    && m.matchesType(o.info, req.typeBits)
    && m.matchesFlags(o.info, req.flags)
    && (req.guid.Some? ==> req.guid.value == o.info.guid)
  }

  /** The first object from position k on that may bind to the request. */
  function FirstEligible(objects: seq<DeviceObject>, req: ObjectRequest, m: Matchers, k: nat): (r: Option<nat>)
    decreases |objects| - k
    ensures r.Some? ==> k <= r.value < |objects| && Eligible(objects[r.value], req, m)
    ensures r.Some? ==> forall i :: k <= i < r.value ==> !Eligible(objects[i], req, m)
    ensures r.None? ==> forall i :: k <= i < |objects| ==> !Eligible(objects[i], req, m)
  {
    if k >= |objects| then None
    else if Eligible(objects[k], req, m) then Some(k)
    else FirstEligible(objects, req, m, k + 1)
  }

  /** The outcome of one object request: the updated device, or `None` for
      a required request nothing matched. */
  function Request(d: Device, req: ObjectRequest, m: Matchers): (r: Option<Device>)
  {
    match FirstEligible(d.objects, req, m, 0)
    case Some(i) =>
      Some(d.(objects := d.objects[i := d.objects[i].(matched := true)],
              bindings := d.bindings + [Binding(i, req.offset)]))
    case None =>
      if req.typeBits & DIDFT_OPTIONAL == 0 then None
      else if req.guid == Some(GUID_POV) then
        Some(d.(defaults := d.defaults + [FormatDefault(req.offset, 0xFFFF_FFFF)]))
      else Some(d)
  }

  /** The requests processed in order; a required miss stops with
      DIERR_OBJECTNOTFOUND and the state reached so far. */
  function Requests(d: Device, reqs: seq<ObjectRequest>, m: Matchers): (r: (Dword, Device))
    decreases |reqs|
  {
    if reqs == [] then (DI_OK, d)
    else match Request(d, reqs[0], m)
      case None => (DIERR_OBJECTNOTFOUND, d)
      case Some(d') => Requests(d', reqs[1..], m)
  }

  /** The header checks: structure sizes and a non-empty request list. */
  predicate HeaderValid(f: DataFormat)
  {
    f.size == SIZEOF_DIDATAFORMAT && f.objSize == SIZEOF_DIOBJECTDATAFORMAT && |f.requests| > 0
  }

  /** `SetDataFormat`: the result code and the device state after the call. */
  function SetDataFormat(d: Device, f: DataFormat, m: Matchers): (r: (Dword, Device))
    ensures !HeaderValid(f) ==> r == (DIERR_INVALIDPARAM, d)
    ensures r.0 in {DI_OK, DIERR_INVALIDPARAM, DIERR_OBJECTNOTFOUND}
  {
    if f.size != SIZEOF_DIDATAFORMAT then (DIERR_INVALIDPARAM, d)
    else if f.objSize != SIZEOF_DIOBJECTDATAFORMAT then (DIERR_INVALIDPARAM, d)
    else if |f.requests| == 0 then (DIERR_INVALIDPARAM, d)
    else
      RequestsResultCode(d, f.requests, m);
      Requests(d, f.requests, m)
  }

  lemma {:induction false} RequestsResultCode(d: Device, reqs: seq<ObjectRequest>, m: Matchers)
    ensures Requests(d, reqs, m).0 in {DI_OK, DIERR_OBJECTNOTFOUND}
    decreases |reqs|
  {
    if reqs != [] {
      match Request(d, reqs[0], m)
      case None =>
      case Some(d') => RequestsResultCode(d', reqs[1..], m);
    }
  }

  /** Every binding references an existing object. */
  predicate Positioned(d: Device)
  {
    forall j :: 0 <= j < |d.bindings| ==> d.bindings[j].position < |d.objects|
  }

  /** The positions that the bindings reference. */
  function Bound(d: Device): set<nat>
  {
    set j | 0 <= j < |d.bindings| :: d.bindings[j].position
  }

  /** The positions of the objects whose `matched` flag is set. */
  function Matched(d: Device): set<nat>
  {
    set i | 0 <= i < |d.objects| && d.objects[i].matched
  }

  /** The bindings reference existing objects, no object twice, and exactly
      the objects whose `matched` flag is set. */
  ghost predicate Invariant(d: Device)
  {
    && Positioned(d)
    && (forall j, k :: 0 <= j < k < |d.bindings| ==> d.bindings[j].position != d.bindings[k].position)
    && Bound(d) == Matched(d)
  }

  /** What every request leaves alone, or only extends: the catalog and the
      settings are unchanged, `matched` flags are only ever set, and the
      bindings and defaults only grow at their ends. */
  ghost predicate Extends(d: Device, e: Device)
  {
    && |e.objects| == |d.objects|
    && (forall i :: 0 <= i < |d.objects| ==>
          e.objects[i].info == d.objects[i].info && e.objects[i].settings == d.objects[i].settings
          && (d.objects[i].matched ==> e.objects[i].matched))
    && d.bindings <= e.bindings
    && d.defaults <= e.defaults
  }

  lemma ExtendsTransitive(a: Device, b: Device, c: Device)
    requires Extends(a, b) && Extends(b, c)
    ensures Extends(a, c)
  {
  }

  /** One request binds the first eligible object to the client's offset;
      when none is eligible, an optional request adds a default only for a
      POV GUID, and a required one fails. */
  lemma RequestEffect(d: Device, req: ObjectRequest, m: Matchers)
    ensures Request(d, req, m).Some? ==> Extends(d, Request(d, req, m).value)
    ensures FirstEligible(d.objects, req, m, 0).Some? ==>
      var i := FirstEligible(d.objects, req, m, 0).value;
      Request(d, req, m) == Some(d.(objects := d.objects[i := d.objects[i].(matched := true)],
                                    bindings := d.bindings + [Binding(i, req.offset)]))
    ensures FirstEligible(d.objects, req, m, 0).None? ==>
      (Request(d, req, m).None? <==> req.typeBits & DIDFT_OPTIONAL == 0)
    ensures FirstEligible(d.objects, req, m, 0).None? && Request(d, req, m).Some? ==>
      var e := Request(d, req, m).value;
      e.objects == d.objects && e.bindings == d.bindings
      && e.defaults == d.defaults + (if req.guid == Some(GUID_POV) then [FormatDefault(req.offset, 0xFFFF_FFFF)] else [])
  {
  }

  /** A request preserves the invariant. */
  lemma RequestPreservesInvariant(d: Device, req: ObjectRequest, m: Matchers)
    requires Invariant(d)
    ensures Request(d, req, m).Some? ==> Invariant(Request(d, req, m).value)
  {
    var fe := FirstEligible(d.objects, req, m, 0);
    if fe.Some? {
      var i := fe.value;
      var e := Request(d, req, m).value;
      assert !d.objects[i].matched;
      assert i !in Bound(d);
      forall j | 0 <= j < |d.bindings|
        ensures d.bindings[j].position != i
      {
        assert d.bindings[j].position in Bound(d);
      }
      assert Bound(e) == Bound(d) + {i} by {
        assert e.bindings == d.bindings + [Binding(i, req.offset)];
        forall x | x in Bound(e) ensures x in Bound(d) + {i} {
          var j :| 0 <= j < |e.bindings| && e.bindings[j].position == x;
          if j < |d.bindings| {
            assert e.bindings[j] == d.bindings[j];
          }
        }
        forall x | x in Bound(d) + {i} ensures x in Bound(e) {
          if x == i {
            assert e.bindings[|d.bindings|].position == i;
          } else {
            var j :| 0 <= j < |d.bindings| && d.bindings[j].position == x;
            assert e.bindings[j] == d.bindings[j];
          }
        }
      }
      assert Matched(e) == Matched(d) + {i};
    } else if Request(d, req, m).Some? {
      var e := Request(d, req, m).value;
      assert Bound(e) == Bound(d) && Matched(e) == Matched(d);
    }
  }

  /** Processing requests extends the device state and preserves the
      invariant, and the bindings grow by at most one per request. */
  lemma {:induction false} RequestsPreserve(d: Device, reqs: seq<ObjectRequest>, m: Matchers)
    requires Invariant(d)
    ensures Invariant(Requests(d, reqs, m).1)
    ensures Extends(d, Requests(d, reqs, m).1)
    ensures |Requests(d, reqs, m).1.bindings| <= |d.bindings| + |reqs|
    decreases |reqs|
  {
    if reqs != [] {
      RequestEffect(d, reqs[0], m);
      RequestPreservesInvariant(d, reqs[0], m);
      match Request(d, reqs[0], m)
      case None =>
      case Some(d') =>
        RequestsPreserve(d', reqs[1..], m);
        ExtendsTransitive(d, d', Requests(d', reqs[1..], m).1);
    }
  }

  /** Across any sequence of calls, the bindings never reference an object
      twice and reference exactly the matched objects; a call never unbinds
      anything, even when it fails. */
  lemma SetDataFormatPreserves(d: Device, f: DataFormat, m: Matchers)
    requires Invariant(d)
    ensures Invariant(SetDataFormat(d, f, m).1)
    ensures Extends(d, SetDataFormat(d, f, m).1)
  {
    if HeaderValid(f) {
      RequestsPreserve(d, f.requests, m);
    }
  }

  /** A sequence of `SetDataFormat` calls on one device. */
  function SetDataFormats(d: Device, fs: seq<DataFormat>, m: Matchers): Device
    decreases |fs|
  {
    if fs == [] then d else SetDataFormats(SetDataFormat(d, fs[0], m).1, fs[1..], m)
  }

  /** From the constructor's state on, every sequence of calls keeps the
      invariant, so no object is ever bound twice. */
  lemma {:induction false} SetDataFormatsPreserve(d: Device, fs: seq<DataFormat>, m: Matchers)
    requires Invariant(d)
    ensures Invariant(SetDataFormats(d, fs, m))
    ensures Extends(d, SetDataFormats(d, fs, m))
    decreases |fs|
  {
    if fs != [] {
      var d' := SetDataFormat(d, fs[0], m).1;
      SetDataFormatPreserves(d, fs[0], m);
      SetDataFormatsPreserve(d', fs[1..], m);
      ExtendsTransitive(d, d', SetDataFormats(d', fs[1..], m));
    }
  }

  /** A required request nothing matches stops the call with
      DIERR_OBJECTNOTFOUND, and the bindings the earlier requests made stay
      recorded. */
  lemma {:induction false} RequiredMissKeepsEarlier(d: Device, reqs: seq<ObjectRequest>, k: nat, m: Matchers)
    requires k < |reqs|
    requires forall j :: 0 <= j < k ==> Request(Reached(d, reqs, j, m), reqs[j], m).Some?
    requires Request(Reached(d, reqs, k, m), reqs[k], m).None?
    ensures Requests(d, reqs, m) == (DIERR_OBJECTNOTFOUND, Reached(d, reqs, k, m))
    decreases k
  {
    if k == 0 {
    } else {
      var d' := Request(d, reqs[0], m).value;
      assert Request(Reached(d, reqs, 0, m), reqs[0], m).Some?;
      forall j | 0 <= j < k - 1
        ensures Request(Reached(d', reqs[1..], j, m), reqs[1..][j], m).Some?
      {
        ReachedStep(d, reqs, j, m);
        assert Request(Reached(d, reqs, j + 1, m), reqs[j + 1], m).Some?;
      }
      ReachedStep(d, reqs, k - 1, m);
      RequiredMissKeepsEarlier(d', reqs[1..], k - 1, m);
    }
  }

  /** The state after the first k requests, when none of them failed. */
  function Reached(d: Device, reqs: seq<ObjectRequest>, k: nat, m: Matchers): Device
    decreases k
  {
    if k == 0 || reqs == [] then d
    else match Request(d, reqs[0], m)
      case None => d
      case Some(d') => Reached(d', reqs[1..], k - 1, m)
  }

  lemma ReachedStep(d: Device, reqs: seq<ObjectRequest>, j: nat, m: Matchers)
    requires j + 1 <= |reqs|
    requires Request(d, reqs[0], m).Some?
    ensures Reached(d, reqs, j + 1, m) == Reached(Request(d, reqs[0], m).value, reqs[1..], j, m)
  {
  }

  /** `SetDataFormat` as the source runs it: an outer loop over the
      requests and an inner first-match scan of the catalog, mutating a
      copy of the device state. */
  method SetDataFormatLoop(d: Device, f: DataFormat, m: Matchers) returns (hr: Dword, e: Device)
    ensures (hr, e) == SetDataFormat(d, f, m)
  {
    if f.size != SIZEOF_DIDATAFORMAT || f.objSize != SIZEOF_DIOBJECTDATAFORMAT || |f.requests| == 0 {
      return DIERR_INVALIDPARAM, d;
    }
    e := d;
    var i := 0;
    while i < |f.requests|
      invariant 0 <= i <= |f.requests|
      invariant Requests(d, f.requests, m) == Requests(e, f.requests[i..], m)
    {
      var req := f.requests[i];
      assert f.requests[i..][1..] == f.requests[i + 1..];
      var k := 0;
      var found := false;
      while k < |e.objects| && !found
        invariant 0 <= k <= |e.objects|
        invariant !found ==> FirstEligible(e.objects, req, m, 0) == FirstEligible(e.objects, req, m, k)
        invariant found ==> k < |e.objects| && FirstEligible(e.objects, req, m, 0) == Some(k)
        decreases |e.objects| - k, !found
      {
        var o := e.objects[k];
        if !o.matched && m.matchesType(o.info, req.typeBits) && m.matchesFlags(o.info, req.flags)
           && !(req.guid.Some? && req.guid.value != o.info.guid) {
          found := true;
        } else {
          k := k + 1;
        }
      }
      if found {
        e := e.(objects := e.objects[k := e.objects[k].(matched := true)],
                bindings := e.bindings + [Binding(k, req.offset)]);
      } else if req.typeBits & DIDFT_OPTIONAL != 0 {
        if req.guid.Some? && req.guid.value == GUID_POV {
          e := e.(defaults := e.defaults + [FormatDefault(req.offset, 0xFFFF_FFFF)]);
        }
      } else {
        return DIERR_OBJECTNOTFOUND, e;
      }
      i := i + 1;
    }
    hr := DI_OK;
  }
}

=== FILE: properties.dfy ===
/** The per-object property store of the emulated device
    (`FindPropertyObject`, `GetProperty`, `SetProperty`,
    dinput8/dinput.cpp): dead zone, saturation and range of the axes,
    addressed by client offset or by object type. */
module Properties {
  import opened Wrappers
  import opened DInput
  import opened DeviceObjects
  import opened Negotiation

  /** The DIPROP_* property identifiers the device distinguishes; every
      other identifier is `OtherProperty`. */
  datatype Property =
    | AutoCenter | AxisMode | BufferSize | FfGain | InstanceName | ProductName
    | Deadzone | Saturation | Range | OtherProperty

  /** The properties that belong to the whole device. */
  predicate DeviceWide(p: Property)
  {
    p in {AutoCenter, AxisMode, BufferSize, FfGain, InstanceName, ProductName}
  }

  /** A Windows `LONG`. */
  type Long = x: int | -0x8000_0000 <= x < 0x8000_0000

  /** `DIPROPHEADER`: the size of the whole property structure, the header
      size, the object selector and how it addresses the object. */
  datatype PropHeader = PropHeader(size: Dword, headerSize: Dword, obj: Dword, how: Dword)

  /** The payload a client passes to `SetProperty`: `DIPROPDWORD::dwData`
      or `DIPROPRANGE::lMin`/`lMax`, read according to the property. */
  datatype PropData = PropData(dwData: U32, lMin: Long, lMax: Long)

  /** What `GetProperty` writes back. */
  datatype PropValue = NoValue | DwordValue(v: U32) | RangeValue(lMin: int, lMax: int)

  /** The client offset of the first binding at offset `off`, from k on. */
  function FirstBindingAt(bindings: seq<Binding>, off: Dword, k: nat): (r: Option<nat>)
    decreases |bindings| - k
    ensures r.Some? ==> k <= r.value < |bindings| && bindings[r.value].offset == off
    ensures r.Some? ==> forall j :: k <= j < r.value ==> bindings[j].offset != off
    ensures r.None? ==> forall j :: k <= j < |bindings| ==> bindings[j].offset != off
  {
    if k >= |bindings| then None
    else if bindings[k].offset == off then Some(k)
    else FirstBindingAt(bindings, off, k + 1)
  }

  /** The first catalog position from k on whose object matches type `t`. */
  function FirstOfType(objects: seq<DeviceObject>, t: Dword, m: Matchers, k: nat): (r: Option<nat>)
    decreases |objects| - k
    ensures r.Some? ==> k <= r.value < |objects| && m.matchesType(objects[r.value].info, t)
    ensures r.Some? ==> forall i :: k <= i < r.value ==> !m.matchesType(objects[i].info, t)
    ensures r.None? ==> forall i :: k <= i < |objects| ==> !m.matchesType(objects[i].info, t)
  {
    if k >= |objects| then None
    else if m.matchesType(objects[k].info, t) then Some(k)
    else FirstOfType(objects, t, m, k + 1)
  }

  /** `FindPropertyObject`: the catalog position of the addressed object.
      DIPH_DEVICE finds nothing; DIPH_BYOFFSET takes the first binding at
      the client offset `dwObj`; DIPH_BYID the first object matching type
      `dwObj`; DIPH_BYUSAGE and unknown modes abort. */
  function FindPropertyObject(d: Device, h: PropHeader, m: Matchers): (r: Outcome<Option<nat>>)
    requires Positioned(d)
    ensures r.Ok? <==> h.how in {DIPH_DEVICE, DIPH_BYOFFSET, DIPH_BYID}
    ensures r.Ok? && r.value.Some? ==> r.value.value < |d.objects|
    ensures h.how == DIPH_DEVICE ==> r == Ok(None)
    ensures h.how == DIPH_BYOFFSET ==>
      (r.value.Some? <==> exists j :: 0 <= j < |d.bindings| && d.bindings[j].offset == h.obj)
    ensures h.how == DIPH_BYOFFSET && r.value.Some? ==>
      exists j :: 0 <= j < |d.bindings| && d.bindings[j].offset == h.obj
        && r.value.value == d.bindings[j].position
        && forall i :: 0 <= i < j ==> d.bindings[i].offset != h.obj
    ensures h.how == DIPH_BYID ==>
      (r.value.Some? <==> exists i :: 0 <= i < |d.objects| && m.matchesType(d.objects[i].info, h.obj))
    ensures h.how == DIPH_BYID && r.value.Some? ==>
      m.matchesType(d.objects[r.value.value].info, h.obj)
      && forall i :: 0 <= i < r.value.value ==> !m.matchesType(d.objects[i].info, h.obj)
  {
    if h.how == DIPH_DEVICE then Ok(None)
    else if h.how == DIPH_BYOFFSET then
      match FirstBindingAt(d.bindings, h.obj, 0)
      case None => Ok(None)
      case Some(j) => Ok(Some(d.bindings[j].position))
    else if h.how == DIPH_BYUSAGE then Abort
    else if h.how == DIPH_BYID then Ok(FirstOfType(d.objects, h.obj, m, 0))
    else Abort
  }

  /** `GetProperty`. */
  function GetProperty(d: Device, p: Property, h: PropHeader, m: Matchers): (r: Outcome<(Dword, PropValue)>)
    requires Positioned(d)
    ensures DeviceWide(p) ==> (r.Ok? <==> h.how != DIPH_DEVICE)
    ensures DeviceWide(p) && r.Ok? ==> r.value == (DIERR_INVALIDPARAM, NoValue)
    ensures p == OtherProperty ==> r.Ok? ==> r.value.0 != DI_OK
    ensures r.Ok? && r.value.0 == DI_OK ==> p in {Deadzone, Saturation, Range}
  {
    if DeviceWide(p) then
      if h.how != DIPH_DEVICE then Ok((DIERR_INVALIDPARAM, NoValue)) else Abort
    else
      var found :- FindPropertyObject(d, h, m);
      if found.None? then Ok((DIERR_OBJECTNOTFOUND, NoValue))
      else
        var o := d.objects[found.value];
        if p == Deadzone || p == Saturation then
          if h.size != SIZEOF_DIPROPDWORD then Ok((DIERR_INVALIDPARAM, NoValue))
          else if !IsAxis(o.info) then Ok((DIERR_INVALIDPARAM, NoValue))
          else
            var x := if p == Deadzone then o.settings.deadzone else o.settings.saturation;
            Ok((DI_OK, DwordValue(RealToDword(x * 10000.0))))
        else if p == Range then
          if !IsAxis(o.info) then Ok((DIERR_INVALIDPARAM, NoValue))
          else if h.size != SIZEOF_DIPROPRANGE then Ok((DIERR_INVALIDPARAM, NoValue))
          else Ok((DI_OK, RangeValue(o.settings.rangeMin, o.settings.rangeMax)))
        else Abort
  }

  /** The two devices differ at most in the settings of the object at
      position `i`. */
  predicate OnlySettingsOf(d: Device, e: Device, i: nat)
  {
    && e.bindings == d.bindings && e.defaults == d.defaults
    && |e.objects| == |d.objects|
    && (forall k :: 0 <= k < |d.objects| ==>
          e.objects[k].info == d.objects[k].info && e.objects[k].matched == d.objects[k].matched)
    && (forall k :: 0 <= k < |d.objects| && k != i ==> e.objects[k] == d.objects[k])
  }

  function WithSettings(d: Device, i: nat, s: Settings): (e: Device)
    requires i < |d.objects|
    ensures OnlySettingsOf(d, e, i)
    ensures e.objects[i].settings == s
  {
    d.(objects := d.objects[i := d.objects[i].(settings := s)])
  }

  /** `SetProperty`: the result code and the device after the call. */
  function SetProperty(d: Device, p: Property, h: PropHeader, data: PropData, m: Matchers): (r: Outcome<(Dword, Device)>)
    requires Positioned(d)
    ensures r.Ok? && r.value.0 != DI_OK ==> r.value.1 == d
    ensures h.headerSize != SIZEOF_DIPROPHEADER ==> r == Ok((DIERR_INVALIDPARAM, d))
    ensures h.headerSize == SIZEOF_DIPROPHEADER && p == AxisMode ==> r == Ok((DI_OK, d))
  {
    if h.headerSize != SIZEOF_DIPROPHEADER then Ok((DIERR_INVALIDPARAM, d))
    else if p == AxisMode then Ok((DI_OK, d))
    else if DeviceWide(p) then
      if h.how != DIPH_DEVICE then Ok((DIERR_INVALIDPARAM, d)) else Abort
    else
      var found :- FindPropertyObject(d, h, m);
      if found.None? then Ok((DIERR_OBJECTNOTFOUND, d))
      else
        var i := found.value;
        var s := d.objects[i].settings;
        if p == Deadzone || p == Saturation then
          if h.size != SIZEOF_DIPROPDWORD then Ok((DIERR_INVALIDPARAM, d))
          else if !IsAxis(d.objects[i].info) then Ok((DIERR_INVALIDPARAM, d))
          else if data.dwData > 10000 then Ok((DIERR_INVALIDPARAM, d))
          else
            var v := data.dwData as real / 10000.0;
            Ok((DI_OK, WithSettings(d, i, if p == Deadzone then s.(deadzone := v) else s.(saturation := v))))
        else if p == Range then
          if !IsAxis(d.objects[i].info) then Ok((DIERR_INVALIDPARAM, d))
          else if h.size != SIZEOF_DIPROPRANGE then Ok((DIERR_INVALIDPARAM, d))
          else Ok((DI_OK, WithSettings(d, i, s.(rangeMin := data.lMin, rangeMax := data.lMax))))
        else Abort
  }

  /** Changing settings does not change which object a header addresses. */
  lemma FindIgnoresSettings(d: Device, e: Device, i: nat, h: PropHeader, m: Matchers)
    requires Positioned(d) && OnlySettingsOf(d, e, i)
    ensures Positioned(e)
    ensures FindPropertyObject(e, h, m) == FindPropertyObject(d, h, m)
  {
    if h.how == DIPH_BYID {
      FirstOfTypeIgnoresSettings(d.objects, e.objects, h.obj, m, 0);
    }
  }

  lemma {:induction false} FirstOfTypeIgnoresSettings(a: seq<DeviceObject>, b: seq<DeviceObject>, t: Dword, m: Matchers, k: nat)
    requires |a| == |b| && forall i :: 0 <= i < |a| ==> a[i].info == b[i].info
    ensures FirstOfType(a, t, m, k) == FirstOfType(b, t, m, k)
    decreases |a| - k
  {
    if k < |a| {
      FirstOfTypeIgnoresSettings(a, b, t, m, k + 1);
    }
  }

  /** A successful object property write changes exactly the named setting
      of the addressed object, and nothing else on the device. */
  lemma SetPropertyFrame(d: Device, p: Property, h: PropHeader, data: PropData, m: Matchers)
    requires Positioned(d)
    requires SetProperty(d, p, h, data, m).Ok? && SetProperty(d, p, h, data, m).value.0 == DI_OK
    requires p != AxisMode
    ensures p in {Deadzone, Saturation, Range}
    ensures FindPropertyObject(d, h, m).Ok? && FindPropertyObject(d, h, m).value.Some?
    ensures
      var i := FindPropertyObject(d, h, m).value.value;
      var s := d.objects[i].settings;
      var e := SetProperty(d, p, h, data, m).value.1;
      && IsAxis(d.objects[i].info)
      && OnlySettingsOf(d, e, i)
      && e.objects[i].settings == (match p
           case Deadzone => s.(deadzone := data.dwData as real / 10000.0)
           case Saturation => s.(saturation := data.dwData as real / 10000.0)
           case _ => s.(rangeMin := data.lMin, rangeMax := data.lMax))
  {
  }

  /** Setting the dead zone or saturation to v and reading it back through
      the same header yields v. */
  lemma SetThenGetFraction(d: Device, p: Property, h: PropHeader, data: PropData, m: Matchers)
    requires Positioned(d) && p in {Deadzone, Saturation}
    requires SetProperty(d, p, h, data, m).Ok? && SetProperty(d, p, h, data, m).value.0 == DI_OK
    ensures Positioned(SetProperty(d, p, h, data, m).value.1)
    ensures GetProperty(SetProperty(d, p, h, data, m).value.1, p, h, m) == Ok((DI_OK, DwordValue(data.dwData)))
  {
    var e := SetProperty(d, p, h, data, m).value.1;
    SetPropertyFrame(d, p, h, data, m);
    var i := FindPropertyObject(d, h, m).value.value;
    FindIgnoresSettings(d, e, i, h, m);
    var v := data.dwData as real / 10000.0;
    assert h.size == SIZEOF_DIPROPDWORD;
    assert RealToDword(v * 10000.0) == data.dwData by {
      assert v * 10000.0 == data.dwData as real;
    }
    GetFractionReads(e, p, h, m, i);
  }

  /** Reading the dead zone or saturation of an addressed axis through a
      DIPROPDWORD gives the stored fraction in units of 1/10000. */
  lemma GetFractionReads(e: Device, p: Property, h: PropHeader, m: Matchers, i: nat)
    requires Positioned(e) && p in {Deadzone, Saturation}
    requires FindPropertyObject(e, h, m) == Ok(Some(i)) && h.size == SIZEOF_DIPROPDWORD
    requires i < |e.objects| && IsAxis(e.objects[i].info)
    ensures var s := e.objects[i].settings;
      GetProperty(e, p, h, m)
        == Ok((DI_OK, DwordValue(RealToDword((if p == Deadzone then s.deadzone else s.saturation) * 10000.0))))
  {
  }

  /** Setting the range and reading it back through the same header yields
      the same bounds. */
  lemma SetThenGetRange(d: Device, h: PropHeader, data: PropData, m: Matchers)
    requires Positioned(d)
    requires SetProperty(d, Range, h, data, m).Ok? && SetProperty(d, Range, h, data, m).value.0 == DI_OK
    ensures Positioned(SetProperty(d, Range, h, data, m).value.1)
    ensures GetProperty(SetProperty(d, Range, h, data, m).value.1, Range, h, m)
      == Ok((DI_OK, RangeValue(data.lMin, data.lMax)))
  {
    var e := SetProperty(d, Range, h, data, m).value.1;
    SetPropertyFrame(d, Range, h, data, m);
    FindIgnoresSettings(d, e, FindPropertyObject(d, h, m).value.value, h, m);
  }

  /** On an addressed object, a dead zone or saturation write is rejected
      with DIERR_INVALIDPARAM, leaving the device unchanged, exactly when
      the structure size is wrong, the object is not an axis, or the value
      exceeds 10000. */
  lemma SetFractionRejects(d: Device, p: Property, h: PropHeader, data: PropData, m: Matchers, i: nat)
    requires Positioned(d) && p in {Deadzone, Saturation}
    requires h.headerSize == SIZEOF_DIPROPHEADER && FindPropertyObject(d, h, m) == Ok(Some(i))
    ensures SetProperty(d, p, h, data, m) == Ok((DIERR_INVALIDPARAM, d))
      <==> h.size != SIZEOF_DIPROPDWORD || !IsAxis(d.objects[i].info) || data.dwData > 10000
    ensures SetProperty(d, p, h, data, m).Ok?
  {
  }

  /** On an addressed object, a range write is rejected with
      DIERR_INVALIDPARAM, leaving the device unchanged, exactly when the
      object is not an axis or the structure size is wrong. */
  lemma SetRangeRejects(d: Device, h: PropHeader, data: PropData, m: Matchers, i: nat)
    requires Positioned(d)
    requires h.headerSize == SIZEOF_DIPROPHEADER && FindPropertyObject(d, h, m) == Ok(Some(i))
    ensures SetProperty(d, Range, h, data, m) == Ok((DIERR_INVALIDPARAM, d))
      <==> !IsAxis(d.objects[i].info) || h.size != SIZEOF_DIPROPRANGE
    ensures SetProperty(d, Range, h, data, m).Ok?
  {
  }

  /** A header that addresses nothing yields DIERR_OBJECTNOTFOUND from both
      entry points, and a DIPH_DEVICE header addresses nothing. */
  lemma NotFound(d: Device, p: Property, h: PropHeader, data: PropData, m: Matchers)
    requires Positioned(d) && !DeviceWide(p)
    requires FindPropertyObject(d, h, m) == Ok(None)
    ensures GetProperty(d, p, h, m) == Ok((DIERR_OBJECTNOTFOUND, NoValue))
    ensures h.headerSize == SIZEOF_DIPROPHEADER ==> SetProperty(d, p, h, data, m) == Ok((DIERR_OBJECTNOTFOUND, d))
  {
  }
}

=== FILE: ps4_catalog.dfy ===
/** The fixed object catalog of the emulated PS4 pad
    (`GeneratePS4EmulatedDeviceObjects`, dinput8/ps4.cpp): the stick axes
    (and, when the build defines ENABLE_TRIGGERS, the trigger axes), the
    fourteen buttons, and the D-pad hat, in that order. */
module Ps4Catalog {
  import opened DInput
  import opened Inputs
  import opened Strings
  import opened DeviceObjects

  function AxisObject(name: string, guid: Guid, instance: nat, offset: nat, axis: AxisType): ObjectInfo
  {
    ObjectInfo(name, guid, DIDFT_ABSAXIS, DIDOI_ASPECTPOSITION, instance, offset, AxisMap(axis))
  }

  /** The axis objects; the two trigger axes exist only in a build with
      ENABLE_TRIGGERS. */
  function Axes(enableTriggers: bool): seq<ObjectInfo>
  {
    [AxisObject("X Axis", GUID_XAxis, 0, 12, LeftStickX),
     AxisObject("Y Axis", GUID_YAxis, 1, 8, LeftStickY),
     AxisObject("Z Axis", GUID_ZAxis, 2, 4, RightStickX),
     AxisObject("Z Rotation", GUID_RzAxis, 5, 0, RightStickY)]
    + (if enableTriggers then
         [AxisObject("X Rotation", GUID_RxAxis, 3, 28, LeftTrigger),
          AxisObject("Y Rotation", GUID_RyAxis, 4, 24, RightTrigger)]
       else [])
  }

  function AxisCount(enableTriggers: bool): nat
  {
    if enableTriggers then 6 else 4
  }

  /** The input that button k reports. */
  const ButtonMapping: seq<ButtonType> :=
    [ButtonType.West, ButtonType.South, ButtonType.East, ButtonType.North, L1, R1, L2, R2,
     Select, Start, L3, R3, Home, Trackpad]

  /** Button k of the catalog: "Button k", a push button with instance k at
      offset 220 + k. */
  function ButtonObject(k: nat): ObjectInfo
    requires k < 14
  {
    ObjectInfo("Button " + Decimal(k), GUID_Button, DIDFT_PSHBUTTON, 0, k, 220 + k, ButtonMap(ButtonMapping[k]))
  }

  function Buttons(): (r: seq<ObjectInfo>)
    ensures |r| == 14
    ensures forall k :: 0 <= k < 14 ==> r[k] == ButtonObject(k)
  {
    seq(14, k requires 0 <= k < 14 => ButtonObject(k))
  }

  const HatObject: ObjectInfo := ObjectInfo("Hat Switch", GUID_POV, DIDFT_POV, 0, 0, 16, HatMap(DPad))

  /** The catalog, in the order the device reports its objects. */
  function Catalog(enableTriggers: bool): seq<ObjectInfo>
  {
    Axes(enableTriggers) + Buttons() + [HatObject]
  }

  /** The catalog position of button k. */
  function ButtonPosition(enableTriggers: bool, k: nat): nat
  {
    AxisCount(enableTriggers) + k
  }

  /** The catalog lists the axes first, then the fourteen buttons, then the
      hat; there are four axes, or six with ENABLE_TRIGGERS. */
  lemma CatalogLayout(t: bool)
    ensures |Catalog(t)| == AxisCount(t) + 15
    ensures forall i :: 0 <= i < AxisCount(t) ==> Catalog(t)[i].mapped.AxisMap?
    ensures forall k :: 0 <= k < 14 ==> Catalog(t)[ButtonPosition(t, k)] == ButtonObject(k)
    ensures Catalog(t)[AxisCount(t) + 14] == HatObject
  {
    var c := Catalog(t);
    assert c == Axes(t) + Buttons() + [HatObject];
    forall k | 0 <= k < 14
      ensures c[ButtonPosition(t, k)] == ButtonObject(k)
    {
      assert c[ButtonPosition(t, k)] == Buttons()[k];
    }
  }

  /** Button k has instance k and offset 220 + k and is named "Button k". */
  lemma ButtonNumbering(t: bool, k: nat)
    requires k < 14
    ensures Catalog(t)[ButtonPosition(t, k)].instanceId == k
    ensures Catalog(t)[ButtonPosition(t, k)].offset == 220 + k
    ensures Catalog(t)[ButtonPosition(t, k)].name == "Button " + Decimal(k)
  {
    CatalogLayout(t);
  }

  /** The catalog slot of a button input: the inverse of ButtonMapping. */
  function ButtonSlot(b: ButtonType): (k: nat)
    ensures k < 14 && ButtonMapping[k] == b
  {
    match b
    case West => 0
    case South => 1
    case East => 2
    case North => 3
    case L1 => 4
    case R1 => 5
    case L2 => 6
    case R2 => 7
    case Select => 8
    case Start => 9
    case L3 => 10
    case R3 => 11
    case Home => 12
    case Trackpad => 13
  }

  /** The fourteen buttons report pairwise distinct inputs, and every button
      input is reported by one of them. */
  lemma ButtonMappingBijective()
    ensures forall k :: 0 <= k < 14 ==> ButtonSlot(ButtonMapping[k]) == k
    ensures forall j, k :: 0 <= j < 14 && 0 <= k < 14 && ButtonMapping[j] == ButtonMapping[k] ==> j == k
    ensures forall b: ButtonType :: b in ButtonMapping
  {
    forall k | 0 <= k < 14
      ensures ButtonSlot(ButtonMapping[k]) == k
    {
      if k < 7 {
        if k < 4 {
          assert k == 0 || k == 1 || k == 2 || k == 3;
        } else {
          assert k == 4 || k == 5 || k == 6;
        }
      } else if k < 11 {
        assert k == 7 || k == 8 || k == 9 || k == 10;
      } else {
        assert k == 11 || k == 12 || k == 13;
      }
    }
    forall b: ButtonType
      ensures b in ButtonMapping
    {
      assert ButtonMapping[ButtonSlot(b)] == b;
    }
  }

  /** The axis offsets are distinct multiples of four below 32 that avoid
      the hat's offset 16, and the axis instances are distinct. */
  lemma AxesAreSpread(t: bool)
    ensures |Axes(t)| == AxisCount(t)
    ensures forall i :: 0 <= i < |Axes(t)| ==>
      Axes(t)[i].offset < 32 && Axes(t)[i].offset % 4 == 0 && Axes(t)[i].offset != 16
    ensures forall i, j :: 0 <= i < j < |Axes(t)| ==>
      Axes(t)[i].offset != Axes(t)[j].offset && Axes(t)[i].instanceId != Axes(t)[j].instanceId
  {
  }

  /** The catalog's native offsets are pairwise distinct, and every axis and
      hat offset is a multiple of four. */
  lemma CatalogOffsets(t: bool)
    ensures forall i, j :: 0 <= i < j < |Catalog(t)| ==> Catalog(t)[i].offset != Catalog(t)[j].offset
    ensures forall i :: 0 <= i < |Catalog(t)| && !Catalog(t)[i].mapped.ButtonMap? ==> Catalog(t)[i].offset % 4 == 0
  {
    var c := Catalog(t);
    var n := AxisCount(t);
    CatalogLayout(t);
    AxesAreSpread(t);
    assert forall i :: 0 <= i < n ==> c[i] == Axes(t)[i];
    forall i, j | 0 <= i < j < |c|
      ensures c[i].offset != c[j].offset
    {
      if j < n {
      } else if j < n + 14 {
        assert c[j] == ButtonObject(j - n) by { assert ButtonPosition(t, j - n) == j; }
        if i >= n {
          assert c[i] == ButtonObject(i - n) by { assert ButtonPosition(t, i - n) == i; }
        }
      } else if i >= n {
        assert c[i] == ButtonObject(i - n) by { assert ButtonPosition(t, i - n) == i; }
      }
    }
    forall i | 0 <= i < |c| && !c[i].mapped.ButtonMap?
      ensures c[i].offset % 4 == 0
    {
      if n <= i < n + 14 {
        assert c[i] == ButtonObject(i - n) by { assert ButtonPosition(t, i - n) == i; }
      }
    }
  }

  /** Within each class (axes, buttons, the hat) the instance numbers are
      pairwise distinct. */
  lemma CatalogInstancesDistinct(t: bool)
    ensures forall i, j :: 0 <= i < j < |Catalog(t)| && SameClass(Catalog(t)[i].mapped, Catalog(t)[j].mapped) ==>
      Catalog(t)[i].instanceId != Catalog(t)[j].instanceId
  {
    var c := Catalog(t);
    var n := AxisCount(t);
    CatalogLayout(t);
    AxesAreSpread(t);
    assert forall i :: 0 <= i < n ==> c[i] == Axes(t)[i];
    forall i, j | 0 <= i < j < |c| && SameClass(c[i].mapped, c[j].mapped)
      ensures c[i].instanceId != c[j].instanceId
    {
      if n <= j < n + 14 {
        assert c[j] == ButtonObject(j - n) by { assert ButtonPosition(t, j - n) == j; }
        if i >= n {
          assert c[i] == ButtonObject(i - n) by { assert ButtonPosition(t, i - n) == i; }
        }
      }
    }
  }

  lemma CatalogTypeBits()
    ensures DIDFT_ABSAXIS & DIDFT_AXIS != 0
    ensures DIDFT_PSHBUTTON & DIDFT_BUTTON != 0
    ensures DIDFT_POV & DIDFT_POV != 0
  {
  }

  /** Every catalog object's type bits agree with the input it reports, and
      no catalog object is unmapped. */
  lemma CatalogTypesAgree(t: bool)
    ensures forall i :: 0 <= i < |Catalog(t)| ==>
      TypeAgreesWithMapping(Catalog(t)[i]) && !Catalog(t)[i].mapped.Unmapped?
  {
    var c := Catalog(t);
    var n := AxisCount(t);
    CatalogLayout(t);
    CatalogTypeBits();
    forall i | 0 <= i < |c|
      ensures TypeAgreesWithMapping(c[i]) && !c[i].mapped.Unmapped?
    {
      if i < n {
        assert c[i] == Axes(t)[i];
      } else if i < n + 14 {
        assert c[i] == ButtonObject(i - n) by { assert ButtonPosition(t, i - n) == i; }
      }
    }
  }
}

=== FILE: raw_hid.dfy ===
/** The older HID front end (dhc/src/rawinput/hid.rs).  It maps reports as
    the newer one does, but every failure of the HID parsing library is an
    assertion that panics, and XInput pads are parsed with their own
    layout instead of being refused. */
module RawHid {
  import opened Wrappers
  import opened Inputs
  import opened HidMapping
  import opened HidDevice
  import Hid

  datatype DeviceType = PS4 | PS3 | Generic | Xinput

  datatype HidParser = HidParser(deviceType: DeviceType, valueCaps: seq<ValueCap>)

  /** A panic in place of an error result. */
  function OrPanic<T>(r: Result<T, HidError>): (o: Outcome<T>)
    ensures o.Ok? <==> r.Success?
    ensures o.Ok? ==> o.value == r.value
  {
    match r
    case Success(v) => Ok(v)
    case Failure(_) => Abort
  }

  /** `HidParser::new`: the same classification by button count; the value
      capabilities and the link collection nodes must both be read. */
  function New(buttonCount: nat, valueCaps: Result<seq<ValueCap>, HidError>, linkNodes: Result<(), HidError>): (r: Outcome<HidParser>)
    ensures r.Ok? <==> valueCaps.Success? && linkNodes.Success?
    ensures r.Ok? ==> r.value.valueCaps == valueCaps.value
    ensures r.Ok? ==> (r.value.deviceType == PS4 <==> buttonCount == 14)
    ensures r.Ok? ==> (r.value.deviceType == PS3 <==> buttonCount == 13)
    ensures r.Ok? ==> r.value.deviceType != Xinput
  {
    var deviceType := if buttonCount == 14 then PS4 else if buttonCount == 13 then PS3 else Generic;
    match OrPanic(valueCaps)
    case Abort => Abort
    case Ok(caps) =>
      match OrPanic(linkNodes)
      case Abort => Abort
      case Ok(_) => Ok(HidParser(deviceType, caps))
  }

  /** `HidParser::new_xinput`. */
  function NewXInput(valueCaps: Result<seq<ValueCap>, HidError>): (r: Outcome<HidParser>)
    ensures r.Ok? <==> valueCaps.Success?
    ensures r.Ok? ==> r.value == HidParser(Xinput, valueCaps.value)
  {
    match OrPanic(valueCaps)
    case Abort => Abort
    case Ok(caps) => Ok(HidParser(Xinput, caps))
  }

  /** `HidParser::parse`: XInput pads use the XInput layout, every other
      device the PS4 one; a failed read of the report panics. */
  function Parse(p: HidParser, report: Report): (r: Outcome<DeviceInputs>)
    ensures var layout := if p.deviceType == Xinput then XInputLayout else Ps4Layout;
      var full := ParseReport(layout, p.valueCaps, report);
      (r.Ok? <==> full.Ok? && full.value.Success?) && (r.Ok? ==> r.value == full.value.value)
  {
    var layout := if p.deviceType == Xinput then XInputLayout else Ps4Layout;
    match ParseReport(layout, p.valueCaps, report)
    case Abort => Abort
    case Ok(res) => OrPanic(res)
  }

  /** Both front ends agree on a non-XInput device wherever the older one
      does not panic, and the older one panics wherever the newer one
      returns an error. */
  lemma AgreesWithHid(p: HidParser, q: Hid.HidParser, report: Report)
    requires p.deviceType != Xinput && q.deviceType != Hid.XInput && p.valueCaps == q.valueCaps
    ensures Parse(p, report).Ok? ==> Hid.Parse(q, report) == Ok(Success(Parse(p, report).value))
    ensures Hid.Parse(q, report).Ok? && Hid.Parse(q, report).value.Failure? ==> Parse(p, report).Abort?
  {
  }

  /** An XInput pad parsed by the older front end leaves its triggers at
      their rest value: the layout has no trigger usage. */
  lemma XInputParseKeepsTriggers(p: HidParser, report: Report, t: AxisType)
    requires p.deviceType == Xinput && t in {LeftTrigger, RightTrigger}
    ensures Parse(p, report).Ok? ==> GetAxis(Parse(p, report).value, t) == 0.5
  {
    XInputTriggersUnwritten(p.valueCaps, report, t);
  }

  /** What the platform reports while a Raw Input device is opened. */
  datatype Probe = Probe(
    infoType: nat,
    rawPath: seq<PathByte>,
    opens: bool,
    vendor: Option<string>,
    product: Option<string>,
    serial: Option<string>,
    hasPreparsedData: bool,
    buttonCount: nat,
    valueCaps: Result<seq<ValueCap>, HidError>,
    linkNodes: Result<(), HidError>)

  datatype Opened = Opened(parser: HidParser, name: string)

  /** The parser an opened device gets: the XInput one for an XInput path. */
  function BuildParser(isXInput: bool, p: Probe): (r: Outcome<HidParser>)
    ensures r.Ok? <==> p.valueCaps.Success? && (isXInput || p.linkNodes.Success?)
    ensures r.Ok? ==> r.value.valueCaps == p.valueCaps.value && (r.value.deviceType == Xinput <==> isXInput)
  {
    if isXInput then NewXInput(p.valueCaps) else New(p.buttonCount, p.valueCaps, p.linkNodes)
  }

  /** Whether the last steps of opening pass their assertions: a HID device
      whose value capabilities, and unless it is an XInput pad its link
      collection nodes, can be read. */
  predicate ParserBuilt(p: Probe)
    requires DevicePath(p.rawPath).Ok?
  {
    p.infoType == Hid.RIM_TYPEHID && BuildParser(IsXInputPath(DevicePath(p.rawPath).value), p).Ok?
  }

  /** `open_rawinput_device`: as in the newer front end, except that the
      parser is built by assertion, so only the platform's I/O failures are
      returned as errors (`false` here).  The path is logged through
      `to_str().unwrap()` on both outcomes of the open, so a path that is
      not UTF-8 panics. */
  function OpenRawinputDevice(p: Probe): (r: Outcome<Option<Opened>>)
    ensures r.Ok? && r.value.None? <==>
              DevicePath(p.rawPath).Ok? && Utf8(DevicePath(p.rawPath).value) && (!p.opens || !p.hasPreparsedData)
    ensures r.Ok? && r.value.Some? ==>
              var o := r.value.value;
              DevicePath(p.rawPath).Ok? && p.valueCaps.Success?
              && o.name == DeviceName(p.vendor, p.product, p.serial)
              && o.parser.valueCaps == p.valueCaps.value
              && (o.parser.deviceType == Xinput <==> IsXInputPath(DevicePath(p.rawPath).value))
    ensures r.Abort? <==> DevicePath(p.rawPath).Abort? || !Utf8(DevicePath(p.rawPath).value)
                          || (p.opens && p.hasPreparsedData && !ParserBuilt(p))
  {
    match DevicePath(p.rawPath)
    case Abort => Abort
    case Ok(path) =>
      if !Utf8(path) then Abort
      else if !p.opens || !p.hasPreparsedData then Ok(None)
      else if p.infoType != Hid.RIM_TYPEHID then Abort
      else
        match BuildParser(IsXInputPath(path), p)
        case Abort => Abort
        case Ok(hp) => Ok(Some(Opened(hp, DeviceName(p.vendor, p.product, p.serial))))
  }

  /** On a file that does not open, the path of a backslash alone gives
      no device, while a backslash followed by the byte 0xFF, which is not
      UTF-8, panics: the byte alone decides. */
  lemma NonUtf8PathPanics(p: Probe)
    requires p.rawPath == [0x5C, 0xFF] && !p.opens
    ensures OpenRawinputDevice(p).Abort?
    ensures OpenRawinputDevice(p.(rawPath := [0x5C])) == Ok(None)
  {
    assert StripTrailingNuls(p.rawPath) == p.rawPath;
    assert p.rawPath[1..] == [0xFF] && !Utf8([0xFF]);
    assert !Utf8(p.rawPath);
    assert StripTrailingNuls([0x5C]) == [0x5C];
    assert [0x5C][1..] == [] && Utf8([0x5C]);
  }
}

=== FILE: raw_input_manager.dfy ===
/** The older device registry (dhc/src/rawinput/mod.rs): Raw Input devices
    only, no XInput slots, and a removal queued for every handle the
    platform names, known or not.  As in the newer registry, a triple
    buffer is the last value written to it and the platform's answers are
    parameters. */
module RawInputManager {
  import opened Wrappers
  import opened Inputs
  import HidMapping
  import RawHid
  import InputManager

  /** `RawInputEvent`: an arrival carries the device's name. */
  datatype Event = DeviceArrived(id: nat, name: string) | DeviceRemoved(id: nat)

  /** `DeviceState`: the buffer written on each report and the parser. */
  datatype DeviceState = DeviceState(buffer: DeviceInputs, parser: RawHid.HidParser)

  /** `RawInputManager`: the event queue and the devices by handle. */
  datatype Manager = Manager(queue: seq<Event>, devices: map<nat, DeviceState>)

  /** `RawInputManager::new`. */
  function NewManager(): (m: Manager)
    ensures m.queue == [] && m.devices == map[]
  {
    Manager([], map[])
  }

  /** `cmd_get_events`: the queue is swapped for an empty one and handed
      over whole. */
  function GetEvents(m: Manager): (r: (seq<Event>, Manager))
    ensures r.0 == m.queue && r.1.queue == [] && r.1.devices == m.devices
  {
    (m.queue, m.(queue := []))
  }

  /** The value the reports of one message leave behind: each report is
      parsed in turn, a failed parse panics, and the last parse wins;
      without a report the default value is left. */
  function LastParse(p: RawHid.HidParser, reports: seq<HidMapping.Report>, acc: DeviceInputs): (r: Outcome<DeviceInputs>)
    ensures r.Ok? <==> forall j :: 0 <= j < |reports| ==> RawHid.Parse(p, reports[j]).Ok?
    ensures r.Ok? && reports == [] ==> r.value == acc
    ensures r.Ok? && reports != [] ==> r.value == RawHid.Parse(p, reports[|reports| - 1]).value
    decreases |reports|
  {
    if reports == [] then Ok(acc)
    else
      match RawHid.Parse(p, reports[0])
      case Abort => Abort
      case Ok(v) =>
        var r := LastParse(p, reports[1..], v);
        assert forall j :: 1 <= j < |reports| ==> reports[j] == reports[1..][j - 1];
        r
  }

  /** `DeviceState::handle_input`: the buffer takes what the message's
      reports leave behind. */
  function HandleInput(d: DeviceState, reports: seq<HidMapping.Report>): (r: Outcome<DeviceState>)
    ensures r.Ok? <==> forall j :: 0 <= j < |reports| ==> RawHid.Parse(d.parser, reports[j]).Ok?
    ensures r.Ok? ==> r.value.parser == d.parser
    ensures r.Ok? && reports == [] ==> r.value.buffer == Default()
    ensures r.Ok? && reports != [] ==> r.value.buffer == RawHid.Parse(d.parser, reports[|reports| - 1]).value
  {
    match LastParse(d.parser, reports, Default())
    case Abort => Abort
    case Ok(v) => Ok(d.(buffer := v))
  }

  /** A message of one report writes what that report parses to. */
  lemma HandleOneReport(d: DeviceState, report: HidMapping.Report)
    ensures HandleInput(d, [report]).Ok? <==> RawHid.Parse(d.parser, report).Ok?
    ensures HandleInput(d, [report]).Ok? ==> HandleInput(d, [report]).value.buffer == RawHid.Parse(d.parser, report).value
  {
    assert [report][0] == report;
  }

  /** `handle_device_input`: a failed read of the message panics, a
      message from an unknown device is dropped, one that is not HID
      panics, and otherwise the device handles its reports. */
  function DeviceInput(m: Manager, dataRead: bool, id: nat, isHid: bool, reports: seq<HidMapping.Report>): (r: Outcome<Manager>)
    ensures !dataRead ==> r.Abort?
    ensures dataRead && id !in m.devices ==> r == Ok(m)
    ensures dataRead && id in m.devices ==>
              (r.Ok? <==> isHid && HandleInput(m.devices[id], reports).Ok?)
    ensures r.Ok? ==> r.value.queue == m.queue && r.value.devices.Keys == m.devices.Keys
    ensures r.Ok? && id in m.devices ==> r.value.devices[id] == HandleInput(m.devices[id], reports).value
    ensures r.Ok? ==> forall h :: h in m.devices && h != id ==> r.value.devices[h] == m.devices[h]
  {
    if !dataRead then Abort
    else if id !in m.devices then Ok(m)
    else if !isHid then Abort
    else
      match HandleInput(m.devices[id], reports)
      case Abort => Abort
      case Ok(d) => Ok(m.(devices := m.devices[id := d]))
  }

  /** `handle_device_arrival`: a device that fails to open is ignored;
      otherwise it is recorded under its handle with a default buffer and
      its arrival queued. */
  function Arrival(m: Manager, id: nat, probe: RawHid.Probe): (r: Outcome<Manager>)
    ensures r.Abort? <==> RawHid.OpenRawinputDevice(probe).Abort?
    ensures r.Ok? && RawHid.OpenRawinputDevice(probe).value.None? ==> r.value == m
    ensures r.Ok? && RawHid.OpenRawinputDevice(probe).value.Some? ==>
              var o := RawHid.OpenRawinputDevice(probe).value.value;
              r.value.devices == m.devices[id := DeviceState(Default(), o.parser)]
              && r.value.queue == m.queue + [DeviceArrived(id, o.name)]
  {
    match RawHid.OpenRawinputDevice(probe)
    case Abort => Abort
    case Ok(None) => Ok(m)
    case Ok(Some(o)) =>
      Ok(Manager(m.queue + [DeviceArrived(id, o.name)], m.devices[id := DeviceState(Default(), o.parser)]))
  }

  /** `handle_device_removal`: the removal is queued whether or not the
      handle is known, and the handle is forgotten. */
  function Removal(m: Manager, id: nat): (r: Manager)
    ensures r.queue == m.queue + [DeviceRemoved(id)]
    ensures r.devices.Keys == m.devices.Keys - {id}
    ensures forall h :: h in r.devices ==> r.devices[h] == m.devices[h]
  {
    Manager(m.queue + [DeviceRemoved(id)], m.devices - {id})
  }

  /** The `wParam` values WM_INPUT_DEVICE_CHANGE carries. */
  const GIDC_ARRIVAL: nat := 1
  const GIDC_REMOVAL: nat := 2

  /** `handle_message` on WM_INPUT_DEVICE_CHANGE: GIDC_ARRIVAL is an
      arrival, GIDC_REMOVAL a removal, and any other argument panics. */
  function DeviceChange(m: Manager, w: nat, id: nat, probe: RawHid.Probe): (r: Outcome<Manager>)
    ensures r.Ok? ==> w == GIDC_ARRIVAL || w == GIDC_REMOVAL
    ensures w == GIDC_REMOVAL ==> r.Ok? && id !in r.value.devices && |r.value.queue| == |m.queue| + 1
    ensures w == GIDC_ARRIVAL && r.Ok? && RawHid.OpenRawinputDevice(probe).Ok? && RawHid.OpenRawinputDevice(probe).value.Some? ==> id in r.value.devices
  {
    if w == GIDC_ARRIVAL then Arrival(m, id, probe)
    else if w == GIDC_REMOVAL then Ok(Removal(m, id))
    else Abort
  }

  /** A device that arrives and is then removed leaves the registry as it
      was, with both events queued. */
  lemma ArrivalThenRemoval(m: Manager, id: nat, probe: RawHid.Probe)
    requires id !in m.devices
    requires Arrival(m, id, probe).Ok? && RawHid.OpenRawinputDevice(probe).value.Some?
    ensures Removal(Arrival(m, id, probe).value, id).devices == m.devices
    ensures Removal(Arrival(m, id, probe).value, id).queue
         == m.queue + [DeviceArrived(id, RawHid.OpenRawinputDevice(probe).value.value.name), DeviceRemoved(id)]
  {
    var a := Arrival(m, id, probe).value;
    var r := Removal(a, id);
    assert r.devices.Keys == m.devices.Keys;
  }

  // ---------------------------------------------------------------------
  // What the events announce, in the newer registry's terms

  /** An event as the newer registry's announced-set semantics reads it. */
  function Lift(e: Event): (r: InputManager.Event)
    ensures r.id == InputManager.RawInput(e.id)
  {
    match e
    case DeviceArrived(id, name) => InputManager.DeviceArrived(InputManager.RawInput(id), name)
    case DeviceRemoved(id) => InputManager.DeviceRemoved(InputManager.RawInput(id))
  }

  function LiftAll(es: seq<Event>): (r: seq<InputManager.Event>)
    ensures |r| == |es| && forall j :: 0 <= j < |es| ==> r[j] == Lift(es[j])
  {
    seq(|es|, j requires 0 <= j < |es| => Lift(es[j]))
  }

  lemma LiftAppend(a: seq<Event>, b: seq<Event>)
    ensures LiftAll(a + b) == LiftAll(a) + LiftAll(b)
  {
  }

  /** The devices the consumer should see: every handle held. */
  function Held(m: Manager): set<InputManager.DeviceId>
  {
    set h | h in m.devices :: InputManager.RawInput(h)
  }

  /** The registry's invariant relative to what the consumer has already
      drained, as for the newer registry. */
  predicate Consistent(delivered: set<InputManager.DeviceId>, m: Manager)
  {
    InputManager.Valid(delivered, LiftAll(m.queue))
    && InputManager.Apply(delivered, LiftAll(m.queue)) == Held(m)
  }

  lemma NewManagerConsistent()
    ensures Consistent({}, NewManager())
  {
    assert Held(NewManager()) == {};
  }

  /** One event appended to the queue, which takes the consumer from the
      old devices to the new ones, keeps the registry consistent. */
  lemma ConsistentByEvent(delivered: set<InputManager.DeviceId>, m: Manager, e: Event, r: Manager)
    requires Consistent(delivered, m)
    requires r.queue == m.queue + [e]
    requires InputManager.Valid(Held(m), [Lift(e)])
    requires InputManager.Step(Held(m), Lift(e)) == Held(r)
    ensures Consistent(delivered, r)
  {
    LiftAppend(m.queue, [e]);
    assert LiftAll([e]) == [Lift(e)];
    InputManager.ApplyAppend(delivered, LiftAll(m.queue), [Lift(e)]);
    assert InputManager.Apply(Held(m), [Lift(e)]) == InputManager.Step(Held(m), Lift(e));
  }

  /** The arrival of a handle the registry does not hold keeps it
      consistent. */
  lemma ArrivalPreserves(delivered: set<InputManager.DeviceId>, m: Manager, id: nat, probe: RawHid.Probe)
    requires Consistent(delivered, m) && id !in m.devices
    requires Arrival(m, id, probe).Ok?
    ensures Consistent(delivered, Arrival(m, id, probe).value)
  {
    var r := Arrival(m, id, probe).value;
    if RawHid.OpenRawinputDevice(probe).value.Some? {
      var e := DeviceArrived(id, RawHid.OpenRawinputDevice(probe).value.value.name);
      assert InputManager.RawInput(id) !in Held(m);
      assert Held(r) == Held(m) + {InputManager.RawInput(id)};
      assert InputManager.Valid(Held(m), [Lift(e)]);
      ConsistentByEvent(delivered, m, e, r);
    }
  }

  /** The removal of a held handle keeps the registry consistent. */
  lemma RemovalPreserves(delivered: set<InputManager.DeviceId>, m: Manager, id: nat)
    requires Consistent(delivered, m) && id in m.devices
    ensures Consistent(delivered, Removal(m, id))
  {
    var r := Removal(m, id);
    var e := DeviceRemoved(id);
    assert InputManager.RawInput(id) in Held(m);
    assert Held(r) == Held(m) - {InputManager.RawInput(id)};
    assert InputManager.Valid(Held(m), [Lift(e)]);
    ConsistentByEvent(delivered, m, e, r);
  }

  /** A device change keeps the registry consistent when it announces an
      unheld handle or removes a held one. */
  lemma DeviceChangePreserves(delivered: set<InputManager.DeviceId>, m: Manager, w: nat, id: nat, probe: RawHid.Probe)
    requires Consistent(delivered, m)
    requires w == GIDC_ARRIVAL ==> id !in m.devices
    requires w == GIDC_REMOVAL ==> id in m.devices
    requires DeviceChange(m, w, id, probe).Ok?
    ensures Consistent(delivered, DeviceChange(m, w, id, probe).value)
  {
    if w == GIDC_ARRIVAL {
      ArrivalPreserves(delivered, m, id, probe);
    } else {
      RemovalPreserves(delivered, m, id);
    }
  }

  /** The removal of a handle the registry does not hold queues a removal
      of a device the consumer does not know, which it cannot follow. */
  lemma RemovalOfUnknownHandleBreaks(delivered: set<InputManager.DeviceId>, m: Manager, id: nat)
    requires Consistent(delivered, m) && id !in m.devices
    ensures !InputManager.Valid(delivered, LiftAll(Removal(m, id).queue))
  {
    var e := DeviceRemoved(id);
    LiftAppend(m.queue, [e]);
    assert LiftAll([e]) == [Lift(e)];
    InputManager.ApplyAppend(delivered, LiftAll(m.queue), [Lift(e)]);
    assert InputManager.RawInput(id) !in Held(m);
  }

  /** Reports keep the registry consistent. */
  lemma DeviceInputPreserves(delivered: set<InputManager.DeviceId>, m: Manager, dataRead: bool, id: nat, isHid: bool,
                             reports: seq<HidMapping.Report>)
    requires Consistent(delivered, m)
    requires DeviceInput(m, dataRead, id, isHid, reports).Ok?
    ensures Consistent(delivered, DeviceInput(m, dataRead, id, isHid, reports).value)
  {
    var r := DeviceInput(m, dataRead, id, isHid, reports).value;
    assert Held(r) == Held(m);
  }

  /** Draining keeps the registry consistent with a consumer that has now
      also received the drained events. */
  lemma GetEventsPreserves(delivered: set<InputManager.DeviceId>, m: Manager)
    requires Consistent(delivered, m)
    ensures Consistent(InputManager.Apply(delivered, LiftAll(GetEvents(m).0)), GetEvents(m).1)
  {
    assert LiftAll([]) == [];
    assert Held(GetEvents(m).1) == Held(m);
  }
}

=== FILE: renderer.dfy ===
/** The state renderer of the emulated device (`DeviceFormat::Apply` and
    `GetDeviceState`, dinput8/dinput.cpp): the client's buffer is zeroed,
    each binding writes the current value of its object at the client's
    offset, and each format default writes its DWORD last. */
module Renderer {
  import opened Wrappers
  import opened DInput
  import opened Inputs
  import opened DeviceObjects
  import opened Negotiation
  import DhcGuid

  /** `lerp`, defined in `dhc_dinput.h` (not part of this model): maps a
      normalised value onto a range. */
  type Lerp = (real, int, int) -> real

  /** Distance from the centre, `abs(value - 0.5)`. */
  function Distance(v: real): real
  {
    if v >= 0.5 then v - 0.5 else 0.5 - v
  }

  /** The axis adjustment: values at least the saturation away from the
      centre (measured as twice the distance) snap to the nearer end, values
      within the dead zone snap to the centre; saturation is tested first. */
  function AdjustAxis(v: real, deadzone: real, saturation: real): (r: real)
    ensures 2.0 * Distance(v) >= saturation ==> r == (if v > 0.5 then 1.0 else 0.0)
    ensures saturation > 2.0 * Distance(v) && 2.0 * Distance(v) <= deadzone ==> r == 0.5
  {
    if 2.0 * Distance(v) >= saturation then (if v > 0.5 then 1.0 else 0.0)
    else if 2.0 * Distance(v) <= deadzone then 0.5
    else v
  }

  /** The adjustment keeps a value in the unit range, and values strictly
      between the dead zone and the saturation are left alone. */
  lemma AdjustAxisRange(v: real, deadzone: real, saturation: real)
    requires InUnitRange(v)
    ensures InUnitRange(AdjustAxis(v, deadzone, saturation))
    ensures deadzone < 2.0 * Distance(v) < saturation ==> AdjustAxis(v, deadzone, saturation) == v
  {
  }

  /** With a positive saturation of at most one and a non-negative dead
      zone, adjusting twice is adjusting once. */
  lemma AdjustAxisIdempotent(v: real, deadzone: real, saturation: real)
    requires 0.0 < saturation <= 1.0 && 0.0 <= deadzone
    ensures AdjustAxis(AdjustAxis(v, deadzone, saturation), deadzone, saturation) == AdjustAxis(v, deadzone, saturation)
  {
  }

  /** The adjustment is monotonic on the unit range. */
  lemma AdjustAxisMonotonic(v: real, w: real, deadzone: real, saturation: real)
    requires InUnitRange(v) && InUnitRange(w) && v <= w
    ensures AdjustAxis(v, deadzone, saturation) <= AdjustAxis(w, deadzone, saturation)
  {
  }

  /** The DWORD an axis object reports. */
  function AxisDword(v: real, s: Settings, lerp: Lerp): Dword
  {
    RealToDword(lerp(AdjustAxis(v, s.deadzone, s.saturation), s.rangeMin, s.rangeMax)) as bv32
  }

  /** The byte a button object reports: 0x80 (the `char` -128) when
      pressed, 0 when released. */
  function ButtonByte(pressed: bool): (b: Byte)
    ensures b == 0x80 || b == 0
    ensures pressed <==> b == 0x80
  {
    if pressed then 0x80 else 0
  }

  /** Clockwise position of a hat direction, North first. */
  function HatDirection(h: Hat): (k: nat)
    requires h != Neutral
    ensures k < 8
  {
    match h
    case North => 0
    case NorthEast => 1
    case East => 2
    case SouthEast => 3
    case South => 4
    case SouthWest => 5
    case West => 6
    case NorthWest => 7
  }

  /** The DWORD a hat object reports: centred is 0xFFFFFFFF, a direction is
      its angle in hundredths of a degree. */
  function HatValue(h: Hat): (r: Dword)
    ensures h == Neutral <==> r == 0xFFFF_FFFF
  {
    match h
    case Neutral => 0xFFFF_FFFF
    case North => 0
    case NorthEast => 4500
    case East => 9000
    case SouthEast => 13500
    case South => 18000
    case SouthWest => 22500
    case West => 27000
    case NorthWest => 31500
  }

  /** A direction reports 4500 times its clockwise position from North. */
  lemma HatValueAngles(h: Hat)
    requires h != Neutral
    ensures HatValue(h) as int == 4500 * HatDirection(h)
  {
  }

  /** Distinct hat positions report distinct values. */
  lemma HatValueInjective(h: Hat, g: Hat)
    requires HatValue(h) == HatValue(g)
    ensures h == g
  {
    if h != Neutral && g != Neutral {
      HatValueAngles(h);
      HatValueAngles(g);
      HatDirectionInjective(h, g);
    }
  }

  lemma HatDirectionInjective(h: Hat, g: Hat)
    requires h != Neutral && g != Neutral && HatDirection(h) == HatDirection(g)
    ensures h == g
  {
  }

  /** A DWORD in little-endian byte order. */
  function DwordBytes(v: Dword): (r: seq<Byte>)
    ensures |r| == 4
  {
    DhcGuid.StoreLE(v)
  }

  /** The bytes an object writes at client offset `off`, or `Abort` where a
      `CHECK` of the source fails (wrong object type, misaligned DWORD) or
      an unmapped object is neither button nor axis. */
  function Cell(o: DeviceObject, off: nat, inputs: DeviceInputs, lerp: Lerp): (r: Outcome<seq<Byte>>)
    ensures r.Ok? ==> |r.value| == 1 || |r.value| == 4
    ensures r.Ok? && |r.value| == 4 ==> off % 4 == 0
  {
    var t := o.info.typeBits;
    match o.info.mapped
    case Unmapped =>
      if HasAny(t, DIDFT_BUTTON) then Ok([0])
      else if HasAny(t, DIDFT_AXIS) then
        if off % 4 != 0 then Abort
        else Ok(DwordBytes(ToDword(HalfTowardZero(o.settings.rangeMin + o.settings.rangeMax))))
      else Abort
    case AxisMap(a) =>
      if !HasAny(t, DIDFT_AXIS) || off % 4 != 0 then Abort
      else Ok(DwordBytes(AxisDword(GetAxis(inputs, a), o.settings, lerp)))
    case ButtonMap(b) =>
      if !HasAny(t, DIDFT_BUTTON) then Abort
      else Ok([ButtonByte(GetButton(inputs, b))])
    case HatMap(h) =>
      if !HasAny(t, DIDFT_POV) || off % 4 != 0 then Abort
      else Ok(DwordBytes(HatValue(GetHat(inputs, h))))
  }

  /** A write of some bytes at an offset of the buffer. */
  datatype Write = Write(offset: nat, bytes: seq<Byte>)

  predicate Fits(w: Write, size: nat)
  {
    w.offset + |w.bytes| <= size
  }

  predicate Covers(w: Write, k: nat)
  {
    w.offset <= k < w.offset + |w.bytes|
  }

  /** The buffer with one write applied. */
  function Splice(buf: seq<Byte>, w: Write): (r: seq<Byte>)
    requires Fits(w, |buf|)
    ensures |r| == |buf|
  {
    seq(|buf|, k requires 0 <= k < |buf| => if Covers(w, k) then w.bytes[k - w.offset] else buf[k])
  }

  /** A write replaces exactly the bytes it covers. */
  lemma SpliceAt(buf: seq<Byte>, w: Write, k: nat)
    requires Fits(w, |buf|) && k < |buf|
    ensures Splice(buf, w)[k] == if Covers(w, k) then w.bytes[k - w.offset] else buf[k]
  {
  }

  /** The buffer with every write applied, first to last. */
  function SpliceAll(buf: seq<Byte>, ws: seq<Write>): (r: seq<Byte>)
    requires forall j :: 0 <= j < |ws| ==> Fits(ws[j], |buf|)
    ensures |r| == |buf|
    decreases |ws|
  {
    if ws == [] then buf else Splice(SpliceAll(buf, ws[..|ws| - 1]), ws[|ws| - 1])
  }

  /** The index of the last write that covers byte k. */
  function LastCover(ws: seq<Write>, k: nat): (r: Option<nat>)
    ensures r.Some? ==> r.value < |ws| && Covers(ws[r.value], k)
    ensures r.Some? ==> forall j :: r.value < j < |ws| ==> !Covers(ws[j], k)
    ensures r.None? ==> forall j :: 0 <= j < |ws| ==> !Covers(ws[j], k)
    decreases |ws|
  {
    if ws == [] then None
    else if Covers(ws[|ws| - 1], k) then Some(|ws| - 1)
    else LastCover(ws[..|ws| - 1], k)
  }

  /** Every byte of the result comes from the last write that covers it,
      and bytes no write covers keep their old value. */
  lemma {:induction false} SpliceAllAt(buf: seq<Byte>, ws: seq<Write>, k: nat)
    requires forall j :: 0 <= j < |ws| ==> Fits(ws[j], |buf|)
    requires k < |buf|
    ensures SpliceAll(buf, ws)[k] == match LastCover(ws, k)
      case None => buf[k]
      case Some(j) => ws[j].bytes[k - ws[j].offset]
    decreases |ws|
  {
    if ws != [] {
      SpliceAllAt(buf, ws[..|ws| - 1], k);
      SpliceAt(SpliceAll(buf, ws[..|ws| - 1]), ws[|ws| - 1], k);
      if !Covers(ws[|ws| - 1], k) {
        var p := ws[..|ws| - 1];
        match LastCover(p, k)
        case None =>
        case Some(j) => assert ws[j] == p[j];
      }
    }
  }

  /** The writes of the bindings, in order: each binding's cell at its
      offset, or an abort as soon as one cell aborts. */
  function BindingWrites(bs: seq<Binding>, objects: seq<DeviceObject>, inputs: DeviceInputs, lerp: Lerp): (r: Outcome<seq<Write>>)
    requires forall j :: 0 <= j < |bs| ==> bs[j].position < |objects|
    ensures r.Ok? ==> |r.value| == |bs|
    decreases |bs|
  {
    if bs == [] then Ok([])
    else
      var last := bs[|bs| - 1];
      var init := BindingWrites(bs[..|bs| - 1], objects, inputs, lerp);
      var c := Cell(objects[last.position], last.offset as nat, inputs, lerp);
      if init.Abort? || c.Abort? then Abort
      else Ok(init.value + [Write(last.offset as nat, c.value)])
  }

  /** Write j of the bindings is binding j's cell at binding j's offset, and
      the writes abort exactly when some binding's cell aborts. */
  lemma {:induction false} BindingWritesCells(bs: seq<Binding>, objects: seq<DeviceObject>, inputs: DeviceInputs, lerp: Lerp)
    requires forall j :: 0 <= j < |bs| ==> bs[j].position < |objects|
    ensures var r := BindingWrites(bs, objects, inputs, lerp);
      r.Ok? ==> forall j :: 0 <= j < |bs| ==>
        r.value[j].offset == bs[j].offset as nat
        && Cell(objects[bs[j].position], bs[j].offset as nat, inputs, lerp) == Ok(r.value[j].bytes)
    ensures BindingWrites(bs, objects, inputs, lerp).Abort?
      <==> exists j :: 0 <= j < |bs| && Cell(objects[bs[j].position], bs[j].offset as nat, inputs, lerp).Abort?
    decreases |bs|
  {
    if bs != [] {
      var init := bs[..|bs| - 1];
      assert forall j :: 0 <= j < |init| ==> init[j] == bs[j];
      BindingWritesCells(init, objects, inputs, lerp);
    }
  }

  /** The store of a default: its DWORD at its offset. */
  function DefaultWrite(f: FormatDefault): Write
  {
    Write(f.offset as nat, DwordBytes(f.value))
  }

  function DefaultWrites(ds: seq<FormatDefault>): (r: seq<Write>)
    ensures |r| == |ds|
    ensures forall j :: 0 <= j < |ds| ==> r[j] == DefaultWrite(ds[j])
  {
    seq(|ds|, j requires 0 <= j < |ds| => DefaultWrite(ds[j]))
  }

  lemma DefaultWritesPrefix(ds: seq<FormatDefault>, k: nat)
    requires k < |ds|
    ensures DefaultWrites(ds[..k + 1]) == DefaultWrites(ds[..k]) + [DefaultWrite(ds[k])]
  {
    var a := DefaultWrites(ds[..k + 1]);
    var b := DefaultWrites(ds[..k]) + [DefaultWrite(ds[k])];
    assert |a| == |b|;
    forall j | 0 <= j < |a| ensures a[j] == b[j] {
      assert ds[..k + 1][j] == ds[j];
    }
  }

  /** The zeroed client buffer. */
  function Zeros(n: nat): (r: seq<Byte>)
    ensures |r| == n
  {
    seq(n, _ => 0)
  }

  /** `GetDeviceState` as a whole: the buffer of `size` zero bytes with
      every binding's cell and then every default's DWORD written into it.
      It aborts when a cell aborts or a write does not fit the buffer: the
      source's `CHECK_GE` for bindings, an out-of-bounds store for
      defaults. */
  function DeviceState(d: Device, size: nat, inputs: DeviceInputs, lerp: Lerp): (r: Outcome<seq<Byte>>)
    requires Positioned(d)
    ensures r.Ok? ==> |r.value| == size
  {
    var ws :- StateWrites(d, inputs, lerp);
    if forall j :: 0 <= j < |ws| ==> Fits(ws[j], size) then
      Ok(SpliceAll(Zeros(size), ws))
    else Abort
  }

  /** Every write `GetDeviceState` performs, in order. */
  function StateWrites(d: Device, inputs: DeviceInputs, lerp: Lerp): (r: Outcome<seq<Write>>)
    requires Positioned(d)
    ensures r.Ok? ==> |r.value| == |d.bindings| + |d.defaults|
  {
    var bw :- BindingWrites(d.bindings, d.objects, inputs, lerp);
    Ok(bw + DefaultWrites(d.defaults))
  }

  /** Each byte of the rendered state is the byte the last write covering
      it put there, or zero when no write covers it. */
  lemma StateByte(d: Device, size: nat, inputs: DeviceInputs, lerp: Lerp, k: nat)
    requires Positioned(d) && DeviceState(d, size, inputs, lerp).Ok? && k < size
    ensures StateWrites(d, inputs, lerp).Ok?
    ensures
      var ws := StateWrites(d, inputs, lerp).value;
      DeviceState(d, size, inputs, lerp).value[k] == match LastCover(ws, k)
        case None => 0
        case Some(j) => ws[j].bytes[k - ws[j].offset]
  {
    var ws := StateWrites(d, inputs, lerp).value;
    SpliceAllAt(Zeros(size), ws, k);
  }

  /** The bytes of a write that no later write overlaps survive into the
      result. */
  lemma WriteSurvives(buf: seq<Byte>, ws: seq<Write>, j: nat)
    requires forall i :: 0 <= i < |ws| ==> Fits(ws[i], |buf|)
    requires j < |ws|
    requires forall i, k :: j < i < |ws| && Covers(ws[j], k) ==> !Covers(ws[i], k)
    ensures SpliceAll(buf, ws)[ws[j].offset..ws[j].offset + |ws[j].bytes|] == ws[j].bytes
  {
    var w := ws[j];
    var r := SpliceAll(buf, ws);
    forall i | 0 <= i < |w.bytes|
      ensures r[w.offset..w.offset + |w.bytes|][i] == w.bytes[i]
    {
      SurvivingByte(buf, ws, j, w.offset + i);
    }
  }

  lemma SurvivingByte(buf: seq<Byte>, ws: seq<Write>, j: nat, k: nat)
    requires forall i :: 0 <= i < |ws| ==> Fits(ws[i], |buf|)
    requires j < |ws| && Covers(ws[j], k)
    requires forall i, k :: j < i < |ws| && Covers(ws[j], k) ==> !Covers(ws[i], k)
    ensures k < |buf| && SpliceAll(buf, ws)[k] == ws[j].bytes[k - ws[j].offset]
  {
    SpliceAllAt(buf, ws, k);
    var lc := LastCover(ws, k);
    assert lc.Some? && lc.value >= j;
  }

  /** Two writes overlap. */
  predicate Overlap(a: Write, b: Write)
  {
    a.offset < b.offset + |b.bytes| && b.offset < a.offset + |a.bytes|
  }

  lemma NoOverlapNoCover(a: Write, b: Write, k: nat)
    requires !Overlap(a, b) && Covers(a, k)
    ensures !Covers(b, k)
  {
  }

  /** A rendered state is the zeroed buffer with every state write applied. */
  lemma StateIsSplice(d: Device, size: nat, inputs: DeviceInputs, lerp: Lerp)
    requires Positioned(d) && DeviceState(d, size, inputs, lerp).Ok?
    ensures StateWrites(d, inputs, lerp).Ok?
    ensures forall i :: 0 <= i < |StateWrites(d, inputs, lerp).value| ==> Fits(StateWrites(d, inputs, lerp).value[i], size)
    ensures DeviceState(d, size, inputs, lerp).value == SpliceAll(Zeros(size), StateWrites(d, inputs, lerp).value)
  {
  }

  /** A format default that no later default overlaps leaves its write,
      the DWORD little-endian at its offset, in the rendered state:
      defaults are written after every binding. */
  lemma DefaultWins(d: Device, size: nat, inputs: DeviceInputs, lerp: Lerp, j: nat)
    requires Positioned(d) && DeviceState(d, size, inputs, lerp).Ok? && j < |d.defaults|
    requires forall i :: j < i < |d.defaults| ==> !Overlap(DefaultWrite(d.defaults[j]), DefaultWrite(d.defaults[i]))
    ensures
      var r := DeviceState(d, size, inputs, lerp).value;
      var w := DefaultWrite(d.defaults[j]);
      Fits(w, size) && r[w.offset..w.offset + |w.bytes|] == w.bytes
  {
    var bw := BindingWrites(d.bindings, d.objects, inputs, lerp).value;
    assert StateWrites(d, inputs, lerp).value == bw + DefaultWrites(d.defaults);
    DefaultSurvives(Zeros(size), bw, d.defaults, j);
    WrittenInEqual(DeviceState(d, size, inputs, lerp).value, SpliceAll(Zeros(size), bw + DefaultWrites(d.defaults)),
                   DefaultWrite(d.defaults[j]));
  }

  /** A write found in a buffer is found in an equal buffer. Stated over
      plain sequences so that the solver does not unfold how either buffer
      was computed. */
  lemma WrittenInEqual(r: seq<Byte>, s: seq<Byte>, w: Write)
    requires r == s && Fits(w, |s|) && s[w.offset..w.offset + |w.bytes|] == w.bytes
    ensures Fits(w, |r|) && r[w.offset..w.offset + |w.bytes|] == w.bytes
  {
  }

  /** Default j, written after the bindings' writes and the other
      defaults, survives when no later default overlaps it. */
  lemma DefaultSurvives(buf: seq<Byte>, bw: seq<Write>, ds: seq<FormatDefault>, j: nat)
    requires j < |ds|
    requires forall i :: 0 <= i < |bw + DefaultWrites(ds)| ==> Fits((bw + DefaultWrites(ds))[i], |buf|)
    requires forall i :: j < i < |ds| ==> !Overlap(DefaultWrite(ds[j]), DefaultWrite(ds[i]))
    ensures var w := DefaultWrite(ds[j]);
      Fits(w, |buf|) && SpliceAll(buf, bw + DefaultWrites(ds))[w.offset..w.offset + |w.bytes|] == w.bytes
  {
    LaterDefaultsMiss(bw, ds, j);
    DefaultAt(bw, ds, j);
    WriteSurvives(buf, bw + DefaultWrites(ds), |bw| + j);
  }

  lemma DefaultAt(bw: seq<Write>, ds: seq<FormatDefault>, i: nat)
    requires i < |ds|
    ensures |bw| + i < |bw + DefaultWrites(ds)| && (bw + DefaultWrites(ds))[|bw| + i] == DefaultWrite(ds[i])
  {
  }

  /** A client reads a default's DWORD back as the default's value. */
  lemma DefaultReadsBack(r: seq<Byte>, f: FormatDefault)
    requires var w := DefaultWrite(f); Fits(w, |r|) && r[w.offset..w.offset + |w.bytes|] == w.bytes
    ensures var w := DefaultWrite(f); w.offset + 4 <= |r| && DhcGuid.LoadLE(r[w.offset..w.offset + 4]) == f.value
  {
    DhcGuid.LoadStoreInverse(f.value);
  }

  /** The later defaults cover none of the bytes of default j. */
  lemma LaterDefaultsMiss(bw: seq<Write>, ds: seq<FormatDefault>, j: nat)
    requires j < |ds|
    requires forall i :: j < i < |ds| ==> !Overlap(DefaultWrite(ds[j]), DefaultWrite(ds[i]))
    ensures var ws := bw + DefaultWrites(ds);
      forall i, k :: |bw| + j < i < |ws| && Covers(ws[|bw| + j], k) ==> !Covers(ws[i], k)
  {
    var ws := bw + DefaultWrites(ds);
    DefaultAt(bw, ds, j);
    forall i, k | |bw| + j < i < |ws| && Covers(ws[|bw| + j], k)
      ensures !Covers(ws[i], k)
    {
      DefaultAt(bw, ds, i - |bw|);
      NoOverlapNoCover(ws[|bw| + j], ws[i], k);
    }
  }

  /** A binding that no later write overlaps leaves its object's cell in
      the rendered state. */
  lemma BindingShows(d: Device, size: nat, inputs: DeviceInputs, lerp: Lerp, j: nat)
    requires Positioned(d) && DeviceState(d, size, inputs, lerp).Ok? && j < |d.bindings|
    requires Unobstructed(d, inputs, lerp, j)
    ensures
      var b := d.bindings[j];
      var c := Cell(d.objects[b.position], b.offset as nat, inputs, lerp);
      var r := DeviceState(d, size, inputs, lerp).value;
      c.Ok? && b.offset as nat + |c.value| <= size
      && r[b.offset as nat..b.offset as nat + |c.value|] == c.value
  {
    var ws := StateWrites(d, inputs, lerp).value;
    var bw := BindingWrites(d.bindings, d.objects, inputs, lerp).value;
    BindingWritesCells(d.bindings, d.objects, inputs, lerp);
    assert ws[j] == bw[j];
    forall i, k | j < i < |ws| && Covers(ws[j], k)
      ensures !Covers(ws[i], k)
    {
      NoOverlapNoCover(ws[j], ws[i], k);
    }
    WriteSurvives(Zeros(size), ws, j);
  }

  /** The overlap-freedom the encoding lemmas assume of binding j. */
  predicate Unobstructed(d: Device, inputs: DeviceInputs, lerp: Lerp, j: nat)
    requires Positioned(d)
  {
    var ws := StateWrites(d, inputs, lerp);
    ws.Ok? && j < |ws.value| && forall i :: j < i < |ws.value| ==> !Overlap(ws.value[j], ws.value[i])
  }

  /** A client reads 0x80 at a pressed button's offset and 0 at a released
      one's. */
  lemma ButtonEncoding(d: Device, size: nat, inputs: DeviceInputs, lerp: Lerp, j: nat)
    requires Positioned(d) && DeviceState(d, size, inputs, lerp).Ok? && j < |d.bindings|
    requires Unobstructed(d, inputs, lerp, j)
    requires d.objects[d.bindings[j].position].info.mapped.ButtonMap?
    ensures
      var b := d.bindings[j];
      var r := DeviceState(d, size, inputs, lerp).value;
      b.offset as nat < size
      && r[b.offset as nat] == ButtonByte(GetButton(inputs, d.objects[b.position].info.mapped.button))
  {
    var b := d.bindings[j];
    var o := d.objects[b.position];
    var c := Cell(o, b.offset as nat, inputs, lerp);
    BindingShows(d, size, inputs, lerp, j);
    assert c.value == [ButtonByte(GetButton(inputs, o.info.mapped.button))];
    SliceHead(DeviceState(d, size, inputs, lerp).value, b.offset as nat, c.value);
  }

  lemma SliceHead(r: seq<Byte>, off: nat, v: seq<Byte>)
    requires off + |v| <= |r| && |v| > 0 && r[off..off + |v|] == v
    ensures r[off] == v[0]
  {
    assert r[off..off + |v|][0] == r[off];
  }

  /** A client reads the hat's angle, or 0xFFFFFFFF when it is centred, as
      an aligned DWORD at the hat's offset. */
  lemma HatEncoding(d: Device, size: nat, inputs: DeviceInputs, lerp: Lerp, j: nat)
    requires Positioned(d) && DeviceState(d, size, inputs, lerp).Ok? && j < |d.bindings|
    requires Unobstructed(d, inputs, lerp, j)
    requires d.objects[d.bindings[j].position].info.mapped.HatMap?
    ensures
      var b := d.bindings[j];
      var off := b.offset as nat;
      var r := DeviceState(d, size, inputs, lerp).value;
      off + 4 <= size && off % 4 == 0
      && DhcGuid.LoadLE(r[off..off + 4]) == HatValue(GetHat(inputs, d.objects[b.position].info.mapped.hat))
  {
    BindingShows(d, size, inputs, lerp, j);
    var o := d.objects[d.bindings[j].position];
    DhcGuid.LoadStoreInverse(HatValue(GetHat(inputs, o.info.mapped.hat)));
  }

  /** A client reads the adjusted, lerped axis value as an aligned DWORD at
      the axis's offset. */
  lemma AxisEncoding(d: Device, size: nat, inputs: DeviceInputs, lerp: Lerp, j: nat)
    requires Positioned(d) && DeviceState(d, size, inputs, lerp).Ok? && j < |d.bindings|
    requires Unobstructed(d, inputs, lerp, j)
    requires d.objects[d.bindings[j].position].info.mapped.AxisMap?
    ensures
      var b := d.bindings[j];
      var o := d.objects[b.position];
      var off := b.offset as nat;
      var r := DeviceState(d, size, inputs, lerp).value;
      off + 4 <= size && off % 4 == 0
      && DhcGuid.LoadLE(r[off..off + 4]) == AxisDword(GetAxis(inputs, o.info.mapped.axis), o.settings, lerp)
  {
    BindingShows(d, size, inputs, lerp, j);
    var o := d.objects[d.bindings[j].position];
    DhcGuid.LoadStoreInverse(AxisDword(GetAxis(inputs, o.info.mapped.axis), o.settings, lerp));
  }

  /** A byte no binding and no default writes reads as zero. */
  lemma UnwrittenIsZero(d: Device, size: nat, inputs: DeviceInputs, lerp: Lerp, k: nat)
    requires Positioned(d) && DeviceState(d, size, inputs, lerp).Ok? && k < size
    requires forall j :: 0 <= j < |StateWrites(d, inputs, lerp).value| ==> !Covers(StateWrites(d, inputs, lerp).value[j], k)
    ensures DeviceState(d, size, inputs, lerp).value[k] == 0
  {
    StateByte(d, size, inputs, lerp, k);
  }

  /** `GetDeviceState` as the source runs it: zero the buffer, apply each
      binding in turn, then store each default. */
  method GetDeviceState(d: Device, size: nat, inputs: DeviceInputs, lerp: Lerp) returns (r: Outcome<seq<Byte>>)
    requires Positioned(d)
    ensures r == DeviceState(d, size, inputs, lerp)
  {
    var zero := Zeros(size);
    var applied := ApplyBindings(d, zero, inputs, lerp);
    if applied.Abort? {
      return Abort;
    }
    var (buf, bw) := applied.value;
    r := StoreDefaults(d, zero, inputs, lerp, buf, bw);
  }

  /** The first loop of `GetDeviceState`: each binding's `Apply`. */
  method ApplyBindings(d: Device, zero: seq<Byte>, inputs: DeviceInputs, lerp: Lerp)
    returns (r: Outcome<(seq<Byte>, seq<Write>)>)
    requires Positioned(d)
    ensures r.Abort? ==> DeviceState(d, |zero|, inputs, lerp).Abort?
    ensures r.Ok? ==> BindingWrites(d.bindings, d.objects, inputs, lerp) == Ok(r.value.1)
    ensures r.Ok? ==> (forall j :: 0 <= j < |r.value.1| ==> Fits(r.value.1[j], |zero|))
    ensures r.Ok? ==> r.value.0 == SpliceAll(zero, r.value.1)
  {
    var size := |zero|;
    var buf := zero;
    var ws: seq<Write> := [];
    var i := 0;
    while i < |d.bindings|
      invariant 0 <= i <= |d.bindings|
      invariant BindingWrites(d.bindings[..i], d.objects, inputs, lerp) == Ok(ws)
      invariant forall j :: 0 <= j < |ws| ==> Fits(ws[j], size)
      invariant buf == SpliceAll(zero, ws)
    {
      var b := d.bindings[i];
      var c := Cell(d.objects[b.position], b.offset as nat, inputs, lerp);
      if c.Abort? {
        BindingWritesCells(d.bindings, d.objects, inputs, lerp);
        return Abort;
      }
      var w := Write(b.offset as nat, c.value);
      BindingWritesSnoc(d.bindings, d.objects, inputs, lerp, i, ws);
      if !Fits(w, size) {
        AbortWhenUnfit(d, size, inputs, lerp, i, w);
        return Abort;
      }
      SpliceAllSnoc(zero, ws, w);
      buf := Splice(buf, w);
      ws := ws + [w];
      i := i + 1;
    }
    assert d.bindings[..i] == d.bindings;
    return Ok((buf, ws));
  }

  /** The second loop of `GetDeviceState`: each default's DWORD store. */
  method StoreDefaults(d: Device, zero: seq<Byte>, inputs: DeviceInputs, lerp: Lerp, buf0: seq<Byte>, bw: seq<Write>)
    returns (r: Outcome<seq<Byte>>)
    requires Positioned(d) && zero == Zeros(|zero|)
    requires BindingWrites(d.bindings, d.objects, inputs, lerp) == Ok(bw)
    requires forall j :: 0 <= j < |bw| ==> Fits(bw[j], |zero|)
    requires buf0 == SpliceAll(zero, bw)
    ensures r == DeviceState(d, |zero|, inputs, lerp)
  {
    var size := |zero|;
    var buf := buf0;
    var ws := bw;
    var k := 0;
    while k < |d.defaults|
      invariant 0 <= k <= |d.defaults|
      invariant ws == bw + DefaultWrites(d.defaults[..k])
      invariant forall j :: 0 <= j < |ws| ==> Fits(ws[j], size)
      invariant buf == SpliceAll(zero, ws)
    {
      var f := d.defaults[k];
      var w := DefaultWrite(f);
      DefaultWritesPrefix(d.defaults, k);
      if !Fits(w, size) {
        assert (bw + DefaultWrites(d.defaults))[|bw| + k] == w;
        return Abort;
      }
      SpliceAllSnoc(zero, ws, w);
      buf := Splice(buf, w);
      ws := ws + [w];
      k := k + 1;
    }
    assert d.defaults[..k] == d.defaults;
    return Ok(buf);
  }

  /** Splicing one more write extends the fold by one step. */
  lemma SpliceAllSnoc(buf: seq<Byte>, ws: seq<Write>, w: Write)
    requires forall j :: 0 <= j < |ws| ==> Fits(ws[j], |buf|)
    requires Fits(w, |buf|)
    ensures forall j :: 0 <= j < |ws + [w]| ==> Fits((ws + [w])[j], |buf|)
    ensures SpliceAll(buf, ws + [w]) == Splice(SpliceAll(buf, ws), w)
  {
    assert (ws + [w])[..|ws|] == ws;
  }

  lemma BindingWritesSnoc(bs: seq<Binding>, objects: seq<DeviceObject>, inputs: DeviceInputs, lerp: Lerp, i: nat, ws: seq<Write>)
    requires forall j :: 0 <= j < |bs| ==> bs[j].position < |objects|
    requires i < |bs| && BindingWrites(bs[..i], objects, inputs, lerp) == Ok(ws)
    requires Cell(objects[bs[i].position], bs[i].offset as nat, inputs, lerp).Ok?
    ensures BindingWrites(bs[..i + 1], objects, inputs, lerp)
      == Ok(ws + [Write(bs[i].offset as nat, Cell(objects[bs[i].position], bs[i].offset as nat, inputs, lerp).value)])
  {
    assert bs[..i + 1][..i] == bs[..i];
  }

  lemma AbortWhenUnfit(d: Device, size: nat, inputs: DeviceInputs, lerp: Lerp, i: nat, w: Write)
    requires Positioned(d) && i < |d.bindings|
    requires Cell(d.objects[d.bindings[i].position], d.bindings[i].offset as nat, inputs, lerp) == Ok(w.bytes)
    requires w.offset == d.bindings[i].offset as nat && !Fits(w, size)
    ensures DeviceState(d, size, inputs, lerp).Abort?
  {
    var bw := BindingWrites(d.bindings, d.objects, inputs, lerp);
    BindingWritesCells(d.bindings, d.objects, inputs, lerp);
    if bw.Ok? {
      var ws := bw.value + DefaultWrites(d.defaults);
      assert ws[i] == bw.value[i] == w;
    }
  }
}

=== FILE: strings.dfy ===
/** String helpers: `Join` from dhc/utils.h, decimal formatting as done by
    `std::to_string`, and the hexadecimal digits and fixed-width cutting
    the GUID printer needs. */
module Strings {
  import opened Wrappers

  /** Reference definition of "items separated by glue". */
  function Intercalate(items: seq<string>, glue: string): string
    decreases |items|
  {
    if |items| == 0 then ""
    else if |items| == 1 then items[0]
    else items[0] + glue + Intercalate(items[1..], glue)
  }

  /** The accumulator `Join` builds: every item followed by the glue. */
  function WithTrailingGlue(items: seq<string>, glue: string): string
    decreases |items|
  {
    if |items| == 0 then "" else items[0] + glue + WithTrailingGlue(items[1..], glue)
  }

  lemma {:induction false} WithTrailingGlueIsIntercalatePlusGlue(items: seq<string>, glue: string)
    requires |items| > 0
    ensures WithTrailingGlue(items, glue) == Intercalate(items, glue) + glue
    decreases |items|
  {
    if |items| == 1 {
      assert WithTrailingGlue(items[1..], glue) == "";
    } else {
      WithTrailingGlueIsIntercalatePlusGlue(items[1..], glue);
      calc {
        WithTrailingGlue(items, glue);
        items[0] + glue + WithTrailingGlue(items[1..], glue);
        items[0] + glue + (Intercalate(items[1..], glue) + glue);
        (items[0] + glue + Intercalate(items[1..], glue)) + glue;
      }
    }
  }

  /** `Join` (dhc/utils.h): append item and glue for every item, then, if the
      accumulator is not empty, cut the last glue off. The result is the
      items separated by the glue, with no trailing glue. */
  function Join(items: seq<string>, glue: string): (r: string)
    ensures r == Intercalate(items, glue)
    ensures |items| == 0 ==> r == ""
  {
    var acc := WithTrailingGlue(items, glue);
    if |acc| == 0 then
      (if |items| > 0 then WithTrailingGlueIsIntercalatePlusGlue(items, glue); "" else "")
    else
      WithTrailingGlueIsIntercalatePlusGlue(items, glue);
      acc[..|acc| - |glue|]
  }

  /** Every item of a non-empty join appears at its head. */
  lemma {:induction false} JoinStartsWithFirst(items: seq<string>, glue: string)
    requires |items| > 0
    ensures |Join(items, glue)| >= |items[0]|
    ensures Join(items, glue)[..|items[0]|] == items[0]
  {
    if |items| > 1 {
      assert Intercalate(items, glue) == items[0] + (glue + Intercalate(items[1..], glue));
    }
  }

  // ---------------------------------------------------------------------
  // Decimal formatting (std::to_string of an unsigned value).

  function DigitChar(d: nat): char
    requires d < 10
  {
    "0123456789"[d]
  }

  function DigitValue(c: char): nat
  {
    if '0' <= c <= '9' then (c as int - '0' as int) else 0
  }

  predicate IsDigit(c: char) { '0' <= c <= '9' }

  /** Decimal representation without leading zeros. */
  function Decimal(n: nat): (r: string)
    ensures |r| > 0
    ensures forall i :: 0 <= i < |r| ==> IsDigit(r[i])
    ensures r[0] == '0' ==> n == 0
    decreases n
  {
    if n < 10 then [DigitChar(n)] else Decimal(n / 10) + [DigitChar(n % 10)]
  }

  /** Reads a string of digits back as a number. */
  function ParseDecimal(s: string): nat
    decreases |s|
  {
    if |s| == 0 then 0 else ParseDecimal(s[..|s| - 1]) * 10 + DigitValue(s[|s| - 1])
  }

  lemma {:induction false} DecimalRoundTrip(n: nat)
    ensures ParseDecimal(Decimal(n)) == n
    decreases n
  {
    var s := Decimal(n);
    if n < 10 {
      assert s[..0] == "";
    } else {
      DecimalRoundTrip(n / 10);
      assert s[..|s| - 1] == Decimal(n / 10);
    }
  }

  /** Distinct numbers have distinct decimal strings. */
  lemma DecimalInjective(m: nat, n: nat)
    requires Decimal(m) == Decimal(n)
    ensures m == n
  {
    DecimalRoundTrip(m);
    DecimalRoundTrip(n);
  }

  // ---------------------------------------------------------------------
  // Fixed-width upper-case hexadecimal (printf "%0NX" of a value that fits).

  function HexChar(d: nat): char
    requires d < 16
  {
    "0123456789ABCDEF"[d]
  }

  function HexValue(c: char): nat
  {
    if '0' <= c <= '9' then c as int - '0' as int
    else if 'A' <= c <= 'F' then c as int - 'A' as int + 10
    else 0
  }

  function Pow16(n: nat): (r: nat)
    ensures r > 0
  {
    if n == 0 then 1 else 16 * Pow16(n - 1)
  }

  /** The last `width` hexadecimal digits of `v`, zero-padded. */
  function Hex(v: nat, width: nat): (r: string)
    ensures |r| == width
    decreases width
  {
    if width == 0 then "" else Hex(v / 16, width - 1) + [HexChar(v % 16)]
  }

  /** Reads hexadecimal digits back as a number. */
  function ParseHex(s: string): nat
    decreases |s|
  {
    if |s| == 0 then 0 else ParseHex(s[..|s| - 1]) * 16 + HexValue(s[|s| - 1])
  }

  lemma {:induction false} HexRoundTrip(v: nat, width: nat)
    requires v < Pow16(width)
    ensures ParseHex(Hex(v, width)) == v
    decreases width
  {
    if width > 0 {
      var s := Hex(v, width);
      assert s[..|s| - 1] == Hex(v / 16, width - 1);
      assert HexValue(HexChar(v % 16)) == v % 16;
      assert v / 16 < Pow16(width - 1);
      HexRoundTrip(v / 16, width - 1);
    }
  }

  // ---------------------------------------------------------------------
  // Fixed-width layouts.

  function Concat(pieces: seq<string>): (r: string)
    decreases |pieces|
  {
    if |pieces| == 0 then "" else pieces[0] + Concat(pieces[1..])
  }

  /** Cuts `s` into consecutive chunks of the given widths (the last ones
      shorter if `s` runs out). */
  function Split(s: string, widths: seq<nat>): (r: seq<string>)
    ensures |r| == |widths|
    decreases |widths|
  {
    if |widths| == 0 then []
    else
      var n := if widths[0] <= |s| then widths[0] else |s|;
      [s[..n]] + Split(s[n..], widths[1..])
  }

  function Widths(pieces: seq<string>): (r: seq<nat>)
    ensures |r| == |pieces|
    ensures forall i :: 0 <= i < |pieces| ==> r[i] == |pieces[i]|
    decreases |pieces|
  {
    if |pieces| == 0 then [] else [|pieces[0]|] + Widths(pieces[1..])
  }

  /** Cutting a concatenation at the widths of its pieces gives the pieces
      back. */
  lemma {:induction false} SplitConcat(pieces: seq<string>)
    ensures Split(Concat(pieces), Widths(pieces)) == pieces
    decreases |pieces|
  {
    if |pieces| > 0 {
      var s := Concat(pieces);
      var w := Widths(pieces);
      assert s == pieces[0] + Concat(pieces[1..]);
      assert s[..w[0]] == pieces[0];
      assert s[w[0]..] == Concat(pieces[1..]);
      assert w[1..] == Widths(pieces[1..]);
      SplitConcat(pieces[1..]);
    }
  }
}

=== FILE: wrappers.dfy ===
/** Failure-compatible result types shared by every module of the model. */
module Wrappers {

  /** A value that may be absent: Rust's `Option`, C++'s `std::optional`, a
      nullable pointer. */
  datatype Option<+T> = None | Some(value: T) {
    predicate IsFailure() { None? }

    function PropagateFailure<U>(): Option<U>
      requires None?
    {
      None
    }

    function Extract(): T
      requires Some?
    {
      value
    }
  }

  /** Either a value or an error: Rust's `Result`. */
  datatype Result<+R, +E> = Success(value: R) | Failure(error: E) {
    predicate IsFailure() { Failure? }

    function PropagateFailure<U>(): Result<U, E>
      requires Failure?
    {
      Failure(error)
    }

    function Extract(): R
      requires Success?
    {
      value
    }
  }

  /** The outcome of an operation that can abort the process: a Rust panic,
      a `LOG(FATAL)`, a failing `CHECK`, an `UNIMPLEMENTED(FATAL)`, or a
      memory access with undefined behaviour. */
  datatype Outcome<+T> = Ok(value: T) | Abort {
    predicate IsFailure() { Abort? }

    function PropagateFailure<U>(): Outcome<U>
      requires Abort?
    {
      Abort
    }

    function Extract(): T
      requires Ok?
    {
      value
    }
  }
}

=== FILE: xinput_read.dfy ===
/** `read_xinput` (dhc/src/input/xinput.rs): one XInput pad's state turned
    into `DeviceInputs`.  The XInput library is an oracle that either fails
    or returns the pad's buttons, normalised sticks and arrows. */
module XInputRead {
  import opened Wrappers
  import opened Inputs
  import Renderer

  /** What `get_state` reports for a connected pad. */
  datatype PadState = PadState(
    north: bool, east: bool, south: bool, west: bool,
    start: bool, select: bool,
    leftShoulder: bool, rightShoulder: bool,
    leftTrigger: bool, rightTrigger: bool,
    leftThumb: bool, rightThumb: bool,
    leftStick: (real, real), rightStick: (real, real),
    up: bool, down: bool, left: bool, right: bool)

  /** The arrows' horizontal and vertical components: right and down count
      +1, left and up -1, so opposite arrows cancel. */
  function ArrowVector(up: bool, down: bool, left: bool, right: bool): (v: (int, int))
    ensures -1 <= v.0 <= 1 && -1 <= v.1 <= 1
    ensures v.0 == 0 <==> left == right
    ensures v.1 == 0 <==> up == down
    ensures v.0 == 1 <==> right && !left
    ensures v.1 == 1 <==> down && !up
  {
    ((if right then 1 else 0) - (if left then 1 else 0), (if down then 1 else 0) - (if up then 1 else 0))
  }

  /** The direction of a component pair; a pair outside the unit square is
      the source's "impossible" panic. */
  function HatOfVector(x: int, y: int): (r: Outcome<Hat>)
    ensures r.Ok? <==> -1 <= x <= 1 && -1 <= y <= 1
    ensures r.Ok? ==> (r.value == Neutral <==> x == 0 && y == 0)
  {
    if x == -1 && y == -1 then Ok(NorthWest)
    else if x == -1 && y == 0 then Ok(Hat.West)
    else if x == -1 && y == 1 then Ok(SouthWest)
    else if x == 0 && y == -1 then Ok(Hat.North)
    else if x == 0 && y == 0 then Ok(Neutral)
    else if x == 0 && y == 1 then Ok(Hat.South)
    else if x == 1 && y == -1 then Ok(NorthEast)
    else if x == 1 && y == 0 then Ok(Hat.East)
    else if x == 1 && y == 1 then Ok(SouthEast)
    else Abort
  }

  /** The component pair each direction stands for (screen coordinates: y
      grows downwards). */
  function HatVector(h: Hat): (int, int)
  {
    match h
    case Neutral => (0, 0)
    case North => (0, -1)
    case NorthEast => (1, -1)
    case East => (1, 0)
    case SouthEast => (1, 1)
    case South => (0, 1)
    case SouthWest => (-1, 1)
    case West => (-1, 0)
    case NorthWest => (-1, -1)
  }

  /** The nine component pairs and the nine hat values correspond one to
      one. */
  lemma HatVectorBijective(h: Hat, x: int, y: int)
    ensures HatOfVector(HatVector(h).0, HatVector(h).1) == Ok(h)
    ensures HatOfVector(x, y).Ok? ==> HatVector(HatOfVector(x, y).value) == (x, y)
  {
  }

  /** The hat of the four arrows; the panic cannot happen. */
  function HatFromArrows(up: bool, down: bool, left: bool, right: bool): (h: Hat)
    ensures h == Neutral <==> up == down && left == right
    ensures HatVector(h) == ArrowVector(up, down, left, right)
  {
    var v := ArrowVector(up, down, left, right);
    HatVectorBijective(Neutral, v.0, v.1);
    HatOfVector(v.0, v.1).value
  }

  /** Pressing both arrows of an axis is the same as pressing neither. */
  lemma OppositeArrowsCancel(up: bool, down: bool, left: bool, right: bool)
    ensures HatFromArrows(true, true, left, right) == HatFromArrows(false, false, left, right)
    ensures HatFromArrows(up, down, true, true) == HatFromArrows(up, down, false, false)
  {
    HatVectorBijective(HatFromArrows(true, true, left, right), 0, 0);
    HatVectorBijective(HatFromArrows(false, false, left, right), 0, 0);
    HatVectorBijective(HatFromArrows(up, down, true, true), 0, 0);
    HatVectorBijective(HatFromArrows(up, down, false, false), 0, 0);
  }

  /** One arrow alone points the hat in its own direction, as the
      DirectInput renderer numbers them: up 0, right 2, down 4, left 6. */
  lemma SingleArrowDirections()
    ensures Renderer.HatDirection(HatFromArrows(true, false, false, false)) == 0
    ensures Renderer.HatDirection(HatFromArrows(false, false, false, true)) == 2
    ensures Renderer.HatDirection(HatFromArrows(false, true, false, false)) == 4
    ensures Renderer.HatDirection(HatFromArrows(false, false, true, false)) == 6
  {
    HatVectorBijective(HatFromArrows(true, false, false, false), 0, -1);
    HatVectorBijective(HatFromArrows(false, false, false, true), 1, 0);
    HatVectorBijective(HatFromArrows(false, true, false, false), 0, 1);
    HatVectorBijective(HatFromArrows(false, false, true, false), -1, 0);
  }

  /** A stick component in [-1, 1] to an axis in [0, 1]. */
  function StickX(x: real): real { (x + 1.0) / 2.0 }

  /** The vertical component is inverted: up is 0. */
  function StickY(y: real): real { (1.0 - y) / 2.0 }

  /** The rescalings map [-1, 1] onto [0, 1]; X keeps the direction, Y
      reverses it, and the centre stays the centre. */
  lemma StickScaling(a: real, b: real)
    ensures -1.0 <= a <= 1.0 <==> InUnitRange(StickX(a))
    ensures -1.0 <= a <= 1.0 <==> InUnitRange(StickY(a))
    ensures a < b ==> StickX(a) < StickX(b) && StickY(a) > StickY(b)
    ensures StickX(0.0) == 0.5 && StickY(0.0) == 0.5
  {
  }

  /** Stores one stick component, panicking outside [0, 1]. */
  function SetAxis(d: DeviceInputs, t: AxisType, v: real): (r: Outcome<DeviceInputs>)
    ensures r.Ok? <==> InUnitRange(v)
    ensures r.Ok? ==> r.value == WithAxis(d, t, v)
  {
    match AxisSetValue(v)
    case Abort => Abort
    case Ok(x) => Ok(WithAxis(d, t, x))
  }

  /** The pad's button stored in each button field, in field order. */
  function PadField(s: PadState, i: int): bool
  {
    if i == 0 then s.start else if i == 1 then s.select else if i == 2 then false
    else if i == 3 then s.north else if i == 4 then s.east else if i == 5 then s.south
    else if i == 6 then s.west else if i == 7 then s.leftShoulder else if i == 8 then s.leftTrigger
    else if i == 9 then s.leftThumb else if i == 10 then s.rightShoulder
    else if i == 11 then s.rightTrigger else if i == 12 then s.rightThumb else false
  }

  /** The buttons, hat and default axes of a pad state, before the sticks
      are stored. */
  function ButtonsAndHat(s: PadState): (d: DeviceInputs)
  {
    InputFields(Default().axes, HatFromArrows(s.up, s.down, s.left, s.right), seq(14, i => PadField(s, i)))
  }

  /** `read_xinput`: a failed read gives None; otherwise the pad's state,
      which panics only when a stick component leaves [-1, 1]. */
  function ReadXInput(state: Option<PadState>): (r: Outcome<Option<DeviceInputs>>)
    ensures state.None? ==> r == Ok(None)
    ensures state.Some? && r.Ok? ==> r.value.Some?
  {
    match state
    case None => Ok(None)
    case Some(s) =>
      var d := ButtonsAndHat(s);
      match SetAxis(d, LeftStickX, StickX(s.leftStick.0))
      case Abort => Abort
      case Ok(d) =>
        match SetAxis(d, LeftStickY, StickY(s.leftStick.1))
        case Abort => Abort
        case Ok(d) =>
          match SetAxis(d, RightStickX, StickX(s.rightStick.0))
          case Abort => Abort
          case Ok(d) =>
            match SetAxis(d, RightStickY, StickY(s.rightStick.1))
            case Abort => Abort
            case Ok(d) => Ok(Some(d))
  }

  predicate SticksInRange(s: PadState)
  {
    -1.0 <= s.leftStick.0 <= 1.0 && -1.0 <= s.leftStick.1 <= 1.0
    && -1.0 <= s.rightStick.0 <= 1.0 && -1.0 <= s.rightStick.1 <= 1.0
  }

  /** The pad's button for each DHC button: the trigger buttons stand for
      L2 and R2, and a pad has no Home or Trackpad button. */
  function PadButton(s: PadState, b: ButtonType): bool
  {
    match b
    case North => s.north
    case East => s.east
    case South => s.south
    case West => s.west
    case Start => s.start
    case Select => s.select
    case L1 => s.leftShoulder
    case R1 => s.rightShoulder
    case L2 => s.leftTrigger
    case R2 => s.rightTrigger
    case L3 => s.leftThumb
    case R3 => s.rightThumb
    case Home => false
    case Trackpad => false
  }

  /** Every button holds the pad's button, the hat the arrows' direction,
      and the axes their defaults. */
  lemma ButtonsAndHatSpec(s: PadState, b: ButtonType)
    ensures GetButton(ButtonsAndHat(s), b) == PadButton(s, b)
    ensures GetHat(ButtonsAndHat(s), DPad) == HatFromArrows(s.up, s.down, s.left, s.right)
    ensures ButtonsAndHat(s).axes == Default().axes
  {
  }

  /** A read pad with normalised sticks never panics; the result holds the
      pad's buttons, the hat of its arrows, its sticks rescaled, and the
      analog trigger axes left at 0.5. */
  lemma ReadXInputSpec(s: PadState)
    requires SticksInRange(s)
    ensures var r := ReadXInput(Some(s));
      r.Ok? && r.value.Some?
      && var d := r.value.value;
      (forall b :: GetButton(d, b) == PadButton(s, b))
      && GetHat(d, DPad) == HatFromArrows(s.up, s.down, s.left, s.right)
      && GetAxis(d, LeftStickX) == StickX(s.leftStick.0) && GetAxis(d, LeftStickY) == StickY(s.leftStick.1)
      && GetAxis(d, RightStickX) == StickX(s.rightStick.0) && GetAxis(d, RightStickY) == StickY(s.rightStick.1)
      && GetAxis(d, LeftTrigger) == 0.5 && GetAxis(d, RightTrigger) == 0.5
  {
    StickScaling(s.leftStick.0, 0.0);
    StickScaling(s.leftStick.1, 0.0);
    StickScaling(s.rightStick.0, 0.0);
    StickScaling(s.rightStick.1, 0.0);
    forall b {
      ButtonsAndHatSpec(s, b);
    }
  }
}
